=== FILE: README.md ===
# AI interview platform — a Dafny model of its decision logic

The platform runs recorded voice interviews. A candidate answers questions
aloud. Each answer is stored, transcribed and scored by an AI provider. An
organisation's admins then review the scored sessions. This project models the
parts of the server and client whose behaviour is pure decision logic, and
proves properties about them.

- **Answer pipeline.** The answers route rate-limits by client IP and
  validates the form. It then stores the audio under a generated key and
  upserts the answer row keyed by (session, question index). Next it runs the
  provider chain: Groq speech-to-text, then Gemini, each tried twice with
  linear back-off. Unless the transcript is the "unavailable" sentinel, it then
  runs Groq evaluation followed by Gemini evaluation. Finally it normalises the
  0–5 scores to 0–100, takes the average over the keys present and stores
  that average. It then sets the session total to the mean of the session's
  stored averages, rounded to one decimal, and picks the recommendation tier
  from that unrounded mean.
  Modules: `RateLimit`, `Answers`, `FallbackChain`, `Groq`, `Gemini`,
  `Provider`, `StorageKeys`.
- **Provider helpers** (`Provider`). These cover the neutral default
  evaluation, `clampScore`, how the JSON span is picked out of a model reply
  (a fenced block first, otherwise the greedy `{…}` span), and how the
  evaluation prompt is built.
- **Route decisions.** Team management checks who may create or delete whom
  (`AdminUsers`). The media proxy checks that a key belongs to the caller's
  organisation (`Media`). The dashboard post-processes its query results
  (`Dashboard`). The first-run setup route derives a slug from an e-mail and
  cleans a slug on PATCH (`Setup`). The middleware classifies admin routes and
  decides on cookie-gated redirects (`Middleware`).
- **Text processing.** This covers `slugify`, `formatDuration`, the average
  score and the recommendation colours (`Utils`). It also covers the text
  chunker and voice-to-language mapping of the Edge TTS client (`EdgeTts`) and
  the `.env` line parser and migration loop of the D1 migration script
  (`EnvLoader`).
- **Client state machines.** The interview store (`InterviewStore`), the
  admin store with its persisted subset (`AdminStore`), the question timer's
  tick (`InterviewTimer`) and the anti-cheat counter (`AntiCheat`).
- **Request schemas** (`Schemas`). The zod validators are modelled as parsers
  from a JSON value to a typed record, with each schema's bounds, enums and
  defaults.

## Modelling conventions

- **External calls.** Every network or SDK call is a scripted `Outcome` (it
  either throws or returns a value). Each call consumes one entry from a
  finite list, and an exhausted list throws. Delays are not slept. The
  back-off delays are returned as a list.
- **Uninterpreted host parts.** `JSON.parse`, `Number(string)`,
  `String(value)` for non-strings, and zod's e-mail/URL/date-time formats are
  uninterpreted functions held in a `Host` or `Formats` record. The proofs
  hold for every choice of these functions.
- **Numbers and text.** JavaScript numbers are modelled as mathematical reals
  or integers. `Math.round(x)` is `floor(x + 1/2)` (`Rounding.Round`).
  `parseInt` reads leading whitespace, an optional sign and a digit prefix,
  and gives `None` for `NaN` (`Text.ParseInt`). Strings are sequences of
  Unicode scalar values. JavaScript's `length` counts UTF-16 code units, two
  for a character beyond the Basic Multilingual Plane (`Text.JsLength`).
  Where the code indexes and slices by code unit, as the speech chunker does,
  the text is first turned into its code units (`Text.Units`).
- **`toLowerCase`** is modelled on ASCII, plus the two non-ASCII code points
  whose lower case contains ASCII letters (U+0130 and U+212A). Every other
  character is kept as is. Such characters never belong to `[a-z0-9-]`, so
  every slug property is unaffected.
- **Behaviour worth knowing.**
  - There is no guard on audio shorter than 100 bytes: any stored upload is
    sent to transcription.
  - The answer's average is taken over the score keys that are present. A
    missing dimension is neither counted nor filled in with a fixed value.
  - When every model fails, the Groq and Gemini evaluators return a default
    evaluation rather than throwing. That default passes the chain's
    acceptance test, so it ends the chain.
  - The tier is chosen from the unrounded mean. Only the stored average is
    rounded.

## Model

| member | source | states |
|---|---|---|
| Utils.JsRem | src/lib/utils.ts:19 | `%` keeps the dividend's sign: equals Euclidean remainder for non-negative dividends, lies strictly between -b and b, and is never positive for a negative dividend |
| Utils.FormatDuration | src/lib/utils.ts:17-21 | a non-negative duration always contains the ':' separator |
| Utils.FormatDurationReadsBack | src/lib/utils.ts:17-21 | the text splits at ':' into exactly two parts that parse back to the whole minutes and the seconds remainder, the seconds always two digits |
| Utils.FormatDurationExamples | src/lib/utils.ts:17-21 | 0 s shows as "0:00" and 65 s as "1:05" (seconds zero-padded) |
| Utils.FormatDurationTenMinutes | src/lib/utils.ts:18-20 | minutes are neither padded nor wrapped at an hour: 600 s shows as "10:00" |
| Utils.Present | src/lib/utils.ts:28 | the null-filter keeps no more entries than it was given |
| Utils.PresentMembers | src/lib/utils.ts:28 | a value survives the filter exactly when some non-null entry holds it |
| Utils.AverageScore | src/lib/utils.ts:27-31 | with no present score the average is 0; otherwise it times the number of present scores gives their sum |
| Utils.AverageScoreBounds | src/lib/utils.ts:27-31 | with at least one score present, the average lies between any lower and upper bound of the present scores |
| Utils.AverageScoreOfNulls | src/lib/utils.ts:29 | when every score is null the filtered list is empty and the average is 0 |
| Utils.PresentSkipsNull | src/lib/utils.ts:28 | a null anywhere in the list does not change the filtered scores |
| Utils.Dashify | src/lib/utils.ts:36 | the result holds only [a-z0-9-], never two dashes in a row, is empty exactly when the input is, and starts with '-' exactly when the input starts outside [a-z0-9] |
| Utils.Slugify | src/lib/utils.ts:33-38 | a slug holds only [a-z0-9-], never two dashes in a row, and neither starts nor ends with '-' |
| Utils.StripDashesClean | src/lib/utils.ts:37 | removing one dash at each end of a clean string leaves a clean string with no dash at either end |
| Utils.DashifyClean | src/lib/utils.ts:36 | a string already made of [a-z0-9-] without double dashes is left unchanged by the replacement |
| Utils.SlugifyIdempotent | src/lib/utils.ts:33-38 | slugifying a slug gives the same slug |
| Utils.SlugifyOfSlug | src/lib/utils.ts:33-38 | every clean slug (no end dashes, no double dashes) is its own slugification, so the slugs are exactly the fixed points |
| Utils.RecommendationColor | src/lib/utils.ts:49-57 | each of the four tiers maps to its own colour class |
| Utils.RecommendationColorDefault | src/lib/utils.ts:49-57 | the result differs from the default colour exactly for the four named tiers; "strong_no_hire" and null get the default |
| Setup.CleanSlug | src/app/api/setup/route.ts:126 | the cleaned slug holds only [a-z0-9-] |
| Setup.CleanSlugOfSlug | src/app/api/setup/route.ts:126 | a slug already made of [a-z0-9-] is left unchanged |
| Setup.CleanSlugIdempotent | src/app/api/setup/route.ts:126 | cleaning twice is cleaning once |
| Setup.Domain | src/app/api/setup/route.ts:15 | the domain is never empty: a missing or empty part after '@' becomes "company" |
| Setup.SlugFromEmail | src/app/api/setup/route.ts:14-18 | the derived slug holds only [a-z0-9-] |
| Setup.DomainOf | src/app/api/setup/route.ts:15 | for `local@domain` without further '@' the domain is the part after '@' |
| Setup.SlugFromEmailOf | src/app/api/setup/route.ts:14-18 | for `local@host.rest` with a clean host label the slug is that label (siddhesh@labdox.in gives labdox) |
| Setup.SlugFromEmailNoAt | src/app/api/setup/route.ts:15-17 | an address without '@' gets the slug "company" |
| Setup.OrgName | src/app/api/setup/route.ts:52 | the name has the slug's length; a first character in a–z becomes the matching capital A–Z, any other first character stays; the rest is the slug's |
| Setup.OrgNameLowers | src/app/api/setup/route.ts:52 | lower-casing the organisation name gives the slug back |
| Setup.OrDefault | src/app/api/setup/route.ts:27-28 | a present non-empty field overrides the default; a missing or empty one keeps it |
| Setup.FindByEmail | src/app/api/setup/route.ts:34-37 | the index found is the first row with that e-mail; none is found only when no row has it |
| Setup.SetPassword | src/app/api/setup/route.ts:43-47 | exactly the rows with that id get the new hash, every other row is unchanged |
| Setup.RenameDemo | src/app/api/setup/route.ts:63-66 | only the row with that id whose slug is still "demo" is renamed |
| Setup.Dashboard | src/app/api/setup/route.ts:87-95 | the path is "/" followed by the first organisation's slug when it is non-empty |
| Setup.Post | src/app/api/setup/route.ts:20-96 | the reply echoes the credentials used (defaults without a body) and the dashboard of the stored organisations |
| Setup.PostExistingRehashes | src/app/api/setup/route.ts:41-48 | for a known e-mail no organisation or user is added and only that user's rows change, to the new hash |
| Setup.PostNewCreatesAdmin | src/app/api/setup/route.ts:49-83 | for a new e-mail exactly one super administrator is appended, in the first organisation, which is created from the e-mail's slug when there is none |
| Setup.PostRenamesOnlyDemo | src/app/api/setup/route.ts:56-66 | the first organisation takes the e-mail's slug and name only while its slug is "demo"; other organisations never change |
| Setup.PostTwice | src/app/api/setup/route.ts:20-96 | a second POST with the same body, whose bcrypt hash may differ because of a fresh salt, replies the same and leaves organisations and every other user as the first left them; only the administrator's rows take the second hash, and with equal hashes nothing changes |
| Setup.EnrolTwice | src/app/api/setup/route.ts:33-84 | after a first enrolment the address is found with the first hash; a second enrolment only rewrites that account's hash to the second one, so equal hashes change nothing |
| Setup.Enrol | src/app/api/setup/route.ts:33-84 | afterwards the address is found carrying the given hash; a known address keeps the organisations, the row count and its position; a new one is appended after the unchanged earlier rows and found there |
| Setup.FindByEmailAppend | src/app/api/setup/route.ts:34-37 | an appended row is found when no earlier row has the e-mail |
| Setup.PostUsesAdvertised | src/app/api/setup/route.ts:23-31 | a POST without a body, or with empty fields, uses exactly the credentials the GET advertises |
| Setup.Patch | src/app/api/setup/route.ts:117-144 | unparsable bodies fail with a server error and change nothing; a missing slug is "slug is required"; a rename sets every organisation's slug to the cleaned non-empty slug and its name to the sent name when that is truthy, keeps every other column and the users, and echoes the sent name |
| Setup.PatchIdempotent | src/app/api/setup/route.ts:131-134 | applying the same PATCH twice gives the same reply and store as once |
| Setup.PatchThenPostDashboard | src/app/api/setup/route.ts:87-95 | after a rename, a POST for a known administrator points its dashboard at the new slug |
| Middleware.Decide | src/middleware.ts:9-33 | a request is redirected exactly when its path is an admin route and no session cookie is present, and the redirect goes to /admin/login with the path as callbackUrl |
| Middleware.DecideIgnoresValues | src/middleware.ts:19-23 | the decision depends only on which cookie names are present, never on their values |
| Middleware.OrgPath | src/middleware.ts:13-15 | `/org/more` is never a single-segment path, so only the section pattern decides it |
| Middleware.SectionPathsProtected | src/middleware.ts:14 | every path under an organisation's admin section is protected, whatever follows the section name |
| Middleware.OrgPathProtectedIff | src/middleware.ts:14 | `/org/more` is protected exactly when `more` starts with one of the seven section names |
| Middleware.RootIsPublic | src/middleware.ts:13-15 | "/" is not an admin route and passes without cookies |
| Middleware.PublicPrefixIsPublic | src/middleware.ts:15 | a path that starts with one of the public prefixes and is not a section path is not protected |
| Middleware.LoginPageNeverRedirects | src/middleware.ts:13-15 | "/admin/login" always passes, so the redirect cannot loop |
| Middleware.OrgHomeProtected | src/middleware.ts:15-28 | a one-segment organisation page outside the public prefixes is protected and redirects to login with itself as callback |
| EdgeTts.VoiceLanguage | src/lib/ai/edge-tts-direct.ts:22-25 | the tag is one of en-in, en-gb, en-au, en-us, chosen by the first matching voice prefix in the order en-IN, en-GB, en-AU |
| EdgeTts.VoiceLanguageDefault | src/lib/ai/edge-tts-direct.ts:22-25 | a voice reads as en-us exactly when it has none of the three regional prefixes |
| EdgeTts.Cut | src/lib/ai/edge-tts-direct.ts:56-71 | a text longer than maxLen code units is cut at a unit position in [1, maxLen + 1], so every round makes progress |
| EdgeTts.CutAtStop | src/lib/ai/edge-tts-direct.ts:58-66 | with a '.', '?' or '!' past 0.3·maxLen in the window, the cut is just after the last one |
| EdgeTts.CutAtComma | src/lib/ai/edge-tts-direct.ts:61-68 | otherwise, with a comma past 0.3·maxLen, the cut is just after the last comma |
| EdgeTts.CutAtSpace | src/lib/ai/edge-tts-direct.ts:62-70 | otherwise, with a space at an index above 0, the cut is at the last such space |
| EdgeTts.CutHard | src/lib/ai/edge-tts-direct.ts:57 | otherwise the cut is at maxLen |
| EdgeTts.NonEmpty | src/lib/ai/edge-tts-direct.ts:77 | the filter keeps only non-empty chunks and never adds any |
| EdgeTts.ChunksShape | src/lib/ai/edge-tts-direct.ts:50-75 | every chunk the loop pushes is trimmed and at most maxLen + 1 code units long |
| EdgeTts.NonWsCut | src/lib/ai/edge-tts-direct.ts:73-74 | cutting the remainder and trimming both halves loses only whitespace |
| EdgeTts.ChunksKeepText | src/lib/ai/edge-tts-direct.ts:50-75 | the loop's chunks hold, in order, exactly the non-whitespace characters of the text |
| EdgeTts.NonEmptyConcat | src/lib/ai/edge-tts-direct.ts:77 | dropping empty chunks does not change the concatenated text |
| EdgeTts.SplitIntoChunks | src/lib/ai/edge-tts-direct.ts:46-78 | the returned chunks are non-empty, trimmed, at most maxLen + 1 code units long, and together hold exactly the input's non-whitespace units in order |
| EdgeTts.ShortTextOneChunk | src/lib/ai/edge-tts-direct.ts:48-54 | a text whose trimmed form fits in maxLen code units is sent as that one chunk; a blank text gives no chunk |
| EdgeTts.SpeechRequests | src/lib/ai/edge-tts-direct.ts:15-34 | one request per chunk of the text's UTF-16 code units cut at 200, in order, all in the voice's language |
| EdgeTts.SpeechRequestsFit | src/lib/ai/edge-tts-direct.ts:27-34 | every request carries a non-empty trimmed text of at most 201 code units in the voice's language, and together the requests hold exactly the code units of the text's non-whitespace characters |
| EdgeTts.SpeechRequestsBmp | src/lib/ai/edge-tts-direct.ts:46-54 | a Basic-Multilingual-Plane text whose trimmed form has at most 200 characters is sent as one request of that trimmed text, and a blank one as none |
| InterviewStore.SetSession | src/stores/interview-store.ts:94-104 | the session fields are copied from the data, the phase becomes 'welcome', and the cursor, answers, violations and results are untouched |
| InterviewStore.SetPhase | src/stores/interview-store.ts:106 | only the phase changes |
| InterviewStore.NextQuestion | src/stores/interview-store.ts:108-113 | only the cursor may change; it advances by one exactly when it is before the last question |
| InterviewStore.NextQuestionKeepsCursor | src/stores/interview-store.ts:108-113 | a cursor that names a question still names one after the call |
| InterviewStore.NextQuestionSaturates | src/stores/interview-store.ts:108-113 | from the first question, n calls land on question min(n, last), never past the end |
| InterviewStore.Merge | src/stores/interview-store.ts:123 | each field of the merged answer is the patch's when given and the existing one otherwise |
| InterviewStore.SaveAnswer | src/stores/interview-store.ts:115-125 | only the answers change; the entry for the question is the patch over the existing entry, or over a blank not-uploaded answer, and every other entry stays |
| InterviewStore.MarkAnswerUploaded | src/stores/interview-store.ts:127-134 | a missing entry leaves the state unchanged; an existing one becomes uploaded with the given score and nothing else changes |
| InterviewStore.SaveThenMark | src/stores/interview-store.ts:115-134 | an answer saved and then marked is the saved answer with uploaded set and that score, and marking it again changes nothing |
| InterviewStore.AddViolation | src/stores/interview-store.ts:136-143 | the count rises by exactly one, the phase becomes 'terminated' exactly when the new count reaches the maximum, and nothing else changes |
| InterviewStore.ViolationsTerminate | src/stores/interview-store.ts:136-143 | from a fresh count, n violations give count n, and the interview is terminated exactly when n ≥ 1 and n reaches the maximum |
| InterviewStore.SetResults | src/stores/interview-store.ts:145-146 | score and recommendation are set, the phase becomes 'completed', and nothing else changes |
| InterviewStore.Reset | src/stores/interview-store.ts:75-89 | the state returns to 'loading', question 0, no answers, no questions, 0 violations of a maximum of 3 |
| InterviewStore.ResetForgets | src/stores/interview-store.ts:148 | a reset gives the same state whatever came before, with a valid cursor |
| AdminStore.ToggleSidebar | src/stores/admin-store.ts:63 | only sidebarOpen changes, to its negation |
| AdminStore.ToggleTwice | src/stores/admin-store.ts:63 | toggling twice restores the state |
| AdminStore.CollapseSidebar | src/stores/admin-store.ts:64 | only sidebarCollapsed changes, to the argument |
| AdminStore.SetOrg | src/stores/admin-store.ts:65 | only the organisation slug and name change, to the arguments |
| AdminStore.MergeInterview | src/stores/admin-store.ts:68 | each filter is the patch's value when given and the current one otherwise |
| AdminStore.MergeCandidate | src/stores/admin-store.ts:73 | each filter is the patch's value when given and the current one otherwise |
| AdminStore.SetInterviewFilters | src/stores/admin-store.ts:66-70 | the interview filters are merged, the page goes back to 1, and nothing else changes |
| AdminStore.SetCandidateFilters | src/stores/admin-store.ts:71-75 | the candidate filters are merged, the page goes back to 1, and nothing else changes |
| AdminStore.InterviewFiltersMerge | src/stores/admin-store.ts:66-70 | an empty patch only resets the page, and applying a patch twice is applying it once |
| AdminStore.CandidateFiltersMerge | src/stores/admin-store.ts:71-75 | an empty patch only resets the page, and applying a patch twice is applying it once |
| AdminStore.SetPage | src/stores/admin-store.ts:76 | only the current page changes |
| AdminStore.SetPageSize | src/stores/admin-store.ts:77 | the size is set, the page goes back to 1, and nothing else changes |
| AdminStore.ResetFilters | src/stores/admin-store.ts:39-83 | both filter records return to their defaults (all/all/30d/'' and ''/all), the page to 1, and nothing else changes |
| AdminStore.ResetUndoesFilters | src/stores/admin-store.ts:66-83 | resetting after any filter changes gives the same state as resetting without them |
| AdminStore.Partialize | src/stores/admin-store.ts:87-90 | only sidebarCollapsed and pageSize are persisted |
| AdminStore.Rehydrate | src/stores/admin-store.ts:53-90 | a reload starts from the initial state (sidebar open, page 1 of 20) with only the persisted fields restored |
| AdminStore.ReloadKeepsPreferences | src/stores/admin-store.ts:85-90 | after a reload the collapse flag and page size survive and everything else is back to its initial value; the persisted subset round-trips |
| AdminStore.TransientActionsNotPersisted | src/stores/admin-store.ts:63-90 | filter, page, organisation and sidebar-open changes do not change what is persisted |
| InterviewTimer.WithDefaults | src/hooks/use-interview-timer.ts:15-20 | missing thresholds default to warning 30 and danger 10, and the time limit is kept |
| InterviewTimer.Start | src/hooks/use-interview-timer.ts:39-44 | the time is reset to the limit, the state is 'running', and an interval is installed |
| InterviewTimer.Reset | src/hooks/use-interview-timer.ts:66-70 | the time is reset to the limit, the state is 'idle', and no interval runs |
| InterviewTimer.Pause | src/hooks/use-interview-timer.ts:72-74 | the interval is cleared while time and state stay |
| InterviewTimer.Tick | src/hooks/use-interview-timer.ts:44-63 | without an interval nothing happens; a tick reaching 0 or below leaves 0, 'expired', no interval, and fires onExpired; otherwise the time drops by one and the state becomes 'danger' at or below the danger threshold, else 'warning' at or below the warning threshold, else stays |
| InterviewTimer.TickNonNegative | src/hooks/use-interview-timer.ts:48-52 | a tick never leaves a negative time |
| InterviewTimer.RunFromStart | src/hooks/use-interview-timer.ts:39-63 | n seconds after a start the time is max(limit − n, 0); the timer is expired, its interval cleared and onExpired fired exactly once precisely when n reaches the limit; before that the state follows the thresholds |
| InterviewTimer.FormattedTime | src/hooks/use-interview-timer.ts:76 | a non-negative time shows with a ':' separator |
| InterviewTimer.FormattedTimeReadsBack | src/hooks/use-interview-timer.ts:76 | the displayed time of a started timer splits into two parts that parse back to its minutes and seconds |
| InterviewTimer.ExpiredIffZero | src/hooks/use-interview-timer.ts:48-52 | a started timer reports isExpired exactly when its time is 0 |
| AntiCheat.Detect | src/hooks/use-anti-cheat.ts:28-50 | while disabled or terminated nothing happens; otherwise the count rises by exactly one and is reported, and reaching the maximum terminates and reports it while anything less shows the warning |
| AntiCheat.DismissWarning | src/hooks/use-anti-cheat.ts:45-47 | only the warning is hidden |
| AntiCheat.Remaining | src/hooks/use-anti-cheat.ts:94 | the allowance is 0 exactly when the count has reached the maximum, and otherwise count plus allowance is the maximum |
| AntiCheat.DetectAllFromStart | src/hooks/use-anti-cheat.ts:28-50 | from a fresh enabled hook, n tab switches count up to min(n, max); the hook terminates exactly when n reaches the maximum, the allowance is what is left, and a warning shows exactly when some switch came before the maximum |
| AntiCheat.MaxReportedOnce | src/hooks/use-anti-cheat.ts:31-33 | the maximum is reported exactly once, on the switch that reaches it, and never before |
| AntiCheat.DisabledCountsNothing | src/hooks/use-anti-cheat.ts:50 | a disabled hook never counts or reports anything |
| Schemas.UuidOfGroups | src/types/schemas.ts:4-7 | five hex groups of lengths 8-4-4-4-12 joined by dashes form an accepted id |
| Schemas.UuidGroups | src/types/schemas.ts:4-7 | every accepted id is exactly such a join: hex digits everywhere except the four dash positions |
| Schemas.UuidIgnoresVersionAndVariant | src/types/schemas.ts:3-7 | any hex digit of either case may stand at the version and variant positions, so non-RFC-4122 seeded ids pass |
| Schemas.UuidLayoutIsExact | src/types/schemas.ts:4-7 | the pattern is anchored: a dash in a digit position, one extra or one missing character is refused |
| Schemas.ParseLogin | src/types/schemas.ts:10-12 | an accepted login body is an object whose email field is a string the email format accepts |
| Schemas.LoginExact | src/types/schemas.ts:10-12 | the login schema parses to x if and only if the body is an object holding x's email and that email is well formed |
| Schemas.ParseOrgSettings | src/types/schemas.ts:15-21 | accepted settings lie in their ranges (time limit 30–600, questions 1–20, tab switches 1–10) and mirror the body, absent keys taking their defaults |
| Schemas.OrgSettingsExact | src/types/schemas.ts:15-21 | settings parse to x if and only if x is in range and each field is the body's value or, when absent, its default |
| Schemas.OrgSettingsDefaults | src/types/schemas.ts:16-20 | an empty object yields 120 s, 5 questions, 3 tab switches, no fullscreen and the GuyNeural voice, and those defaults are themselves in range |
| Schemas.ParseCreateOrg | src/types/schemas.ts:23-26 | an accepted organisation has a 2–100 character name and a 2–50 character slug of lower-case letters, digits and dashes, both taken from the body |
| Schemas.SlugLength | src/types/schemas.ts:25 | a slug's characters are all ASCII, so its length in UTF-16 units equals its character count |
| Schemas.CreateOrgExact | src/types/schemas.ts:23-26 | the organisation schema parses to x if and only if x's name and slug are within bounds and are the body's strings |
| Schemas.ParseCreateJobRole | src/types/schemas.ts:29-33 | an accepted job role has title 2–100, department 1–100, description at most 1000 characters defaulting to empty, all mirrored from the body |
| Schemas.CreateJobRoleExact | src/types/schemas.ts:29-33 | the job-role schema parses to x if and only if x is within bounds and mirrors the body |
| Schemas.ParseRubric | src/types/schemas.ts:36-42 | an accepted rubric holds each of the five criteria as the body's string or, when absent, its default wording |
| Schemas.RubricExact | src/types/schemas.ts:36-42 | the rubric schema parses to x if and only if every criterion is the body's string or its default |
| Schemas.CategoryOf | src/types/schemas.ts:47 | a category is read exactly when the string is one of the five tags, and the category's tag is that string |
| Schemas.CategoryTagRoundTrip | src/types/schemas.ts:47 | every category reads back from its own tag |
| Schemas.DifficultyOf | src/types/schemas.ts:48 | a difficulty is read exactly when the string is easy, medium or hard, and its tag is that string |
| Schemas.DifficultyTagRoundTrip | src/types/schemas.ts:48 | every difficulty reads back from its own tag |
| Schemas.RubricAt | src/types/schemas.ts:49 | an absent rubric is accepted as none; a present one is accepted only as a rubric the rubric schema parses |
| Schemas.ParseCreateQuestion | src/types/schemas.ts:44-52 | an accepted question has a uuid-shaped role id, text of 10–500 characters, time limit 30–600 (default 120), order index ≥ 0 (default 0) and mirrors the body |
| Schemas.CreateQuestionExact | src/types/schemas.ts:44-52 | the question schema parses to x if and only if the body is an object, x is within every bound and x mirrors the body's properties |
| Schemas.CreateQuestionComplete | src/types/schemas.ts:44-52 | every in-bounds question mirrored by an object body is accepted as exactly that question |
| Schemas.QuestionChoices | src/types/schemas.ts:47-49 | a mirrored question's category, difficulty and rubric are read back as the question's own |
| Schemas.ParseMetadata | src/types/schemas.ts:59-64 | accepted candidate metadata holds optional source, role, notes and a linkedin string the url format accepts, mirrored from the body |
| Schemas.MetadataExact | src/types/schemas.ts:59-64 | the metadata object parses to x if and only if x mirrors the body and its linkedin entry, when present, is a url |
| Schemas.MetadataAt | src/types/schemas.ts:59-64 | absent metadata is accepted as none; present metadata only as an object the metadata schema parses |
| Schemas.ParseCreateCandidate | src/types/schemas.ts:55-65 | an accepted candidate has a well-formed email, a 2–100 character name, a phone of at most 20 characters if any, and metadata as above |
| Schemas.CreateCandidateExact | src/types/schemas.ts:55-65 | the candidate schema parses to x if and only if x is within bounds and mirrors the body |
| Schemas.ParseUuids | src/types/schemas.ts:72 | a parsed id list has one id per array item |
| Schemas.ParseUuidsExact | src/types/schemas.ts:72 | an array parses to ids if and only if each item is the string of the matching id and every id is uuid-shaped |
| Schemas.QuestionIdsAt | src/types/schemas.ts:72 | an absent question list is accepted as none |
| Schemas.QuestionIdsFacts | src/types/schemas.ts:72 | a present question list is an array of 1 to 20 uuid-shaped strings, read item by item |
| Schemas.ParseCreateSession | src/types/schemas.ts:68-73 | an accepted session has uuid-shaped candidate and role ids, a datetime expiry if any and 1–20 uuid question ids if any, mirrored from the body |
| Schemas.CreateSessionExact | src/types/schemas.ts:68-73 | the session schema parses to x if and only if x is within bounds and mirrors the body |
| Schemas.ParseUploadAnswer | src/types/schemas.ts:76-83 | an accepted upload has uuid-shaped ids, index ≥ 0, audio of at least 100 UTF-16 units, a non-negative duration if any and tab switches ≥ 0 defaulting to 0 |
| Schemas.UploadAnswerExact | src/types/schemas.ts:76-83 | the upload schema parses to x if and only if x is within bounds and mirrors the body |
| Schemas.DecisionOf | src/types/schemas.ts:88 | a decision is read exactly when the string is one of the five tags, and its tag is that string |
| Schemas.DecisionTagRoundTrip | src/types/schemas.ts:88 | every reviewer decision reads back from its own tag |
| Schemas.ParseReviewSession | src/types/schemas.ts:86-89 | an accepted review has notes of at most 2000 characters if any and one of the five decisions, both from the body |
| Schemas.ReviewSessionExact | src/types/schemas.ts:86-89 | the review schema parses to x if and only if x is within bounds and mirrors the body |
| Schemas.ParseTtsRequest | src/types/schemas.ts:92-95 | an accepted speech request has text of 1–1000 characters and the body's voice or the GuyNeural default |
| Schemas.TtsRequestExact | src/types/schemas.ts:92-95 | the speech schema parses to x if and only if x is within bounds and mirrors the body |
| Schemas.BrowserInfoAt | src/types/schemas.ts:102 | absent browser info is accepted as none; present info only as an object whose every entry is a string, read entry for entry |
| Schemas.ParseStartInterview | src/types/schemas.ts:98-103 | an accepted start has a 20–100 character token, a 1–100 character name, a well-formed email and string-valued browser info if any |
| Schemas.StartInterviewExact | src/types/schemas.ts:98-103 | the start schema parses to x if and only if x is within bounds and mirrors the body |
| EnvLoader.Unquote | scripts/migrate-d1-video.js:26-29 | an unquoted value is kept; a value in one matching pair of double or single quotes loses exactly those two characters and nothing else |
| EnvLoader.Quote | scripts/migrate-d1-video.js:26-29 | a double-quoted value is two characters longer and counts as quoted |
| EnvLoader.UnquoteQuote | scripts/migrate-d1-video.js:26-29 | unquoting a quoted value gives it back, and only one pair of quotes is removed |
| EnvLoader.MismatchedQuotesKept | scripts/migrate-d1-video.js:27 | a value opening with a double quote and closing with a single quote keeps both |
| EnvLoader.ParseLine | scripts/migrate-d1-video.js:19-25 | a line sets nothing exactly when, trimmed, it is empty, starts with '#' or holds no '='; a key read holds no '=' and no surrounding white space |
| EnvLoader.ParseLineSplitsAtFirstEquals | scripts/migrate-d1-video.js:22-29 | `key=rest` splits at the first '=' and yields the key and the trimmed, unquoted rest, even when the rest holds further '=' |
| EnvLoader.LineRoundTrip | scripts/migrate-d1-video.js:19-29 | the line `key="value"` reads back as exactly that key and value |
| EnvLoader.SkippedLines | scripts/migrate-d1-video.js:21-23 | a comment line and a line without '=' set nothing |
| EnvLoader.Assign | scripts/migrate-d1-video.js:30 | a variable already set to a non-empty value is left alone; an unset or empty one takes the file's value, and nothing else changes |
| EnvLoader.AssignAll | scripts/migrate-d1-video.js:19-31 | a variable set to a non-empty value keeps it; afterwards exactly the variables that were defined or that some entry names are defined |
| EnvLoader.AssignAllLookup | scripts/migrate-d1-video.js:19-31 | after the whole file each variable keeps its earlier non-empty value, else takes the first non-empty value the file gives it, else the file's empty value, else stays as it was |
| EnvLoader.LoadEnv | scripts/migrate-d1-video.js:12-32 | a missing file changes nothing; a set variable keeps its value; with a file, exactly the variables that were defined or that some setting line names are defined |
| EnvLoader.LoadEnvLookup | scripts/migrate-d1-video.js:12-32 | a missing file changes nothing; a set variable is never overwritten; any other variable gets the value the file chooses for it, or stays as it was |
| EnvLoader.SameLookups | scripts/migrate-d1-video.js:30 | two environments that agree on every lookup are the same environment |
| EnvLoader.LoadEnvIdempotent | scripts/migrate-d1-video.js:12-34 | loading the same file a second time changes nothing |
| EnvLoader.ErrorMessage | scripts/migrate-d1-video.js:59 | the thrown message is never empty: no errors, or an empty list, give "Unknown error", and a single non-empty message is used as it is |
| EnvLoader.RunSql | scripts/migrate-d1-video.js:47-63 | the call succeeds exactly when the reply arrives and reports success; a failed request throws its own message |
| EnvLoader.Attempt | scripts/migrate-d1-video.js:83-94 | a statement is applied exactly when its call succeeds, skipped exactly when the error mentions "duplicate column", and otherwise fails with the error's message |
| EnvLoader.Migrate | scripts/migrate-d1-video.js:83-95 | one report per statement |
| EnvLoader.MigrateAttemptsEach | scripts/migrate-d1-video.js:83-95 | every statement is attempted in order whatever the earlier ones did, the report for statement i depending on reply i alone |
| EnvLoader.ReplyOutcomes | scripts/migrate-d1-video.js:58-60 | a duplicate-column reply is a skip, an unsuccessful reply without errors is a failure with "Unknown error", and a successful reply is applied |
| EnvLoader.Main | scripts/migrate-d1-video.js:34-43 | the script exits with code 1 exactly when one of the three credentials is unset after loading the file, and otherwise reports on all three statements |
| EnvLoader.PresetCredentialsSuffice | scripts/migrate-d1-video.js:30-43 | credentials already set in the environment let the migration run, whatever the file says |
| Dashboard.Bucket | src/app/api/v1/dashboard/route.ts:76-82 | a score lands in the first band whose floor (80, 60, 40, 20) it reaches, below every higher floor, and in the bottom band otherwise |
| Dashboard.BucketMonotone | src/app/api/v1/dashboard/route.ts:76-82 | a higher score never lands in a lower band |
| Dashboard.BucketRanges | src/app/api/v1/dashboard/route.ts:76-82 | band b holds exactly the scores from its floor up to the floor above it, 80–100 taking everything from 80 and 0–19 everything below 20 |
| Dashboard.CountIn | src/app/api/v1/dashboard/route.ts:83-86 | a band never counts more scores than there are |
| Dashboard.BucketsPartition | src/app/api/v1/dashboard/route.ts:76-86 | the bands partition the scores: every scored session is counted in exactly one band |
| Dashboard.Distribution | src/app/api/v1/dashboard/route.ts:70-89 | the distribution has at most five rows, each a known band label with a positive count |
| Dashboard.DistributionFrom | src/app/api/v1/dashboard/route.ts:83-86 | the rows from a band on carry only labels from that band on, each with a positive count |
| Dashboard.DistributionCountsAll | src/app/api/v1/dashboard/route.ts:83-86 | the rows from a band on count exactly the scores in those bands |
| Dashboard.DistributionTotal | src/app/api/v1/dashboard/route.ts:70-89 | the distribution's counts add up to the number of scored sessions |
| Dashboard.CountOf | src/app/api/v1/dashboard/route.ts:117-123 | a missing count row reads as 0, a present one as its count |
| Dashboard.CompletionRate | src/app/api/v1/dashboard/route.ts:125-127 | with no interviews the rate is 0; otherwise it is the completed share in percent, rounded to the nearest whole number |
| Dashboard.Share | src/app/api/v1/dashboard/route.ts:126 | a share of completed interviews lies between 0 and 100 percent |
| Dashboard.CompletionRateBounds | src/app/api/v1/dashboard/route.ts:125-127 | the rate lies in 0–100, is 0 when nothing is completed and 100 when everything is |
| Dashboard.AllCompleted | src/app/api/v1/dashboard/route.ts:125-127 | with every interview completed the rate is exactly 100 |
| Dashboard.CompletionRateMonotone | src/app/api/v1/dashboard/route.ts:125-127 | more completed interviews never lower the rate |
| Dashboard.AverageScore | src/app/api/v1/dashboard/route.ts:120 | a missing, null or zero average is shown as null; any other is rounded to one decimal |
| Dashboard.AverageScoreShown | src/app/api/v1/dashboard/route.ts:120 | a shown average is within 0.05 of the true one, a whole number of tenths, and stays within 0–100 when the true one does |
| Dashboard.StatsOf | src/app/api/v1/dashboard/route.ts:116-128 | each count is its query's count or 0, pending reviews and this week's interviews are always 0, the average and the rate as above |
| Dashboard.EmptyStats | src/app/api/v1/dashboard/route.ts:116-128 | when no query returns a row every figure is 0 and the average is null |
| Dashboard.FieldIsNull | src/app/api/v1/dashboard/route.ts:95 | a first row is examined only when present, and reads as null exactly when its field is null |
| Dashboard.SingleNullRow | src/app/api/v1/dashboard/route.ts:95-101 | only a one-element array is examined; longer or shorter arrays are never treated as the placeholder |
| Dashboard.Aggregate | src/app/api/v1/dashboard/route.ts:91-102 | a missing or empty result, or one that does not parse, becomes an empty list; a single row whose key is null is dropped; anything else is kept as parsed |
| Dashboard.AggregateFiltersPlaceholder | src/app/api/v1/dashboard/route.ts:93-95 | the placeholder row an aggregation over no sessions produces is dropped, while a genuine single session is kept |
| Dashboard.Reshape | src/app/api/v1/dashboard/route.ts:105-113 | a row is copied field by field; the candidate appears exactly when the name is truthy, the role exactly when the title is, and a falsy recommendation becomes null |
| Dashboard.RecentSessions | src/app/api/v1/dashboard/route.ts:105 | reshaping succeeds only on an array and yields one session per row |
| Dashboard.ReshapeAll | src/app/api/v1/dashboard/route.ts:105-113 | one reshaped session per row |
| Dashboard.ReshapeAllExact | src/app/api/v1/dashboard/route.ts:105-113 | reshaping keeps every row in order and fails exactly when some row is null |
| Dashboard.GetDashboard | src/app/api/v1/dashboard/route.ts:10-135 | an unauthenticated request gets 401; a failing query or a reshaping that throws gets 500; otherwise the stats, the reshaped recent sessions and the distribution |
| Dashboard.EmptyAggregates | src/app/api/v1/dashboard/route.ts:91-131 | an organisation without sessions gets its stats, no recent sessions and an empty distribution |
| Provider.ScoreEntries | src/lib/ai/provider.ts:16-22 | an evaluation's scores list exactly the five dimensions, in the order clarity, relevance, confidence, technical fit, communication |
| Provider.DefaultEvaluation | src/lib/ai/provider.ts:54-73 | the fallback evaluation scores every dimension 3, justifies each with the reason, names the reason in a non-empty summary, recommends "maybe" and is labelled provider "fallback", model "none", latency 0 |
| Provider.ClampScore | src/lib/ai/provider.ts:75-79 | the score lies in 0–5 and is a whole number of tenths; NaN gives 3, values at or above 5 give 5, at or below 0 give 0, and in between the value rounded to within 0.05 |
| Provider.ClampScoreTenths | src/lib/ai/provider.ts:78 | a clamped score is k/10 for a whole k between 0 and 50 |
| Provider.ClampScoreIdempotent | src/lib/ai/provider.ts:75-79 | clamping an already clamped score changes nothing |
| Provider.ClampScoreMonotone | src/lib/ai/provider.ts:78 | a larger input never yields a smaller score |
| Provider.ClampScoreExamples | src/lib/ai/provider.ts:75-79 | 7 clamps to 5, -5 to 0, 3.27 rounds to 3.3 and a non-number gives 3 |
| Provider.CaptureStart | src/lib/ai/provider.ts:84 | the captured text of a fenced block starts after the opening fence, an optional json tag and the white space after it |
| Provider.NextFence | src/lib/ai/provider.ts:84 | the first code fence at or after a position, with no fence before it |
| Provider.FencedFrom | src/lib/ai/provider.ts:84 | the leftmost fenced match: its captured text runs from after the opening fence to the first closing fence, and every earlier opening fence has no closing fence after it |
| Provider.BraceSpan | src/lib/ai/provider.ts:84 | the brace match runs from the first '{' to the last '}' after it, and there is none exactly when no '{' precedes a '}' |
| Provider.EvaluationSpan | src/lib/ai/provider.ts:84-85 | the text handed to the JSON parser is the fenced block when there is one, otherwise the outermost brace span, and there is none exactly when neither pattern matches |
| Provider.ParseEvaluationJSON | src/lib/ai/provider.ts:81-92 | never fails: no span, an unparsable span or a null value give null, and otherwise the span's parsed value |
| Provider.DimensionScore | src/lib/ai/groq.ts:98-102 | a dimension's score lies in 0–5 in tenths, and a missing dimension scores 3 |
| Provider.ScoresFrom | src/lib/ai/groq.ts:96-103 | every score lies in 0–5 in tenths, technical fit falling back to the camel-case key when the snake-case one is missing or null |
| Provider.EvaluationFromReply | src/lib/ai/groq.ts:93-112 | a usable reply keeps the transcript, provider and model, clamps every score, and defaults a missing summary to "", a missing recommendation to "maybe" and non-array strengths or risks to empty lists |
| Provider.Classify | src/lib/ai/groq.ts:93 | a parsed reply is usable exactly when it is truthy and has a truthy score, and a usable reply is the parsed value itself |
| Provider.RubricHint | src/lib/ai/provider.ts:109 | the rubric's text for a dimension when it is present and non-empty, the fixed default otherwise |
| Provider.Preview | src/lib/ai/provider.ts:143 | the echoed transcript is a prefix of it of at most 50 UTF-16 units: all of it when it fits, otherwise at least 49 units and stopping only where the next character would pass 50 |
| Provider.PreviewBmp | src/lib/ai/provider.ts:143 | within the Basic Multilingual Plane the preview is exactly the first 50 characters, or the whole transcript when shorter |
| Provider.Hints | src/lib/ai/provider.ts:109-129 | there are five hints, one per dimension |
| Provider.PromptParts | src/lib/ai/provider.ts:99-162 | the prompt opens with the fixed introduction and quotes the question, then the full transcript, then the five hints in order, and ends with the preview and the JSON template |
| Provider.BuildEvaluationPrompt | src/lib/ai/provider.ts:94-163 | the prompt starts with the introduction, ends with the JSON template and contains the question, the full transcript, every rubric hint and the transcript preview |
| Provider.PromptDefaultsWithoutRubricKeys | src/lib/ai/provider.ts:109-129 | a rubric naming none of the five dimensions gets the five default hints |
| Groq.AudioExtension | src/lib/ai/groq.ts:37 | a MIME type mentioning wav names the upload .wav, else one mentioning mp3 names it .mp3, else .webm |
| Groq.Transcribe | src/lib/ai/groq.ts:32-55 | a client or request failure throws its message; a transcription keeps the text, defaults language to "en" and duration to 0, and is labelled groq with the Whisper model |
| Groq.ReadReply | src/lib/ai/groq.ts:90-93 | a request error is a failure with its message; extracted JSON is classified by its score; when nothing is extracted the bare parse of the whole text is used and its syntax error is a failure |
| Groq.Evaluate | src/lib/ai/groq.ts:57-128 | only a client failure throws; a usable 70B reply becomes the groq evaluation after one request; otherwise the second reply decides: usable gives the 8B model's evaluation, an error gives the default naming it, anything else the "All Groq models failed" default, after two requests; groq evaluations carry clamped scores and fallbacks neutral ones |
| Groq.EvaluateBothThrow | src/lib/ai/groq.ts:114-122 | when both models' requests throw, the result is the default evaluation naming the second error, after exactly two requests |
| Gemini.Request | src/lib/ai/gemini.ts:24-54 | a blank key throws "GEMINI_API_KEY not configured" without sending; a transport error or non-2xx status throws a message naming model, status and body; a 2xx answer yields its text, or "" when missing |
| Gemini.TranscriptionResult | src/lib/ai/gemini.ts:84-91 | a Gemini transcription is the trimmed text in English, duration 0, labelled gemini with the model used |
| Gemini.Transcribe | src/lib/ai/gemini.ts:59-102 | the flash model's text is used when it answers; after its error the fallback model's text is used, or its error is thrown as "Gemini transcription failed: " plus the message; a blank key fails without sending anything |
| Gemini.TryModel | src/lib/ai/gemini.ts:116-128 | one model's attempt is the request's error, or its reply classified after extracting the JSON (no bare parse here) |
| Gemini.Evaluate | src/lib/ai/gemini.ts:104-160 | never throws: the first of the three models to give a usable reply yields the gemini evaluation, consuming one reply per model tried; if none does, an error on the last model gives the default naming it and an unusable reply the "All Gemini evaluation models failed" default; a blank key yields the default naming the missing key |
| Gemini.LastResort | src/lib/ai/gemini.ts:104-160 | the last model's usable reply becomes a gemini evaluation; its error gives the default naming it; an unusable reply gives the "All Gemini evaluation models failed" default; one reply consumed |
| Gemini.AfterPrimary | src/lib/ai/gemini.ts:104-160 | the fallback model's usable reply becomes the evaluation after one reply; otherwise the last model decides |
| FallbackChain.Backoff | src/lib/ai/fallback-chain.ts:33-39 | only a thrown attempt that is not the last one waits, and it waits 1000 ms times the attempt number |
| FallbackChain.Retry | src/lib/ai/fallback-chain.ts:27-40 | a provider is called at most twice; a result is returned exactly when it passes the acceptance test, after attempts that all failed it; with none accepted both attempts were made; every wait follows the backoff rule |
| FallbackChain.RetryKeeps | src/lib/ai/fallback-chain.ts:27-40 | a property every returned value of a provider has holds of the value the loop returns |
| FallbackChain.RetryThrowThenAccept | src/lib/ai/fallback-chain.ts:27-40 | a loop whose first call throws and whose second is accepted returns the second after a single 1000 ms wait |
| FallbackChain.GroqSttLabelled | src/lib/ai/fallback-chain.ts:29 | every Groq transcription is labelled groq |
| FallbackChain.GeminiSttLabelled | src/lib/ai/fallback-chain.ts:45 | every Gemini transcription is labelled gemini |
| FallbackChain.GroqScoresInRange | src/lib/ai/fallback-chain.ts:83 | every Groq evaluation's scores lie in 0–5 |
| FallbackChain.GeminiScoresInRange | src/lib/ai/fallback-chain.ts:99 | every Gemini evaluation's scores lie in 0–5 |
| FallbackChain.SttStageOf | src/lib/ai/fallback-chain.ts:27-40 | a transcription loop over one provider returns, if anything, an accepted non-blank transcript carrying that provider's name as its last step, and otherwise used up both attempts |
| FallbackChain.TranscribeWithGemini | src/lib/ai/fallback-chain.ts:42-66 | the Gemini half yields the accepted Gemini transcript of its last attempt, or the fallback sentinel exactly when both attempts failed |
| FallbackChain.GeminiHalfOf | src/lib/ai/fallback-chain.ts:42-66 | a Gemini loop that ends either accepted or exhausted yields the transcript or the sentinel accordingly |
| FallbackChain.TranscribeAudio | src/lib/ai/fallback-chain.ts:22-67 | Groq is tried once or twice and Gemini only after Groq used up both attempts; the sentinel is returned exactly when Gemini used up both too; otherwise the result is a non-blank transcript accepted on the last attempt made |
| FallbackChain.AfterGroqOutcome | src/lib/ai/fallback-chain.ts:26-66 | whatever Groq's loop ended with, the rest of the chain meets the outcome above |
| FallbackChain.EvaluateAnswer | src/lib/ai/fallback-chain.ts:70-114 | a blank or sentinel transcript gets the no-transcript default with no provider call; otherwise Groq's first attempt is the first step, an accepted Groq evaluation is the result with Gemini never asked, Gemini is asked only after Groq failed both, its accepted evaluation is the result, and exhausting both gives the "All AI providers failed" default; every result has a non-empty summary and scores in 0–5 |
| FallbackChain.EvalStageOf | src/lib/ai/fallback-chain.ts:27-40 | an evaluation loop over one provider either used up both attempts with nothing accepted, or ends with an accepted evaluation with scores in 0–5 as its last step |
| FallbackChain.EvalAfterGroqOutcome | src/lib/ai/fallback-chain.ts:80-114 | after Groq's loop the chain returns Groq's accepted evaluation without asking Gemini, or Gemini's accepted one after Groq's two failures, or the "All AI providers failed" default after four |
| FallbackChain.DefaultSummaryNonEmpty | src/lib/ai/fallback-chain.ts:84-86 | every default evaluation passes the acceptance test and scores within 0–5 |
| FallbackChain.DefaultEvaluationAccepted | src/lib/ai/fallback-chain.ts:84-86 | a provider's own default evaluation passes the acceptance test, so it ends the chain |
| FallbackChain.SentinelSkips | src/lib/ai/fallback-chain.ts:60-78 | the transcription sentinel always skips evaluation |
| FallbackChain.ProcessAnswer | src/lib/ai/fallback-chain.ts:117-131 | the transcription is the chain's; the evaluation is the evaluation chain's result on the services the transcription left, run on its transcript and stamped with it; scores lie in 0–5; a sentinel transcription is paired with the no-transcript default |
| FallbackChain.GroqFailureEndsChain | src/lib/ai/fallback-chain.ts:81-86 | when both Groq chat requests throw, the chain ends after one Groq attempt with Groq's default naming the second error, and Gemini is never consulted |
| FallbackChain.GroqThrowThenReturn | src/lib/ai/fallback-chain.ts:29 | a thrown Groq transcription followed by a usable one reads as that pair of outcomes |
| FallbackChain.TranscribeRetriesOnce | src/lib/ai/fallback-chain.ts:27-40 | one thrown Groq transcription followed by a usable one returns the second after a single 1000 ms wait, and Gemini is not called |
| Answers.FindAnswer | src/app/api/v1/answers/route.ts:73-78 | the row found has the session and question index asked for, and none is found exactly when no row has them |
| Answers.Upsert | src/app/api/v1/answers/route.ts:62-78 | a new key adds one row and a known key none; rows with other keys stay; afterwards the lookup by the key always finds a row, so the route never falls back to the fresh id, and that row carries the submitted audio url, duration, tab switches and submission time |
| Answers.UpsertNew | src/app/api/v1/answers/route.ts:62-71 | a submission for a new (session, question index) appends the row as given and leaves every other row alone |
| Answers.UpsertExisting | src/app/api/v1/answers/route.ts:62-71 | a repeated submission updates the audio url, duration, tab switches and submission time of the existing row in place; its id, question id and evaluation stay, and no other row changes |
| Answers.UniqueFind | src/app/api/v1/answers/route.ts:73-78 | under the unique constraint on (session, question index), the lookup finds the one row with that key |
| Answers.UpsertKeepsUnique | src/app/api/v1/answers/route.ts:62-78 | the unique constraint survives a submission, and afterwards the key is found carrying the new audio url and submission time |
| Answers.UpsertIdempotent | src/app/api/v1/answers/route.ts:62-71 | submitting the same row twice leaves the table as submitting it once |
| Answers.FindAnswerSameKeys | src/app/api/v1/answers/route.ts:112-117 | rewriting evaluation columns without touching the keys does not move the lookup |
| Answers.Normalise | src/app/api/v1/answers/route.ts:104 | the normalised score is the integer nearest to 20 times the score, halves rounding up |
| Answers.NormaliseRange | src/app/api/v1/answers/route.ts:104 | a score in 0–5 normalises into 0–100 |
| Answers.NormaliseTenths | src/app/api/v1/answers/route.ts:104 | a score of t tenths normalises to exactly 2t, so the clamped scores lose nothing to rounding |
| Answers.NormaliseExamples | src/app/api/v1/answers/route.ts:104 | 5 normalises to 100, 3 to 60 and 0 to 0 |
| Answers.NormaliseAll | src/app/api/v1/answers/route.ts:103-108 | every score key is kept, in order, with its normalised value |
| Answers.TotalBounds | src/app/api/v1/answers/route.ts:106 | a sum of n values between two bounds lies between n times each bound |
| Answers.Average | src/app/api/v1/answers/route.ts:110 | no score averages to 0; otherwise the result is the integer nearest the mean of the normalised scores, halves rounding up |
| Answers.AverageBounds | src/app/api/v1/answers/route.ts:110 | the rounded average of scores between two bounds lies between them |
| Answers.MeanBounds | src/app/api/v1/answers/route.ts:110 | a total of n values between two bounds, divided by n, lies between them |
| Answers.AverageConstant | src/app/api/v1/answers/route.ts:110 | scores that all equal c average to c |
| Answers.DefaultAverages60 | src/app/api/v1/answers/route.ts:97-110 | the neutral default evaluation normalises to 60 on every key and averages 60 |
| Answers.ClampedAverageInRange | src/app/api/v1/answers/route.ts:97-110 | clamped provider scores normalise into 0–100 and so does their average |
| Answers.Tier | src/app/api/v1/answers/route.ts:139-145 | the recommendation is always one of the five tiers |
| Answers.TierMonotone | src/app/api/v1/answers/route.ts:139-145 | a higher session average never earns a worse tier |
| Answers.TierBands | src/app/api/v1/answers/route.ts:141-145 | strong hire from 80, hire from 65 below 80, maybe from 45 below 65, no hire from 25 below 45, strong no hire below 25 |
| Answers.SessionAverages | src/app/api/v1/answers/route.ts:132-135 | a value is averaged exactly when some answer of that session is evaluated with that stored average, and it is averaged as many times as there are such rows |
| Answers.SessionMean | src/app/api/v1/answers/route.ts:132-137 | the session mean exists exactly when some answer of the session has been evaluated |
| Answers.SessionAveragesFrom | src/app/api/v1/answers/route.ts:132-135 | bounds on the session's own evaluated answers hold for every averaged value, whatever other sessions store |
| Answers.SessionTotalInRange | src/app/api/v1/answers/route.ts:147-152 | with every stored average in 0–100, the session total rounded to one decimal stays in 0–100 |
| Answers.UpdateSession | src/app/api/v1/answers/route.ts:131-157 | with a mean present the session's total becomes the mean rounded to one decimal and its tier follows the unrounded mean, other sessions and the answers untouched; with no mean nothing changes |
| Answers.Validate | src/app/api/v1/answers/route.ts:25-33 | a form passes exactly when the session id and question id are non-empty and the question index parses as an integer; the valid session id, question id and index are the form's own, and the tab-switch count is the form's value parsed, or 0 when absent or empty |
| Answers.MissingIndexRejected | src/app/api/v1/answers/route.ts:27-31 | a form without a question index is rejected |
| Answers.Score | src/app/api/v1/answers/route.ts:96-110 | the written evaluation carries the transcription's transcript, the chain's evaluation with its strengths and risks, and the present scores each normalised to 0–100, with their average within 0–100 |
| Answers.WriteEvaluation | src/app/api/v1/answers/route.ts:112-129 | writing an evaluation changes only evaluation columns and leaves the row for the answered key holding it |
| Answers.SameSubmissionsAudio | src/app/api/v1/answers/route.ts:112-129 | rewriting evaluation columns keeps every row's audio reference |
| Answers.Evaluate | src/app/api/v1/answers/route.ts:80-171 | the route reports success; the services are left as the provider chain left them; a failed evaluation write reports it as the AI error with nothing written; a failed session write reports it after the answer row was written; otherwise the response holds the chain's transcript and the normalised scores and average of that evaluation, the row holds them and the session carries its rounded mean |
| Answers.Save | src/app/api/v1/answers/route.ts:50-71 | the request fails exactly when the upload (if audio came) or the insert fails; audio is stored under the key with its size; a failed request leaves the tables as they were; a saved row refers to the audio key |
| Answers.Accept | src/app/api/v1/answers/route.ts:24-174 | past the rate limiter, the route never answers 429 and leaves the limiter alone |
| Answers.InvalidFormWritesNothing | src/app/api/v1/answers/route.ts:31-42 | a rejected form or an inactive session ends with 400 and changes nothing |
| Answers.NoAudioNoEvaluation | src/app/api/v1/answers/route.ts:51-71 | without audio nothing is uploaded or evaluated: the row is upserted without an audio url and the response is a success with a null transcript |
| Answers.AudioStoredAndEvaluated | src/app/api/v1/answers/route.ts:53-171 | with audio the object is stored under the generated key and the row refers to it, also when the evaluation write fails; a successful evaluation is written into that row with an average in 0–100 |
| Answers.LimitedTouchesOnlyLimiter | src/app/api/v1/answers/route.ts:17-22 | a request from a non-empty client IP whose bucket is full answers 429 and changes nothing but the limiter's own store |
| Answers.Submit | src/app/api/v1/answers/route.ts:15-22 | a request without a non-empty client IP skips the limiter; otherwise the "answers" bucket allows 20 requests a minute, a limited request answers 429 with the limiter's retry time and nothing else changed, and an allowed one goes on with the updated limiter |
| Answers.BlankIpSkipsLimiter | src/app/api/v1/answers/route.ts:18-19 | when no client IP is known, or it trims to empty, the request is never rate-limited and the limiter's store is unchanged |
| RateLimit.InWindow | src/lib/rate-limit.ts:69 | exactly the timestamps after the window start are kept, in their original order |
| RateLimit.InWindowAll | src/lib/rate-limit.ts:69 | timestamps all inside the window are kept unchanged |
| RateLimit.Check | src/lib/rate-limit.ts:50-79 | expired timestamps are dropped even on a limited call; a call is limited exactly when the limit's worth remain, then with nothing remaining and a retry time of the oldest one's expiry (never negative); an allowed call records now and reports what is left; no other key changes |
| RateLimit.CheckKeepsBound | src/lib/rate-limit.ts:68-78 | a key never holds more timestamps than the limit |
| RateLimit.RetryWithinWindow | src/lib/rate-limit.ts:71-74 | when no recorded time lies in the future, a limited caller waits more than 0 and at most one window |
| RateLimit.LimitReached | src/lib/rate-limit.ts:71-78 | the call that uses up the limit is allowed with 0 remaining, and an immediate next call is limited |
| RateLimit.ClientIp | src/lib/rate-limit.ts:86-92 | the first comma-separated entry of a non-empty x-forwarded-for, trimmed; else a non-empty x-real-ip, trimmed; else none |
| RateLimit.RateLimitResponse | src/lib/rate-limit.ts:97-108 | status 429 with the fixed message and a Retry-After of the wait rounded up to whole seconds |
| RateLimit.RetryAfterReadsBack | src/lib/rate-limit.ts:98-105 | the Retry-After header parses back to the number of seconds |
| AdminUsers.CreatableBy | src/app/api/v1/admin/users/route.ts:96-101 | a super admin may create any of the four roles, an org admin only interviewers and reviewers, anyone else nothing |
| AdminUsers.Gate | src/app/api/v1/admin/users/route.ts:24-29 | no session is 401, a role other than super admin or org admin is 403, and only managers pass |
| AdminUsers.VisibleUsers | src/app/api/v1/admin/users/route.ts:31-63 | a manager sees exactly the users of their org, super admins hidden from org admins |
| AdminUsers.Get | src/app/api/v1/admin/users/route.ts:22-70 | 401 and 403 as the gate says; a listing carries the caller's role and exactly the users visible to the caller |
| AdminUsers.OrgAdminSeesNoSuperAdmin | src/app/api/v1/admin/users/route.ts:48-62 | an org admin is never shown a super admin nor anyone from another org |
| AdminUsers.Post | src/app/api/v1/admin/users/route.ts:72-159 | the table changes exactly when an account is created, and then by appending that account alone, whose id is the fresh id, org the caller's, and e-mail, full name and role the body's, for an e-mail no row had |
| AdminUsers.PostOrder | src/app/api/v1/admin/users/route.ts:72-154 | the checks run in order: 401, 403 for a non-manager, 400 for a missing field, 403 for a role the caller may not create, 400 for a password under 6 characters, 409 for an e-mail in use, otherwise 201 |
| AdminUsers.NoEscalation | src/app/api/v1/admin/users/route.ts:95-137 | a created account is in the caller's org, never more senior than the caller, only an interviewer or reviewer when an org admin created it, and has a password of at least 6 characters |
| AdminUsers.PostKeepsEmailsUnique | src/app/api/v1/admin/users/route.ts:117-137 | creating accounts keeps e-mail addresses unique across the table |
| AdminUsers.FindUser | src/app/api/v1/admin/users/route.ts:185-188 | a found user has the id and the caller's org, and none is found exactly when no user has both |
| AdminUsers.RemoveUser | src/app/api/v1/admin/users/route.ts:210 | the delete removes exactly the users with that id in that org |
| AdminUsers.Delete | src/app/api/v1/admin/users/route.ts:161-217 | 401, 403, 400 for a missing id as the checks say; every refusal leaves the table alone; a deletion happens exactly when the id is another user's, found in the caller's org, whom the caller may remove, and removes exactly that user |
| AdminUsers.DeleteHierarchy | src/app/api/v1/admin/users/route.ts:194-208 | a super admin may remove anyone; an org admin may remove exactly interviewers and reviewers; nobody removes someone more senior |
| AdminUsers.DeleteSparesOthers | src/app/api/v1/admin/users/route.ts:176-210 | a delete never removes the caller nor anybody outside the id asked for in the caller's org |
| AdminUsers.CannotDeleteSelf | src/app/api/v1/admin/users/route.ts:176-182 | asking to delete oneself is refused with 400 without touching the table |
| AdminUsers.ForeignTargetNotFound | src/app/api/v1/admin/users/route.ts:184-192 | a target outside the caller's org is reported as not found |
| Media.Guard | src/app/api/v1/media/route.ts:14-33 | 401 without a session, 400 without a key, 400 for a key of fewer than three '/' segments, 403 when the second segment is not the caller's org, and otherwise the key may be fetched |
| Media.Get | src/app/api/v1/media/route.ts:11-69 | storage is contacted exactly when the guard passes; a failed fetch is 500, a status neither ok nor 206 is 404, an ok answer is passed through with its content type or application/octet-stream |
| Media.GuardByOrg | src/app/api/v1/media/route.ts:26-33 | a key of three or more segments is decided by its organisation segment alone |
| Media.GeneratedKeyAccepted | src/app/api/v1/media/route.ts:24-33 | every audio key generated for an organisation (with slash-free ids) is readable by that organisation's admins |
| Media.GeneratedKeyForeignOrg | src/app/api/v1/media/route.ts:30-33 | an admin of another organisation is refused such a key with 403 |
| StorageKeys.FileSegment | src/lib/storage/r2.ts:150 | the file name holds no '/' and ends in .webm |
| StorageKeys.AudioKey | src/lib/storage/r2.ts:144-151 | an audio key starts with "audio/" and ends with ".webm" |
| StorageKeys.AudioKeySegments | src/lib/storage/r2.ts:142-151 | with slash-free org and session ids the key splits at '/' into "audio", the org, the session and the file name |
| StorageKeys.AudioKeyInjective | src/lib/storage/r2.ts:149-150 | two keys for the same org, session and question index are equal exactly when their timestamps are |
| Rounding.Round | src/app/api/v1/answers/route.ts:104 | the rounded value is the nearest integer, halves going up |
| Rounding.RoundTenth | src/app/api/v1/answers/route.ts:151 | rounding to one decimal moves a value by at most 0.05 |
| Rounding.CeilDiv | src/lib/rate-limit.ts:98 | the quotient is rounded up: the smallest whole count of divisors covering the dividend |
| Rounding.RoundMonotone | src/app/api/v1/dashboard/route.ts:126 | rounding never reverses the order of two values |
| Text.Trim | src/lib/ai/fallback-chain.ts:30 | trimming removes exactly the leading and trailing white space and keeps the middle as it is |
| Text.TrimIdempotent | src/lib/ai/gemini.ts:85 | text without white space at either end is its own trim |
| Text.NonWsTrim | src/lib/ai/fallback-chain.ts:30 | trimming keeps every non-white-space character |
| Text.IndexOf | scripts/migrate-d1-video.js:22 | the index of the first occurrence, or -1 exactly when there is none |
| Text.JoinSplit | scripts/migrate-d1-video.js:19 | splitting at a separator and joining the pieces back gives the text again |
| Text.SplitPiecesNoSep | src/app/api/v1/media/route.ts:26 | no piece of a split holds the separator |
| Text.ParseIntNaN | src/app/api/v1/answers/route.ts:27-29 | `parseInt` (Text.ParseInt) gives a number exactly when, after leading white space, the text has a digit or a sign followed by a digit, and NaN otherwise |
| Text.ParseIntSign | src/app/api/v1/answers/route.ts:27-29 | a parsed number is negative only after a '-' and never negative without one |
| Text.ParseIntIntToString | src/lib/rate-limit.ts:105 | an integer written out in decimal parses back to itself |
| Text.ParseIntNoDigit | src/app/api/v1/answers/route.ts:27 | text starting with neither white space, a sign nor a digit parses as NaN |
| Text.ParseIntDigits | src/app/api/v1/answers/route.ts:27 | a run of decimal digits parses to its value |
| Text.PadStart | src/lib/utils.ts:20 | padding reaches the requested width with the fill character in front and the text at the end |
| Text.JsLength | src/types/schemas.ts:46 | a string's UTF-16 length lies between its code-point count and twice that |
| Text.JsLengthBmp | src/lib/ai/provider.ts:143 | within the Basic Multilingual Plane a string's JavaScript length is its character count |
| Text.UnitPrefix | src/lib/ai/provider.ts:143 | the kept prefix starts the string and has a JavaScript length within the budget |
| Text.UnitPrefixWhole | src/lib/ai/provider.ts:143 | a string within the budget is kept whole |
| Text.UnitPrefixMaximal | src/lib/ai/provider.ts:143 | the prefix stops only where the next character would pass the budget |
| Text.UnitPrefixFull | src/lib/ai/provider.ts:143 | a string over the budget leaves at most one unit of it unused |
| Text.CodeUnits | src/lib/ai/edge-tts-direct.ts:50-74 | a character inside the Basic Multilingual Plane is one unit, itself; one beyond it is two units, a high then a low surrogate, from which it is recovered |
| Text.Units | src/lib/ai/edge-tts-direct.ts:50-74 | a string has as many code units as its JavaScript length |
| Text.UnitsAppend | src/lib/ai/edge-tts-direct.ts:73-74 | the units of a concatenation are the concatenated units |
| Text.UnitsBmp | src/lib/ai/edge-tts-direct.ts:50-74 | within the Basic Multilingual Plane a string's code units are its characters |
| Text.UnitsNonWs | src/lib/ai/edge-tts-direct.ts:73-74 | dropping whitespace commutes with taking code units, since no surrogate is whitespace |
| Text.NonWsCodeUnits | src/lib/ai/edge-tts-direct.ts:73-74 | a surrogate unit is never whitespace |

## Left out

- The SDK and HTTP clients are not modelled: groq-sdk, the Gemini REST request body, the D1 REST client, the S3/R2 commands other than `generateAudioKey`, Google TTS (`fetchGoogleTTS`) and the edge-tts package. Their results are the scripted outcomes described above.
- Timing is not modelled. This covers `sleep` (its durations are returned instead), the 15-second abort timer around Groq calls, the rate limiter's `setInterval` cleanup and the 300 ms blur-debounce timer. Concurrent requests are not modelled either, including the race between two session-total recomputations.
- `JSON.parse`, the regular-expression engine and zod's e-mail, URL and date-time checks are uninterpreted. Only the span selection and character classes around them are modelled. zod's issue messages are not modelled: a rejection is a bare error.
- JavaScript floating point is not modelled. Scores, averages and rates are reals, so rounding is exact where IEEE doubles could be off by one ulp.
- The timer's `progress` percentage is left out. It is display-only floating-point arithmetic.
- The order in which the database returns rows for the admin user list and the dashboard is not modelled. Rows are given in an arbitrary order.
- Database failures are not modelled beyond the error branches the routes handle.
- AdminUsers.Post: body fields are strings or absent. A body that is not JSON, and a truthy non-string field (a numeric password passes the length test and then makes hashing throw), end in the route's 500 reply, which is not modelled.
- Setup.Post: body fields are strings or absent. An unparsable body is modelled and falls back to the defaults, but a truthy non-string e-mail or password, which makes the lookup or the hashing throw into the 500 reply, is not modelled.
- Password hashing is a parameter, a separate one for each run when two runs are compared, since bcrypt salts afresh on every call. Auth sessions, NextAuth, bcrypt and invite-token generation are not part of this model.
- The middleware's `config.matcher` is left out. The model classifies only the paths the middleware receives.
- The iteration order of the limiter's `Map` is left out, and so is React's batching of state updates.
- `console` logging, welcome e-mails, the migration's SQL text, and the `Content-Length` and `Content-Range` headers of the media proxy are left out. They carry no decision.
- `formatDate`, `cn`, `blobToBase64` and `generateInviteToken` in src/lib/utils.ts are left out. They are locale, CSS or random helpers.
- The UI pages, the audio recorder and the CRUD routes for interviews, questions, candidates and job roles are left out. They are I/O around the modelled decisions.
- Provider.Preview: when `slice(0, 50)` would end between the two halves of a surrogate pair, JavaScript keeps the lone high half. Model strings hold whole characters, so the preview stops one unit earlier there.
- EdgeTts.SpeechRequests: a chunk is given as its code units. A hard cut can separate the two halves of a surrogate pair, and how such a chunk is encoded into the request URL belongs to `fetchGoogleTTS`, which is not modelled.
- EdgeTts.SplitIntoChunks requires `maxLen >= 1`. With `maxLen = 0` the source's loop never ends, because its hard cut takes no character.
- Utils.FormatDuration is stated for integer seconds only. Callers pass whole seconds, and the model does not cover fractional inputs.
- Utils.Slugify models `toLowerCase` only as described under the modelling conventions. Its properties are stated over that lowercasing.

=== FILE: admin_store.dfy ===
/** The admin dashboard's client state: sidebar, current organisation, list
    filters and pagination, of which only two preferences are persisted. */
module AdminStore {
  import opened Base

  datatype InterviewFilters = InterviewFilters(status: string, jobRole: string, dateRange: string, search: string)

  datatype CandidateFilters = CandidateFilters(search: string, status: string)

  /** `Partial<...>` of each filter record: `None` is a key not given. */
  datatype InterviewFiltersPatch = InterviewFiltersPatch(status: Option<string>, jobRole: Option<string>,
                                                         dateRange: Option<string>, search: Option<string>)

  datatype CandidateFiltersPatch = CandidateFiltersPatch(search: Option<string>, status: Option<string>)

  datatype State = State(
    sidebarOpen: bool,
    sidebarCollapsed: bool,
    orgSlug: Option<string>,
    orgName: Option<string>,
    interviewFilters: InterviewFilters,
    candidateFilters: CandidateFilters,
    currentPage: int,
    pageSize: int)

  const DefaultInterviewFilters := InterviewFilters("all", "all", "30d", "")
  const DefaultCandidateFilters := CandidateFilters("", "all")
  const FirstPage := 1
  const DefaultPageSize := 20

  const Initial := State(true, false, None, None, DefaultInterviewFilters, DefaultCandidateFilters,
                         FirstPage, DefaultPageSize)

  /** `toggleSidebar()`. */
  function ToggleSidebar(st: State): (r: State)
    ensures r.sidebarOpen == !st.sidebarOpen && r.(sidebarOpen := st.sidebarOpen) == st
  {
    st.(sidebarOpen := !st.sidebarOpen)
  }

  lemma ToggleTwice(st: State)
    ensures ToggleSidebar(ToggleSidebar(st)) == st
  {
  }

  /** `collapseSidebar(collapsed)`. */
  function CollapseSidebar(st: State, collapsed: bool): (r: State)
    ensures r.sidebarCollapsed == collapsed && r.(sidebarCollapsed := st.sidebarCollapsed) == st
  {
    st.(sidebarCollapsed := collapsed)
  }

  /** `setOrg(slug, name)`. */
  function SetOrg(st: State, slug: string, name: string): (r: State)
    ensures r.orgSlug == Some(slug) && r.orgName == Some(name)
    ensures r.(orgSlug := st.orgSlug, orgName := st.orgName) == st
  {
    st.(orgSlug := Some(slug), orgName := Some(name))
  }

  function MergeInterview(f: InterviewFilters, p: InterviewFiltersPatch): (r: InterviewFilters)
    ensures r.status == p.status.GetOr(f.status) && r.jobRole == p.jobRole.GetOr(f.jobRole)
    ensures r.dateRange == p.dateRange.GetOr(f.dateRange) && r.search == p.search.GetOr(f.search)
  {
    InterviewFilters(p.status.GetOr(f.status), p.jobRole.GetOr(f.jobRole),
                     p.dateRange.GetOr(f.dateRange), p.search.GetOr(f.search))
  }

  function MergeCandidate(f: CandidateFilters, p: CandidateFiltersPatch): (r: CandidateFilters)
    ensures r.search == p.search.GetOr(f.search) && r.status == p.status.GetOr(f.status)
  {
    CandidateFilters(p.search.GetOr(f.search), p.status.GetOr(f.status))
  }

  /** `setInterviewFilters(filters)`: merged, back to the first page. */
  function SetInterviewFilters(st: State, p: InterviewFiltersPatch): (r: State)
    ensures r.interviewFilters == MergeInterview(st.interviewFilters, p) && r.currentPage == FirstPage
    ensures r.(interviewFilters := st.interviewFilters, currentPage := st.currentPage) == st
  {
    st.(interviewFilters := MergeInterview(st.interviewFilters, p), currentPage := FirstPage)
  }

  /** `setCandidateFilters(filters)`: merged, back to the first page. */
  function SetCandidateFilters(st: State, p: CandidateFiltersPatch): (r: State)
    ensures r.candidateFilters == MergeCandidate(st.candidateFilters, p) && r.currentPage == FirstPage
    ensures r.(candidateFilters := st.candidateFilters, currentPage := st.currentPage) == st
  {
    st.(candidateFilters := MergeCandidate(st.candidateFilters, p), currentPage := FirstPage)
  }

  /** An empty patch only resets the page; applying a patch twice is the
      same as applying it once. */
  lemma InterviewFiltersMerge(st: State, p: InterviewFiltersPatch)
    ensures SetInterviewFilters(st, InterviewFiltersPatch(None, None, None, None)) == st.(currentPage := FirstPage)
    ensures SetInterviewFilters(SetInterviewFilters(st, p), p) == SetInterviewFilters(st, p)
  {
  }

  lemma CandidateFiltersMerge(st: State, p: CandidateFiltersPatch)
    ensures SetCandidateFilters(st, CandidateFiltersPatch(None, None)) == st.(currentPage := FirstPage)
    ensures SetCandidateFilters(SetCandidateFilters(st, p), p) == SetCandidateFilters(st, p)
  {
  }

  /** `setPage(page)`. */
  function SetPage(st: State, page: int): (r: State)
    ensures r.currentPage == page && r.(currentPage := st.currentPage) == st
  {
    st.(currentPage := page)
  }

  /** `setPageSize(size)`: back to the first page. */
  function SetPageSize(st: State, size: int): (r: State)
    ensures r.pageSize == size && r.currentPage == FirstPage
    ensures r.(pageSize := st.pageSize, currentPage := st.currentPage) == st
  {
    st.(pageSize := size, currentPage := FirstPage)
  }

  /** `resetFilters()`. */
  function ResetFilters(st: State): (r: State)
    ensures r.interviewFilters == DefaultInterviewFilters && r.candidateFilters == DefaultCandidateFilters
    ensures r.currentPage == FirstPage
    ensures r.(interviewFilters := st.interviewFilters, candidateFilters := st.candidateFilters,
               currentPage := st.currentPage) == st
  {
    st.(interviewFilters := DefaultInterviewFilters, candidateFilters := DefaultCandidateFilters,
        currentPage := FirstPage)
  }

  /** Resetting after any filter change gives the same state as resetting
      before it. */
  lemma ResetUndoesFilters(st: State, p: InterviewFiltersPatch, q: CandidateFiltersPatch)
    ensures ResetFilters(SetCandidateFilters(SetInterviewFilters(st, p), q)) == ResetFilters(st)
  {
  }

  // ---------------------------------------------------------------------------
  // Persistence
  // ---------------------------------------------------------------------------

  /** The subset written to storage under "admin-preferences". */
  datatype Persisted = Persisted(sidebarCollapsed: bool, pageSize: int)

  /** `partialize(state)`. */
  function Partialize(st: State): (r: Persisted)
    ensures r.sidebarCollapsed == st.sidebarCollapsed && r.pageSize == st.pageSize
  {
    Persisted(st.sidebarCollapsed, st.pageSize)
  }

  /** Rehydration: the stored subset merged over the initial state. */
  function Rehydrate(saved: Persisted): (r: State)
    ensures r.(sidebarCollapsed := Initial.sidebarCollapsed, pageSize := Initial.pageSize) == Initial
  {
    Initial.(sidebarCollapsed := saved.sidebarCollapsed, pageSize := saved.pageSize)
  }

  /** A reload keeps the sidebar collapse and the page size and nothing else:
      filters, organisation and page start over. */
  lemma ReloadKeepsPreferences(st: State)
    ensures var back := Rehydrate(Partialize(st));
            && back.sidebarCollapsed == st.sidebarCollapsed && back.pageSize == st.pageSize
            && back.currentPage == FirstPage && back.sidebarOpen
            && back.interviewFilters == DefaultInterviewFilters
            && back.candidateFilters == DefaultCandidateFilters
            && back.orgSlug.None? && back.orgName.None?
    ensures Partialize(Rehydrate(Partialize(st))) == Partialize(st)
  {
  }

  /** Filter, page and organisation changes write nothing to storage. */
  lemma TransientActionsNotPersisted(st: State, p: InterviewFiltersPatch, q: CandidateFiltersPatch,
                                     page: int, slug: string, name: string)
    ensures Partialize(SetInterviewFilters(st, p)) == Partialize(st)
    ensures Partialize(SetCandidateFilters(st, q)) == Partialize(st)
    ensures Partialize(SetPage(st, page)) == Partialize(st)
    ensures Partialize(ResetFilters(st)) == Partialize(st)
    ensures Partialize(SetOrg(st, slug, name)) == Partialize(st)
    ensures Partialize(ToggleSidebar(st)) == Partialize(st)
  {
  }
}

=== FILE: admin_users.dfy ===
/** `/api/v1/admin/users`: the team-management decisions of GET, POST and
    DELETE as pure functions of the authenticated caller, the request and the
    users table. Password hashing, the welcome e-mail and the database's row
    order are not part of the model. */
module AdminUsers {
  import opened Base
  import opened Text

  const SuperAdmin := "super_admin"
  const OrgAdmin := "org_admin"
  const Interviewer := "interviewer"
  const Reviewer := "reviewer"
  const MinPasswordLength := 6

  /** The authenticated admin making the request. */
  datatype Caller = Caller(id: string, orgId: string, role: string)

  /** A row of `users`. */
  datatype User = User(id: string, orgId: string, email: string, fullName: string, role: string)

  datatype Response =
    | Error(status: int, message: string)
    | Listed(users: seq<User>, currentUserRole: string)
    | Created(user: User)
    | Deleted

  function Status(r: Response): int {
    match r
    case Error(status, _) => status
    case Listed(_, _) => 200
    case Created(_) => 201
    case Deleted => 200
  }

  /** The roles that may manage the team. */
  predicate IsManager(role: string) {
    role == SuperAdmin || role == OrgAdmin
  }

  /** The roles a caller may hand out when creating an account. */
  function CreatableBy(role: string): (r: seq<string>)
    ensures role == SuperAdmin ==> r == [SuperAdmin, OrgAdmin, Interviewer, Reviewer]
    ensures role == OrgAdmin ==> r == [Interviewer, Reviewer]
    ensures !IsManager(role) ==> r == []
  {
    if role == SuperAdmin then [SuperAdmin, OrgAdmin, Interviewer, Reviewer]
    else if role == OrgAdmin then [Interviewer, Reviewer]
    else []
  }

  /** Seniority of a role: super admin 3, org admin 2, the others 1. */
  function Seniority(role: string): nat {
    if role == SuperAdmin then 3 else if role == OrgAdmin then 2 else 1
  }

  /** The first two checks every method makes: 401 without a session, then
      403 for a role that cannot manage the team. */
  function Gate(auth: Option<Caller>, forbidden: string): (r: Option<Response>)
    ensures auth.None? ==> r == Some(Error(401, "Unauthorized"))
    ensures auth.Some? && !IsManager(auth.value.role) ==> r == Some(Error(403, forbidden))
    ensures r.None? <==> auth.Some? && IsManager(auth.value.role)
  {
    if auth.None? then Some(Error(401, "Unauthorized"))
    else if !IsManager(auth.value.role) then Some(Error(403, forbidden))
    else None
  }

  // ---------------------------------------------------------------------------
  // GET
  // ---------------------------------------------------------------------------

  /** The users a manager is shown: the caller's org, and no super admins
      unless the caller is one. */
  predicate Visible(caller: Caller, u: User) {
    u.orgId == caller.orgId && (caller.role == SuperAdmin || u.role != SuperAdmin)
  }

  function VisibleUsers(caller: Caller, users: seq<User>): (r: seq<User>)
    ensures forall u :: u in r <==> u in users && Visible(caller, u)
    decreases |users|
  {
    if |users| == 0 then []
    else (if Visible(caller, users[0]) then [users[0]] else []) + VisibleUsers(caller, users[1..])
  }

  function Get(auth: Option<Caller>, users: seq<User>): (r: Response)
    ensures auth.None? ==> Status(r) == 401
    ensures auth.Some? && !IsManager(auth.value.role) ==> Status(r) == 403
    ensures r.Listed? ==> auth.Some? && r.currentUserRole == auth.value.role
    ensures r.Listed? ==> forall u :: u in r.users <==> u in users && Visible(auth.value, u)
  {
    match Gate(auth, "Insufficient permissions")
    case Some(e) => e
    case None => Listed(VisibleUsers(auth.value, users), auth.value.role)
  }

  /** An org admin is never shown a super admin, nor anyone from another org. */
  lemma OrgAdminSeesNoSuperAdmin(caller: Caller, users: seq<User>, u: User)
    requires caller.role == OrgAdmin
    requires Get(Some(caller), users).Listed? && u in Get(Some(caller), users).users
    ensures u.role != SuperAdmin && u.orgId == caller.orgId
  {
  }

  // ---------------------------------------------------------------------------
  // POST
  // ---------------------------------------------------------------------------

  /** The JSON body's fields; `None` is a missing field. */
  datatype NewUser = NewUser(email: Option<string>, fullName: Option<string>, password: Option<string>, role: Option<string>)

  predicate Filled(v: Option<string>) {
    v.Some? && v.value != ""
  }

  predicate EmailTaken(users: seq<User>, email: string) {
    exists k :: 0 <= k < |users| && users[k].email == email
  }

  /** The POST decision sequence: 401, 403 (role), 400 (missing field), 403
      (role hierarchy), 400 (short password), 409 (e-mail in use), then the
      insert of an active user in the caller's org under `freshId`. */
  function Post(auth: Option<Caller>, body: NewUser, users: seq<User>, freshId: string): (r: (Response, seq<User>))
    ensures r.0.Created? <==> r.1 != users
    ensures !r.0.Created? ==> r.1 == users
    ensures r.0.Created? ==> r.1 == users + [r.0.user]
    ensures r.0.Created? ==>
              && auth.Some? && Filled(body.email) && Filled(body.fullName) && Filled(body.role)
              && r.0.user.id == freshId && r.0.user.orgId == auth.value.orgId
              && r.0.user.email == body.email.value && r.0.user.fullName == body.fullName.value
              && r.0.user.role == body.role.value
              && !EmailTaken(users, body.email.value)
  {
    match Gate(auth, "Only admins can create team members")
    case Some(e) => (e, users)
    case None =>
      var caller := auth.value;
      if !Filled(body.email) || !Filled(body.fullName) || !Filled(body.password) || !Filled(body.role) then
        (Error(400, "Missing required fields: email, full_name, password, role"), users)
      else
        var role := body.role.value;
        if role !in CreatableBy(caller.role) then
          (Error(403, "You don't have permission to create a " + role + " account"), users)
        else if JsLength(body.password.value) < MinPasswordLength then
          (Error(400, "Password must be at least 6 characters"), users)
        else if EmailTaken(users, body.email.value) then
          (Error(409, "A user with this email already exists"), users)
        else
          var u := User(freshId, caller.orgId, body.email.value, body.fullName.value, role);
          (Created(u), users + [u])
  }

  /** The status of every POST, in the order the checks run. */
  lemma PostOrder(auth: Option<Caller>, body: NewUser, users: seq<User>, freshId: string)
    ensures var s := Status(Post(auth, body, users, freshId).0);
            && (auth.None? ==> s == 401)
            && (auth.Some? && !IsManager(auth.value.role) ==> s == 403)
            && (auth.Some? && IsManager(auth.value.role) ==>
                  && (!Filled(body.email) || !Filled(body.fullName) || !Filled(body.password) || !Filled(body.role) ==> s == 400)
                  && (Filled(body.email) && Filled(body.fullName) && Filled(body.password) && Filled(body.role) ==>
                        && (body.role.value !in CreatableBy(auth.value.role) ==> s == 403)
                        && (body.role.value in CreatableBy(auth.value.role) ==>
                              && (JsLength(body.password.value) < MinPasswordLength ==> s == 400)
                              && (JsLength(body.password.value) >= MinPasswordLength ==>
                                    (EmailTaken(users, body.email.value) ==> s == 409)
                                    && (!EmailTaken(users, body.email.value) ==> s == 201)))))
  {
  }

  /** A created account is in the caller's org and never more senior than the
      caller; an org admin only creates interviewers and reviewers. */
  lemma NoEscalation(auth: Option<Caller>, body: NewUser, users: seq<User>, freshId: string)
    requires Post(auth, body, users, freshId).0.Created?
    ensures var u := Post(auth, body, users, freshId).0.user;
            && auth.Some? && IsManager(auth.value.role)
            && u.orgId == auth.value.orgId
            && Seniority(u.role) <= Seniority(auth.value.role)
            && (auth.value.role == OrgAdmin ==> u.role == Interviewer || u.role == Reviewer)
            && JsLength(body.password.value) >= MinPasswordLength
  {
  }

  /** Creation keeps e-mail addresses unique across the table. */
  predicate UniqueEmails(users: seq<User>) {
    forall i, j :: 0 <= i < j < |users| ==> users[i].email != users[j].email
  }

  lemma PostKeepsEmailsUnique(auth: Option<Caller>, body: NewUser, users: seq<User>, freshId: string)
    requires UniqueEmails(users)
    ensures UniqueEmails(Post(auth, body, users, freshId).1)
  {
    var (r, users') := Post(auth, body, users, freshId);
    if r.Created? {
      forall i, j | 0 <= i < j < |users'|
        ensures users'[i].email != users'[j].email
      {
        if j == |users| {
          assert users'[i] == users[i];
        }
      }
    }
  }

  // ---------------------------------------------------------------------------
  // DELETE
  // ---------------------------------------------------------------------------

  /** The first user with the given id in the given org. */
  function FindUser(users: seq<User>, id: string, orgId: string): (r: Option<User>)
    ensures r.Some? ==> r.value in users && r.value.id == id && r.value.orgId == orgId
    ensures r.None? ==> forall u :: u in users ==> !(u.id == id && u.orgId == orgId)
    decreases |users|
  {
    if |users| == 0 then None
    else if users[0].id == id && users[0].orgId == orgId then Some(users[0])
    else FindUser(users[1..], id, orgId)
  }

  /** `DELETE FROM users WHERE id = ? AND org_id = ?`. */
  function RemoveUser(users: seq<User>, id: string, orgId: string): (r: seq<User>)
    ensures forall u :: u in r <==> u in users && !(u.id == id && u.orgId == orgId)
    decreases |users|
  {
    if |users| == 0 then []
    else (if users[0].id == id && users[0].orgId == orgId then [] else [users[0]]) + RemoveUser(users[1..], id, orgId)
  }

  /** May a caller with role `caller` remove an account with role `target`? */
  predicate MayDelete(caller: string, target: string) {
    !(caller == OrgAdmin && (target == SuperAdmin || target == OrgAdmin))
    && !(target == SuperAdmin && caller != SuperAdmin)
  }

  /** The DELETE decision sequence: 401, 403 (role), 400 (no id), 400 (own
      account), 404 (not in the caller's org), 403 (hierarchy), then the
      removal. */
  function Delete(auth: Option<Caller>, id: Option<string>, users: seq<User>): (r: (Response, seq<User>))
    ensures auth.None? ==> Status(r.0) == 401
    ensures auth.Some? && !IsManager(auth.value.role) ==> Status(r.0) == 403
    ensures auth.Some? && IsManager(auth.value.role) && !Filled(id) ==> r.0 == Error(400, "Missing id parameter")
    ensures !r.0.Deleted? ==> r.1 == users
    ensures r.0.Deleted? ==>
              && auth.Some? && Filled(id) && id.value != auth.value.id
              && var t := FindUser(users, id.value, auth.value.orgId);
                 t.Some? && MayDelete(auth.value.role, t.value.role)
                 && r.1 == RemoveUser(users, id.value, auth.value.orgId)
    ensures auth.Some? && IsManager(auth.value.role) && Filled(id) && id.value != auth.value.id
            && FindUser(users, id.value, auth.value.orgId).Some?
            && MayDelete(auth.value.role, FindUser(users, id.value, auth.value.orgId).value.role) ==>
              r == (Deleted, RemoveUser(users, id.value, auth.value.orgId))
  {
    match Gate(auth, "Only admins can remove team members")
    case Some(e) => (e, users)
    case None =>
      var caller := auth.value;
      if !Filled(id) then (Error(400, "Missing id parameter"), users)
      else if id.value == caller.id then (Error(400, "You cannot delete your own account"), users)
      else
        match FindUser(users, id.value, caller.orgId)
        case None => (Error(404, "User not found"), users)
        case Some(target) =>
          if caller.role == OrgAdmin && (target.role == SuperAdmin || target.role == OrgAdmin) then
            (Error(403, "You don't have permission to delete this user"), users)
          else if target.role == SuperAdmin && caller.role != SuperAdmin then
            (Error(403, "Cannot delete a super admin"), users)
          else (Deleted, RemoveUser(users, id.value, caller.orgId))
  }

  /** The hierarchy in plain terms: a super admin may remove anyone, an org
      admin only interviewers and reviewers (or unknown roles). */
  lemma DeleteHierarchy(caller: string, target: string)
    requires IsManager(caller)
    ensures caller == SuperAdmin ==> MayDelete(caller, target)
    ensures caller == OrgAdmin ==> (MayDelete(caller, target) <==> target != SuperAdmin && target != OrgAdmin)
    ensures MayDelete(caller, target) ==> Seniority(target) <= Seniority(caller)
  {
  }

  /** A delete never removes the caller, nor anybody outside the caller's
      org, and keeps every other account. */
  lemma DeleteSparesOthers(auth: Option<Caller>, id: Option<string>, users: seq<User>, u: User)
    requires u in users
    requires auth.Some? ==> u.id != id.GetOr("") || u.orgId != auth.value.orgId
    ensures u in Delete(auth, id, users).1
  {
  }

  /** Asking to delete oneself is refused without touching the table. */
  lemma CannotDeleteSelf(caller: Caller, users: seq<User>)
    requires IsManager(caller.role) && caller.id != ""
    ensures Delete(Some(caller), Some(caller.id), users) == (Error(400, "You cannot delete your own account"), users)
  {
  }

  /** A target outside the caller's org is reported missing. */
  lemma ForeignTargetNotFound(caller: Caller, id: string, users: seq<User>)
    requires IsManager(caller.role) && id != "" && id != caller.id
    requires forall u :: u in users && u.id == id ==> u.orgId != caller.orgId
    ensures Delete(Some(caller), Some(id), users).0 == Error(404, "User not found")
  {
  }
}

=== FILE: answers.dfy ===
/** `POST /api/v1/answers`: rate limiting, form validation, the audio upload,
    the answer upsert keyed by (session, question index), the evaluation
    pipeline, score normalisation to 0–100, and the session's running total
    and recommendation tier. The database is an explicit value; the clock,
    the fresh row id and the failures of storage and database writes are
    parameters. */
module Answers {
  import opened Base
  import opened Text
  import opened Rounding
  import opened Provider
  import RateLimit
  import FallbackChain
  import StorageKeys

  const AnswersLimit := 20
  const AnswersWindowMs := 60000
  /** The rough duration estimate divides the byte count by this. */
  const BytesPerSecond: real := 16000.0
  const DefaultMime := "audio/webm"
  const InProgress := "in_progress"

  /** An uploaded audio blob: its byte length and its MIME type ("" if none). */
  datatype Audio = Audio(size: nat, mime: string)

  /** The multipart form. `None` is a field the form does not carry. */
  datatype Form = Form(
    sessionId: Option<string>,
    questionId: Option<string>,
    questionIndex: Option<string>,
    audio: Option<Audio>,
    tabSwitches: Option<string>)

  /** What the evaluation wrote into an answer row. */
  datatype Evaluated = Evaluated(
    transcript: string,
    evaluation: EvaluationResult,
    scores: seq<(string, int)>,
    averageScore: int,
    strengths: seq<string>,
    risks: seq<string>,
    recommendation: Option<string>,
    evaluatedAt: string)

  /** A row of `answers`; `tabSwitches` is `None` when it parsed as NaN. */
  datatype AnswerRow = AnswerRow(
    id: string,
    sessionId: string,
    questionId: string,
    questionIndex: int,
    audioUrl: Option<string>,
    audioDurationSeconds: real,
    tabSwitches: Option<int>,
    submittedAt: string,
    evaluated: Option<Evaluated>)

  /** The columns of `interview_sessions` this route reads or writes. */
  datatype SessionRow = SessionRow(
    orgId: string,
    status: string,
    totalScore: Option<real>,
    aiRecommendation: Option<string>,
    aiSummary: Option<string>)

  datatype Db = Db(sessions: map<string, SessionRow>, answers: seq<AnswerRow>)

  /** An object in the audio bucket. */
  datatype Stored = Stored(size: nat, contentType: string)

  // ---------------------------------------------------------------------------
  // Upsert keyed by (session, question index)
  // ---------------------------------------------------------------------------

  predicate HasKey(a: AnswerRow, sessionId: string, questionIndex: int) {
    a.sessionId == sessionId && a.questionIndex == questionIndex
  }

  /** The table's unique constraint on (session_id, question_index). */
  predicate UniqueKeys(answers: seq<AnswerRow>) {
    forall i, j :: 0 <= i < j < |answers| ==>
      !HasKey(answers[j], answers[i].sessionId, answers[i].questionIndex)
  }

  /** The position of the row with the given key, if any. */
  function FindAnswer(answers: seq<AnswerRow>, sessionId: string, questionIndex: int): (r: Option<nat>)
    ensures r.Some? ==> r.value < |answers| && HasKey(answers[r.value], sessionId, questionIndex)
    ensures r.Some? ==> forall k :: r.value < k < |answers| ==> !HasKey(answers[k], sessionId, questionIndex)
    ensures r.None? <==> forall k :: 0 <= k < |answers| ==> !HasKey(answers[k], sessionId, questionIndex)
    decreases |answers|
  {
    if |answers| == 0 then None
    else if HasKey(answers[|answers| - 1], sessionId, questionIndex) then Some(|answers| - 1)
    else FindAnswer(answers[..|answers| - 1], sessionId, questionIndex)
  }

  /** `INSERT … ON CONFLICT(session_id, question_index) DO UPDATE SET` the
      audio url, duration, tab switches and submission time. */
  function Upsert(answers: seq<AnswerRow>, row: AnswerRow): (r: seq<AnswerRow>)
    ensures |r| == |answers| + (if FindAnswer(answers, row.sessionId, row.questionIndex).None? then 1 else 0)
    ensures forall k :: 0 <= k < |answers| && !HasKey(answers[k], row.sessionId, row.questionIndex) ==>
              r[k] == answers[k]
    ensures var f := FindAnswer(r, row.sessionId, row.questionIndex);
            && f.Some?
            && r[f.value].audioUrl == row.audioUrl && r[f.value].audioDurationSeconds == row.audioDurationSeconds
            && r[f.value].tabSwitches == row.tabSwitches && r[f.value].submittedAt == row.submittedAt
  {
    match FindAnswer(answers, row.sessionId, row.questionIndex)
    case None =>
      answers + [row]
    case Some(i) =>
      var updated := answers[i].(audioUrl := row.audioUrl,
                                 audioDurationSeconds := row.audioDurationSeconds,
                                 tabSwitches := row.tabSwitches,
                                 submittedAt := row.submittedAt);
      var r := answers[i := updated];
      assert r[i] == updated && HasKey(updated, row.sessionId, row.questionIndex);
      assert forall k :: i < k < |r| ==> r[k] == answers[k];
      r
  }

  /** A new key appends the row as given; every other row is left alone. */
  lemma UpsertNew(answers: seq<AnswerRow>, row: AnswerRow)
    requires forall k :: 0 <= k < |answers| ==> !HasKey(answers[k], row.sessionId, row.questionIndex)
    ensures Upsert(answers, row) == answers + [row]
  {
  }

  /** A repeated key updates the four submission columns of the existing row
      in place: its id, question id and evaluation stay, and no other row
      changes. */
  lemma UpsertExisting(answers: seq<AnswerRow>, row: AnswerRow, i: nat)
    requires i < |answers| && HasKey(answers[i], row.sessionId, row.questionIndex)
    requires UniqueKeys(answers)
    ensures var r := Upsert(answers, row);
            && |r| == |answers|
            && r[i].id == answers[i].id && r[i].questionId == answers[i].questionId
            && r[i].evaluated == answers[i].evaluated
            && HasKey(r[i], row.sessionId, row.questionIndex)
            && r[i].audioUrl == row.audioUrl && r[i].audioDurationSeconds == row.audioDurationSeconds
            && r[i].tabSwitches == row.tabSwitches && r[i].submittedAt == row.submittedAt
            && forall k :: 0 <= k < |r| && k != i ==> r[k] == answers[k]
  {
    UniqueFind(answers, row.sessionId, row.questionIndex, i);
  }

  /** Under the unique constraint, the search finds the one row with the key. */
  lemma UniqueFind(answers: seq<AnswerRow>, sessionId: string, questionIndex: int, i: nat)
    requires i < |answers| && HasKey(answers[i], sessionId, questionIndex)
    requires UniqueKeys(answers)
    ensures FindAnswer(answers, sessionId, questionIndex) == Some(i)
  {
  }

  /** The unique constraint survives an upsert, and afterwards exactly the
      upserted key is found, carrying the new submission columns. */
  lemma UpsertKeepsUnique(answers: seq<AnswerRow>, row: AnswerRow)
    requires UniqueKeys(answers)
    ensures var r := Upsert(answers, row);
            && UniqueKeys(r)
            && FindAnswer(r, row.sessionId, row.questionIndex).Some?
            && var j := FindAnswer(r, row.sessionId, row.questionIndex).value;
               r[j].audioUrl == row.audioUrl && r[j].submittedAt == row.submittedAt
  {
    var r := Upsert(answers, row);
    match FindAnswer(answers, row.sessionId, row.questionIndex)
    case None =>
      assert r[|answers|] == row;
      assert HasKey(r[|answers|], row.sessionId, row.questionIndex);
    case Some(i) =>
      UpsertExisting(answers, row, i);
      assert HasKey(r[i], row.sessionId, row.questionIndex);
      forall a, b | 0 <= a < b < |r|
        ensures !HasKey(r[b], r[a].sessionId, r[a].questionIndex)
      {
        assert r[a].sessionId == answers[a].sessionId && r[a].questionIndex == answers[a].questionIndex;
        assert r[b].sessionId == answers[b].sessionId && r[b].questionIndex == answers[b].questionIndex;
      }
      UniqueFind(r, row.sessionId, row.questionIndex, i);
  }

  /** Submitting the same row twice is the same as submitting it once. */
  lemma UpsertIdempotent(answers: seq<AnswerRow>, row: AnswerRow)
    requires UniqueKeys(answers)
    ensures Upsert(Upsert(answers, row), row) == Upsert(answers, row)
  {
    var r := Upsert(answers, row);
    UpsertKeepsUnique(answers, row);
    var j := FindAnswer(r, row.sessionId, row.questionIndex).value;
    UpsertExisting(r, row, j);
    match FindAnswer(answers, row.sessionId, row.questionIndex)
    case None =>
      assert r[|answers|] == row;
      UniqueFind(r, row.sessionId, row.questionIndex, |answers|);
    case Some(i) =>
      UpsertExisting(answers, row, i);
      UniqueFind(r, row.sessionId, row.questionIndex, i);
  }

  // ---------------------------------------------------------------------------
  // Score normalisation and the answer's average
  // ---------------------------------------------------------------------------

  /** `Math.round((v / 5) * 100)`. */
  function Normalise(v: real): (r: int)
    ensures v * 20.0 - 0.5 < r as real <= v * 20.0 + 0.5
  {
    assert v / 5.0 * 100.0 == v * 20.0;
    Round(v / 5.0 * 100.0)
  }

  /** A score in [0, 5] normalises into [0, 100]. */
  lemma NormaliseRange(v: real)
    requires 0.0 <= v <= 5.0
    ensures 0 <= Normalise(v) <= 100
  {
    assert v / 5.0 * 100.0 == v * 20.0;
    RoundMonotone(0.0, v * 20.0);
    RoundMonotone(v * 20.0, 100.0);
    RoundInt(0);
    RoundInt(100);
  }

  /** A clamped score of `t` tenths normalises to exactly `2t`. */
  lemma NormaliseTenths(t: int)
    ensures Normalise(t as real / 10.0) == 2 * t
  {
    assert t as real / 10.0 / 5.0 * 100.0 == (2 * t) as real;
    RoundInt(2 * t);
  }

  lemma NormaliseExamples()
    ensures Normalise(5.0) == 100 && Normalise(3.0) == 60 && Normalise(0.0) == 0
  {
    NormaliseTenths(50);
    NormaliseTenths(30);
    NormaliseTenths(0);
  }

  /** The normalised scores, key by key, in the order of the score object. */
  function NormaliseAll(entries: seq<(string, real)>): (r: seq<(string, int)>)
    ensures |r| == |entries|
    ensures forall k :: 0 <= k < |r| ==> r[k].0 == entries[k].0 && r[k].1 == Normalise(entries[k].1)
  {
    seq(|entries|, k requires 0 <= k < |entries| => (entries[k].0, Normalise(entries[k].1)))
  }

  function Values(scores: seq<(string, int)>): (r: seq<int>)
    ensures |r| == |scores| && forall k :: 0 <= k < |r| ==> r[k] == scores[k].1
  {
    seq(|scores|, k requires 0 <= k < |scores| => scores[k].1)
  }

  function Total(xs: seq<int>): int
    decreases |xs|
  {
    if |xs| == 0 then 0 else Total(xs[..|xs| - 1]) + xs[|xs| - 1]
  }

  /** `scoreCount > 0 ? Math.round(scoreSum / scoreCount) : 0`. */
  function Average(scores: seq<(string, int)>): (r: int)
    ensures |scores| == 0 ==> r == 0
    ensures |scores| > 0 ==>
              var mean := Total(Values(scores)) as real / |scores| as real;
              mean - 0.5 < r as real <= mean + 0.5
  {
    if |scores| > 0 then Round(Total(Values(scores)) as real / |scores| as real) else 0
  }

  lemma {:induction false} TotalBounds(xs: seq<int>, lo: int, hi: int)
    requires forall k :: 0 <= k < |xs| ==> lo <= xs[k] <= hi
    ensures |xs| * lo <= Total(xs) <= |xs| * hi
    decreases |xs|
  {
    if |xs| > 0 {
      TotalBounds(xs[..|xs| - 1], lo, hi);
    }
  }

  /** The average of scores between two bounds lies between them too. */
  lemma AverageBounds(scores: seq<(string, int)>, lo: int, hi: int)
    requires |scores| > 0
    requires forall k :: 0 <= k < |scores| ==> lo <= scores[k].1 <= hi
    ensures lo <= Average(scores) <= hi
  {
    var n := |scores|;
    var t := Total(Values(scores));
    TotalBounds(Values(scores), lo, hi);
    MeanBounds(t, n, lo, hi);
    RoundMonotone(lo as real, t as real / n as real);
    RoundMonotone(t as real / n as real, hi as real);
    RoundInt(lo);
    RoundInt(hi);
  }

  /** A total of `n` values in [lo, hi], divided by `n`, lies in [lo, hi]. */
  lemma MeanBounds(t: int, n: int, lo: int, hi: int)
    requires n > 0 && n * lo <= t <= n * hi
    ensures lo as real <= t as real / n as real <= hi as real
  {
    var q := t as real / n as real;
    assert q * n as real == t as real;
    assert (n * lo) as real == lo as real * n as real;
    assert (n * hi) as real == hi as real * n as real;
    ScaleCompare(q, lo as real, n as real);
    ScaleCompare(hi as real, q, n as real);
  }

  lemma ScaleCompare(x: real, y: real, n: real)
    requires n > 0.0 && x * n >= y * n
    ensures x >= y
  {
  }

  /** Scores that all equal `c` average to `c`. */
  lemma AverageConstant(scores: seq<(string, int)>, c: int)
    requires |scores| > 0
    requires forall k :: 0 <= k < |scores| ==> scores[k].1 == c
    ensures Average(scores) == c
  {
    AverageBounds(scores, c, c);
  }

  /** The neutral default evaluation scores 60 on every key and 60 on average. */
  lemma DefaultAverages60(reason: string)
    ensures var scores := NormaliseAll(ScoreEntries(DefaultEvaluation(reason).score));
            && (forall k :: 0 <= k < |scores| ==> scores[k].1 == 60)
            && Average(scores) == 60
  {
    var scores := NormaliseAll(ScoreEntries(DefaultEvaluation(reason).score));
    NormaliseTenths(30);
    assert 30 as real / 10.0 == 3.0;
    assert forall k :: 0 <= k < |scores| ==> scores[k].1 == 60;
    AverageConstant(scores, 60);
  }

  /** Clamped provider scores normalise into [0, 100], and so does their average. */
  lemma ClampedAverageInRange(s: Scores)
    requires AllScoresIn(s, 0.0, 5.0)
    ensures var scores := NormaliseAll(ScoreEntries(s));
            && (forall k :: 0 <= k < |scores| ==> 0 <= scores[k].1 <= 100)
            && 0 <= Average(scores) <= 100
  {
    var entries := ScoreEntries(s);
    var scores := NormaliseAll(entries);
    forall k | 0 <= k < |scores|
      ensures 0 <= scores[k].1 <= 100
    {
      NormaliseRange(entries[k].1);
    }
    AverageBounds(scores, 0, 100);
  }

  // ---------------------------------------------------------------------------
  // Recommendation tier and the session total
  // ---------------------------------------------------------------------------

  /** The tier of a session average. */
  function Tier(avg: real): (r: string)
    ensures r in {"strong_hire", "hire", "maybe", "no_hire", "strong_no_hire"}
  {
    if avg >= 80.0 then "strong_hire"
    else if avg >= 65.0 then "hire"
    else if avg >= 45.0 then "maybe"
    else if avg >= 25.0 then "no_hire"
    else "strong_no_hire"
  }

  /** The tiers from worst (0) to best (4). */
  function Rank(tier: string): nat {
    if tier == "strong_hire" then 4
    else if tier == "hire" then 3
    else if tier == "maybe" then 2
    else if tier == "no_hire" then 1
    else 0
  }

  /** A higher average never earns a worse tier. */
  lemma TierMonotone(a: real, b: real)
    requires a <= b
    ensures Rank(Tier(a)) <= Rank(Tier(b))
  {
  }

  /** Each tier is exactly the averages in its band. */
  lemma TierBands(avg: real)
    ensures Tier(avg) == "strong_hire" <==> 80.0 <= avg
    ensures Tier(avg) == "hire" <==> 65.0 <= avg < 80.0
    ensures Tier(avg) == "maybe" <==> 45.0 <= avg < 65.0
    ensures Tier(avg) == "no_hire" <==> 25.0 <= avg < 45.0
    ensures Tier(avg) == "strong_no_hire" <==> avg < 25.0
  {
  }

  /** The rows of the session that are evaluated with average `x`. */
  ghost function RowsWith(answers: seq<AnswerRow>, sessionId: string, x: int): set<nat> {
    set k: nat | k < |answers| && answers[k].sessionId == sessionId
                 && answers[k].evaluated.Some? && answers[k].evaluated.value.averageScore == x
  }

  /** The average scores of a session's evaluated answers: each such row
      contributes its value once, as `AVG` counts every row. */
  function SessionAverages(answers: seq<AnswerRow>, sessionId: string): (r: seq<int>)
    ensures |r| <= |answers|
    ensures forall x :: x in r <==>
              exists k :: 0 <= k < |answers| && answers[k].sessionId == sessionId
                          && answers[k].evaluated.Some? && answers[k].evaluated.value.averageScore == x
    ensures forall x :: multiset(r)[x] == |RowsWith(answers, sessionId, x)|
    decreases |answers|
  {
    if |answers| == 0 then []
    else
      var init := answers[..|answers| - 1];
      var last := answers[|answers| - 1];
      var rest := SessionAverages(init, sessionId);
      var added := if last.sessionId == sessionId && last.evaluated.Some? then [last.evaluated.value.averageScore] else [];
      SessionAveragesStep(answers, sessionId, rest);
      rest + added
  }

  /** The averages of all rows from those of all rows but the last. */
  lemma SessionAveragesStep(answers: seq<AnswerRow>, sessionId: string, rest: seq<int>)
    requires |answers| > 0
    requires var init := answers[..|answers| - 1];
             && (forall x :: x in rest <==>
                   exists k :: 0 <= k < |init| && init[k].sessionId == sessionId
                               && init[k].evaluated.Some? && init[k].evaluated.value.averageScore == x)
             && (forall x :: multiset(rest)[x] == |RowsWith(init, sessionId, x)|)
    ensures var last := answers[|answers| - 1];
            var r := rest + if last.sessionId == sessionId && last.evaluated.Some? then [last.evaluated.value.averageScore] else [];
            && (forall x :: x in r <==>
                  exists k :: 0 <= k < |answers| && answers[k].sessionId == sessionId
                              && answers[k].evaluated.Some? && answers[k].evaluated.value.averageScore == x)
            && (forall x :: multiset(r)[x] == |RowsWith(answers, sessionId, x)|)
  {
    var init := answers[..|answers| - 1];
    var last := answers[|answers| - 1];
    var added := if last.sessionId == sessionId && last.evaluated.Some? then [last.evaluated.value.averageScore] else [];
    var r := rest + added;
    RowsWithSnoc(answers, sessionId);
    assert multiset(r) == multiset(rest) + multiset(added);
    forall x | x in r
      ensures exists k :: 0 <= k < |answers| && answers[k].sessionId == sessionId
                          && answers[k].evaluated.Some? && answers[k].evaluated.value.averageScore == x
    {
      if x in rest {
        var k :| 0 <= k < |init| && init[k].sessionId == sessionId
                 && init[k].evaluated.Some? && init[k].evaluated.value.averageScore == x;
        assert answers[k] == init[k];
      } else {
        assert answers[|answers| - 1] == last;
      }
    }
    forall x | exists k :: 0 <= k < |answers| && answers[k].sessionId == sessionId
                          && answers[k].evaluated.Some? && answers[k].evaluated.value.averageScore == x
      ensures x in r
    {
      var k :| 0 <= k < |answers| && answers[k].sessionId == sessionId
               && answers[k].evaluated.Some? && answers[k].evaluated.value.averageScore == x;
      if k < |init| {
        assert init[k] == answers[k];
      }
    }
  }

  /** Adding a row adds its index to the matching set of its own value only. */
  lemma RowsWithSnoc(answers: seq<AnswerRow>, sessionId: string)
    requires |answers| > 0
    ensures var init := answers[..|answers| - 1];
            var last := answers[|answers| - 1];
            forall x :: |RowsWith(answers, sessionId, x)| ==
              |RowsWith(init, sessionId, x)|
              + (if last.sessionId == sessionId && last.evaluated.Some? && last.evaluated.value.averageScore == x
                 then 1 else 0)
  {
    forall x {
      RowsWithSnocAt(answers, sessionId, x);
    }
  }

  lemma RowsWithSnocAt(answers: seq<AnswerRow>, sessionId: string, x: int)
    requires |answers| > 0
    ensures var last := answers[|answers| - 1];
            |RowsWith(answers, sessionId, x)| ==
              |RowsWith(answers[..|answers| - 1], sessionId, x)|
              + (if last.sessionId == sessionId && last.evaluated.Some? && last.evaluated.value.averageScore == x
                 then 1 else 0)
  {
    var n := |answers| - 1;
    var init := answers[..n];
    var last := answers[n];
    var a := RowsWith(init, sessionId, x);
    var b := RowsWith(answers, sessionId, x);
    assert n !in a;
    var matches := last.sessionId == sessionId && last.evaluated.Some? && last.evaluated.value.averageScore == x;
    var c := if matches then a + {n} else a;
    forall k | k in b ensures k in c {
      if k < n { assert init[k] == answers[k]; }
    }
    forall k | k in c ensures k in b {
      if k < n { assert init[k] == answers[k]; }
    }
    assert b == c;
  }

  /** `SELECT AVG(average_score) … WHERE session_id = ? AND average_score IS NOT NULL`:
      present exactly when some answer of the session is evaluated. */
  function SessionMean(answers: seq<AnswerRow>, sessionId: string): (r: Option<real>)
    ensures r.Some? <==>
            exists k :: 0 <= k < |answers| && answers[k].sessionId == sessionId && answers[k].evaluated.Some?
  {
    var xs := SessionAverages(answers, sessionId);
    if |xs| == 0 then
      assert forall k :: 0 <= k < |answers| && answers[k].sessionId == sessionId && answers[k].evaluated.Some? ==>
               answers[k].evaluated.value.averageScore in xs;
      None
    else
      assert xs[0] in xs;
      Some(Total(xs) as real / |xs| as real)
  }

  /** Bounds on the session's own evaluated answers carry over to every
      averaged value; other sessions' rows play no part. */
  lemma SessionAveragesFrom(answers: seq<AnswerRow>, sessionId: string, lo: int, hi: int)
    requires forall k :: 0 <= k < |answers| && answers[k].sessionId == sessionId && answers[k].evaluated.Some? ==>
               lo <= answers[k].evaluated.value.averageScore <= hi
    ensures forall k :: 0 <= k < |SessionAverages(answers, sessionId)| ==>
              lo <= SessionAverages(answers, sessionId)[k] <= hi
  {
    var xs := SessionAverages(answers, sessionId);
    forall k | 0 <= k < |xs|
      ensures lo <= xs[k] <= hi
    {
      assert xs[k] in xs;
    }
  }

  /** With every stored average in [0, 100], the session total rounded to one
      decimal stays in [0, 100]. */
  lemma SessionTotalInRange(answers: seq<AnswerRow>, sessionId: string)
    requires forall k :: 0 <= k < |answers| && answers[k].evaluated.Some? ==>
               0 <= answers[k].evaluated.value.averageScore <= 100
    requires SessionMean(answers, sessionId).Some?
    ensures var total := RoundTenth(SessionMean(answers, sessionId).value);
            0.0 <= total <= 100.0
  {
    var xs := SessionAverages(answers, sessionId);
    SessionAveragesFrom(answers, sessionId, 0, 100);
    TotalBounds(xs, 0, 100);
    var n := |xs|;
    var m := Total(xs) as real / n as real;
    MeanBounds(Total(xs), n, 0, 100);
    RoundMonotone(0.0, m * 10.0);
    RoundMonotone(m * 10.0, 1000.0);
    RoundInt(0);
    RoundInt(1000);
  }

  /** The session update after an evaluation: with a mean present, the total
      is the mean rounded to one decimal and the tier follows the unrounded
      mean; without one the session is left as it was. */
  function UpdateSession(db: Db, sessionId: string, summary: string): (r: Db)
    ensures r.answers == db.answers
    ensures SessionMean(db.answers, sessionId).None? || sessionId !in db.sessions ==> r == db
    ensures SessionMean(db.answers, sessionId).Some? && sessionId in db.sessions ==>
              var avg := SessionMean(db.answers, sessionId).value;
              && r.sessions.Keys == db.sessions.Keys
              && r.sessions[sessionId].totalScore == Some(RoundTenth(avg))
              && r.sessions[sessionId].aiRecommendation == Some(Tier(avg))
              && (forall id :: id in db.sessions && id != sessionId ==> r.sessions[id] == db.sessions[id])
  {
    match SessionMean(db.answers, sessionId)
    case None => db
    case Some(avg) =>
      if sessionId !in db.sessions then db
      else
        var s := db.sessions[sessionId];
        var s' := s.(totalScore := Some(RoundTenth(avg)), aiRecommendation := Some(Tier(avg)),
                     aiSummary := if summary == "" then None else Some(summary));
        db.(sessions := db.sessions[sessionId := s'])
  }

  // ---------------------------------------------------------------------------
  // The route
  // ---------------------------------------------------------------------------

  /** The fields that pass validation. */
  datatype Valid = Valid(sessionId: string, questionId: string, questionIndex: int, tabSwitches: Option<int>)

  /** A form field that is absent or empty is falsy. */
  predicate Present(v: Option<string>) {
    v.Some? && v.value != ""
  }

  /** The question index as `parseInt` reads it: an absent field is `null`. */
  function IndexText(form: Form): string {
    form.questionIndex.GetOr("null")
  }

  /** The tab-switch count as `parseInt` reads it: absent or empty is "0". */
  function TabText(form: Form): string {
    if Present(form.tabSwitches) then form.tabSwitches.value else "0"
  }

  /** The session id, question id and question index checks; a field that is
      absent reads as `null`, which `parseInt` turns into NaN, and a missing
      or empty tab-switch count reads as "0". */
  function Validate(form: Form): (r: Option<Valid>)
    ensures r.Some? <==> Present(form.sessionId) && Present(form.questionId) && ParseInt(IndexText(form)).Some?
    ensures r.Some? ==> && r.value.sessionId == form.sessionId.value
                        && r.value.questionId == form.questionId.value
                        && Some(r.value.questionIndex) == ParseInt(form.questionIndex.value)
    ensures r.Some? ==> r.value.tabSwitches == ParseInt(TabText(form))
  {
    var qi := ParseInt(IndexText(form));
    if !Present(form.sessionId) || !Present(form.questionId) || qi.None? then None
    else Some(Valid(form.sessionId.value, form.questionId.value, qi.value, ParseInt(TabText(form))))
  }

  /** A form without a question index is rejected: `parseInt(null)` is NaN. */
  lemma MissingIndexRejected(form: Form)
    requires form.questionIndex.None?
    ensures Validate(form).None?
  {
    ParseIntNoDigit("null");
  }

  /** The request as the route sees it. */
  datatype Request = Request(forwardedFor: Option<string>, realIp: Option<string>, form: Form)

  /** The failures of the writes the model does not interpret: the bucket
      upload, the answer insert, the evaluation update and the session-total
      query and update. */
  datatype Faults = Faults(
    upload: Option<string>,
    insert: Option<string>,
    evaluationWrite: Option<string>,
    sessionWrite: Option<string>)

  datatype World = World(
    limits: RateLimit.Stores,
    db: Db,
    bucket: map<string, Stored>,
    services: FallbackChain.Services)

  datatype Response =
    | Limited(limited: RateLimit.LimitedResponse)
    | Failure(status: int, error: string)
    | Success(transcript: Option<string>, scores: seq<(string, int)>, averageScore: Option<int>,
              aiError: Option<string>)

  const MissingFields := "Missing required fields"
  const InactiveSession := "Invalid or inactive session"
  const InternalError := "Internal Server Error"

  predicate ActiveSession(db: Db, sessionId: string) {
    sessionId in db.sessions && db.sessions[sessionId].status == InProgress
  }

  /** The answer-row columns one pipeline run produces: the STT transcript,
      the normalised scores and their average. */
  function Score(p: FallbackChain.Processed, nowIso: string): (ev: Evaluated)
    requires AllScoresIn(p.evaluation.score, 0.0, 5.0)
    requires p.evaluation.transcript == p.stt.transcript
    ensures ev.transcript == p.stt.transcript
    ensures |ev.scores| == 5 && forall k :: 0 <= k < 5 ==> ev.scores[k].0 == DimensionKeys[k]
    ensures forall k :: 0 <= k < |ev.scores| ==> 0 <= ev.scores[k].1 <= 100
    ensures ev.averageScore == Average(ev.scores) && 0 <= ev.averageScore <= 100
    ensures ev.scores == NormaliseAll(ScoreEntries(p.evaluation.score))
    ensures ev.evaluation == p.evaluation && ev.strengths == p.evaluation.strengths && ev.risks == p.evaluation.risks
  {
    var e := p.evaluation;
    var scores := NormaliseAll(ScoreEntries(e.score));
    ClampedAverageInRange(e.score);
    var transcript := if p.stt.transcript != "" then p.stt.transcript else e.transcript;
    Evaluated(transcript, e, scores, Average(scores), e.strengths, e.risks,
              if e.recommendation == "" then None else Some(e.recommendation), nowIso)
  }

  /** Two tables that differ at most in their evaluation columns. */
  predicate SameSubmissions(a: seq<AnswerRow>, b: seq<AnswerRow>) {
    |a| == |b| && forall k :: 0 <= k < |a| ==> a[k].(evaluated := None) == b[k].(evaluated := None)
  }

  /** The row for (session, question index) holds the given evaluation. */
  predicate HoldsEvaluation(answers: seq<AnswerRow>, sessionId: string, questionIndex: int, ev: Evaluated) {
    var f := FindAnswer(answers, sessionId, questionIndex);
    f.Some? && answers[f.value].evaluated == Some(ev)
  }

  /** `UPDATE answers SET transcript = ?, … WHERE id = ?` for the row at `i`. */
  function WriteEvaluation(answers: seq<AnswerRow>, i: nat, ev: Evaluated): (r: seq<AnswerRow>)
    requires i < |answers|
    ensures SameSubmissions(answers, r)
    ensures HoldsEvaluation(r, answers[i].sessionId, answers[i].questionIndex, ev)
              || FindAnswer(answers, answers[i].sessionId, answers[i].questionIndex) != Some(i)
  {
    var r := answers[i := answers[i].(evaluated := Some(ev))];
    FindAnswerSameKeys(answers, r, answers[i].sessionId, answers[i].questionIndex);
    r
  }

  /** The session carries the mean of its evaluated answers, rounded to one
      decimal, and the tier of the unrounded mean. */
  predicate SessionTotalRecorded(db: Db, sessionId: string) {
    var m := SessionMean(db.answers, sessionId);
    && m.Some? && sessionId in db.sessions
    && db.sessions[sessionId].totalScore == Some(RoundTenth(m.value))
    && db.sessions[sessionId].aiRecommendation == Some(Tier(m.value))
  }

  /** The evaluation half of the route: run the pipeline, write the answer's
      transcript, normalised scores and average, then the session total. A
      failed write ends the request with success and `ai_error`. */
  function Evaluate(w: World, v: Valid, nowIso: string, faults: Faults): (r: (Response, World))
    requires FindAnswer(w.db.answers, v.sessionId, v.questionIndex).Some?
    ensures r.1.limits == w.limits && r.1.bucket == w.bucket
    ensures r.0.Success?
    ensures SameSubmissions(w.db.answers, r.1.db.answers)
    ensures r.0.aiError.Some? ==> r.0.transcript.None?
    ensures faults.evaluationWrite.Some? ==> r.0 == Success(None, [], None, faults.evaluationWrite) && r.1.db == w.db
    ensures faults.evaluationWrite.None? && faults.sessionWrite.Some? ==> r.0.aiError == faults.sessionWrite
    ensures faults.evaluationWrite.None? && faults.sessionWrite.None? ==> r.0.aiError.None?
    ensures faults.evaluationWrite.None? && faults.sessionWrite.None? && v.sessionId in w.db.sessions ==>
              SessionTotalRecorded(r.1.db, v.sessionId)
    ensures r.1.services == FallbackChain.ProcessAnswer(w.services).services
    ensures r.0.aiError.None? ==>
              && r.0.transcript.Some? && r.0.averageScore.Some?
              && 0 <= r.0.averageScore.value <= 100
              && exists ev :: HoldsEvaluation(r.1.db.answers, v.sessionId, v.questionIndex, ev)
                              && ev.averageScore == r.0.averageScore.value && ev.scores == r.0.scores
    ensures r.0.aiError.None? ==>
              var p := FallbackChain.ProcessAnswer(w.services);
              var ev := Score(p, nowIso);
              && r.0 == Success(Some(p.stt.transcript), ev.scores, Some(ev.averageScore), None)
              && HoldsEvaluation(r.1.db.answers, v.sessionId, v.questionIndex, ev)
  {
    var i := FindAnswer(w.db.answers, v.sessionId, v.questionIndex).value;
    var p := FallbackChain.ProcessAnswer(w.services);
    var w1 := w.(services := p.services);
    var ev := Score(p, nowIso);
    if faults.evaluationWrite.Some? then
      (Success(None, [], None, faults.evaluationWrite), w1)
    else
      var db := w.db.(answers := WriteEvaluation(w.db.answers, i, ev));
      assert db.answers[i].sessionId == v.sessionId && db.answers[i].evaluated.Some?;
      if faults.sessionWrite.Some? then
        (Success(None, [], None, faults.sessionWrite), w1.(db := db))
      else
        (Success(Some(p.stt.transcript), ev.scores, Some(ev.averageScore), None),
         w1.(db := UpdateSession(db, v.sessionId, p.evaluation.summary)))
  }

  /** The row the route upserts: the generated key (if audio came) and the
      byte count over 16000 as the duration estimate. */
  function SubmittedRow(v: Valid, key: Option<string>, audio: Option<Audio>, nowIso: string, freshId: string): AnswerRow {
    var duration := if audio.Some? then audio.value.size as real / BytesPerSecond else 0.0;
    AnswerRow(freshId, v.sessionId, v.questionId, v.questionIndex, key, duration, v.tabSwitches, nowIso, None)
  }

  /** The upload (when audio came) followed by the answer upsert; `false`
      when either write failed. */
  function Save(w: World, audio: Option<Audio>, v: Valid, key: string, nowIso: string, freshId: string, faults: Faults)
    : (r: (bool, World))
    ensures r.1.limits == w.limits && r.1.services == w.services && r.1.db.sessions == w.db.sessions
    ensures !r.0 <==> (audio.Some? && faults.upload.Some?) || faults.insert.Some?
    ensures audio.Some? && faults.upload.None? ==> key in r.1.bucket && r.1.bucket[key].size == audio.value.size
    ensures audio.None? || faults.upload.Some? ==> r.1.bucket == w.bucket
    ensures !r.0 ==> r.1.db == w.db
    ensures r.0 ==> var row := SubmittedRow(v, if audio.Some? then Some(key) else None, audio, nowIso, freshId);
                    && r.1.db.answers == Upsert(w.db.answers, row)
                    && HoldsAudio(r.1.db.answers, v.sessionId, v.questionIndex, row.audioUrl)
  {
    if audio.Some? && faults.upload.Some? then (false, w)
    else
      var bucket := if audio.Some?
                    then w.bucket[key := Stored(audio.value.size, if audio.value.mime == "" then DefaultMime else audio.value.mime)]
                    else w.bucket;
      var w1 := w.(bucket := bucket);
      if faults.insert.Some? then (false, w1)
      else
        var row := SubmittedRow(v, if audio.Some? then Some(key) else None, audio, nowIso, freshId);
        (true, w1.(db := w1.db.(answers := Upsert(w1.db.answers, row))))
  }

  /** The row for (session, question index) exists and refers to `url`. */
  predicate HoldsAudio(answers: seq<AnswerRow>, sessionId: string, questionIndex: int, url: Option<string>) {
    var f := FindAnswer(answers, sessionId, questionIndex);
    f.Some? && answers[f.value].audioUrl == url
  }

  /** Rewriting evaluation columns keeps every row's audio reference. */
  lemma SameSubmissionsAudio(a: seq<AnswerRow>, b: seq<AnswerRow>, sessionId: string, questionIndex: int, url: Option<string>)
    requires SameSubmissions(a, b) && HoldsAudio(a, sessionId, questionIndex, url)
    ensures HoldsAudio(b, sessionId, questionIndex, url)
  {
    FindAnswerSameKeys(a, b, sessionId, questionIndex);
    var f := FindAnswer(a, sessionId, questionIndex).value;
    assert a[f].(evaluated := None) == b[f].(evaluated := None);
  }

  /** The route from validation on, after the rate limiter let the request through. */
  function Accept(w: World, form: Form, nowMs: int, nowIso: string, freshId: string, faults: Faults)
    : (r: (Response, World))
    ensures r.1.limits == w.limits && !r.0.Limited?
  {
    match Validate(form)
    case None => (Failure(400, MissingFields), w)
    case Some(v) =>
      if !ActiveSession(w.db, v.sessionId) then (Failure(400, InactiveSession), w)
      else
        var key := StorageKeys.AudioKey(w.db.sessions[v.sessionId].orgId, v.sessionId, v.questionIndex, nowMs);
        var (saved, w1) := Save(w, form.audio, v, key, nowIso, freshId, faults);
        if !saved then (Failure(500, InternalError), w1)
        else if form.audio.None? then (Success(None, [], None, None), w1)
        else Evaluate(w1, v, nowIso, faults)
  }

  /** Whether the route consults the limiter: `if (ip)` skips it both when
      there is no client IP and when the IP trims to the empty string. */
  predicate LimiterKey(ip: Option<string>) {
    ip.Some? && ip.value != ""
  }

  /** `POST /api/v1/answers`: 20 submissions per minute per client IP, then
      the rest of the route. Without a usable IP the limiter is not asked and
      keeps its state; a limited request ends with 429 before the form is
      read; an allowed one records itself and goes on with the same form. */
  function Submit(w: World, req: Request, nowMs: int, nowIso: string, freshId: string, faults: Faults)
    : (r: (Response, World))
    ensures var ip := RateLimit.ClientIp(req.forwardedFor, req.realIp);
            !LimiterKey(ip) ==> r == Accept(w, req.form, nowMs, nowIso, freshId, faults) && r.1.limits == w.limits
    ensures var ip := RateLimit.ClientIp(req.forwardedFor, req.realIp);
            LimiterKey(ip) ==>
              var (d, limits) := RateLimit.Check(w.limits, "answers", ip.value, AnswersLimit, AnswersWindowMs, nowMs);
              && (r.0.Limited? <==> d.limited)
              && (d.limited ==> r == (Limited(RateLimit.RateLimitResponse(d.retryAfterMs)), w.(limits := limits)))
              && (!d.limited ==> r == Accept(w.(limits := limits), req.form, nowMs, nowIso, freshId, faults))
  {
    var ip := RateLimit.ClientIp(req.forwardedFor, req.realIp);
    if !LimiterKey(ip) then Accept(w, req.form, nowMs, nowIso, freshId, faults)
    else
      var (d, limits) := RateLimit.Check(w.limits, "answers", ip.value, AnswersLimit, AnswersWindowMs, nowMs);
      if d.limited then (Limited(RateLimit.RateLimitResponse(d.retryAfterMs)), w.(limits := limits))
      else Accept(w.(limits := limits), req.form, nowMs, nowIso, freshId, faults)
  }

  /** A rejected form ends with 400 before anything is uploaded, written or
      evaluated. */
  lemma InvalidFormWritesNothing(w: World, form: Form, nowMs: int, nowIso: string, freshId: string, faults: Faults)
    requires Validate(form).None? || !ActiveSession(w.db, Validate(form).value.sessionId)
    ensures var (resp, w') := Accept(w, form, nowMs, nowIso, freshId, faults);
            resp.Failure? && resp.status == 400 && w' == w
  {
  }

  /** Past validation and the session check, a saved answer is answered
      directly without audio and evaluated with it. */
  lemma AcceptAfterSave(w: World, form: Form, nowMs: int, nowIso: string, freshId: string, faults: Faults)
    requires Validate(form).Some? && ActiveSession(w.db, Validate(form).value.sessionId)
    ensures var v := Validate(form).value;
            var key := StorageKeys.AudioKey(w.db.sessions[v.sessionId].orgId, v.sessionId, v.questionIndex, nowMs);
            var (saved, w1) := Save(w, form.audio, v, key, nowIso, freshId, faults);
            saved ==>
              Accept(w, form, nowMs, nowIso, freshId, faults)
              == if form.audio.None? then (Success(None, [], None, None), w1) else Evaluate(w1, v, nowIso, faults)
  {
  }

  /** Without audio there is no upload and no evaluation: the row is upserted
      with no audio url and the answer is a success with a null transcript. */
  lemma NoAudioNoEvaluation(w: World, form: Form, nowMs: int, nowIso: string, freshId: string, faults: Faults)
    requires form.audio.None? && faults.insert.None?
    ensures Validate(form).Some? && ActiveSession(w.db, Validate(form).value.sessionId) ==>
              var (resp, w') := Accept(w, form, nowMs, nowIso, freshId, faults);
              var v := Validate(form).value;
              && resp == Success(None, [], None, None)
              && w'.services == w.services && w'.bucket == w.bucket
              && w'.db.answers == Upsert(w.db.answers, AnswerRow(freshId, v.sessionId, v.questionId, v.questionIndex,
                                                                None, 0.0, v.tabSwitches, nowIso, None))
  {
    if Validate(form).Some? && ActiveSession(w.db, Validate(form).value.sessionId) {
      var v := Validate(form).value;
      var key := StorageKeys.AudioKey(w.db.sessions[v.sessionId].orgId, v.sessionId, v.questionIndex, nowMs);
      var (saved, w1) := Save(w, form.audio, v, key, nowIso, freshId, faults);
      AcceptAfterSave(w, form, nowMs, nowIso, freshId, faults);
      assert saved;
      var row := SubmittedRow(v, None, form.audio, nowIso, freshId);
      assert row == AnswerRow(freshId, v.sessionId, v.questionId, v.questionIndex, None, 0.0, v.tabSwitches, nowIso, None);
      assert w1.services == w.services && w1.bucket == w.bucket && w1.db.answers == Upsert(w.db.answers, row);
      assert Accept(w, form, nowMs, nowIso, freshId, faults) == (Success(None, [], None, None), w1);
    }
  }

  /** With audio, the object is stored under the generated key and the row
      for (session, question index) refers to it, also when the evaluation
      write fails and the route answers with `ai_error`; a successful
      evaluation is written into that row, with an average in [0, 100]. */
  lemma AudioStoredAndEvaluated(w: World, form: Form, nowMs: int, nowIso: string, freshId: string, faults: Faults)
    requires form.audio.Some? && faults.upload.None? && faults.insert.None?
    ensures Validate(form).Some? && ActiveSession(w.db, Validate(form).value.sessionId) ==>
              var (resp, w') := Accept(w, form, nowMs, nowIso, freshId, faults);
              var v := Validate(form).value;
              var key := StorageKeys.AudioKey(w.db.sessions[v.sessionId].orgId, v.sessionId, v.questionIndex, nowMs);
              && resp.Success?
              && key in w'.bucket && w'.bucket[key].size == form.audio.value.size
              && HoldsAudio(w'.db.answers, v.sessionId, v.questionIndex, Some(key))
              && (faults.evaluationWrite.Some? ==> resp == Success(None, [], None, faults.evaluationWrite))
              && (resp.aiError.None? ==>
                    && resp.averageScore.Some? && 0 <= resp.averageScore.value <= 100
                    && exists ev :: HoldsEvaluation(w'.db.answers, v.sessionId, v.questionIndex, ev))
  {
    if Validate(form).Some? && ActiveSession(w.db, Validate(form).value.sessionId) {
      var v := Validate(form).value;
      var key := StorageKeys.AudioKey(w.db.sessions[v.sessionId].orgId, v.sessionId, v.questionIndex, nowMs);
      var (saved, w1) := Save(w, form.audio, v, key, nowIso, freshId, faults);
      AcceptAfterSave(w, form, nowMs, nowIso, freshId, faults);
      assert saved;
      var (resp, w') := Evaluate(w1, v, nowIso, faults);
      SameSubmissionsAudio(w1.db.answers, w'.db.answers, v.sessionId, v.questionIndex, Some(key));
    }
  }

  /** Rewriting rows without touching their keys does not move the search. */
  lemma {:induction false} FindAnswerSameKeys(a: seq<AnswerRow>, b: seq<AnswerRow>, sessionId: string, questionIndex: int)
    requires |a| == |b|
    requires forall k :: 0 <= k < |a| ==> a[k].sessionId == b[k].sessionId && a[k].questionIndex == b[k].questionIndex
    ensures FindAnswer(a, sessionId, questionIndex) == FindAnswer(b, sessionId, questionIndex)
    decreases |a|
  {
    if |a| > 0 {
      FindAnswerSameKeys(a[..|a| - 1], b[..|b| - 1], sessionId, questionIndex);
    }
  }

  /** A request from a client whose limiter is exhausted is answered 429 and
      changes nothing but the limiter's own store. */
  lemma LimitedTouchesOnlyLimiter(w: World, req: Request, ip: string, nowMs: int, nowIso: string, freshId: string, faults: Faults)
    requires RateLimit.Check(w.limits, "answers", ip, AnswersLimit, AnswersWindowMs, nowMs).0.limited
    ensures RateLimit.ClientIp(req.forwardedFor, req.realIp) == Some(ip) && ip != "" ==>
              var (resp, w') := Submit(w, req, nowMs, nowIso, freshId, faults);
              && resp.Limited? && resp.limited.status == 429
              && w'.db == w.db && w'.bucket == w.bucket && w'.services == w.services
  {
  }

  /** A request whose forwarded address trims to nothing (a header such as
      " , 1.2.3.4") and one with no address at all are never limited and
      leave every limiter as it was. */
  lemma BlankIpSkipsLimiter(w: World, req: Request, nowMs: int, nowIso: string, freshId: string, faults: Faults)
    requires RateLimit.ClientIp(req.forwardedFor, req.realIp) in {None, Some("")}
    ensures var (resp, w') := Submit(w, req, nowMs, nowIso, freshId, faults);
            !resp.Limited? && w'.limits == w.limits
  {
  }
}

=== FILE: anti_cheat.dfy ===
/** Tab-switch detection during an interview: each detected violation counts
    once; reaching the maximum terminates, anything less shows a warning. */
module AntiCheat {
  /** What the hook reports to its caller after a violation. */
  datatype Event = Violation(count: nat) | MaxReached

  datatype Options = Options(maxViolations: int, enabled: bool)

  datatype State = State(violations: nat, showWarning: bool, isTerminated: bool)

  const Initial := State(0, false, false)

  /** Whether the page listens for tab switches at all. */
  predicate Listening(o: Options, st: State) {
    o.enabled && !st.isTerminated
  }

  /** A tab switch (or a blur the visibility event missed): `handleViolation`
      followed by the effect that reacts to the new count. */
  function Detect(o: Options, st: State): (r: (State, seq<Event>))
    ensures !Listening(o, st) ==> r == (st, [])
    ensures Listening(o, st) ==>
              && r.0.violations == st.violations + 1
              && (r.0.violations >= o.maxViolations ==>
                    r.0.isTerminated && r.0.showWarning == st.showWarning && r.1 == [Violation(r.0.violations), MaxReached])
              && (r.0.violations < o.maxViolations ==>
                    !r.0.isTerminated && r.0.showWarning && r.1 == [Violation(r.0.violations)])
  {
    if !Listening(o, st) then (st, [])
    else
      var count := st.violations + 1;
      if count >= o.maxViolations then
        (st.(violations := count, isTerminated := true), [Violation(count), MaxReached])
      else
        (st.(violations := count, showWarning := true), [Violation(count)])
  }

  /** `dismissWarning()`. */
  function DismissWarning(st: State): (r: State)
    ensures !r.showWarning && r.violations == st.violations && r.isTerminated == st.isTerminated
  {
    st.(showWarning := false)
  }

  /** `remainingViolations`. */
  function Remaining(o: Options, st: State): (r: nat)
    ensures r == 0 <==> st.violations >= o.maxViolations
    ensures r > 0 ==> st.violations + r == o.maxViolations
  {
    if o.maxViolations - st.violations > 0 then o.maxViolations - st.violations else 0
  }

  /** `n` detections in a row, with every event they report. */
  function DetectAll(o: Options, st: State, n: nat): (r: (State, seq<Event>))
    decreases n
  {
    if n == 0 then (st, [])
    else
      var before := DetectAll(o, st, n - 1);
      var after := Detect(o, before.0);
      (after.0, before.1 + after.1)
  }

  function CountMax(events: seq<Event>): nat
    decreases |events|
  {
    if |events| == 0 then 0 else (if events[|events| - 1] == MaxReached then 1 else 0) + CountMax(events[..|events| - 1])
  }

  lemma {:induction false} CountMaxAppend(a: seq<Event>, b: seq<Event>)
    ensures CountMax(a + b) == CountMax(a) + CountMax(b)
    decreases |b|
  {
    if |b| == 0 {
      assert a + b == a;
    } else {
      assert (a + b)[..|a + b| - 1] == a + b[..|b| - 1];
      CountMaxAppend(a, b[..|b| - 1]);
    }
  }

  /** From a fresh, enabled hook, `n` tab switches count up to the maximum and
      no further; the hook terminates exactly when `n` reaches the maximum,
      and the remaining allowance is what is left. */
  lemma {:induction false} DetectAllFromStart(o: Options, n: nat)
    requires o.enabled && o.maxViolations >= 1
    ensures var st := DetectAll(o, Initial, n).0;
            && st.violations == (if n < o.maxViolations then n else o.maxViolations)
            && (st.isTerminated <==> n >= o.maxViolations)
            && Remaining(o, st) == (if n < o.maxViolations then o.maxViolations - n else 0)
            && (st.showWarning <==> n >= 1 && o.maxViolations > 1)
    decreases n
  {
    if n > 0 {
      DetectAllFromStart(o, n - 1);
    }
  }

  lemma CountMaxOfStep(c: nat)
    ensures CountMax([Violation(c)]) == 0
    ensures CountMax([Violation(c), MaxReached]) == 1
  {
    assert [Violation(c), MaxReached][..1] == [Violation(c)];
  }

  /** The maximum is reported exactly once, on the switch that reaches it. */
  lemma {:induction false} MaxReportedOnce(o: Options, n: nat)
    requires o.enabled && o.maxViolations >= 1
    ensures CountMax(DetectAll(o, Initial, n).1) == (if n >= o.maxViolations then 1 else 0)
    decreases n
  {
    if n > 0 {
      MaxReportedOnce(o, n - 1);
      DetectAllFromStart(o, n - 1);
      var before := DetectAll(o, Initial, n - 1);
      var after := Detect(o, before.0);
      CountMaxAppend(before.1, after.1);
      CountMaxOfStep(before.0.violations + 1);
    }
  }

  /** A disabled hook never counts anything. */
  lemma {:induction false} DisabledCountsNothing(o: Options, st: State, n: nat)
    requires !o.enabled
    ensures DetectAll(o, st, n) == (st, [])
    decreases n
  {
    if n > 0 {
      DisabledCountsNothing(o, st, n - 1);
      assert DetectAll(o, st, n).1 == [] + [];
    }
  }
}

=== FILE: base.dfy ===
/** Failure-carrying values shared by every module of the model. */
module Base {

  /** A value that may be absent: JavaScript's `null`/`undefined`. */
  datatype Option<+T> = None | Some(value: T) {
    function GetOr(default: T): T {
      match this
      case Some(v) => v
      case None => default
    }
  }

  /** The outcome of a call that may throw: a network request, a parse, an SDK call. */
  datatype Outcome<+T> = Throw(message: string) | Return(value: T)

  /** Takes the next scripted outcome of an external call. An exhausted script
      behaves like an unreachable service: the call throws. */
  function Next<T>(script: seq<Outcome<T>>): (r: (Outcome<T>, seq<Outcome<T>>))
    ensures |script| > 0 ==> r.0 == script[0] && r.1 == script[1..]
    ensures |script| == 0 ==> r.0.Throw? && r.1 == []
    ensures |r.1| == if |script| > 0 then |script| - 1 else 0
  {
    if |script| == 0 then (Throw("no scripted reply"), []) else (script[0], script[1..])
  }
}

=== FILE: dashboard.dfy ===
/** The admin dashboard's statistics: the score buckets its distribution query
    groups by, and the arithmetic and reshaping the route applies to the query
    results, which arrive as inputs. */
module Dashboard {
  import opened Base
  import opened Js
  import opened Rounding

  // ---------------------------------------------------------------------------
  // Score buckets
  // ---------------------------------------------------------------------------

  /** The bucket labels, highest first. */
  const Labels := ["80-100", "60-79", "40-59", "20-39", "0-19"]

  /** The lower bound of each bucket but the last. */
  const Floors := [80.0, 60.0, 40.0, 20.0]

  /** The position in `Labels` of a score's bucket: the first floor it reaches,
      else the last bucket. */
  function Bucket(score: real): (b: nat)
    ensures b < |Labels|
    ensures b < |Floors| ==> score >= Floors[b]
    ensures forall k :: 0 <= k < b ==> score < Floors[k]
  {
    if score >= 80.0 then 0
    else if score >= 60.0 then 1
    else if score >= 40.0 then 2
    else if score >= 20.0 then 3
    else 4
  }

  /** A higher score never lands in a lower bucket. */
  lemma BucketMonotone(s: real, t: real)
    requires s <= t
    ensures Bucket(t) <= Bucket(s)
  {
  }

  /** Each bucket holds exactly the scores between its floor and the floor
      above it; the top bucket takes every score from 80 up, the bottom one
      everything below 20. */
  lemma BucketRanges(score: real, b: nat)
    requires b < |Labels|
    ensures Bucket(score) == b <==>
              (b == 0 || score < Floors[b - 1]) && (b == |Floors| || score >= Floors[b])
  {
  }

  /** How many scores fall in bucket `b`. */
  function CountIn(scores: seq<real>, b: nat): (n: nat)
    ensures n <= |scores|
    decreases |scores|
  {
    if |scores| == 0 then 0 else (if Bucket(scores[0]) == b then 1 else 0) + CountIn(scores[1..], b)
  }

  function SumCounts(scores: seq<real>, from: nat): nat
    requires from <= |Labels|
    decreases |Labels| - from
  {
    if from == |Labels| then 0 else CountIn(scores, from) + SumCounts(scores, from + 1)
  }

  /** Every score is counted in exactly one bucket. */
  lemma {:induction false} BucketsPartition(scores: seq<real>)
    ensures SumCounts(scores, 0) == |scores|
    decreases |scores|
  {
    if |scores| > 0 {
      BucketsPartition(scores[1..]);
      SumCountsStep(scores, 0);
    }
  }

  lemma {:induction false} SumCountsStep(scores: seq<real>, from: nat)
    requires |scores| > 0 && from <= |Labels|
    ensures SumCounts(scores, from) == SumCounts(scores[1..], from) + (if from <= Bucket(scores[0]) then 1 else 0)
    decreases |Labels| - from
  {
    if from < |Labels| {
      SumCountsStep(scores, from + 1);
    }
  }

  /** The distribution query's rows: one (label, count) per non-empty bucket.
      `GROUP BY` without `ORDER BY` fixes no row order; listing the highest
      bucket first is this model's choice. */
  function Distribution(scores: seq<real>): (r: seq<(string, nat)>)
    ensures |r| <= |Labels|
    ensures forall i :: 0 <= i < |r| ==> r[i].1 > 0 && r[i].0 in Labels
  {
    DistributionFrom(scores, 0)
  }

  function DistributionFrom(scores: seq<real>, from: nat): (r: seq<(string, nat)>)
    requires from <= |Labels|
    ensures |r| <= |Labels| - from
    ensures forall i :: 0 <= i < |r| ==> r[i].1 > 0 && r[i].0 in Labels[from..]
    decreases |Labels| - from
  {
    if from == |Labels| then []
    else
      var rest := DistributionFrom(scores, from + 1);
      assert forall i :: 0 <= i < |rest| ==> rest[i].0 in Labels[from..] by {
        assert forall x :: x in Labels[from + 1..] ==> x in Labels[from..];
      }
      if CountIn(scores, from) == 0 then rest else [(Labels[from], CountIn(scores, from))] + rest
  }

  function RowCounts(rows: seq<(string, nat)>): nat
    decreases |rows|
  {
    if |rows| == 0 then 0 else rows[0].1 + RowCounts(rows[1..])
  }

  lemma {:induction false} DistributionCountsAll(scores: seq<real>, from: nat)
    requires from <= |Labels|
    ensures RowCounts(DistributionFrom(scores, from)) == SumCounts(scores, from)
    decreases |Labels| - from
  {
    if from < |Labels| {
      DistributionCountsAll(scores, from + 1);
      var rest := DistributionFrom(scores, from + 1);
      if CountIn(scores, from) > 0 {
        assert ([(Labels[from], CountIn(scores, from))] + rest)[1..] == rest;
      }
    }
  }

  /** The rows' counts add up to the number of scored sessions. */
  lemma DistributionTotal(scores: seq<real>)
    ensures RowCounts(Distribution(scores)) == |scores|
  {
    DistributionCountsAll(scores, 0);
    BucketsPartition(scores);
  }

  // ---------------------------------------------------------------------------
  // Stats
  // ---------------------------------------------------------------------------

  /** The first rows of the eight queries. A count row is `None` when the query
      returns no row; `avg` is `Some(None)` when the average is SQL `NULL`; the
      two aggregates are the rows holding the `results` text, as objects. */
  datatype Rows = Rows(total: Option<nat>, completed: Option<nat>, active: Option<nat>,
                       avg: Option<Option<real>>, candidates: Option<nat>, roles: Option<nat>,
                       recent: Option<Json>, distribution: Option<Json>)

  /** `row?.count || 0`. */
  function CountOf(row: Option<nat>): (r: nat)
    ensures row.None? ==> r == 0
    ensures row.Some? ==> r == row.value
  {
    row.GetOr(0)
  }

  /** `completion_rate`: the completed share of all interviews in whole
      percent, 0 when there are none. */
  function CompletionRate(total: Option<nat>, completed: Option<nat>): (r: int)
    ensures CountOf(total) == 0 ==> r == 0
    ensures CountOf(total) > 0 ==>
              var share := CountOf(completed) as real / CountOf(total) as real * 100.0;
              share - 0.5 < r as real <= share + 0.5
  {
    if CountOf(total) == 0 then 0
    else Round(CountOf(completed) as real / CountOf(total) as real * 100.0)
  }

  lemma Share(c: real, t: real)
    requires 0.0 <= c <= t && t > 0.0
    ensures 0.0 <= c / t * 100.0 <= 100.0
  {
    assert c / t <= 1.0;
  }

  /** While the completed interviews are among all interviews the rate is a
      percentage: 0 with none completed, 100 with all of them. */
  lemma CompletionRateBounds(total: nat, completed: nat)
    requires completed <= total
    ensures 0 <= CompletionRate(Some(total), Some(completed)) <= 100
    ensures completed == 0 ==> CompletionRate(Some(total), Some(completed)) == 0
    ensures completed == total ==> CompletionRate(Some(total), Some(completed)) == (if total == 0 then 0 else 100)
  {
    if total > 0 {
      Share(completed as real, total as real);
      RoundMonotone(0.0, completed as real / total as real * 100.0);
      RoundMonotone(completed as real / total as real * 100.0, 100.0);
      RoundInt(0);
      if completed == total {
        AllCompleted(total);
      }
    }
  }

  /** With every interview completed the rate is exactly 100. */
  lemma AllCompleted(total: nat)
    requires total > 0
    ensures CompletionRate(Some(total), Some(total)) == 100
  {
    var t := total as real;
    assert t / t * 100.0 == 100.0;
    RoundInt(100);
  }

  lemma DivMonotone(a: real, b: real, t: real)
    requires a <= b && t > 0.0
    ensures a / t <= b / t
  {
    assert b / t - a / t == (b - a) / t;
  }

  /** More completed interviews never lower the rate. */
  lemma CompletionRateMonotone(total: nat, c1: nat, c2: nat)
    requires c1 <= c2
    ensures CompletionRate(Some(total), Some(c1)) <= CompletionRate(Some(total), Some(c2))
  {
    if total > 0 {
      var t := total as real;
      DivMonotone(c1 as real, c2 as real, t);
      RoundMonotone(c1 as real / t * 100.0, c2 as real / t * 100.0);
    }
  }

  /** `average_score`: the average rounded to one decimal, and `null` when
      there is no row, the average is `NULL`, or it is exactly 0. */
  function AverageScore(row: Option<Option<real>>): (r: Option<real>)
    ensures r.None? <==> row.None? || row.value.None? || row.value.value == 0.0
    ensures r.Some? ==> r.value == RoundTenth(row.value.value)
  {
    if row.Some? && row.value.Some? && row.value.value != 0.0 then Some(RoundTenth(row.value.value)) else None
  }

  /** A shown average is within 0.05 of the true one, a whole number of
      tenths, and stays within [0, 100] when the scores do. */
  lemma AverageScoreShown(avg: real)
    requires avg != 0.0
    ensures var r := AverageScore(Some(Some(avg)));
            && r.Some? && avg - 0.05 < r.value <= avg + 0.05
            && IsTenths(r.value)
            && (0.0 <= avg <= 100.0 ==> 0.0 <= r.value <= 100.0)
  {
    var k := Round(avg * 10.0);
    assert RoundTenth(avg) * 10.0 == k as real;
    if 0.0 <= avg <= 100.0 {
      RoundMonotone(0.0, avg * 10.0);
      RoundMonotone(avg * 10.0, 1000.0);
      RoundInt(0);
      RoundInt(1000);
    }
  }

  datatype Stats = Stats(totalInterviews: nat, completedInterviews: nat, pendingReviews: nat,
                         averageScore: Option<real>, activeInterviews: nat, totalCandidates: nat,
                         totalRoles: nat, interviewsThisWeek: nat, completionRate: int)

  /** The `stats` object. */
  function StatsOf(rows: Rows): (r: Stats)
    ensures r.totalInterviews == CountOf(rows.total) && r.completedInterviews == CountOf(rows.completed)
    ensures r.activeInterviews == CountOf(rows.active) && r.totalCandidates == CountOf(rows.candidates)
    ensures r.totalRoles == CountOf(rows.roles)
    ensures r.pendingReviews == 0 && r.interviewsThisWeek == 0
    ensures r.averageScore == AverageScore(rows.avg)
    ensures r.completionRate == CompletionRate(rows.total, rows.completed)
  {
    Stats(CountOf(rows.total), CountOf(rows.completed), 0, AverageScore(rows.avg), CountOf(rows.active),
          CountOf(rows.candidates), CountOf(rows.roles), 0, CompletionRate(rows.total, rows.completed))
  }

  /** With no rows at all every figure is 0 and the average is `null`. */
  lemma EmptyStats()
    ensures StatsOf(Rows(None, None, None, None, None, None, None, None)) == Stats(0, 0, 0, None, 0, 0, 0, 0, 0)
  {
  }

  // ---------------------------------------------------------------------------
  // The two aggregates
  // ---------------------------------------------------------------------------

  /** `x.<key> === null` for the first element read out of a parsed aggregate;
      `None` when `x` is null or undefined, where the read throws. */
  function FieldIsNull(x: Option<Json>, key: string): (r: Option<bool>)
    ensures r.None? <==> x.None? || x.value.JNull?
    ensures r == Some(true) <==> x.Some? && Get(x.value, key) == Some(JNull)
  {
    match x
    case None => None
    case Some(JNull) => None
    case Some(v) => Some(Get(v, key) == Some(JNull))
  }

  /** `v.length === 1 && v[0].<key> === null`; `None` when it throws. For an
      object, `length` and `0` are ordinary keys; a string or number has no
      property of that name. */
  function SingleNullRow(v: Json, key: string): (r: Option<bool>)
    ensures v.JArr? && |v.items| != 1 ==> r == Some(false)
    ensures v.JArr? && |v.items| == 1 && v.items[0].JObj? ==> r == Some(Get(v.items[0], key) == Some(JNull))
    ensures v.JNull? ==> r.None?
  {
    match v
    case JNull => None
    case JArr(items) => if |items| == 1 then FieldIsNull(Some(items[0]), key) else Some(false)
    case JObj(fields) => if Get(v, "length") == Some(JNum(1.0)) then FieldIsNull(Get(v, "0"), key) else Some(false)
    case _ => Some(false)
  }

  /** `JSON.parse(row?.results || '[]')` followed by the one-null-row filter
      on `key`: a falsy `results` and a parse error both leave `[]`, a single
      element whose `key` is null becomes `[]`, and when the filter itself
      throws the parsed value is kept. */
  function Aggregate(h: Host, row: Option<Json>, key: string): (r: Json)
    ensures !TruthyOpt(GetOpt(row, "results")) ==> r == JArr([])
    ensures TruthyOpt(GetOpt(row, "results")) && h.parse(ToStr(h, GetOpt(row, "results").value)).None? ==> r == JArr([])
    ensures TruthyOpt(GetOpt(row, "results")) ==>
              var parsed := h.parse(ToStr(h, GetOpt(row, "results").value));
              parsed.Some? ==> r == (if SingleNullRow(parsed.value, key) == Some(true) then JArr([]) else parsed.value)
  {
    var results := GetOpt(row, "results");
    if !TruthyOpt(results) then JArr([])
    else
      match h.parse(ToStr(h, results.value))
      case None => JArr([])
      case Some(v) => if SingleNullRow(v, key) == Some(true) then JArr([]) else v
  }

  /** The placeholder row a join over no sessions produces is dropped, while a
      genuine single session is kept. */
  lemma AggregateFiltersPlaceholder(h: Host, row: Option<Json>, item: Json)
    requires TruthyOpt(GetOpt(row, "results")) && item.JObj?
    requires h.parse(ToStr(h, GetOpt(row, "results").value)) == Some(JArr([item]))
    ensures Get(item, "id") == Some(JNull) ==> Aggregate(h, row, "id") == JArr([])
    ensures Get(item, "id") != Some(JNull) ==> Aggregate(h, row, "id") == JArr([item])
  {
  }

  // ---------------------------------------------------------------------------
  // Recent sessions
  // ---------------------------------------------------------------------------

  datatype Candidate = Candidate(fullName: Json, email: Option<Json>)

  /** One entry of `recent_sessions`; `None` is an `undefined` property. */
  datatype RecentSession = RecentSession(id: Option<Json>, status: Option<Json>, totalScore: Option<Json>,
                                         aiRecommendation: Json, createdAt: Option<Json>,
                                         candidate: Option<Candidate>, jobRole: Option<Json>)

  /** The reshaping of one parsed row; `None` when the row is `null`, where the
      property reads throw. */
  function Reshape(r: Json): (s: Option<RecentSession>)
    ensures s.None? <==> r.JNull?
    ensures s.Some? ==>
              && s.value.id == Get(r, "id") && s.value.status == Get(r, "status")
              && s.value.totalScore == Get(r, "total_score") && s.value.createdAt == Get(r, "created_at")
              && (s.value.candidate.Some? <==> TruthyOpt(Get(r, "candidate_name")))
              && (s.value.candidate.Some? ==> s.value.candidate.value == Candidate(Get(r, "candidate_name").value, Get(r, "candidate_email")))
              && (s.value.jobRole.Some? <==> TruthyOpt(Get(r, "role_title")))
              && (s.value.jobRole.Some? ==> s.value.jobRole.value == Get(r, "role_title").value)
              && (TruthyOpt(Get(r, "ai_recommendation")) ==> s.value.aiRecommendation == Get(r, "ai_recommendation").value)
              && (!TruthyOpt(Get(r, "ai_recommendation")) ==> s.value.aiRecommendation == JNull)
  {
    if r.JNull? then None
    else
      var name := Get(r, "candidate_name");
      var title := Get(r, "role_title");
      var rec := Get(r, "ai_recommendation");
      Some(RecentSession(Get(r, "id"), Get(r, "status"), Get(r, "total_score"),
                         if TruthyOpt(rec) then rec.value else JNull,
                         Get(r, "created_at"),
                         if TruthyOpt(name) then Some(Candidate(name.value, Get(r, "candidate_email"))) else None,
                         if TruthyOpt(title) then Some(title.value) else None))
  }

  /** `recent.map(...)`: `None` when `recent` is not an array (it has no `map`)
      or holds a `null`. */
  function RecentSessions(recent: Json): (r: Option<seq<RecentSession>>)
    ensures r.Some? ==> recent.JArr? && |r.value| == |recent.items|
  {
    if !recent.JArr? then None else ReshapeAll(recent.items)
  }

  function ReshapeAll(items: seq<Json>): (r: Option<seq<RecentSession>>)
    ensures r.Some? ==> |r.value| == |items|
    decreases |items|
  {
    if |items| == 0 then Some([])
    else
      match (Reshape(items[0]), ReshapeAll(items[1..]))
      case (Some(s), Some(rest)) => Some([s] + rest)
      case _ => None
  }

  /** The reshaping keeps every row, in order, and fails exactly on a `null`. */
  lemma {:induction false} ReshapeAllExact(items: seq<Json>)
    ensures ReshapeAll(items).Some? <==> forall i :: 0 <= i < |items| ==> !items[i].JNull?
    ensures ReshapeAll(items).Some? ==>
              forall i :: 0 <= i < |items| ==> Reshape(items[i]) == Some(ReshapeAll(items).value[i])
    decreases |items|
  {
    if |items| > 0 {
      ReshapeAllExact(items[1..]);
      assert forall i :: 1 <= i < |items| ==> items[i] == items[1..][i - 1];
    }
  }

  // ---------------------------------------------------------------------------
  // The route
  // ---------------------------------------------------------------------------

  datatype Response =
    | Unauthorized
    | ServerError
    | Ok(stats: Stats, recentSessions: seq<RecentSession>, scoreDistribution: Json)

  /** `GET /api/v1/dashboard`. `orgId` is the signed-in admin's organisation,
      `None` when the request is not authenticated; `rows` is `Throw` when any
      of the queries throws. */
  function GetDashboard(h: Host, orgId: Option<string>, rows: Outcome<Rows>): (r: Response)
    ensures orgId.None? ==> r == Unauthorized
    ensures orgId.Some? && rows.Throw? ==> r == ServerError
    ensures orgId.Some? && rows.Return? ==>
              var recent := RecentSessions(Aggregate(h, rows.value.recent, "id"));
              && (recent.None? ==> r == ServerError)
              && (recent.Some? ==> r == Ok(StatsOf(rows.value), recent.value, Aggregate(h, rows.value.distribution, "range")))
  {
    if orgId.None? then Unauthorized
    else
      match rows
      case Throw(_) => ServerError
      case Return(rs) =>
        match RecentSessions(Aggregate(h, rs.recent, "id"))
        case None => ServerError
        case Some(recent) => Ok(StatsOf(rs), recent, Aggregate(h, rs.distribution, "range"))
  }

  /** A dashboard with empty aggregates answers with no sessions and an empty
      distribution. */
  lemma EmptyAggregates(h: Host, orgId: string, rows: Rows)
    requires rows.recent.None? && rows.distribution.None?
    ensures GetDashboard(h, Some(orgId), Return(rows)) == Ok(StatsOf(rows), [], JArr([]))
  {
  }
}

=== FILE: edge_tts.dfy ===
/** The text side of the free text-to-speech provider: the language chosen
    from the voice name, and the cutting of the text into request-sized
    chunks at sentence, clause or word boundaries. The chunker indexes,
    measures and slices JavaScript strings, so it works on a text's UTF-16
    code units (`Text.Units`): every length and index below counts units. */
module EdgeTts {
  import opened Text

  const DefaultVoice := "en-US-AndrewMultilingualNeural"

  /** The chunk size the speech request uses. */
  const ChunkSize: nat := 200

  /** The language tag for a voice name. */
  function VoiceLanguage(voice: string): (r: string)
    ensures r in {"en-in", "en-gb", "en-au", "en-us"}
    ensures StartsWith(voice, "en-IN") ==> r == "en-in"
    ensures !StartsWith(voice, "en-IN") && StartsWith(voice, "en-GB") ==> r == "en-gb"
    ensures !StartsWith(voice, "en-IN") && !StartsWith(voice, "en-GB") && StartsWith(voice, "en-AU") ==> r == "en-au"
  {
    if StartsWith(voice, "en-IN") then "en-in"
    else if StartsWith(voice, "en-GB") then "en-gb"
    else if StartsWith(voice, "en-AU") then "en-au"
    else "en-us"
  }

  /** Only the three listed prefixes select a regional English; any other
      voice, the default one included, is read as US English. */
  lemma VoiceLanguageDefault(voice: string)
    ensures VoiceLanguage(voice) == "en-us" <==>
            !StartsWith(voice, "en-IN") && !StartsWith(voice, "en-GB") && !StartsWith(voice, "en-AU")
  {
  }

  // ---------------------------------------------------------------------------
  // Chunking
  // ---------------------------------------------------------------------------

  predicate IsStop(c: char) {
    c == '.' || c == '?' || c == '!'
  }

  /** `i > maxLen * 0.3`, compared exactly. */
  predicate PastThird(i: int, maxLen: nat) {
    10 * i > 3 * maxLen
  }

  /** A sentence end at an index in (0.3·maxLen, maxLen]. */
  predicate HasStop(s: string, maxLen: nat)
    requires maxLen < |s|
  {
    exists i :: 0 <= i <= maxLen && PastThird(i, maxLen) && IsStop(s[i])
  }

  /** A comma at an index in (0.3·maxLen, maxLen]. */
  predicate HasComma(s: string, maxLen: nat)
    requires maxLen < |s|
  {
    exists i :: 0 <= i <= maxLen && PastThird(i, maxLen) && s[i] == ','
  }

  /** A space at an index in (0, maxLen]. */
  predicate HasSpace(s: string, maxLen: nat)
    requires maxLen < |s|
  {
    exists i :: 0 < i <= maxLen && s[i] == ' '
  }

  function Max(a: int, b: int): int {
    if a >= b then a else b
  }

  /** Where a text longer than `maxLen` is cut (the preferences are the
      lemmas below). */
  function Cut(s: string, maxLen: nat): (r: nat)
    requires 1 <= maxLen < |s|
    ensures 1 <= r <= maxLen + 1
  {
    var period := LastIndexOf(s, '.', maxLen);
    var question := LastIndexOf(s, '?', maxLen);
    var exclaim := LastIndexOf(s, '!', maxLen);
    var comma := LastIndexOf(s, ',', maxLen);
    var space := LastIndexOf(s, ' ', maxLen);
    var best := Max(Max(period, question), exclaim);
    if PastThird(best, maxLen) then best + 1
    else if PastThird(comma, maxLen) then comma + 1
    else if space > 0 then space
    else maxLen
  }

  /** First preference: just after the last sentence end in the window. */
  lemma CutAtStop(s: string, maxLen: nat)
    requires 1 <= maxLen < |s| && HasStop(s, maxLen)
    ensures var r := Cut(s, maxLen);
            IsStop(s[r - 1]) && PastThird(r - 1, maxLen)
            && forall j :: r - 1 < j <= maxLen ==> !IsStop(s[j])
  {
    var i :| 0 <= i <= maxLen && PastThird(i, maxLen) && IsStop(s[i]);
  }

  /** Second preference: just after the last comma in the window. */
  lemma CutAtComma(s: string, maxLen: nat)
    requires 1 <= maxLen < |s| && !HasStop(s, maxLen) && HasComma(s, maxLen)
    ensures var r := Cut(s, maxLen);
            s[r - 1] == ',' && PastThird(r - 1, maxLen)
            && forall j :: r - 1 < j <= maxLen ==> s[j] != ','
  {
    var i :| 0 <= i <= maxLen && PastThird(i, maxLen) && s[i] == ',';
    NoStopCut(s, maxLen);
  }

  /** Third preference: at the last space after the first character. */
  lemma CutAtSpace(s: string, maxLen: nat)
    requires 1 <= maxLen < |s| && !HasStop(s, maxLen) && !HasComma(s, maxLen) && HasSpace(s, maxLen)
    ensures var r := Cut(s, maxLen);
            r <= maxLen && s[r] == ' ' && forall j :: r < j <= maxLen ==> s[j] != ' '
  {
    var i :| 0 < i <= maxLen && s[i] == ' ';
    NoStopCut(s, maxLen);
    NoCommaCut(s, maxLen);
  }

  /** Without a comma in the window the second preference does not apply. */
  lemma NoCommaCut(s: string, maxLen: nat)
    requires 1 <= maxLen < |s| && !HasComma(s, maxLen)
    ensures !PastThird(LastIndexOf(s, ',', maxLen), maxLen)
  {
  }

  /** Without a sentence end in the window the first preference does not apply. */
  lemma NoStopCut(s: string, maxLen: nat)
    requires 1 <= maxLen < |s| && !HasStop(s, maxLen)
    ensures var best := Max(Max(LastIndexOf(s, '.', maxLen), LastIndexOf(s, '?', maxLen)),
                            LastIndexOf(s, '!', maxLen));
            !PastThird(best, maxLen)
  {
  }

  /** Otherwise a hard cut at `maxLen`. */
  lemma CutHard(s: string, maxLen: nat)
    requires 1 <= maxLen < |s| && !HasStop(s, maxLen) && !HasComma(s, maxLen) && !HasSpace(s, maxLen)
    ensures Cut(s, maxLen) == maxLen
  {
  }

  predicate Trimmed(s: string) {
    s == [] || (!IsWs(s[0]) && !IsWs(s[|s| - 1]))
  }

  /** The `while` loop of `splitTextIntoChunks` from `remaining == s`. */
  function Chunks(s: string, maxLen: nat): (r: seq<string>)
    requires maxLen >= 1
    decreases |s|
  {
    if |s| == 0 then []
    else if |s| <= maxLen then [s]
    else
      var c := Cut(s, maxLen);
      [Trim(s[..c])] + Chunks(Trim(s[c..]), maxLen)
  }

  /** Drops the empty strings, keeping the order. */
  function NonEmpty(xs: seq<string>): (r: seq<string>)
    ensures forall k :: 0 <= k < |r| ==> |r[k]| > 0
    ensures |r| <= |xs|
    decreases |xs|
  {
    if |xs| == 0 then []
    else (if |xs[0]| > 0 then [xs[0]] else []) + NonEmpty(xs[1..])
  }

  /** `splitTextIntoChunks(text, maxLen)`. The source loops forever for a
      `maxLen` of 0, so at least 1 is required. The chunks are non-empty,
      trimmed, at most `maxLen + 1` long, and read together they hold exactly
      the text's non-whitespace characters. */
  function SplitIntoChunks(text: string, maxLen: nat): (r: seq<string>)
    requires maxLen >= 1
    ensures forall k :: 0 <= k < |r| ==> |r[k]| > 0 && Trimmed(r[k]) && |r[k]| <= maxLen + 1
    ensures NonWs(Concat(r)) == NonWs(text)
  {
    ChunkedTextSound(text, maxLen);
    NonEmpty(Chunks(Trim(text), maxLen))
  }

  /** Every chunk of the loop is trimmed and at most one character longer
      than `maxLen`. */
  lemma {:induction false} ChunksShape(s: string, maxLen: nat)
    requires maxLen >= 1 && Trimmed(s)
    ensures forall k :: 0 <= k < |Chunks(s, maxLen)| ==>
              Trimmed(Chunks(s, maxLen)[k]) && |Chunks(s, maxLen)[k]| <= maxLen + 1
    decreases |s|
  {
    if |s| > maxLen {
      var c := Cut(s, maxLen);
      var rest := Trim(s[c..]);
      ChunksShape(rest, maxLen);
      var r := Chunks(s, maxLen);
      assert r == [Trim(s[..c])] + Chunks(rest, maxLen);
      forall k | 0 <= k < |r|
        ensures Trimmed(r[k]) && |r[k]| <= maxLen + 1
      {
        if k > 0 { assert r[k] == Chunks(rest, maxLen)[k - 1]; }
      }
    }
  }

  /** Cutting and trimming both halves loses only whitespace. */
  lemma NonWsCut(s: string, c: nat)
    requires c <= |s|
    ensures NonWs(Trim(s[..c])) + NonWs(Trim(s[c..])) == NonWs(s)
  {
    var a, b := s[..c], s[c..];
    Rejoin(s, c);
    NonWsAppend(a, b);
    NonWsTrim(a);
    NonWsTrim(b);
  }

  lemma Rejoin<T>(s: seq<T>, c: nat)
    requires c <= |s|
    ensures s[..c] + s[c..] == s
  {
  }

  lemma ConcatCons(a: string, rest: seq<string>)
    ensures Concat([a] + rest) == a + Concat(rest)
  {
    assert ([a] + rest)[1..] == rest;
  }

  /** The loop keeps every non-whitespace character, in order. */
  lemma {:induction false} ChunksKeepText(s: string, maxLen: nat)
    requires maxLen >= 1
    ensures NonWs(Concat(Chunks(s, maxLen))) == NonWs(s)
    decreases |s|
  {
    if |s| > maxLen {
      var c := Cut(s, maxLen);
      var head := Trim(s[..c]);
      var rest := Trim(s[c..]);
      ChunksKeepText(rest, maxLen);
      ConcatCons(head, Chunks(rest, maxLen));
      NonWsAppend(head, Concat(Chunks(rest, maxLen)));
      NonWsCut(s, c);
    }
  }

  lemma {:induction false} NonEmptyConcat(xs: seq<string>)
    ensures Concat(NonEmpty(xs)) == Concat(xs)
    decreases |xs|
  {
    if |xs| > 0 {
      NonEmptyConcat(xs[1..]);
      ConcatCons(xs[0], xs[1..]);
      assert xs == [xs[0]] + xs[1..];
      if |xs[0]| > 0 {
        ConcatCons(xs[0], NonEmpty(xs[1..]));
      } else {
        assert NonEmpty(xs) == NonEmpty(xs[1..]);
        assert xs[0] + Concat(xs[1..]) == Concat(xs[1..]);
      }
    }
  }

  lemma {:induction false} NonEmptyKeeps(xs: seq<string>, P: string -> bool)
    requires forall k :: 0 <= k < |xs| ==> P(xs[k])
    ensures forall k :: 0 <= k < |NonEmpty(xs)| ==> P(NonEmpty(xs)[k])
    decreases |xs|
  {
    if |xs| > 0 {
      NonEmptyKeeps(xs[1..], P);
      var r := NonEmpty(xs);
      forall k | 0 <= k < |r| ensures P(r[k]) {
        if |xs[0]| > 0 && k == 0 {
          assert r[0] == xs[0];
        } else if |xs[0]| > 0 {
          assert r[k] == NonEmpty(xs[1..])[k - 1];
        } else {
          assert r == NonEmpty(xs[1..]);
        }
      }
    }
  }

  predicate ChunkFits(maxLen: nat, c: string) {
    Trimmed(c) && |c| <= maxLen + 1
  }

  /** The non-empty chunks of the trimmed text have the shape and content
      SplitIntoChunks promises. */
  lemma ChunkedTextSound(text: string, maxLen: nat)
    requires maxLen >= 1
    ensures var r := NonEmpty(Chunks(Trim(text), maxLen));
            && (forall k :: 0 <= k < |r| ==> |r[k]| > 0 && Trimmed(r[k]) && |r[k]| <= maxLen + 1)
            && NonWs(Concat(r)) == NonWs(text)
  {
    var s := Trim(text);
    var xs := Chunks(s, maxLen);
    ChunksShape(s, maxLen);
    var fits := (c: string) => ChunkFits(maxLen, c);
    assert forall k :: 0 <= k < |xs| ==> fits(xs[k]);
    NonEmptyKeeps(xs, fits);
    ChunksKeepText(s, maxLen);
    NonEmptyConcat(xs);
    NonWsTrim(text);
  }

  /** A text whose trimmed form fits is sent whole; a blank text sends
      nothing. */
  lemma ShortTextOneChunk(text: string, maxLen: nat)
    requires maxLen >= 1 && |Trim(text)| <= maxLen
    ensures SplitIntoChunks(text, maxLen) == if |Trim(text)| == 0 then [] else [Trim(text)]
  {
  }

  /** The requests `generateSpeechDirect` makes, in order: one per chunk of the
      text's code units, all in the voice's language. */
  function SpeechRequests(text: string, voice: string): (r: seq<(string, string)>)
    ensures |r| == |SplitIntoChunks(Units(text), ChunkSize)|
    ensures forall k :: 0 <= k < |r| ==>
              r[k].0 == SplitIntoChunks(Units(text), ChunkSize)[k] && r[k].1 == VoiceLanguage(voice)
  {
    WithLanguage(SplitIntoChunks(Units(text), ChunkSize), VoiceLanguage(voice))
  }

  /** Each chunk paired with the request language. */
  function WithLanguage(chunks: seq<string>, language: string): (r: seq<(string, string)>)
    ensures |r| == |chunks| && forall k :: 0 <= k < |r| ==> r[k] == (chunks[k], language)
  {
    seq(|chunks|, k requires 0 <= k < |chunks| => (chunks[k], language))
  }

  /** The requests are the chunks, each paired with the voice's language. */
  lemma SpeechRequestsOf(text: string, voice: string, chunks: seq<string>)
    requires SplitIntoChunks(Units(text), ChunkSize) == chunks
    requires |chunks| <= 1
    ensures SpeechRequests(text, voice) == if |chunks| == 0 then [] else [(chunks[0], VoiceLanguage(voice))]
  {
    var r := SpeechRequests(text, voice);
    if |chunks| == 1 {
      assert r[0] == (chunks[0], VoiceLanguage(voice));
    }
  }

  /** The texts of the requests, in order. */
  function RequestTexts(r: seq<(string, string)>): (ts: seq<string>)
    ensures |ts| == |r| && forall k :: 0 <= k < |r| ==> ts[k] == r[k].0
  {
    seq(|r|, k requires 0 <= k < |r| => r[k].0)
  }

  /** Every request carries a non-empty, trimmed text of at most ChunkSize + 1
      code units, and read together the requests hold exactly the code units
      of the text's non-whitespace characters. */
  lemma SpeechRequestsFit(text: string, voice: string)
    ensures var r := SpeechRequests(text, voice);
            && (forall k :: 0 <= k < |r| ==>
                  0 < |r[k].0| <= ChunkSize + 1 && Trimmed(r[k].0) && r[k].1 == VoiceLanguage(voice))
            && NonWs(Concat(RequestTexts(r))) == Units(NonWs(text))
  {
    var r := SpeechRequests(text, voice);
    assert RequestTexts(r) == SplitIntoChunks(Units(text), ChunkSize);
    UnitsNonWs(text);
  }

  /** Within the Basic Multilingual Plane a text's code units are its
      characters, so a short text is sent as one request. */
  lemma SpeechRequestsBmp(text: string, voice: string)
    requires forall k :: 0 <= k < |text| ==> text[k] as int < 0x1_0000
    requires |Trim(text)| <= ChunkSize
    ensures SpeechRequests(text, voice) ==
              if |Trim(text)| == 0 then [] else [(Trim(text), VoiceLanguage(voice))]
  {
    UnitsBmp(text);
    ShortTextOneChunk(text, ChunkSize);
    var expected := if |Trim(text)| == 0 then [] else [Trim(text)];
    assert SplitIntoChunks(Units(text), ChunkSize) == expected;
    SpeechRequestsOf(text, voice, expected);
  }
}

=== FILE: env_loader.dfy ===
/** The video-column migration script: its `.env.local` reader, which fills
    environment variables that are not yet set, and its loop over the
    migration statements, which attempts every statement and treats a
    "duplicate column" failure as already applied. */
module EnvLoader {
  import opened Base
  import opened Text

  // ---------------------------------------------------------------------------
  // One line of the file
  // ---------------------------------------------------------------------------

  /** Whether a value is wrapped in one matching pair of double or single quotes;
      a lone quote character counts, as it both starts and ends the value. */
  predicate Quoted(v: string) {
    |v| > 0 && ((v[0] == '"' && v[|v| - 1] == '"') || (v[0] == '\'' && v[|v| - 1] == '\''))
  }

  /** Strips one outer pair of matching quotes: `value.slice(1, -1)`. */
  function Unquote(v: string): (r: string)
    ensures !Quoted(v) ==> r == v
    ensures Quoted(v) ==> |r| == (if |v| >= 2 then |v| - 2 else 0)
    ensures Quoted(v) && |v| >= 2 ==> v == [v[0]] + r + [v[0]]
  {
    if Quoted(v) then (if |v| >= 2 then v[1..|v| - 1] else []) else v
  }

  /** The value written in double quotes. */
  function Quote(s: string): (r: string)
    ensures |r| == |s| + 2 && Quoted(r)
  {
    "\"" + s + "\""
  }

  /** Quoting then unquoting gives the value back, whatever it holds; only one
      pair of quotes comes off. */
  lemma UnquoteQuote(s: string)
    ensures Unquote(Quote(s)) == s
    ensures Unquote(Quote(Quote(s))) == Quote(s)
  {
    assert Quote(s)[1..|Quote(s)| - 1] == s;
    assert Quote(Quote(s))[1..|Quote(Quote(s))| - 1] == Quote(s);
  }

  /** A mismatched pair of quotes is kept. */
  lemma MismatchedQuotesKept(s: string)
    ensures Unquote("\"" + s + "'") == "\"" + s + "'"
  {
  }

  /** A line's key and value, or `None` for a line that sets nothing: blank,
      a comment, or without `=`. The key is the text before the first `=`, the
      value everything after it, both trimmed. */
  function ParseLine(line: string): (r: Option<(string, string)>)
    ensures r.None? <==> Trim(line) == [] || Trim(line)[0] == '#' || '=' !in Trim(line)
    ensures r.Some? ==> '=' !in r.value.0 && Trim(r.value.0) == r.value.0
  {
    var t := Trim(line);
    if |t| == 0 || t[0] == '#' then None
    else
      var i := IndexOf(t, '=');
      if i < 0 then None
      else
        var key := Trim(t[..i]);
        TrimIdempotent(key);
        assert '=' !in key by {
          assert key == t[..i][LeadingWs(t[..i])..LeadingWs(t[..i]) + |key|];
        }
        Some((key, Unquote(Trim(t[i + 1..]))))
  }

  /** Where the value of a parsed line comes from: the trimmed text after the
      first `=` of the trimmed line, so a later `=` stays in the value. */
  lemma ParseLineSplitsAtFirstEquals(key: string, rest: string)
    requires key != [] && !IsWs(key[0]) && !IsWs(key[|key| - 1]) && key[0] != '#' && '=' !in key
    requires rest != [] && !IsWs(rest[|rest| - 1])
    ensures ParseLine(key + "=" + rest) == Some((key, Unquote(Trim(rest))))
  {
    var line := key + "=" + rest;
    TrimIdempotent(line);
    IndexOfCons(key, '=', rest);
    assert line[..|key|] == key;
    assert line[|key| + 1..] == rest;
    TrimIdempotent(key);
  }

  /** The line `key="value"` reads back as exactly that key and value. */
  lemma LineRoundTrip(key: string, value: string)
    requires key != [] && !IsWs(key[0]) && !IsWs(key[|key| - 1]) && key[0] != '#' && '=' !in key
    ensures ParseLine(key + "=" + Quote(value)) == Some((key, value))
  {
    ParseLineSplitsAtFirstEquals(key, Quote(value));
    TrimIdempotent(Quote(value));
    UnquoteQuote(value);
  }

  /** Comments and lines without `=` set nothing. */
  lemma SkippedLines(comment: string, plain: string)
    requires '=' !in plain && plain != [] && !IsWs(plain[0]) && !IsWs(plain[|plain| - 1])
    ensures ParseLine("#" + comment) == None
    ensures ParseLine(plain) == None
  {
    TrimIdempotent(plain);
    var c := "#" + comment;
    assert Trim(c) == [] || Trim(c)[0] == '#' by {
      assert LeadingWs(c) == 0;
    }
  }

  // ---------------------------------------------------------------------------
  // The environment
  // ---------------------------------------------------------------------------

  type Env = map<string, string>

  /** `process.env[key]` is truthy: present and not empty. */
  predicate IsSet(env: Env, key: string) {
    key in env && env[key] != ""
  }

  function Lookup(env: Env, key: string): Option<string> {
    if key in env then Some(env[key]) else None
  }

  /** `if (!process.env[key]) process.env[key] = value`. */
  function Assign(env: Env, entry: (string, string)): (r: Env)
    ensures IsSet(env, entry.0) ==> r == env
    ensures !IsSet(env, entry.0) ==> r == env[entry.0 := entry.1]
  {
    if IsSet(env, entry.0) then env else env[entry.0 := entry.1]
  }

  /** The keys the entries name. */
  function EntryKeys(entries: seq<(string, string)>): set<string> {
    set k | 0 <= k < |entries| :: entries[k].0
  }

  /** The entries in file order. */
  function AssignAll(entries: seq<(string, string)>, env: Env): (r: Env)
    ensures forall key :: IsSet(env, key) ==> key in r && r[key] == env[key]
    ensures forall key :: key in r <==> key in env || key in EntryKeys(entries)
    decreases |entries|
  {
    if |entries| == 0 then env
    else
      assert EntryKeys(entries) == {entries[0].0} + EntryKeys(entries[1..]) by {
        forall key | key in EntryKeys(entries) ensures key in {entries[0].0} + EntryKeys(entries[1..]) {
          var k :| 0 <= k < |entries| && entries[k].0 == key;
          if k > 0 { assert entries[1..][k - 1] == entries[k]; }
        }
        forall key | key in EntryKeys(entries[1..]) ensures key in EntryKeys(entries) {
          var k :| 0 <= k < |entries[1..]| && entries[1..][k].0 == key;
          assert entries[k + 1] == entries[1..][k];
        }
      }
      AssignAll(entries[1..], Assign(env, entries[0]))
  }

  /** The value the file gives `key`: the first non-empty one, or an empty one
      when every line for `key` is empty; `None` when no line names it. */
  function Chosen(entries: seq<(string, string)>, key: string): (r: Option<string>)
    decreases |entries|
  {
    if |entries| == 0 then None
    else if entries[0].0 == key && entries[0].1 != "" then Some(entries[0].1)
    else
      match Chosen(entries[1..], key)
      case Some(v) => Some(v)
      case None => if entries[0].0 == key then Some("") else None
  }

  /** Each variable ends up with its value from before when that was set, else
      with the value the file chooses, else as it was. */
  lemma {:induction false} AssignAllLookup(entries: seq<(string, string)>, env: Env, key: string)
    ensures Lookup(AssignAll(entries, env), key) ==
            if IsSet(env, key) then Lookup(env, key)
            else if Chosen(entries, key).Some? then Chosen(entries, key)
            else Lookup(env, key)
    decreases |entries|
  {
    if |entries| > 0 {
      AssignAllLookup(entries[1..], Assign(env, entries[0]), key);
    }
  }

  /** The entries of the lines that set something, in file order. */
  function Entries(lines: seq<string>): (r: seq<(string, string)>)
    ensures |r| <= |lines|
    decreases |lines|
  {
    if |lines| == 0 then []
    else
      match ParseLine(lines[0])
      case None => Entries(lines[1..])
      case Some(e) => [e] + Entries(lines[1..])
  }

  /** `loadEnv()`; `file` is the content of `.env.local`, `None` when the file
      does not exist. */
  function LoadEnv(file: Option<string>, env: Env): (r: Env)
    ensures file.None? ==> r == env
    ensures forall key :: IsSet(env, key) ==> key in r && r[key] == env[key]
    ensures file.Some? ==>
              forall key :: key in r <==> key in env || key in EntryKeys(Entries(Split(file.value, '\n')))
  {
    match file
    case None => env
    case Some(content) => AssignAll(Entries(Split(content, '\n')), env)
  }

  /** A missing file changes nothing; a set variable is never overwritten; a
      variable no line names keeps its state; one the file names gets the
      value the file chooses unless it was set. */
  lemma LoadEnvLookup(file: Option<string>, env: Env, key: string)
    ensures file.None? ==> LoadEnv(file, env) == env
    ensures IsSet(env, key) ==> key in LoadEnv(file, env) && LoadEnv(file, env)[key] == env[key]
    ensures file.Some? && !IsSet(env, key) ==>
              Lookup(LoadEnv(file, env), key) ==
              match Chosen(Entries(Split(file.value, '\n')), key)
              case Some(v) => Some(v)
              case None => Lookup(env, key)
  {
    if file.Some? {
      AssignAllLookup(Entries(Split(file.value, '\n')), env, key);
    }
  }

  /** Maps that agree on every lookup are equal. */
  lemma SameLookups(a: Env, b: Env)
    requires forall key :: Lookup(a, key) == Lookup(b, key)
    ensures a == b
  {
    forall key | key in a
      ensures key in b && a[key] == b[key]
    {
      assert Lookup(a, key) == Lookup(b, key);
    }
    forall key | key in b
      ensures key in a
    {
      assert Lookup(a, key) == Lookup(b, key);
    }
  }

  /** Loading the same file twice is the same as loading it once. */
  lemma LoadEnvIdempotent(file: Option<string>, env: Env)
    ensures LoadEnv(file, LoadEnv(file, env)) == LoadEnv(file, env)
  {
    if file.Some? {
      var once := LoadEnv(file, env);
      var entries := Entries(Split(file.value, '\n'));
      forall key
        ensures Lookup(LoadEnv(file, once), key) == Lookup(once, key)
      {
        AssignAllLookup(entries, env, key);
        AssignAllLookup(entries, once, key);
      }
      SameLookups(LoadEnv(file, once), once);
    }
  }

  // ---------------------------------------------------------------------------
  // The migration
  // ---------------------------------------------------------------------------

  const AccountIdVar := "CLOUDFLARE_ACCOUNT_ID"
  const DatabaseIdVar := "CLOUDFLARE_D1_DATABASE_ID"
  const ApiTokenVar := "CLOUDFLARE_D1_API_TOKEN"

  datatype Statement = Statement(name: string, sql: string)

  const Statements := [
    Statement("Add video_url column", "ALTER TABLE interview_sessions ADD COLUMN video_url TEXT;"),
    Statement("Add video_expires_at column", "ALTER TABLE interview_sessions ADD COLUMN video_expires_at TEXT;"),
    Statement("Create video expiry index",
              "CREATE INDEX IF NOT EXISTS idx_sessions_video_expiry ON interview_sessions(video_expires_at) WHERE video_url IS NOT NULL;")
  ]

  /** The parsed body of the database's reply: its `success` flag and the
      `message` of each entry of `errors`, `None` when `errors` is absent. */
  datatype Reply = Reply(success: bool, errors: Option<seq<string>>)

  /** `parts.join(sep)` for a separator of any length. */
  function JoinWith(parts: seq<string>, sep: string): string
    decreases |parts|
  {
    if |parts| == 0 then [] else if |parts| == 1 then parts[0] else parts[0] + sep + JoinWith(parts[1..], sep)
  }

  const UnknownError := "Unknown error"

  /** The message `runSQL` throws for an unsuccessful reply. */
  function ErrorMessage(errors: Option<seq<string>>): (r: string)
    ensures r != ""
    ensures errors.None? || errors == Some([]) ==> r == UnknownError
    ensures errors.Some? && |errors.value| == 1 && errors.value[0] != "" ==> r == errors.value[0]
  {
    var joined := if errors.Some? then JoinWith(errors.value, ", ") else "";
    if joined == "" then UnknownError else joined
  }

  /** `runSQL(sql)`: a request that fails (network, unreadable body) throws its
      own message; an unsuccessful reply throws the joined error messages. */
  function RunSql(reply: Outcome<Reply>): (r: Outcome<()>)
    ensures r.Return? <==> reply.Return? && reply.value.success
    ensures reply.Throw? ==> r == Throw(reply.message)
  {
    match reply
    case Throw(m) => Throw(m)
    case Return(rep) => if rep.success then Return(()) else Throw(ErrorMessage(rep.errors))
  }

  datatype Report = Applied(name: string) | Skipped(name: string) | Failed(name: string, message: string)

  const DuplicateColumn := "duplicate column"

  /** The loop body: a success is applied, a "duplicate column" failure is a
      skip, any other failure is logged and the loop goes on. */
  function Attempt(stmt: Statement, result: Outcome<()>): (r: Report)
    ensures r.name == stmt.name
    ensures r.Applied? <==> result.Return?
    ensures r.Skipped? <==> result.Throw? && Contains(result.message, DuplicateColumn)
    ensures r.Failed? ==> r.message == result.message && !Contains(result.message, DuplicateColumn)
  {
    match result
    case Return(_) => Applied(stmt.name)
    case Throw(m) => if Contains(m, DuplicateColumn) then Skipped(stmt.name) else Failed(stmt.name, m)
  }

  /** `main()`'s loop, with the database's replies scripted in order. */
  function Migrate(statements: seq<Statement>, replies: seq<Outcome<Reply>>): (r: seq<Report>)
    ensures |r| == |statements|
    decreases |statements|
  {
    if |statements| == 0 then []
    else
      var (reply, rest) := Next(replies);
      [Attempt(statements[0], RunSql(reply))] + Migrate(statements[1..], rest)
  }

  /** Every statement is attempted, in order, whatever the earlier ones did:
      the report for statement `i` depends on reply `i` alone. */
  lemma {:induction false} MigrateAttemptsEach(statements: seq<Statement>, replies: seq<Outcome<Reply>>)
    requires |replies| >= |statements|
    ensures forall i :: 0 <= i < |statements| ==>
              Migrate(statements, replies)[i] == Attempt(statements[i], RunSql(replies[i]))
    decreases |statements|
  {
    if |statements| > 0 {
      MigrateAttemptsEach(statements[1..], replies[1..]);
      var r := Migrate(statements, replies);
      assert r == [Attempt(statements[0], RunSql(replies[0]))] + Migrate(statements[1..], replies[1..]);
      forall i | 0 < i < |statements|
        ensures r[i] == Attempt(statements[i], RunSql(replies[i]))
      {
        assert r[i] == Migrate(statements[1..], replies[1..])[i - 1];
        assert statements[1..][i - 1] == statements[i] && replies[1..][i - 1] == replies[i];
      }
    }
  }

  /** A reply reporting a duplicate column is a skip; an unsuccessful reply
      with no error messages fails with "Unknown error". */
  lemma ReplyOutcomes(stmt: Statement, tail: string)
    ensures Attempt(stmt, RunSql(Return(Reply(false, Some([DuplicateColumn + tail]))))) == Skipped(stmt.name)
    ensures Attempt(stmt, RunSql(Return(Reply(false, None)))) == Failed(stmt.name, UnknownError)
    ensures Attempt(stmt, RunSql(Return(Reply(true, None)))) == Applied(stmt.name)
  {
    assert OccursAt(DuplicateColumn + tail, DuplicateColumn, 0);
    assert |UnknownError| < |DuplicateColumn|;
  }

  /** What the script does: stop with exit code 1 before any statement when a
      credential is missing, or run every statement and finish. */
  datatype Run = Exit(code: int) | Completed(reports: seq<Report>)

  function Main(file: Option<string>, env: Env, replies: seq<Outcome<Reply>>): (r: Run)
    ensures var e := LoadEnv(file, env);
            r.Exit? <==> !(IsSet(e, AccountIdVar) && IsSet(e, DatabaseIdVar) && IsSet(e, ApiTokenVar))
    ensures r.Exit? ==> r.code == 1
    ensures r.Completed? ==> |r.reports| == |Statements|
  {
    var e := LoadEnv(file, env);
    if !(IsSet(e, AccountIdVar) && IsSet(e, DatabaseIdVar) && IsSet(e, ApiTokenVar)) then Exit(1)
    else Completed(Migrate(Statements, replies))
  }

  /** Credentials already in the environment are enough, whatever the file says. */
  lemma PresetCredentialsSuffice(file: Option<string>, env: Env, replies: seq<Outcome<Reply>>)
    requires IsSet(env, AccountIdVar) && IsSet(env, DatabaseIdVar) && IsSet(env, ApiTokenVar)
    ensures Main(file, env, replies).Completed?
  {
    LoadEnvLookup(file, env, AccountIdVar);
    LoadEnvLookup(file, env, DatabaseIdVar);
    LoadEnvLookup(file, env, ApiTokenVar);
  }
}

=== FILE: fallback_chain.dfy ===
/** The provider fallback chain: transcription tries Groq then Gemini, each up
    to `MaxRetries` times, then falls back to a sentinel transcript; evaluation
    does the same and falls back to the default evaluation. Every external
    exchange is taken from the scripts held in `Services`; waits are reported
    as a delay after each attempt instead of being slept. */
module FallbackChain {
  import opened Base
  import opened Text
  import opened Js
  import opened Provider
  import Groq
  import Gemini

  const MaxRetries: nat := 2
  const RetryDelayMs: nat := 1000

  const TranscriptionSentinel := "[Transcription unavailable \U{2014} pending manual review]"
  const SentinelMarker := "[Transcription unavailable"
  const NoTranscriptReason := "No transcript available for evaluation"
  const ExhaustedReason := "All AI providers failed \U{2014} requires manual review"

  /** Everything the chain can observe of the outside world: the scripted
      replies of every endpoint, the Groq client's construction error (if
      any), the Gemini API key, and the latency every provider reports. */
  datatype Services = Services(
    host: Host,
    groqClientError: Option<string>,
    groqStt: seq<Outcome<Groq.Transcription>>,
    groqChat: seq<Outcome<Option<string>>>,
    geminiKey: string,
    gemini: seq<Outcome<Gemini.Response>>,
    elapsedMs: int)

  /** How one attempt ended: an exception, a result the chain rejected, or
      the accepted result. */
  datatype Kind<T> = Threw(message: string) | Rejected(value: T) | Accepted(value: T)

  /** One attempt and the wait that followed it (0 when there was none). */
  datatype Step<T> = Step(kind: Kind<T>, delayMs: nat)

  /** The wait after attempt `i` of a provider: only a thrown attempt that is
      not the provider's last is followed by 1000·(i+1) ms. */
  function Backoff<T>(i: nat, kind: Kind<T>): (d: nat)
    ensures d > 0 <==> kind.Threw? && i < MaxRetries - 1
    ensures d > 0 ==> d == RetryDelayMs * (i + 1)
  {
    if kind.Threw? && i < MaxRetries - 1 then RetryDelayMs * (i + 1) else 0
  }

  function KindOf<T>(o: Outcome<T>, accept: T -> bool): Kind<T> {
    match o
    case Throw(m) => Threw(m)
    case Return(v) => if accept(v) then Accepted(v) else Rejected(v)
  }

  predicate NoneAccepted<T>(steps: seq<Step<T>>) {
    forall k :: 0 <= k < |steps| ==> !steps[k].kind.Accepted?
  }

  /** What one provider's retry loop produced. */
  datatype Stage<T> = Stage(result: Option<T>, services: Services, steps: seq<Step<T>>)

  /** The retry loop of one provider, from attempt `attempt` on: call, accept
      the first result `accept` admits, otherwise try again until
      `MaxRetries` attempts were made. */
  function Retry<T>(call: Services -> (Outcome<T>, Services), accept: T -> bool, s: Services, attempt: nat)
    : (r: Stage<T>)
    requires attempt <= MaxRetries
    ensures |r.steps| <= MaxRetries - attempt
    ensures attempt < MaxRetries ==> |r.steps| >= 1 && r.steps[0].kind == KindOf(call(s).0, accept)
    ensures r.result.Some? ==>
              && |r.steps| > 0 && r.steps[|r.steps| - 1].kind == Accepted(r.result.value)
              && accept(r.result.value)
              && NoneAccepted(r.steps[..|r.steps| - 1])
    ensures r.result.None? ==> |r.steps| == MaxRetries - attempt && NoneAccepted(r.steps)
    ensures forall k :: 0 <= k < |r.steps| ==> r.steps[k].delayMs == Backoff(attempt + k, r.steps[k].kind)
    decreases MaxRetries - attempt
  {
    if attempt == MaxRetries then Stage(None, s, [])
    else
      var (o, s1) := call(s);
      var kind := KindOf(o, accept);
      var step := Step(kind, Backoff(attempt, kind));
      if kind.Accepted? then Stage(Some(kind.value), s1, [step])
      else
        var rest := Retry(call, accept, s1, attempt + 1);
        Stage(rest.result, rest.services, [step] + rest.steps)
  }

  // ---------------------------------------------------------------------------
  // Provider calls over the scripts
  // ---------------------------------------------------------------------------

  function GroqTranscribe(s: Services): (Outcome<SttResult>, Services) {
    var (o, rest) := Groq.Transcribe(s.groqClientError, s.groqStt, s.elapsedMs);
    (o, s.(groqStt := rest))
  }

  function GeminiTranscribe(s: Services): (Outcome<SttResult>, Services) {
    var (o, rest) := Gemini.Transcribe(s.geminiKey, s.gemini, s.elapsedMs);
    (o, s.(gemini := rest))
  }

  function GroqEvaluateCall(transcript: string, s: Services): (Outcome<EvaluationResult>, Services) {
    var (o, rest) := Groq.Evaluate(s.host, s.groqClientError, s.groqChat, transcript, s.elapsedMs);
    (o, s.(groqChat := rest))
  }

  function GeminiEvaluateCall(transcript: string, s: Services): (Outcome<EvaluationResult>, Services) {
    var (e, rest) := Gemini.Evaluate(s.host, s.geminiKey, s.gemini, transcript, s.elapsedMs);
    (Return(e), s.(gemini := rest))
  }

  function GroqEvaluate(transcript: string): Services -> (Outcome<EvaluationResult>, Services) {
    (s: Services) => GroqEvaluateCall(transcript, s)
  }

  function GeminiEvaluate(transcript: string): Services -> (Outcome<EvaluationResult>, Services) {
    (s: Services) => GeminiEvaluateCall(transcript, s)
  }

  /** `result.transcript && result.transcript.trim().length > 0`. */
  predicate SttAccepted(r: SttResult) {
    Trim(r.transcript) != ""
  }

  /** `result.score && result.summary`: the score object is always present,
      so this is a non-empty summary. */
  predicate EvaluationAccepted(r: EvaluationResult) {
    r.summary != ""
  }

  /** A run of both providers of one stage. */
  datatype Run<T> = Run(result: T, services: Services, groq: seq<Step<T>>, gemini: seq<Step<T>>)

  /** The transcription stage's terminal fallback. */
  const SentinelStt := SttResult(TranscriptionSentinel, "en", 0.0, "fallback", "none", 0)

  /** What a transcription provider's retry loop can end with: nothing
      accepted after every attempt, or an accepted transcription labelled
      with the provider's name as its last step. */
  predicate SttStage(m: Stage<SttResult>, provider: string) {
    && |m.steps| <= MaxRetries
    && (m.result.None? ==> |m.steps| == MaxRetries && NoneAccepted(m.steps))
    && (m.result.Some? ==>
          && |m.steps| > 0 && m.steps[|m.steps| - 1].kind == Accepted(m.result.value)
          && SttAccepted(m.result.value) && m.result.value.provider == provider)
  }

  /** A provider whose every transcription carries its name yields such a stage. */
  lemma SttStageOf(call: Services -> (Outcome<SttResult>, Services), s: Services, provider: string)
    requires forall s' :: call(s').0.Return? ==> call(s').0.value.provider == provider
    ensures SttStage(Retry(call, SttAccepted, s, 0), provider)
  {
    var m := Retry(call, SttAccepted, s, 0);
    RetryKeeps(call, SttAccepted, (x: SttResult) => x.provider == provider, s, 0);
    if m.result.Some? {
      assert m.steps[|m.steps| - 1].kind.Accepted?;
    }
  }

  /** A stage's result, or `sentinel` when the stage accepted nothing. */
  function OrSentinel<T>(m: Stage<T>, sentinel: T): (T, Services, seq<Step<T>>) {
    (if m.result.Some? then m.result.value else sentinel, m.services, m.steps)
  }

  /** What the Gemini half can end with. */
  predicate GeminiHalf(r: (SttResult, Services, seq<Step<SttResult>>)) {
    && |r.2| <= MaxRetries
    && if |r.2| == MaxRetries && NoneAccepted(r.2) then r.0 == SentinelStt
       else |r.2| > 0 && r.2[|r.2| - 1].kind == Accepted(r.0) && SttAccepted(r.0) && r.0.provider == "gemini"
  }

  /** The Gemini half of `transcribeAudio`, reached once Groq's attempts are
      used up: either every attempt failed and the sentinel is returned, or
      the last attempt produced the accepted Gemini transcription. */
  function TranscribeWithGemini(s: Services): (r: (SttResult, Services, seq<Step<SttResult>>))
    ensures GeminiHalf(r)
  {
    var m := Retry(GeminiTranscribe, SttAccepted, s, 0);
    GeminiSttLabelled();
    SttStageOf(GeminiTranscribe, s, "gemini");
    GeminiHalfOf(m);
    OrSentinel(m, SentinelStt)
  }

  lemma GeminiHalfOf(m: Stage<SttResult>)
    requires SttStage(m, "gemini")
    ensures GeminiHalf(OrSentinel(m, SentinelStt))
  {
    if m.result.Some? {
      assert !NoneAccepted(m.steps);
    }
  }

  /** What `transcribeAudio` can end with: Groq's attempts are used up before
      Gemini is asked; the result is the sentinel exactly when Gemini's
      attempts are used up too, and otherwise it is the accepted result of
      the last attempt made. */
  predicate AudioOutcome(r: Run<SttResult>) {
    && 1 <= |r.groq| <= MaxRetries && |r.gemini| <= MaxRetries
    && (|r.gemini| > 0 ==> |r.groq| == MaxRetries && NoneAccepted(r.groq))
    && (r.result.provider == "fallback" <==> |r.gemini| == MaxRetries && NoneAccepted(r.gemini))
    && (r.result.provider == "fallback" ==> r.result == SentinelStt)
    && (r.result.provider != "fallback" ==>
          && SttAccepted(r.result)
          && (r.gemini == [] ==> r.groq[|r.groq| - 1].kind == Accepted(r.result))
          && (r.gemini != [] ==> r.gemini[|r.gemini| - 1].kind == Accepted(r.result)))
  }

  /** `transcribeAudio`: Groq up to twice, then Gemini up to twice, then the
      sentinel. The first accepted transcription is returned unchanged. */
  function TranscribeAudio(s: Services): (r: Run<SttResult>)
    ensures AudioOutcome(r)
  {
    var g := Retry(GroqTranscribe, SttAccepted, s, 0);
    GroqSttLabelled();
    SttStageOf(GroqTranscribe, s, "groq");
    AfterGroqOutcome(g);
    AfterGroq(g)
  }

  /** The rest of the chain once Groq's retry loop has ended. */
  function AfterGroq(g: Stage<SttResult>): Run<SttResult> {
    if g.result.Some? then Run(g.result.value, g.services, g.steps, [])
    else
      var (result, services, steps) := TranscribeWithGemini(g.services);
      Run(result, services, g.steps, steps)
  }

  lemma AfterGroqOutcome(g: Stage<SttResult>)
    requires SttStage(g, "groq")
    ensures AudioOutcome(AfterGroq(g))
  {
    assert "groq"[0] != "fallback"[0] && "gemini"[0] != "fallback"[0];
    if g.result.Some? {
      assert MaxRetries > 0;
    } else {
      assert g.steps != [];
    }
  }

  /** A property every returned value of `call` has holds of the stage's result. */
  lemma {:induction false} RetryKeeps<T>(call: Services -> (Outcome<T>, Services), accept: T -> bool,
                                         good: T -> bool, s: Services, attempt: nat)
    requires attempt <= MaxRetries
    requires forall s' :: call(s').0.Return? ==> good(call(s').0.value)
    ensures Retry(call, accept, s, attempt).result.Some? ==> good(Retry(call, accept, s, attempt).result.value)
    decreases MaxRetries - attempt
  {
    if attempt < MaxRetries {
      RetryKeeps(call, accept, good, call(s).1, attempt + 1);
    }
  }

  lemma GroqSttLabelled()
    ensures forall s :: GroqTranscribe(s).0.Return? ==> GroqTranscribe(s).0.value.provider == "groq"
  {
  }

  lemma GeminiSttLabelled()
    ensures forall s :: GeminiTranscribe(s).0.Return? ==> GeminiTranscribe(s).0.value.provider == "gemini"
  {
  }

  lemma GroqScoresInRange(transcript: string)
    ensures forall s :: GroqEvaluate(transcript)(s).0.Return? ==> ScoresInRange(GroqEvaluate(transcript)(s).0.value)
  {
  }

  lemma GeminiScoresInRange(transcript: string)
    ensures forall s :: GeminiEvaluate(transcript)(s).0.Return? ==> ScoresInRange(GeminiEvaluate(transcript)(s).0.value)
  {
  }

  function ScoresInRange(r: EvaluationResult): bool { AllScoresIn(r.score, 0.0, 5.0) }

  /** Evaluation is skipped for an empty transcript or one that carries the
      transcription sentinel's marker. */
  predicate SkipsEvaluation(transcript: string) {
    transcript == "" || Contains(transcript, SentinelMarker)
  }

  /** What an evaluation provider's retry loop can end with: nothing accepted
      after every attempt, or an accepted evaluation with scores in range as
      its last step. */
  predicate EvalStage(m: Stage<EvaluationResult>) {
    && |m.steps| <= MaxRetries
    && (m.result.None? ==> |m.steps| == MaxRetries && NoneAccepted(m.steps))
    && (m.result.Some? ==>
          && |m.steps| > 0 && m.steps[|m.steps| - 1].kind == Accepted(m.result.value)
          && EvaluationAccepted(m.result.value) && ScoresInRange(m.result.value))
  }

  /** A provider whose every evaluation scores within 0–5 yields such a stage. */
  lemma EvalStageOf(call: Services -> (Outcome<EvaluationResult>, Services), s: Services)
    requires forall s' :: call(s').0.Return? ==> ScoresInRange(call(s').0.value)
    ensures EvalStage(Retry(call, EvaluationAccepted, s, 0))
  {
    var m := Retry(call, EvaluationAccepted, s, 0);
    RetryKeeps(call, EvaluationAccepted, ScoresInRange, s, 0);
    if m.result.Some? {
      assert m.steps[|m.steps| - 1].kind.Accepted?;
    }
  }

  /** What `evaluateAnswer` can end with once it asks the providers: Gemini
      is asked only after Groq's attempts are used up; an accepted Groq
      evaluation is returned as it came and Gemini is never asked; otherwise
      Gemini's accepted evaluation is returned, or the default evaluation
      once Gemini's attempts are used up too. */
  predicate EvalOutcome(r: Run<EvaluationResult>) {
    && 1 <= |r.groq| <= MaxRetries && |r.gemini| <= MaxRetries
    && (|r.gemini| > 0 ==> |r.groq| == MaxRetries && NoneAccepted(r.groq))
    && EvaluationAccepted(r.result) && ScoresInRange(r.result)
    && (!NoneAccepted(r.groq) ==> r.gemini == [] && r.groq[|r.groq| - 1].kind == Accepted(r.result))
    && (NoneAccepted(r.groq) ==> |r.gemini| > 0)
    && (|r.gemini| > 0 && !NoneAccepted(r.gemini) ==> r.gemini[|r.gemini| - 1].kind == Accepted(r.result))
    && (|r.gemini| > 0 && NoneAccepted(r.gemini) ==>
          |r.gemini| == MaxRetries && r.result == DefaultEvaluation(ExhaustedReason))
  }

  /** The rest of `evaluateAnswer` once Groq's retry loop has ended. */
  function EvalAfterGroq(g: Stage<EvaluationResult>, transcript: string): Run<EvaluationResult> {
    if g.result.Some? then Run(g.result.value, g.services, g.steps, [])
    else
      var m := Retry(GeminiEvaluate(transcript), EvaluationAccepted, g.services, 0);
      if m.result.Some? then Run(m.result.value, m.services, g.steps, m.steps)
      else Run(DefaultEvaluation(ExhaustedReason), m.services, g.steps, m.steps)
  }

  lemma EvalAfterGroqOutcome(g: Stage<EvaluationResult>, transcript: string)
    requires EvalStage(g) && |g.steps| >= 1
    ensures EvalOutcome(EvalAfterGroq(g, transcript))
  {
    if g.result.None? {
      var m := Retry(GeminiEvaluate(transcript), EvaluationAccepted, g.services, 0);
      GeminiScoresInRange(transcript);
      EvalStageOf(GeminiEvaluate(transcript), g.services);
      DefaultSummaryNonEmpty(ExhaustedReason);
      if m.result.Some? {
        assert !NoneAccepted(m.steps);
      }
    } else {
      assert !NoneAccepted(g.steps);
    }
  }

  /** `evaluateAnswer`: no provider call for a skipped transcript; otherwise
      Groq up to twice, Gemini up to twice, then the default evaluation. */
  function EvaluateAnswer(s: Services, transcript: string): (r: Run<EvaluationResult>)
    ensures SkipsEvaluation(transcript) ==>
              && r.result == DefaultEvaluation(NoTranscriptReason)
              && r.services == s && r.groq == [] && r.gemini == []
    ensures |r.groq| <= MaxRetries && |r.gemini| <= MaxRetries
    ensures !SkipsEvaluation(transcript) ==> EvalOutcome(r)
    ensures !SkipsEvaluation(transcript) ==>
              r.groq[0].kind == KindOf(GroqEvaluateCall(transcript, s).0, EvaluationAccepted)
    ensures EvaluationAccepted(r.result)
    ensures AllScoresIn(r.result.score, 0.0, 5.0)
  {
    if SkipsEvaluation(transcript) then
      DefaultSummaryNonEmpty(NoTranscriptReason);
      Run(DefaultEvaluation(NoTranscriptReason), s, [], [])
    else
      var g := Retry(GroqEvaluate(transcript), EvaluationAccepted, s, 0);
      GroqScoresInRange(transcript);
      EvalStageOf(GroqEvaluate(transcript), s);
      EvalAfterGroqOutcome(g, transcript);
      EvalAfterGroq(g, transcript)
  }

  lemma DefaultSummaryNonEmpty(reason: string)
    ensures EvaluationAccepted(DefaultEvaluation(reason))
    ensures AllScoresIn(DefaultEvaluation(reason).score, 0.0, 5.0)
  {
  }

  /** `processAnswer`: transcription to completion, then evaluation of its
      transcript, whose own transcript is then replaced by the STT one. */
  datatype Processed = Processed(stt: SttResult, evaluation: EvaluationResult, services: Services)

  function ProcessAnswer(s: Services): (r: Processed)
    ensures r.evaluation.transcript == r.stt.transcript
    ensures r.stt == TranscribeAudio(s).result
    ensures AllScoresIn(r.evaluation.score, 0.0, 5.0) && EvaluationAccepted(r.evaluation)
    ensures r.stt == SentinelStt ==> r.evaluation == DefaultEvaluation(NoTranscriptReason).(transcript := TranscriptionSentinel)
    ensures var e := EvaluateAnswer(TranscribeAudio(s).services, r.stt.transcript);
            r.evaluation == e.result.(transcript := r.stt.transcript) && r.services == e.services
  {
    var t := TranscribeAudio(s);
    var e := EvaluateAnswer(t.services, t.result.transcript);
    SentinelSkips();
    Processed(t.result, e.result.(transcript := t.result.transcript), e.services)
  }

  /** The sentinel transcript always skips evaluation. */
  lemma SentinelSkips()
    ensures SkipsEvaluation(TranscriptionSentinel)
  {
    assert TranscriptionSentinel[..|SentinelMarker|] == SentinelMarker;
    assert OccursAt(TranscriptionSentinel, SentinelMarker, 0);
  }

  /** Every default evaluation passes the chain's acceptance test, so a
      provider that answers with its own default ends the chain. */
  lemma DefaultEvaluationAccepted(reason: string)
    ensures EvaluationAccepted(DefaultEvaluation(reason))
  {
    assert DefaultEvaluation(reason).summary == SummaryPrefix + reason;
  }

  /** With a working Groq client whose two chat requests both throw, the chain
      ends with Groq's default evaluation after one attempt; Gemini is never
      consulted. */
  lemma GroqFailureEndsChain(s: Services, transcript: string, m1: string, m2: string,
                             rest: seq<Outcome<Option<string>>>)
    requires !SkipsEvaluation(transcript)
    requires s.groqClientError.None? && s.groqChat == [Throw(m1), Throw(m2)] + rest
    ensures var r := EvaluateAnswer(s, transcript);
            && r.result == DefaultEvaluation("Groq evaluation failed: " + m2)
            && |r.groq| == 1 && r.gemini == []
  {
    Groq.EvaluateBothThrow(s.host, m1, m2, rest, transcript, s.elapsedMs);
    DefaultEvaluationAccepted("Groq evaluation failed: " + m2);
  }

  /** One thrown Groq transcription followed by a usable one: the second is
      returned after a single 1000 ms wait, and Gemini is not called. */
  lemma TranscribeRetriesOnce(s: Services, m: string, t: Groq.Transcription, rest: seq<Outcome<Groq.Transcription>>)
    requires s.groqClientError.None? && s.groqStt == [Throw(m), Return(t)] + rest
    requires Trim(t.text) != ""
    ensures var r := TranscribeAudio(s);
            && r.result.provider == "groq" && r.result.transcript == t.text
            && |r.groq| == 2 && r.groq[0].delayMs == RetryDelayMs && r.groq[1].delayMs == 0
            && r.gemini == []
  {
    var s1 := GroqThrowThenReturn(s, m, t, rest);
    var stt := GroqTranscribe(s1).0.value;
    RetryThrowThenAccept(GroqTranscribe, SttAccepted, s, m, stt);
    var g := Retry(GroqTranscribe, SttAccepted, s, 0);
    assert TranscribeAudio(s) == AfterGroq(g);
  }

  /** The Groq replies of that scenario: a throw, then the usable transcript. */
  lemma GroqThrowThenReturn(s: Services, m: string, t: Groq.Transcription, rest: seq<Outcome<Groq.Transcription>>)
    returns (s1: Services)
    requires s.groqClientError.None? && s.groqStt == [Throw(m), Return(t)] + rest
    ensures GroqTranscribe(s) == (Throw(m), s1)
    ensures GroqTranscribe(s1).0.Return?
    ensures GroqTranscribe(s1).0.value.transcript == t.text && GroqTranscribe(s1).0.value.provider == "groq"
  {
    s1 := s.(groqStt := s.groqStt[1..]);
    assert s1.groqStt[0] == Return(t);
  }

  /** A loop whose first call throws and whose second is accepted ends with the
      second result after one wait. */
  lemma RetryThrowThenAccept<T>(call: Services -> (Outcome<T>, Services), accept: T -> bool, s: Services, m: string, v: T)
    requires call(s).0 == Throw(m) && call(call(s).1).0 == Return(v) && accept(v)
    ensures Retry(call, accept, s, 0).result == Some(v)
    ensures Retry(call, accept, s, 0).steps == [Step(Threw(m), RetryDelayMs), Step(Accepted(v), 0)]
  {
    assert Retry(call, accept, call(s).1, 1).steps == [Step(Accepted(v), 0)];
  }
}

=== FILE: gemini.dfy ===
/** The Gemini adapter over the REST endpoint: transcription with two models
    and evaluation with three. Each HTTP exchange is a scripted reply; a blank
    API key fails every request before anything is sent. */
module Gemini {
  import opened Base
  import opened Text
  import opened Js
  import opened Provider

  const PrimaryModel := "gemini-2.0-flash"
  const FallbackModel := "gemini-1.5-flash"
  const LastResortModel := "gemini-1.5-pro"

  const MissingKeyMessage := "GEMINI_API_KEY not configured"

  /** An HTTP answer: a non-2xx status with its body text, or a 2xx JSON body
      from which the first candidate's first text part may be missing. */
  datatype Response = HttpError(status: int, body: string) | HttpOk(text: Option<string>)

  /** The error thrown for a non-2xx answer. */
  function StatusMessage(model: string, status: int, body: string): string {
    "Gemini " + model + " error " + IntToString(status) + ": " + body
  }

  /** `geminiRequest`: the trimmed key must be non-empty, otherwise the call
      throws without consuming a reply; a transport error or a non-2xx status
      throws; a 2xx answer yields its text, or "" when the text is missing. */
  function Request(apiKey: string, model: string, script: seq<Outcome<Response>>)
    : (r: (Outcome<string>, seq<Outcome<Response>>))
    ensures Trim(apiKey) == "" ==> r == (Throw(MissingKeyMessage), script)
    ensures Trim(apiKey) != "" ==> r.1 == Next(script).1
    ensures Trim(apiKey) != "" && Next(script).0.Return? && Next(script).0.value.HttpError? ==>
              var f := Next(script).0.value;
              r.0 == Throw(StatusMessage(model, f.status, f.body))
    ensures Trim(apiKey) != "" && Next(script).0.Return? && Next(script).0.value.HttpOk? ==>
              r.0 == Return(Next(script).0.value.text.GetOr(""))
    ensures Trim(apiKey) != "" && Next(script).0.Throw? ==> r.0 == Throw(Next(script).0.message)
  {
    if Trim(apiKey) == "" then (Throw(MissingKeyMessage), script)
    else
      var next := Next(script);
      var reply: Outcome<Response>, rest := next.0, next.1;
      match reply
      case Throw(m) => (Throw(m), rest)
      case Return(HttpError(status, body)) => (Throw(StatusMessage(model, status, body)), rest)
      case Return(HttpOk(text)) => (Return(text.GetOr("")), rest)
  }

  function TranscriptionResult(text: string, model: string, elapsedMs: int): (r: SttResult)
    ensures r.transcript == Trim(text) && r.model == model
    ensures r.language == "en" && r.durationSeconds == 0.0 && r.provider == "gemini"
  {
    SttResult(Trim(text), "en", 0.0, "gemini", model, elapsedMs)
  }

  /** `geminiProvider.transcribe`: the primary model, then the fallback. The
      trimmed text is returned even when empty; an error on the fallback
      model throws "Gemini transcription failed: " with its message. */
  function Transcribe(apiKey: string, script: seq<Outcome<Response>>, elapsedMs: int)
    : (r: (Outcome<SttResult>, seq<Outcome<Response>>))
    ensures r.0.Return? ==> r.0.value.provider == "gemini" && r.0.value.model in {PrimaryModel, FallbackModel}
    ensures Request(apiKey, PrimaryModel, script).0.Return? ==>
              r.0 == Return(TranscriptionResult(Request(apiKey, PrimaryModel, script).0.value, PrimaryModel, elapsedMs))
    ensures var p := Request(apiKey, PrimaryModel, script);
            p.0.Throw? ==>
              var q := Request(apiKey, FallbackModel, p.1);
              && r.1 == q.1
              && (q.0.Return? ==> r.0 == Return(TranscriptionResult(q.0.value, FallbackModel, elapsedMs)))
              && (q.0.Throw? ==> r.0 == Throw("Gemini transcription failed: " + q.0.message))
    ensures r.0.Throw? ==> StartsWith(r.0.message, "Gemini transcription failed: ")
    ensures Trim(apiKey) == "" ==> r == (Throw("Gemini transcription failed: " + MissingKeyMessage), script)
    ensures |script| - |r.1| <= 2
  {
    var (first, rest1) := Request(apiKey, PrimaryModel, script);
    if first.Return? then (Return(TranscriptionResult(first.value, PrimaryModel, elapsedMs)), rest1)
    else
      var (second, rest2) := Request(apiKey, FallbackModel, rest1);
      if second.Return? then (Return(TranscriptionResult(second.value, FallbackModel, elapsedMs)), rest2)
      else (Throw("Gemini transcription failed: " + second.message), rest2)
  }

  /** One evaluation request: an error, or the reply through `parseEvaluationJSON`
      (no bare `JSON.parse` fallback here). */
  function TryModel(h: Host, apiKey: string, model: string, script: seq<Outcome<Response>>)
    : (r: (Attempt, seq<Outcome<Response>>))
    ensures Request(apiKey, model, script).0.Throw? ==> r.0 == Failed(Request(apiKey, model, script).0.message)
    ensures Request(apiKey, model, script).0.Return? ==>
              r.0 == Classify(ParseEvaluationJSON(h, Request(apiKey, model, script).0.value))
    ensures r.1 == Request(apiKey, model, script).1
  {
    var (reply, rest) := Request(apiKey, model, script);
    match reply
    case Throw(m) => (Failed(m), rest)
    case Return(text) => (Classify(ParseEvaluationJSON(h, text)), rest)
  }

  /** The facts every evaluation this adapter returns satisfies. */
  predicate WellFormed(e: EvaluationResult, transcript: string) {
    && e.provider in {"gemini", "fallback"}
    && (e.provider == "gemini" ==>
          && e.model in {PrimaryModel, FallbackModel, LastResortModel}
          && e.transcript == transcript
          && AllScoresIn(e.score, 0.0, 5.0) && AllTenths(e.score))
    && (e.provider == "fallback" ==> e.score == NeutralScores)
  }

  /** The last model: its usable reply, or the default evaluation naming its
      error, or the "All Gemini evaluation models failed" default. */
  function LastResort(h: Host, apiKey: string, script: seq<Outcome<Response>>, transcript: string, elapsedMs: int)
    : (r: (EvaluationResult, seq<Outcome<Response>>))
    ensures WellFormed(r.0, transcript)
    ensures var p3 := TryModel(h, apiKey, LastResortModel, script);
            && r.1 == p3.1
            && (p3.0.Usable? ==>
                  r.0 == EvaluationFromReply(h, p3.0.parsed, transcript, "gemini", LastResortModel, elapsedMs))
            && (p3.0.Failed? ==> r.0 == DefaultEvaluation("Gemini evaluation failed: " + p3.0.message))
            && (p3.0.Unusable? ==> r.0 == DefaultEvaluation("All Gemini evaluation models failed"))
  {
    var (a3, rest3) := TryModel(h, apiKey, LastResortModel, script);
    match a3
    case Usable(p) => (EvaluationFromReply(h, p, transcript, "gemini", LastResortModel, elapsedMs), rest3)
    case Failed(m) => (DefaultEvaluation("Gemini evaluation failed: " + m), rest3)
    case Unusable => (DefaultEvaluation("All Gemini evaluation models failed"), rest3)
  }

  /** The fallback model, then the last one when its reply is not usable. */
  function AfterPrimary(h: Host, apiKey: string, script: seq<Outcome<Response>>, transcript: string, elapsedMs: int)
    : (r: (EvaluationResult, seq<Outcome<Response>>))
    ensures WellFormed(r.0, transcript)
    ensures var p2 := TryModel(h, apiKey, FallbackModel, script);
            && (p2.0.Usable? ==>
                  && r.0 == EvaluationFromReply(h, p2.0.parsed, transcript, "gemini", FallbackModel, elapsedMs)
                  && r.1 == p2.1)
            && (!p2.0.Usable? ==> r == LastResort(h, apiKey, p2.1, transcript, elapsedMs))
    ensures |script| - |r.1| <= 2
  {
    var (a2, rest2) := TryModel(h, apiKey, FallbackModel, script);
    if a2.Usable? then (EvaluationFromReply(h, a2.parsed, transcript, "gemini", FallbackModel, elapsedMs), rest2)
    else LastResort(h, apiKey, rest2, transcript, elapsedMs)
  }

  /** `geminiProvider.evaluate`: three models in order. A usable reply becomes
      the evaluation; an error on the last model returns the default
      evaluation naming it; otherwise the "All Gemini evaluation models
      failed" default. Never throws. */
  function Evaluate(h: Host, apiKey: string, script: seq<Outcome<Response>>, transcript: string, elapsedMs: int)
    : (r: (EvaluationResult, seq<Outcome<Response>>))
    ensures WellFormed(r.0, transcript)
    ensures Trim(apiKey) == "" ==> r == (DefaultEvaluation("Gemini evaluation failed: " + MissingKeyMessage), script)
    ensures TryModel(h, apiKey, PrimaryModel, script).0.Usable? ==>
              r.0 == EvaluationFromReply(h, TryModel(h, apiKey, PrimaryModel, script).0.parsed, transcript,
                                         "gemini", PrimaryModel, elapsedMs)
    ensures var p1 := TryModel(h, apiKey, PrimaryModel, script);
            var p2 := TryModel(h, apiKey, FallbackModel, p1.1);
            && (p1.0.Usable? ==> r.1 == p1.1)
            && (!p1.0.Usable? && p2.0.Usable? ==>
                  && r.0 == EvaluationFromReply(h, p2.0.parsed, transcript, "gemini", FallbackModel, elapsedMs)
                  && r.1 == p2.1)
    ensures var p1 := TryModel(h, apiKey, PrimaryModel, script);
            var p2 := TryModel(h, apiKey, FallbackModel, p1.1);
            var p3 := TryModel(h, apiKey, LastResortModel, p2.1);
            !p1.0.Usable? && !p2.0.Usable? ==>
              && r.1 == p3.1
              && (p3.0.Usable? ==>
                    r.0 == EvaluationFromReply(h, p3.0.parsed, transcript, "gemini", LastResortModel, elapsedMs))
              && (p3.0.Failed? ==> r.0 == DefaultEvaluation("Gemini evaluation failed: " + p3.0.message))
              && (p3.0.Unusable? ==> r.0 == DefaultEvaluation("All Gemini evaluation models failed"))
    ensures |script| - |r.1| <= 3
  {
    var (a1, rest1) := TryModel(h, apiKey, PrimaryModel, script);
    if a1.Usable? then (EvaluationFromReply(h, a1.parsed, transcript, "gemini", PrimaryModel, elapsedMs), rest1)
    else AfterPrimary(h, apiKey, rest1, transcript, elapsedMs)
  }
}

=== FILE: groq.dfy ===
/** The Groq adapter: Whisper transcription and a two-model evaluation that
    degrades to the default evaluation instead of throwing. The SDK calls are
    scripted replies; constructing the SDK client may fail before any call. */
module Groq {
  import opened Base
  import opened Text
  import opened Js
  import opened Provider

  const SttModel := "whisper-large-v3-turbo"
  const EvaluationModel := "llama-3.3-70b-versatile"
  const EvaluationFallbackModel := "llama-3.1-8b-instant"

  /** The verbose transcription object; `language` and `duration` may be absent. */
  datatype Transcription = Transcription(text: string, language: Option<string>, duration: Option<real>)

  /** The file extension the upload is named with, chosen from the MIME type. */
  function AudioExtension(mimeType: string): (r: string)
    ensures Contains(mimeType, "wav") ==> r == "wav"
    ensures !Contains(mimeType, "wav") && Contains(mimeType, "mp3") ==> r == "mp3"
    ensures !Contains(mimeType, "wav") && !Contains(mimeType, "mp3") ==> r == "webm"
  {
    if Contains(mimeType, "wav") then "wav" else if Contains(mimeType, "mp3") then "mp3" else "webm"
  }

  /** `groqProvider.transcribe`: a client failure or a failed request throws;
      otherwise the transcript is passed through, language defaulting to "en"
      and duration to 0. Consumes one scripted reply when the client exists. */
  function Transcribe(clientError: Option<string>, script: seq<Outcome<Transcription>>, elapsedMs: int)
    : (r: (Outcome<SttResult>, seq<Outcome<Transcription>>))
    ensures clientError.Some? ==> r.0 == Throw(clientError.value) && r.1 == script
    ensures clientError.None? ==> r.1 == Next(script).1
    ensures clientError.None? && Next(script).0.Throw? ==> r.0 == Throw(Next(script).0.message)
    ensures r.0.Return? ==>
      var t := Next(script).0.value;
      && r.0.value.transcript == t.text
      && r.0.value.language == t.language.GetOr("en")
      && r.0.value.durationSeconds == t.duration.GetOr(0.0)
      && r.0.value.provider == "groq" && r.0.value.model == SttModel
  {
    if clientError.Some? then (Throw(clientError.value), script)
    else
      var (reply, rest) := Next(script);
      match reply
      case Throw(m) => (Throw(m), rest)
      case Return(t) =>
        (Return(SttResult(t.text, t.language.GetOr("en"), t.duration.GetOr(0.0), "groq", SttModel, elapsedMs)), rest)
  }

  /** One chat completion: the message content (missing content reads as ""),
      parsed by `parseEvaluationJSON` and, when that finds nothing, by a bare
      `JSON.parse` whose SyntaxError counts as a failure of the model. */
  function ReadReply(h: Host, reply: Outcome<Option<string>>): (a: Attempt)
    ensures reply.Throw? ==> a == Failed(reply.message)
    ensures reply.Return? && ParseEvaluationJSON(h, reply.value.GetOr("")).Some? ==>
              a == Classify(ParseEvaluationJSON(h, reply.value.GetOr("")))
    ensures a.Failed? && reply.Return? ==>
              var text := reply.value.GetOr("");
              ParseEvaluationJSON(h, text).None? && h.parse(text).None? && a.message == h.parseError(text)
    ensures a.Usable? ==> HasScore(a.parsed)
  {
    match reply
    case Throw(m) => Failed(m)
    case Return(content) =>
      var text := content.GetOr("");
      var extracted := ParseEvaluationJSON(h, text);
      if extracted.Some? then Classify(extracted)
      else
        var whole := h.parse(text);
        if whole.None? then Failed(h.parseError(text)) else Classify(whole)
  }

  /** `groqProvider.evaluate`: the primary model, then the smaller one. A usable
      reply becomes the evaluation; an error on the fallback model returns the
      default evaluation naming the error; two unusable replies (or an error
      then an unusable reply) return the "All Groq models failed" default.
      Only a client failure throws. */
  function Evaluate(h: Host, clientError: Option<string>, script: seq<Outcome<Option<string>>>,
                    transcript: string, elapsedMs: int)
    : (r: (Outcome<EvaluationResult>, seq<Outcome<Option<string>>>))
    ensures clientError.Some? <==> r.0.Throw?
    ensures clientError.Some? ==> r.0.message == clientError.value && r.1 == script
    ensures r.0.Return? ==> r.0.value.provider in {"groq", "fallback"}
    ensures r.0.Return? && r.0.value.provider == "groq" ==>
              && r.0.value.model in {EvaluationModel, EvaluationFallbackModel}
              && r.0.value.transcript == transcript
              && AllScoresIn(r.0.value.score, 0.0, 5.0) && AllTenths(r.0.value.score)
    ensures r.0.Return? && r.0.value.provider == "fallback" ==> r.0.value.score == NeutralScores
    ensures clientError.None? && ReadReply(h, Next(script).0).Usable? ==>
              r.0 == Return(EvaluationFromReply(h, ReadReply(h, Next(script).0).parsed, transcript, "groq",
                                                EvaluationModel, elapsedMs))
              && r.1 == Next(script).1
    ensures clientError.None? && !ReadReply(h, Next(script).0).Usable? ==>
              var a2 := ReadReply(h, Next(Next(script).1).0);
              && r.1 == Next(Next(script).1).1
              && (a2.Usable? ==>
                    r.0 == Return(EvaluationFromReply(h, a2.parsed, transcript, "groq",
                                                      EvaluationFallbackModel, elapsedMs)))
              && (a2.Failed? ==> r.0 == Return(DefaultEvaluation("Groq evaluation failed: " + a2.message)))
              && (a2.Unusable? ==> r.0 == Return(DefaultEvaluation("All Groq models failed")))
  {
    if clientError.Some? then (Throw(clientError.value), script)
    else
      var (first, rest1) := Next(script);
      match ReadReply(h, first)
      case Usable(p) => (Return(EvaluationFromReply(h, p, transcript, "groq", EvaluationModel, elapsedMs)), rest1)
      case _ =>
        var (second, rest2) := Next(rest1);
        match ReadReply(h, second)
        case Usable(p) =>
          (Return(EvaluationFromReply(h, p, transcript, "groq", EvaluationFallbackModel, elapsedMs)), rest2)
        case Failed(m) => (Return(DefaultEvaluation("Groq evaluation failed: " + m)), rest2)
        case Unusable => (Return(DefaultEvaluation("All Groq models failed")), rest2)
  }

  /** When both models' requests throw, the evaluation is the default one and
      its reason names the second error. */
  lemma EvaluateBothThrow(h: Host, m1: string, m2: string, rest: seq<Outcome<Option<string>>>, transcript: string, elapsedMs: int)
    ensures var r := Evaluate(h, None, [Throw(m1), Throw(m2)] + rest, transcript, elapsedMs);
            && r.0 == Return(DefaultEvaluation("Groq evaluation failed: " + m2))
            && r.1 == rest
  {
    var s := [Throw(m1), Throw(m2)] + rest;
    assert s[1..][1..] == rest;
  }
}

=== FILE: interview_store.dfy ===
/** The candidate-side interview state: the session, the phase, the question
    cursor, the recorded answers, the violation count and the final result.
    Every action is a function from the state before to the state after. */
module InterviewStore {
  import opened Base

  datatype Phase = Loading | Welcome | MicCheck | InProgress | Uploading | Completed | Terminated

  datatype Question = Question(id: string, text: string, category: string, difficulty: string,
                               timeLimitSeconds: int, orderIndex: int)

  /** A recording, known only by its size and type. */
  datatype Blob = Blob(size: nat, mime: string)

  /** `score` is `None` when the property is absent or `undefined`. */
  datatype Answer = Answer(questionId: string, audioBlob: Option<Blob>, durationSeconds: real,
                           uploaded: bool, score: Option<real>)

  /** A `Partial<InterviewAnswer>`: `None` is a property that is not given.
      `score` may be given as `undefined`, which is `Some(None)`. */
  datatype AnswerPatch = AnswerPatch(questionId: Option<string>, audioBlob: Option<Option<Blob>>,
                                     durationSeconds: Option<real>, uploaded: Option<bool>,
                                     score: Option<Option<real>>)

  datatype State = State(
    sessionId: Option<string>,
    token: Option<string>,
    candidateName: string,
    jobRoleTitle: string,
    orgName: string,
    phase: Phase,
    questions: seq<Question>,
    currentQuestionIndex: int,
    answers: map<string, Answer>,
    violations: int,
    maxViolations: int,
    overallScore: Option<real>,
    recommendation: Option<string>)

  const DefaultMaxViolations := 3

  /** The state the store starts in and `reset` returns to. */
  const Initial := State(None, None, "", "", "", Loading, [], 0, map[], 0, DefaultMaxViolations, None, None)

  datatype SessionData = SessionData(sessionId: string, token: string, candidateName: string,
                                     jobRoleTitle: string, orgName: string,
                                     questions: seq<Question>, maxViolations: int)

  /** The fields no session-level action touches. */
  predicate SameProgress(a: State, b: State) {
    a.currentQuestionIndex == b.currentQuestionIndex && a.answers == b.answers
    && a.violations == b.violations && a.overallScore == b.overallScore
    && a.recommendation == b.recommendation
  }

  /** `setSession(data)`. */
  function SetSession(st: State, data: SessionData): (r: State)
    ensures r.sessionId == Some(data.sessionId) && r.token == Some(data.token)
    ensures r.candidateName == data.candidateName && r.jobRoleTitle == data.jobRoleTitle
    ensures r.orgName == data.orgName && r.questions == data.questions
    ensures r.maxViolations == data.maxViolations && r.phase == Welcome
    ensures SameProgress(st, r)
  {
    st.(sessionId := Some(data.sessionId), token := Some(data.token),
        candidateName := data.candidateName, jobRoleTitle := data.jobRoleTitle,
        orgName := data.orgName, questions := data.questions,
        maxViolations := data.maxViolations, phase := Welcome)
  }

  /** `setPhase(phase)`. */
  function SetPhase(st: State, phase: Phase): (r: State)
    ensures r.phase == phase && r.(phase := st.phase) == st
  {
    st.(phase := phase)
  }

  /** `nextQuestion()`: advances unless the cursor is on the last question. */
  function NextQuestion(st: State): (r: State)
    ensures r.(currentQuestionIndex := st.currentQuestionIndex) == st
    ensures r.currentQuestionIndex == st.currentQuestionIndex
            || r.currentQuestionIndex == st.currentQuestionIndex + 1
    ensures r.currentQuestionIndex > st.currentQuestionIndex <==>
            st.currentQuestionIndex < |st.questions| - 1
  {
    if st.currentQuestionIndex < |st.questions| - 1 then
      st.(currentQuestionIndex := st.currentQuestionIndex + 1)
    else st
  }

  /** The cursor names a question, or there is none. */
  predicate CursorValid(st: State) {
    0 <= st.currentQuestionIndex && (|st.questions| == 0 || st.currentQuestionIndex < |st.questions|)
  }

  lemma NextQuestionKeepsCursor(st: State)
    requires CursorValid(st)
    ensures CursorValid(NextQuestion(st))
  {
  }

  function Repeat(st: State, n: nat): State
    decreases n
  {
    if n == 0 then st else NextQuestion(Repeat(st, n - 1))
  }

  /** From the first question, `n` calls land on question min(n, last). */
  lemma {:induction false} NextQuestionSaturates(st: State, n: nat)
    requires st.currentQuestionIndex == 0 && |st.questions| > 0
    ensures Repeat(st, n).currentQuestionIndex ==
            if n < |st.questions| - 1 then n else |st.questions| - 1
    ensures Repeat(st, n).questions == st.questions
    decreases n
  {
    if n > 0 {
      NextQuestionSaturates(st, n - 1);
    }
  }

  /** The entry a new answer starts from. */
  function BlankAnswer(questionId: string): Answer {
    Answer(questionId, None, 0.0, false, None)
  }

  /** `{ ...existing, ...patch }`. */
  function Merge(a: Answer, p: AnswerPatch): (r: Answer)
    ensures r.questionId == p.questionId.GetOr(a.questionId)
    ensures r.audioBlob == p.audioBlob.GetOr(a.audioBlob)
    ensures r.durationSeconds == p.durationSeconds.GetOr(a.durationSeconds)
    ensures r.uploaded == p.uploaded.GetOr(a.uploaded)
    ensures r.score == p.score.GetOr(a.score)
  {
    Answer(p.questionId.GetOr(a.questionId), p.audioBlob.GetOr(a.audioBlob),
           p.durationSeconds.GetOr(a.durationSeconds), p.uploaded.GetOr(a.uploaded),
           p.score.GetOr(a.score))
  }

  /** `saveAnswer(questionId, answer)`. */
  function SaveAnswer(st: State, questionId: string, patch: AnswerPatch): (r: State)
    ensures r.(answers := st.answers) == st
    ensures r.answers.Keys == st.answers.Keys + {questionId}
    ensures forall q :: q in st.answers && q != questionId ==> r.answers[q] == st.answers[q]
    ensures questionId in st.answers ==> r.answers[questionId] == Merge(st.answers[questionId], patch)
    ensures questionId !in st.answers ==>
              r.answers[questionId] == Merge(BlankAnswer(questionId), patch)
              && (patch.uploaded.None? ==> !r.answers[questionId].uploaded)
  {
    var existing := if questionId in st.answers then st.answers[questionId] else BlankAnswer(questionId);
    st.(answers := st.answers[questionId := Merge(existing, patch)])
  }

  /** `markAnswerUploaded(questionId, score)`. */
  function MarkAnswerUploaded(st: State, questionId: string, score: Option<real>): (r: State)
    ensures r.(answers := st.answers) == st
    ensures questionId !in st.answers ==> r == st
    ensures questionId in st.answers ==>
              r.answers == st.answers[questionId := st.answers[questionId].(uploaded := true, score := score)]
  {
    if questionId in st.answers then
      st.(answers := st.answers[questionId := st.answers[questionId].(uploaded := true, score := score)])
    else st
  }

  /** A saved answer, once marked, keeps the saved fields and is uploaded
      with that score, and marking it again changes nothing. */
  lemma SaveThenMark(st: State, questionId: string, patch: AnswerPatch, score: Option<real>)
    ensures var marked := MarkAnswerUploaded(SaveAnswer(st, questionId, patch), questionId, score);
            && marked.answers[questionId] ==
                 SaveAnswer(st, questionId, patch).answers[questionId].(uploaded := true, score := score)
            && marked.answers[questionId].uploaded
            && marked.answers[questionId].score == score
            && MarkAnswerUploaded(marked, questionId, score) == marked
  {
  }

  /** `addViolation()`. */
  function AddViolation(st: State): (r: State)
    ensures r.violations == st.violations + 1
    ensures r.violations >= st.maxViolations ==> r.phase == Terminated
    ensures r.violations < st.maxViolations ==> r.phase == st.phase
    ensures r.(violations := st.violations, phase := st.phase) == st
  {
    var next := st.violations + 1;
    if next >= st.maxViolations then st.(violations := next, phase := Terminated)
    else st.(violations := next)
  }

  function Violations(st: State, n: nat): State
    decreases n
  {
    if n == 0 then st else AddViolation(Violations(st, n - 1))
  }

  /** After `n` violations from a fresh count the interview is terminated
      exactly when `n` reaches the maximum; before that the phase stays. */
  lemma {:induction false} ViolationsTerminate(st: State, n: nat)
    requires st.violations == 0 && st.phase != Terminated
    ensures Violations(st, n).violations == n
    ensures Violations(st, n).maxViolations == st.maxViolations
    ensures Violations(st, n).phase == Terminated <==> n >= 1 && n >= st.maxViolations
    ensures n < st.maxViolations ==> Violations(st, n).phase == st.phase
    decreases n
  {
    if n > 0 {
      ViolationsTerminate(st, n - 1);
    }
  }

  /** `setResults(score, recommendation)`. */
  function SetResults(st: State, score: real, recommendation: string): (r: State)
    ensures r.overallScore == Some(score) && r.recommendation == Some(recommendation)
    ensures r.phase == Completed
    ensures r.(overallScore := st.overallScore, recommendation := st.recommendation, phase := st.phase) == st
  {
    st.(overallScore := Some(score), recommendation := Some(recommendation), phase := Completed)
  }

  /** `reset()`. */
  function Reset(st: State): (r: State)
    ensures r.phase == Loading && r.currentQuestionIndex == 0
    ensures r.violations == 0 && r.maxViolations == DefaultMaxViolations
    ensures r.answers == map[] && r.questions == []
  {
    Initial
  }

  /** Whatever happened before, a reset forgets it. */
  lemma ResetForgets(a: State, b: State)
    ensures Reset(a) == Reset(b)
    ensures CursorValid(Reset(a))
  {
  }
}

=== FILE: interview_timer.dfy ===
/** The per-question countdown: start, reset, pause, the one-second tick with
    its warning/danger/expired states, and the displayed time. */
module InterviewTimer {
  import opened Base
  import opened Text
  import Utils

  datatype TimerState = Idle | Running | Warning | Danger | Expired

  /** The hook's options; `warning` and `danger` default to 30 and 10. */
  datatype Options = Options(timeLimit: int, warning: int, danger: int)

  const DefaultWarning := 30
  const DefaultDanger := 10

  function WithDefaults(timeLimit: int, warning: Option<int>, danger: Option<int>): (r: Options)
    ensures warning.None? ==> r.warning == DefaultWarning
    ensures danger.None? ==> r.danger == DefaultDanger
    ensures r.timeLimit == timeLimit
  {
    Options(timeLimit, warning.GetOr(DefaultWarning), danger.GetOr(DefaultDanger))
  }

  /** `ticking` is whether an interval is installed. */
  datatype Timer = Timer(remaining: int, state: TimerState, ticking: bool)

  /** The state before any call. */
  function Fresh(o: Options): Timer {
    Timer(o.timeLimit, Idle, false)
  }

  /** `startTimer()`. */
  function Start(o: Options): (r: Timer)
    ensures r.remaining == o.timeLimit && r.state == Running && r.ticking
  {
    Timer(o.timeLimit, Running, true)
  }

  /** `resetTimer()`. */
  function Reset(o: Options): (r: Timer)
    ensures r.remaining == o.timeLimit && r.state == Idle && !r.ticking
  {
    Timer(o.timeLimit, Idle, false)
  }

  /** `pauseTimer()`: the interval is cleared, the time and state stay. */
  function Pause(t: Timer): (r: Timer)
    ensures !r.ticking && r.remaining == t.remaining && r.state == t.state
  {
    t.(ticking := false)
  }

  /** One interval callback; the flag says whether `onExpired` fired. Without
      an interval nothing happens. */
  function Tick(o: Options, t: Timer): (r: (Timer, bool))
    ensures !t.ticking ==> r == (t, false)
    ensures t.ticking && t.remaining - 1 <= 0 ==> r == (Timer(0, Expired, false), true)
    ensures t.ticking && t.remaining - 1 > 0 ==>
              && !r.1 && r.0.ticking && r.0.remaining == t.remaining - 1
              && r.0.state == (if t.remaining - 1 <= o.danger then Danger
                               else if t.remaining - 1 <= o.warning then Warning
                               else t.state)
  {
    if !t.ticking then (t, false)
    else
      var next := t.remaining - 1;
      if next <= 0 then (Timer(0, Expired, false), true)
      else if next <= o.danger then (Timer(next, Danger, true), false)
      else if next <= o.warning then (Timer(next, Warning, true), false)
      else (Timer(next, t.state, true), false)
  }

  /** A tick never leaves a negative time behind. */
  lemma TickNonNegative(o: Options, t: Timer)
    requires t.ticking
    ensures Tick(o, t).0.remaining >= 0
  {
  }

  /** `n` interval callbacks; the count of `onExpired` calls rides along. */
  function Run(o: Options, t: Timer, n: nat): (r: (Timer, nat))
    decreases n
  {
    if n == 0 then (t, 0)
    else
      var before := Run(o, t, n - 1);
      var after := Tick(o, before.0);
      (after.0, before.1 + if after.1 then 1 else 0)
  }

  /** The state a running timer shows with `x` seconds left. */
  function Shown(o: Options, x: int): TimerState {
    if x <= o.danger then Danger else if x <= o.warning then Warning else Running
  }

  /** After `n` seconds a started timer shows `timeLimit - n`, floored at 0;
      it expires at exactly `timeLimit` seconds, calling `onExpired` once,
      and until then its state follows the thresholds. */
  lemma {:induction false} RunFromStart(o: Options, n: nat)
    requires o.timeLimit >= 1
    ensures var r := Run(o, Start(o), n);
            && r.0.remaining == (if n >= o.timeLimit then 0 else o.timeLimit - n)
            && (r.0.state == Expired <==> n >= o.timeLimit)
            && r.0.ticking == (n < o.timeLimit)
            && r.1 == (if n >= o.timeLimit then 1 else 0)
            && (1 <= n < o.timeLimit ==> r.0.state == Shown(o, o.timeLimit - n))
            && (n == 0 ==> r.0.state == Running)
    decreases n
  {
    if n > 0 {
      RunFromStart(o, n - 1);
    }
  }

  /** `formattedTime`. */
  function FormattedTime(t: Timer): (r: string)
    ensures t.remaining >= 0 ==> ':' in r
  {
    Utils.FormatDuration(t.remaining)
  }

  /** The displayed time of a running timer reads back as its minutes and
      seconds. */
  lemma FormattedTimeReadsBack(o: Options, n: nat)
    requires o.timeLimit >= 1
    ensures var t := Run(o, Start(o), n).0;
            var parts := Split(FormattedTime(t), ':');
            && |parts| == 2
            && ParseInt(parts[0]) == Some(t.remaining / 60)
            && ParseInt(parts[1]) == Some(t.remaining % 60)
  {
    RunFromStart(o, n);
    Utils.FormatDurationReadsBack(Run(o, Start(o), n).0.remaining);
  }

  /** `isExpired`. */
  predicate IsExpired(t: Timer) {
    t.state == Expired
  }

  /** A started timer is expired exactly when its time is 0. */
  lemma ExpiredIffZero(o: Options, n: nat)
    requires o.timeLimit >= 1
    ensures IsExpired(Run(o, Start(o), n).0) <==> Run(o, Start(o), n).0.remaining == 0
  {
    RunFromStart(o, n);
  }
}

=== FILE: js.dfy ===
/** The JavaScript values the modelled code handles: parsed JSON, numbers after
    `Number(...)`, truthiness, property access and the `??` operator. The parts
    of the engine the model does not interpret are gathered in `Host`. */
module Js {
  import opened Base

  /** A value produced by `JSON.parse`. Object keys map to their last occurrence. */
  datatype Json =
    | JNull
    | JBool(b: bool)
    | JNum(n: real)
    | JStr(s: string)
    | JArr(items: seq<Json>)
    | JObj(fields: map<string, Json>)

  /** A JavaScript number: JSON only produces finite ones, `Number(...)` may not. */
  datatype JsNumber = NaN | PosInf | NegInf | Finite(r: real)

  /** The engine functions that stay uninterpreted:
      - `parse`: `JSON.parse`, `None` when it throws a SyntaxError;
      - `parseError`: the message of that SyntaxError;
      - `numberOfText`: `Number(s)` for a string `s`;
      - `stringOf`: `String(v)` for a number, array or object. */
  datatype Host = Host(
    parse: string -> Option<Json>,
    parseError: string -> string,
    numberOfText: string -> JsNumber,
    stringOf: Json -> string)

  /** JavaScript truthiness of a JSON value. */
  predicate Truthy(v: Json) {
    match v
    case JNull => false
    case JBool(b) => b
    case JNum(n) => n != 0.0
    case JStr(s) => s != ""
    case JArr(_) => true
    case JObj(_) => true
  }

  /** Truthiness of a property read, where `None` is `undefined`. */
  predicate TruthyOpt(v: Option<Json>) {
    v.Some? && Truthy(v.value)
  }

  /** `v[key]` for one of the data keys the modelled code reads; none of them is
      a built-in property of strings or arrays, so only objects have them.
      `None` is `undefined`. */
  function Get(v: Json, key: string): (r: Option<Json>)
    ensures r.Some? <==> v.JObj? && key in v.fields
  {
    if v.JObj? && key in v.fields then Some(v.fields[key]) else None
  }

  /** A property read on a value that may itself be `undefined`: `v?.[key]`. */
  function GetOpt(v: Option<Json>, key: string): Option<Json> {
    if v.Some? then Get(v.value, key) else None
  }

  /** `undefined` or `null`. */
  predicate IsNullish(v: Option<Json>) {
    v.None? || v.value.JNull?
  }

  /** `a ?? b`. */
  function Coalesce(a: Option<Json>, b: Option<Json>): (r: Option<Json>)
    ensures !IsNullish(a) ==> r == a
    ensures IsNullish(a) ==> r == b
  {
    if IsNullish(a) then b else a
  }

  /** `Number(v)` for a property read. */
  function ToNumber(h: Host, v: Option<Json>): (r: JsNumber)
    ensures v.None? ==> r == NaN
    ensures v == Some(JNull) ==> r == Finite(0.0)
    ensures (v.Some? && v.value.JNum?) ==> r == Finite(v.value.n)
  {
    match v
    case None => NaN
    case Some(JNull) => Finite(0.0)
    case Some(JBool(b)) => Finite(if b then 1.0 else 0.0)
    case Some(JNum(n)) => Finite(n)
    case Some(JStr(s)) => h.numberOfText(s)
    case Some(other) => h.numberOfText(h.stringOf(other))
  }

  /** `String(v)`. */
  function ToStr(h: Host, v: Json): (r: string)
    ensures v.JStr? ==> r == v.s
  {
    match v
    case JNull => "null"
    case JBool(b) => if b then "true" else "false"
    case JStr(s) => s
    case _ => h.stringOf(v)
  }

  /** `Array.isArray(v) ? v.map(String) : []` for a property read. */
  function StringsOf(h: Host, v: Option<Json>): (r: seq<string>)
    ensures (v.Some? && v.value.JArr?) ==> |r| == |v.value.items|
    ensures !(v.Some? && v.value.JArr?) ==> r == []
  {
    if v.Some? && v.value.JArr? then seq(|v.value.items|, k requires 0 <= k < |v.value.items| => ToStr(h, v.value.items[k]))
    else []
  }
}

=== FILE: media.dfy ===
/** The media proxy's checks: who may read which storage key, and how the
    upstream answer is passed on. */
module Media {
  import opened Base
  import opened Text
  import StorageKeys

  /** The authenticated administrator, reduced to the organisation. */
  datatype Admin = Admin(orgId: string)

  /** What storage answered for a signed-URL fetch. */
  datatype Upstream = Upstream(status: int, contentType: Option<string>)

  datatype Response =
    | Error(status: int, error: string)
    | Passthrough(status: int, contentType: string)

  /** `response.ok`. */
  predicate Ok(status: int) { 200 <= status <= 299 }

  /** The checks that run before storage is contacted: `None` when the key
      may be fetched, otherwise the error answer. */
  function Guard(auth: Option<Admin>, key: Option<string>): (r: Option<Response>)
    ensures auth.None? ==> r == Some(Error(401, "Unauthorized"))
    ensures auth.Some? && (key.None? || key.value == "") ==> r == Some(Error(400, "Missing key parameter"))
    ensures auth.Some? && key.Some? && key.value != "" ==>
              var parts := Split(key.value, '/');
              && (|parts| < 3 ==> r == Some(Error(400, "Invalid key format")))
              && (|parts| >= 3 && parts[1] != auth.value.orgId ==> r == Some(Error(403, "Forbidden")))
              && (|parts| >= 3 && parts[1] == auth.value.orgId ==> r.None?)
  {
    if auth.None? then Some(Error(401, "Unauthorized"))
    else if key.None? || key.value == "" then Some(Error(400, "Missing key parameter"))
    else
      var parts := Split(key.value, '/');
      if |parts| < 3 then Some(Error(400, "Invalid key format"))
      else if parts[1] != auth.value.orgId then Some(Error(403, "Forbidden"))
      else None
  }

  /** The GET handler. `upstream` is only consulted once the guard passes;
      a failed signing or fetch is a 500, an upstream status that is neither
      ok nor 206 is a 404, anything else is passed through. */
  function Get(auth: Option<Admin>, key: Option<string>, upstream: Outcome<Upstream>): (r: (Response, bool))
    ensures r.1 <==> Guard(auth, key).None?
    ensures !r.1 ==> r.0 == Guard(auth, key).value
    ensures r.1 && upstream.Throw? ==> r.0 == Error(500, "Failed to load media")
    ensures r.1 && upstream.Return? && !Ok(upstream.value.status) && upstream.value.status != 206 ==>
              r.0 == Error(404, "Media not found")
    ensures r.1 && upstream.Return? && Ok(upstream.value.status) ==>
              var ct := upstream.value.contentType;
              r.0 == Passthrough(upstream.value.status,
                                 if ct.Some? && ct.value != "" then ct.value else "application/octet-stream")
  {
    match Guard(auth, key)
    case Some(e) => (e, false)
    case None =>
      match upstream
      case Throw(_) => (Error(500, "Failed to load media"), true)
      case Return(u) =>
        if !Ok(u.status) && u.status != 206 then (Error(404, "Media not found"), true)
        else
          var ct := if u.contentType.Some? && u.contentType.value != "" then u.contentType.value else "application/octet-stream";
          (Passthrough(u.status, ct), true)
  }

  /** A key with at least three segments is decided by its organisation
      segment alone. */
  lemma GuardByOrg(a: Admin, key: string)
    requires key != "" && |Split(key, '/')| >= 3
    ensures Guard(Some(a), Some(key)) == if Split(key, '/')[1] == a.orgId then None else Some(Error(403, "Forbidden"))
  {
  }

  /** Every audio key generated for an organisation (with slash-free ids)
      passes that organisation's guard. */
  lemma GeneratedKeyAccepted(orgId: string, sessionId: string, questionIndex: int, timestamp: int)
    requires '/' !in orgId && '/' !in sessionId
    ensures Guard(Some(Admin(orgId)), Some(StorageKeys.AudioKey(orgId, sessionId, questionIndex, timestamp))).None?
  {
    var key := StorageKeys.AudioKey(orgId, sessionId, questionIndex, timestamp);
    StorageKeys.AudioKeySegments(orgId, sessionId, questionIndex, timestamp);
    assert |key| >= 6;
    GuardByOrg(Admin(orgId), key);
  }

  /** An administrator of another organisation is refused such a key. */
  lemma GeneratedKeyForeignOrg(orgId: string, other: string, sessionId: string, questionIndex: int, timestamp: int)
    requires '/' !in orgId && '/' !in sessionId && other != orgId
    ensures Guard(Some(Admin(other)), Some(StorageKeys.AudioKey(orgId, sessionId, questionIndex, timestamp)))
            == Some(Error(403, "Forbidden"))
  {
    var key := StorageKeys.AudioKey(orgId, sessionId, questionIndex, timestamp);
    StorageKeys.AudioKeySegments(orgId, sessionId, questionIndex, timestamp);
    assert |key| >= 6;
    GuardByOrg(Admin(other), key);
  }
}

=== FILE: middleware.dfy ===
/** Route protection in front of the pages: which paths belong to the admin
    area, and the redirect to the login page when no session cookie is sent. */
module Middleware {
  import opened Text

  /** The admin sections that follow the organisation segment. */
  const Sections: seq<string> :=
    ["interviews", "candidates", "job-roles", "questions", "settings", "audit", "team"]

  /** Single-segment paths with one of these prefixes are public. */
  const PublicPrefixes: seq<string> := ["/admin", "/interview", "/setup", "/login", "/auth"]

  /** The cookie names that count as a session. */
  const SessionCookies: seq<string> := [
    "authjs.session-token", "__Secure-authjs.session-token",
    "next-auth.session-token", "__Secure-next-auth.session-token"]

  const LoginPath := "/admin/login"

  /** `^/[^/]+/(interviews|...|team)`: a first segment, then a section name as
      a prefix of the rest. */
  predicate SectionRoute(path: string) {
    |path| >= 1 && path[0] == '/' &&
    var i := IndexOf(path[1..], '/');
    i >= 1 && exists w :: w in Sections && StartsWith(path[i + 2..], w)
  }

  /** `^/[^/]+$`: one non-empty segment. */
  predicate SingleSegment(path: string) {
    |path| >= 2 && path[0] == '/' && '/' !in path[1..]
  }

  /** `isAdminRoute`. */
  predicate IsAdminRoute(path: string) {
    SectionRoute(path) ||
    (SingleSegment(path) && forall p :: p in PublicPrefixes ==> !StartsWith(path, p))
  }

  datatype Action = Pass | Redirect(location: string, callbackUrl: string)

  /** Whether any session cookie name is present; the values are never read. */
  predicate HasSession(cookies: map<string, string>) {
    exists name :: name in SessionCookies && name in cookies
  }

  /** `middleware(request)` for a request that reached it. */
  function Decide(path: string, cookies: map<string, string>): (r: Action)
    ensures r.Redirect? <==> IsAdminRoute(path) && !HasSession(cookies)
    ensures r.Redirect? ==> r.location == LoginPath && r.callbackUrl == path
  {
    if IsAdminRoute(path) && !HasSession(cookies) then Redirect(LoginPath, path) else Pass
  }

  /** Only the cookie names matter, never their values. */
  lemma DecideIgnoresValues(path: string, a: map<string, string>, b: map<string, string>)
    requires a.Keys == b.Keys
    ensures Decide(path, a) == Decide(path, b)
  {
    assert HasSession(a) ==> HasSession(b);
    assert HasSession(b) ==> HasSession(a);
  }

  /** The shape `/org/more` seen by the two patterns. */
  lemma OrgPath(org: string, more: string)
    requires |org| > 0 && '/' !in org
    ensures var path := "/" + org + "/" + more;
            && path[0] == '/' && IndexOf(path[1..], '/') == |org|
            && path[|org| + 2..] == more
            && !SingleSegment(path)
  {
    var path := "/" + org + "/" + more;
    Nest("/", org, "/", more);
    DropPrefix("/", org + "/" + more);
    IndexOfCons(org, '/', more);
    Regroup("/", org, "/", more);
    DropPrefix("/" + org + "/", more);
    assert path[1..][|org|] == '/';
  }

  /** Every path under an organisation's admin section is protected, whatever
      follows the section name. */
  lemma SectionPathsProtected(org: string, section: string, tail: string)
    requires |org| > 0 && '/' !in org && section in Sections
    ensures IsAdminRoute("/" + org + "/" + (section + tail))
  {
    OrgPath(org, section + tail);
    assert (section + tail)[..|section|] == section;
  }

  /** `/org/more` is protected exactly when `more` starts with a section. */
  lemma OrgPathProtectedIff(org: string, more: string)
    requires |org| > 0 && '/' !in org
    ensures IsAdminRoute("/" + org + "/" + more) <==> exists w :: w in Sections && StartsWith(more, w)
  {
    OrgPath(org, more);
  }

  lemma Nest<T>(a: seq<T>, b: seq<T>, c: seq<T>, d: seq<T>)
    ensures a + b + c + d == a + (b + c + d)
  {
  }

  lemma Regroup<T>(a: seq<T>, b: seq<T>, c: seq<T>, d: seq<T>)
    ensures a + b + c + d == (a + b + c) + d
  {
  }

  lemma DropPrefix<T>(a: seq<T>, b: seq<T>)
    ensures (a + b)[|a|..] == b
  {
  }

  /** The root is not an admin page. */
  lemma RootIsPublic()
    ensures !IsAdminRoute("/")
    ensures Decide("/", map[]) == Pass
  {
  }

  /** A single segment that starts like a public page is public, so
      "/interviewer" is not protected. */
  lemma PublicPrefixIsPublic(path: string, p: string)
    requires p in PublicPrefixes && StartsWith(path, p) && !SectionRoute(path)
    ensures !IsAdminRoute(path)
  {
  }

  /** The login page, "/admin/login", itself never redirects, so there is no
      redirect loop. */
  lemma LoginPageNeverRedirects(cookies: map<string, string>)
    ensures Decide("/" + "admin" + "/" + "login", cookies) == Pass
  {
    OrgPathProtectedIff("admin", "login");
    forall w | w in Sections
      ensures !StartsWith("login", w)
    {
      if w == "audit" { assert "login"[0] != w[0]; }
      if w == "team" { assert "login"[0] != w[0]; }
    }
  }

  /** A one-segment page outside the public prefixes is protected. */
  lemma OrgHomeProtected(org: string)
    requires |org| > 0 && '/' !in org
    requires forall p :: p in PublicPrefixes ==> !StartsWith("/" + org, p)
    ensures IsAdminRoute("/" + org)
    ensures Decide("/" + org, map[]) == Redirect(LoginPath, "/" + org)
  {
    assert ("/" + org)[1..] == org;
  }
}

=== FILE: provider.dfy ===
/** The provider-independent pieces of answer evaluation: result records, the
    neutral default evaluation, score clamping, extraction of the JSON span from
    a model's reply, and the evaluation prompt. */
module Provider {
  import opened Base
  import opened Text
  import opened Js
  import opened Rounding

  /** The five scored dimensions, each on the 0-5 scale. */
  datatype Scores = Scores(
    clarity: real,
    relevance: real,
    confidence: real,
    technicalFit: real,
    communication: real)

  /** What a transcription provider reports. */
  datatype SttResult = SttResult(
    transcript: string,
    language: string,
    durationSeconds: real,
    provider: string,
    model: string,
    latencyMs: int)

  /** What an evaluation provider reports. `scoreJustification` is whatever
      object the model returned, passed on without inspection. */
  datatype EvaluationResult = EvaluationResult(
    transcript: string,
    score: Scores,
    scoreJustification: Json,
    summary: string,
    strengths: seq<string>,
    risks: seq<string>,
    recommendation: string,
    provider: string,
    model: string,
    latencyMs: int)

  /** The five dimension names, in the order the score object lists them. */
  const DimensionKeys: seq<string> := ["clarity", "relevance", "confidence", "technical_fit", "communication"]

  /** `Object.entries(score)`: the dimensions with their values, in key order. */
  function ScoreEntries(s: Scores): (r: seq<(string, real)>)
    ensures |r| == 5
    ensures forall k :: 0 <= k < 5 ==> r[k].0 == DimensionKeys[k]
  {
    [("clarity", s.clarity), ("relevance", s.relevance), ("confidence", s.confidence),
     ("technical_fit", s.technicalFit), ("communication", s.communication)]
  }

  predicate AllScoresIn(s: Scores, lo: real, hi: real) {
    && lo <= s.clarity <= hi && lo <= s.relevance <= hi && lo <= s.confidence <= hi
    && lo <= s.technicalFit <= hi && lo <= s.communication <= hi
  }

  predicate AllTenths(s: Scores) {
    IsTenths(s.clarity) && IsTenths(s.relevance) && IsTenths(s.confidence)
    && IsTenths(s.technicalFit) && IsTenths(s.communication)
  }

  // ---------------------------------------------------------------------------
  // Default evaluation
  // ---------------------------------------------------------------------------

  const NeutralScores := Scores(3.0, 3.0, 3.0, 3.0, 3.0)

  const SummaryPrefix := "Evaluation pending manual review. Reason: "

  /** The neutral evaluation used whenever no provider produced one: every
      dimension at the midpoint 3, the reason as every justification and inside
      the summary, recommendation "maybe", provenance "fallback"/"none". */
  function DefaultEvaluation(reason: string): (r: EvaluationResult)
    ensures r.score == NeutralScores
    ensures r.recommendation == "maybe" && r.provider == "fallback" && r.model == "none"
    ensures r.latencyMs == 0 && r.transcript == ""
    ensures r.scoreJustification.JObj?
    ensures forall k :: 0 <= k < |DimensionKeys| ==>
              DimensionKeys[k] in r.scoreJustification.fields
              && r.scoreJustification.fields[DimensionKeys[k]] == JStr(reason)
    ensures r.summary != "" && Contains(r.summary, reason)
    ensures r.strengths == ["Unable to evaluate automatically"] && r.risks == ["Requires manual review"]
  {
    var why := JStr(reason);
    ContainsMiddle(SummaryPrefix, reason, "");
    assert SummaryPrefix + reason == SummaryPrefix + reason + "";
    EvaluationResult(
      "",
      NeutralScores,
      JObj(map["clarity" := why, "relevance" := why, "confidence" := why,
               "technical_fit" := why, "communication" := why]),
      SummaryPrefix + reason,
      ["Unable to evaluate automatically"],
      ["Requires manual review"],
      "maybe",
      "fallback",
      "none",
      0)
  }

  // ---------------------------------------------------------------------------
  // Score clamping
  // ---------------------------------------------------------------------------

  function Min(a: real, b: real): real { if a <= b then a else b }
  function Max(a: real, b: real): real { if a >= b then a else b }

  /** `clampScore` applied to `Number(value)`: NaN becomes the midpoint 3;
      otherwise the value is rounded to one decimal and bounded to [0, 5]. */
  function ClampScore(n: JsNumber): (r: real)
    ensures 0.0 <= r <= 5.0
    ensures IsTenths(r)
    ensures n.NaN? ==> r == 3.0
    ensures n.PosInf? ==> r == 5.0
    ensures n.NegInf? ==> r == 0.0
    ensures n.Finite? && n.r >= 5.0 ==> r == 5.0
    ensures n.Finite? && n.r <= 0.0 ==> r == 0.0
    ensures n.Finite? && 0.0 <= n.r <= 5.0 ==> n.r - 0.05 < r <= n.r + 0.05
  {
    match n
    case NaN => 3.0
    case PosInf => 5.0
    case NegInf => 0.0
    case Finite(x) =>
      var t := Round(x * 10.0);
      assert (t as real / 10.0) * 10.0 == t as real;
      Max(0.0, Min(5.0, t as real / 10.0))
  }

  /** The number of tenths in a clamped score. */
  function Tenths(r: real): int {
    (r * 10.0).Floor
  }

  /** A clamped score is a whole number of tenths between 0 and 50. */
  lemma ClampScoreTenths(n: JsNumber)
    ensures 0 <= Tenths(ClampScore(n)) <= 50
    ensures ClampScore(n) == Tenths(ClampScore(n)) as real / 10.0
  {
  }

  /** Clamping a clamped score changes nothing. */
  lemma ClampScoreIdempotent(n: JsNumber)
    ensures ClampScore(Finite(ClampScore(n))) == ClampScore(n)
  {
    var r := ClampScore(n);
    var t := Tenths(r);
    ClampScoreTenths(n);
    assert r * 10.0 == t as real;
    RoundInt(t);
    assert Round(r * 10.0) == t;
  }

  /** Clamping preserves the order of finite inputs. */
  lemma ClampScoreMonotone(x: real, y: real)
    requires x <= y
    ensures ClampScore(Finite(x)) <= ClampScore(Finite(y))
  {
    RoundMonotone(x * 10.0, y * 10.0);
  }

  /** The boundary cases the evaluation relies on. */
  lemma ClampScoreExamples()
    ensures ClampScore(Finite(7.0)) == 5.0
    ensures ClampScore(Finite(-5.0)) == 0.0
    ensures ClampScore(Finite(3.27)) == 3.3
    ensures ClampScore(NaN) == 3.0
  {
    assert Round(32.7) == 33;
  }

  // ---------------------------------------------------------------------------
  // Finding the JSON in a model reply
  // ---------------------------------------------------------------------------

  const Fence := "```"

  predicate FenceAt(text: string, i: int) {
    OccursAt(text, Fence, i)
  }

  /** No code fence starts at an index in [a, b). */
  predicate NoFence(text: string, a: int, b: int) {
    forall k :: a <= k < b ==> !FenceAt(text, k)
  }

  /** Where the captured group of /```(?:json)?\s*([\s\S]*?)```/ starts for an
      opening fence at `o`: after an optional "json" tag and all the whitespace
      that follows it. */
  function CaptureStart(text: string, o: nat): (q: nat)
    requires FenceAt(text, o)
    ensures o + 3 <= q <= |text|
  {
    var a := if StartsWith(text[o + 3..], "json") then o + 7 else o + 3;
    a + LeadingWs(text[a..])
  }

  /** The first fence at or after `from`, or -1. */
  function NextFence(text: string, from: nat): (c: int)
    ensures c == -1 || (from <= c && FenceAt(text, c))
    ensures NoFence(text, from, if c == -1 then |text| else c)
    decreases |text| - from
  {
    if from + 3 > |text| then -1
    else if FenceAt(text, from) then from
    else NextFence(text, from + 1)
  }

  /** A fenced match: opening fence, start of the captured text, closing fence. */
  datatype FenceMatch = FenceMatch(open: nat, start: nat, close: nat)

  /** The leftmost match of /```(?:json)?\s*([\s\S]*?)```/ whose opening fence is
      at or after `p`. The lazy group ends at the first fence after its start. */
  function FencedFrom(text: string, p: nat): (r: Option<FenceMatch>)
    ensures r.Some? ==>
      && p <= r.value.open && FenceAt(text, r.value.open)
      && r.value.start == CaptureStart(text, r.value.open)
      && r.value.start <= r.value.close && FenceAt(text, r.value.close)
      && NoFence(text, r.value.start, r.value.close)
    ensures forall o :: p <= o && FenceAt(text, o) && (r.None? || o < r.value.open) ==>
      NoFence(text, CaptureStart(text, o), |text|)
    decreases |text| - p
  {
    var o := NextFence(text, p);
    if o < 0 then None
    else
      var q := CaptureStart(text, o);
      var c := NextFence(text, q);
      if c < 0 then
        var r := FencedFrom(text, o + 1);
        forall o' | p <= o' && FenceAt(text, o') && (r.None? || o' < r.value.open)
          ensures NoFence(text, CaptureStart(text, o'), |text|)
        {
          assert o <= o';
        }
        r
      else
        Some(FenceMatch(o, q, c))
  }

  /** The span of /(\{[\s\S]*\})/: from the first '{' to the last '}' after it,
      as the indices of those two braces. */
  function BraceSpan(text: string): (r: Option<(nat, nat)>)
    ensures r.Some? ==>
      && r.value.0 < r.value.1 < |text|
      && text[r.value.0] == '{' && text[r.value.1] == '}'
      && '{' !in text[..r.value.0] && '}' !in text[r.value.1 + 1..]
    ensures r.None? <==> forall i, j :: 0 <= i < j < |text| ==> !(text[i] == '{' && text[j] == '}')
  {
    var i := IndexOf(text, '{');
    var j := LastIndexOf(text, '}', |text| - 1);
    if i >= 0 && j > i then
      assert forall k :: j < k < |text| ==> text[k] != '}';
      Some((i, j))
    else if i < 0 then
      NotAtAnyIndex(text, '{');
      None
    else
      forall a, b | 0 <= a < b < |text| ensures !(text[a] == '{' && text[b] == '}') {
        if text[a] == '{' {
          IndexOfFirst(text, '{', a);
        }
      }
      None
  }

  /** The text `parseEvaluationJSON` hands to `JSON.parse`: a fenced block when
      there is one, otherwise the outermost brace span. */
  function EvaluationSpan(text: string): (r: Option<string>)
    ensures var f := FencedFrom(text, 0); f.Some? ==> r == Some(text[f.value.start..f.value.close])
    ensures var f, b := FencedFrom(text, 0), BraceSpan(text);
            f.None? && b.Some? ==> r == Some(text[b.value.0..b.value.1 + 1])
    ensures r.None? <==> FencedFrom(text, 0).None? && BraceSpan(text).None?
  {
    var f := FencedFrom(text, 0);
    if f.Some? then Some(text[f.value.start..f.value.close])
    else
      var b := BraceSpan(text);
      if b.Some? then Some(text[b.value.0..b.value.1 + 1]) else None
  }

  /** `parseEvaluationJSON`: never throws; `None` when there is no span, when
      the span is not valid JSON, or when it parses to `null`. */
  function ParseEvaluationJSON(h: Host, text: string): (r: Option<Json>)
    ensures EvaluationSpan(text).None? ==> r.None?
    ensures EvaluationSpan(text).Some? ==>
      (r.Some? <==> (h.parse(EvaluationSpan(text).value).Some?
                     && h.parse(EvaluationSpan(text).value).value != JNull))
    ensures r.Some? ==> r == h.parse(EvaluationSpan(text).value) && r.value != JNull
  {
    match EvaluationSpan(text)
    case None => None
    case Some(span) =>
      match h.parse(span)
      case None => None
      case Some(JNull) => None
      case Some(v) => Some(v)
  }

  // ---------------------------------------------------------------------------
  // Turning a parsed reply into an evaluation (shared by both providers)
  // ---------------------------------------------------------------------------

  /** One dimension of a parsed score object, through `clampScore`. */
  function DimensionScore(h: Host, score: Json, key: string): (r: real)
    ensures 0.0 <= r <= 5.0 && IsTenths(r)
    ensures Get(score, key).None? ==> r == 3.0
  {
    ClampScore(ToNumber(h, Get(score, key)))
  }

  /** The clamped scores of a parsed reply; `technical_fit` falls back to
      `technicalFit` when it is missing or null. */
  function ScoresFrom(h: Host, score: Json): (r: Scores)
    ensures AllScoresIn(r, 0.0, 5.0) && AllTenths(r)
    ensures !IsNullish(Get(score, "technical_fit")) ==> r.technicalFit == DimensionScore(h, score, "technical_fit")
    ensures IsNullish(Get(score, "technical_fit")) ==> r.technicalFit == DimensionScore(h, score, "technicalFit")
  {
    Scores(
      DimensionScore(h, score, "clarity"),
      DimensionScore(h, score, "relevance"),
      DimensionScore(h, score, "confidence"),
      ClampScore(ToNumber(h, Coalesce(Get(score, "technical_fit"), Get(score, "technicalFit")))),
      DimensionScore(h, score, "communication"))
  }

  /** A reply is usable when it parsed to a value with a truthy `score`. */
  predicate HasScore(parsed: Json) {
    Truthy(parsed) && TruthyOpt(Get(parsed, "score"))
  }

  /** The evaluation a provider builds from a usable reply: scores clamped,
      a missing summary becomes "", a missing recommendation "maybe",
      non-array strengths and risks become empty lists. */
  function EvaluationFromReply(h: Host, parsed: Json, transcript: string, provider: string,
                               model: string, latencyMs: int): (r: EvaluationResult)
    requires HasScore(parsed)
    ensures r.transcript == transcript && r.provider == provider && r.model == model
    ensures AllScoresIn(r.score, 0.0, 5.0) && AllTenths(r.score)
    ensures IsNullish(Get(parsed, "summary")) ==> r.summary == ""
    ensures Get(parsed, "summary").Some? && Get(parsed, "summary").value.JStr? ==>
              r.summary == Get(parsed, "summary").value.s
    ensures IsNullish(Get(parsed, "recommendation")) ==> r.recommendation == "maybe"
    ensures !(Get(parsed, "strengths").Some? && Get(parsed, "strengths").value.JArr?) ==> r.strengths == []
    ensures !(Get(parsed, "risks").Some? && Get(parsed, "risks").value.JArr?) ==> r.risks == []
  {
    var justification := Coalesce(Coalesce(Get(parsed, "scoreJustification"), Get(parsed, "score_justification")),
                                  Some(JObj(map[])));
    EvaluationResult(
      transcript,
      ScoresFrom(h, Get(parsed, "score").value),
      justification.value,
      ToStr(h, Coalesce(Get(parsed, "summary"), Some(JStr(""))).value),
      StringsOf(h, Get(parsed, "strengths")),
      StringsOf(h, Get(parsed, "risks")),
      ToStr(h, Coalesce(Get(parsed, "recommendation"), Some(JStr("maybe"))).value),
      provider,
      model,
      latencyMs)
  }

  /** How one model's reply fared: a usable parsed reply, a reply without a
      usable score (the next model is tried), or an error with its message. */
  datatype Attempt = Usable(parsed: Json) | Unusable | Failed(message: string)

  /** Classifies a parsed reply by the `parsed && parsed.score` test. */
  function Classify(parsed: Option<Json>): (a: Attempt)
    ensures a.Usable? <==> parsed.Some? && HasScore(parsed.value)
    ensures a.Usable? ==> a.parsed == parsed.value
    ensures !a.Failed?
  {
    if parsed.Some? && HasScore(parsed.value) then Usable(parsed.value) else Unusable
  }

  // ---------------------------------------------------------------------------
  // The evaluation prompt
  // ---------------------------------------------------------------------------

  const DefaultClarityHint := "How well-structured and articulate is the response?"
  const DefaultRelevanceHint := "Does the answer directly address the question?"
  const DefaultConfidenceHint := "How confident does the candidate sound?"
  const DefaultTechnicalFitHint := "Does the answer demonstrate relevant skills?"
  const DefaultCommunicationHint := "How effective is the candidate's communication?"

  /** `rubric[key] || fallback`. */
  function RubricHint(rubric: map<string, string>, key: string, fallback: string): (r: string)
    ensures key in rubric && rubric[key] != "" ==> r == rubric[key]
    ensures !(key in rubric && rubric[key] != "") ==> r == fallback
  {
    if key in rubric && rubric[key] != "" then rubric[key] else fallback
  }

  /** `transcript.slice(0, 50)`, as echoed in the JSON template: the longest
      prefix of at most 50 UTF-16 units, the whole transcript when it fits. */
  function Preview(transcript: string): (r: string)
    ensures StartsWith(transcript, r) && JsLength(r) <= 50
    ensures JsLength(transcript) <= 50 ==> r == transcript
    ensures JsLength(transcript) > 50 ==> JsLength(r) >= 49
    ensures |r| < |transcript| ==> JsLength(transcript[..|r| + 1]) > 50
  {
    UnitPrefixMaximal(transcript, 50);
    if JsLength(transcript) <= 50 then
      UnitPrefixWhole(transcript, 50);
      UnitPrefix(transcript, 50)
    else
      UnitPrefixFull(transcript, 50);
      UnitPrefix(transcript, 50)
  }

  /** Within the Basic Multilingual Plane the preview is exactly the first 50
      characters. */
  lemma PreviewBmp(transcript: string)
    requires forall k :: 0 <= k < |transcript| ==> transcript[k] as int < 0x1_0000
    ensures Preview(transcript) == if |transcript| <= 50 then transcript else transcript[..50]
  {
    JsLengthBmp(transcript);
    var r := Preview(transcript);
    if |transcript| > 50 {
      JsLengthBmp(r);
      if |r| < 50 {
        JsLengthBmp(transcript[..|r| + 1]);
      }
    }
  }

  const PromptIntro := "You are an expert HR interviewer evaluating a candidate's spoken response to an interview question.\n\nINTERVIEW QUESTION:\n\""
  const PromptAfterQuestion := "\"\n\nCANDIDATE'S RESPONSE (transcript):\n\""
  const PromptAfterTranscript := "\"\n\nSCORING GUIDELINES (be strict and fair \U{2014} do NOT give everyone high scores):\n\n**Clarity (0-5):** "
  const PromptAfterClarity := "\n  5: Exceptionally clear, well-organized, easy to follow\n  3: Adequate but could be more structured\n  0: No meaningful response or incoherent\n\n**Relevance (0-5):** "
  const PromptAfterRelevance := "\n  5: Directly and completely addresses all aspects\n  3: Partially relevant, misses key points\n  0: Completely off-topic\n\n**Confidence (0-5):** "
  const PromptAfterConfidence := "\n  5: Very confident, authoritative\n  3: Moderately confident with some hesitation\n  0: Extremely nervous, unable to respond\n\n**Technical Fit (0-5):** "
  const PromptAfterTechnicalFit := "\n  5: Demonstrates excellent domain knowledge with specific examples\n  3: Shows basic understanding\n  0: No relevant skills demonstrated\n\n**Communication (0-5):** "
  const PromptAfterCommunication := "\n  5: Excellent vocabulary, professional tone, engaging delivery\n  3: Adequate communication\n  0: Very poor communication\n\nIMPORTANT RULES:\n- Base scores ONLY on the transcript content\n- If the response is very short or lacks substance, give lower scores\n- If the candidate gives a generic answer without specifics, score lower\n- Provide honest justifications for each score\n- recommendation must be one of: \"strong_hire\", \"hire\", \"maybe\", \"no_hire\", \"strong_no_hire\"\n\nReturn ONLY valid JSON (no markdown, no extra text):\n{\n  \"transcript\": \""
  const PromptTail := "...\",\n  \"score\": {\n    \"clarity\": <number 0-5>,\n    \"relevance\": <number 0-5>,\n    \"confidence\": <number 0-5>,\n    \"technical_fit\": <number 0-5>,\n    \"communication\": <number 0-5>\n  },\n  \"scoreJustification\": {\n    \"clarity\": \"<why this score>\",\n    \"relevance\": \"<why this score>\",\n    \"confidence\": \"<why this score>\",\n    \"technical_fit\": \"<why this score>\",\n    \"communication\": \"<why this score>\"\n  },\n  \"summary\": \"<2-3 sentence overall assessment>\",\n  \"strengths\": [\"<strength 1>\", \"<strength 2>\"],\n  \"risks\": [\"<risk 1>\", \"<risk 2>\"],\n  \"recommendation\": \"<strong_hire|hire|maybe|no_hire|strong_no_hire>\"\n}"

  /** The five rubric hints, each the rubric's text or the fixed default. */
  function Hints(rubric: map<string, string>): (r: seq<string>)
    ensures |r| == 5
  {
    [RubricHint(rubric, "clarity", DefaultClarityHint),
     RubricHint(rubric, "relevance", DefaultRelevanceHint),
     RubricHint(rubric, "confidence", DefaultConfidenceHint),
     RubricHint(rubric, "technical_fit", DefaultTechnicalFitHint),
     RubricHint(rubric, "communication", DefaultCommunicationHint)]
  }

  /** The prompt's pieces in order: fixed text interleaved with the question,
      the transcript, the five hints and the transcript preview. */
  function PromptParts(questionText: string, transcript: string, rubric: map<string, string>): (r: seq<string>)
    ensures |r| == 17
    ensures r[0] == PromptIntro && r[1] == questionText && r[3] == transcript
    ensures forall k :: 0 <= k < 5 ==> r[5 + 2 * k] == Hints(rubric)[k]
    ensures r[15] == Preview(transcript) && r[16] == PromptTail
  {
    var h := Hints(rubric);
    [PromptIntro, questionText, PromptAfterQuestion, transcript, PromptAfterTranscript,
     h[0], PromptAfterClarity, h[1], PromptAfterRelevance, h[2], PromptAfterConfidence,
     h[3], PromptAfterTechnicalFit, h[4], PromptAfterCommunication, Preview(transcript), PromptTail]
  }

  /** `buildEvaluationPrompt`: quotes the question and the full transcript,
      lists each rubric hint, and echoes only the first 50 transcript characters
      in the closing JSON template. */
  function BuildEvaluationPrompt(questionText: string, transcript: string, rubric: map<string, string>): (r: string)
    ensures StartsWith(r, PromptIntro) && EndsWith(r, PromptTail)
    ensures Contains(r, questionText) && Contains(r, transcript)
    ensures forall k :: 0 <= k < 5 ==> Contains(r, Hints(rubric)[k])
    ensures Contains(r, Preview(transcript))
  {
    var p := PromptParts(questionText, transcript, rubric);
    var r := Concat(p);
    ConcatSplit(p, 1);
    ConcatSplit(p, 16);
    ConcatContains(p, 1);
    ConcatContains(p, 3);
    ConcatContains(p, 15);
    forall k | 0 <= k < 5 ensures Contains(r, Hints(rubric)[k]) {
      ConcatContains(p, 5 + 2 * k);
    }
    r
  }

  /** A rubric without any of the five dimension keys (the answers route passes
      only role, category and difficulty) gets the five default hints. */
  lemma PromptDefaultsWithoutRubricKeys(rubric: map<string, string>)
    requires forall k :: 0 <= k < 5 ==> DimensionKeys[k] !in rubric
    ensures Hints(rubric) == [DefaultClarityHint, DefaultRelevanceHint, DefaultConfidenceHint,
                              DefaultTechnicalFitHint, DefaultCommunicationHint]
  {
    assert DimensionKeys[0] !in rubric && DimensionKeys[1] !in rubric && DimensionKeys[2] !in rubric;
    assert DimensionKeys[3] !in rubric && DimensionKeys[4] !in rubric;
  }
}

=== FILE: rate_limit.dfy ===
/** The in-memory sliding-window rate limiter. The process-wide map of stores
    becomes an explicit value threaded through calls, and `Date.now()` a
    parameter. */
module RateLimit {
  import opened Base
  import opened Text
  import opened Rounding

  /** The request times kept for one key, and the window last used with it. */
  datatype Entry = Entry(timestamps: seq<int>, windowMs: int)

  /** Limiter name → key → entry. */
  type Stores = map<string, map<string, Entry>>

  datatype Decision = Decision(limited: bool, remaining: int, retryAfterMs: int)

  /** The timestamps strictly after `windowStart`, in their original order. */
  function InWindow(ts: seq<int>, windowStart: int): (r: seq<int>)
    ensures |r| <= |ts|
    ensures forall k :: 0 <= k < |r| ==> r[k] > windowStart
    ensures forall t :: t in r <==> t in ts && t > windowStart
    ensures |ts| > 0 && ts[0] > windowStart ==> |r| > 0 && r[0] == ts[0]
    decreases |ts|
  {
    if |ts| == 0 then []
    else (if ts[0] > windowStart then [ts[0]] else []) + InWindow(ts[1..], windowStart)
  }

  /** The entry stored for (name, key), if any. */
  function Lookup(stores: Stores, name: string, key: string): Option<Entry> {
    if name in stores && key in stores[name] then Some(stores[name][key]) else None
  }

  /** The timestamps already recorded for (name, key). */
  function Recorded(stores: Stores, name: string, key: string): seq<int> {
    match Lookup(stores, name, key)
    case Some(e) => e.timestamps
    case None => []
  }

  /** `rateLimit(name, key, limit, windowMs)` at time `now`. Expired timestamps
      are dropped (also on a limited call); a call is limited iff `limit`
      timestamps remain, and only an allowed call records `now`. */
  function Check(stores: Stores, name: string, key: string, limit: int, windowMs: int, now: int)
    : (r: (Decision, Stores))
    requires limit >= 1
    ensures var kept := InWindow(Recorded(stores, name, key), now - windowMs);
            && (r.0.limited <==> |kept| >= limit)
            && (r.0.limited ==> Lookup(r.1, name, key) == Some(Entry(kept, windowMs)))
            && (r.0.limited ==> r.0.remaining == 0 && r.0.retryAfterMs >= 0)
            && (r.0.limited ==> r.0.retryAfterMs == (if kept[0] + windowMs - now > 0 then kept[0] + windowMs - now else 0))
            && (!r.0.limited ==> Lookup(r.1, name, key) == Some(Entry(kept + [now], windowMs)))
            && (!r.0.limited ==> r.0.remaining == limit - |kept| - 1 && r.0.remaining >= 0 && r.0.retryAfterMs == 0)
    ensures forall n, k :: (n, k) != (name, key) ==> Lookup(r.1, n, k) == Lookup(stores, n, k)
  {
    var store := if name in stores then stores[name] else map[];
    var kept := InWindow(Recorded(stores, name, key), now - windowMs);
    if |kept| >= limit then
      var retry := kept[0] + windowMs - now;
      (Decision(true, 0, if retry > 0 then retry else 0), stores[name := store[key := Entry(kept, windowMs)]])
    else
      var ts := kept + [now];
      (Decision(false, limit - |ts|, 0), stores[name := store[key := Entry(ts, windowMs)]])
  }

  /** With a fixed limit, a key never holds more than `limit` timestamps. */
  lemma CheckKeepsBound(stores: Stores, name: string, key: string, limit: int, windowMs: int, now: int)
    requires limit >= 1
    requires |Recorded(stores, name, key)| <= limit
    ensures |Recorded(Check(stores, name, key, limit, windowMs, now).1, name, key)| <= limit
  {
  }

  /** When no recorded time lies in the future, a limited caller is told to
      wait a positive time of at most one window. */
  lemma RetryWithinWindow(stores: Stores, name: string, key: string, limit: int, windowMs: int, now: int)
    requires limit >= 1
    requires forall k :: 0 <= k < |Recorded(stores, name, key)| ==> Recorded(stores, name, key)[k] <= now
    requires Check(stores, name, key, limit, windowMs, now).0.limited
    ensures 0 < Check(stores, name, key, limit, windowMs, now).0.retryAfterMs <= windowMs
  {
    var kept := InWindow(Recorded(stores, name, key), now - windowMs);
    assert kept[0] in kept;
  }

  /** After `limit` allowed calls inside one window, the next call is limited. */
  lemma LimitReached(stores: Stores, name: string, key: string, limit: int, windowMs: int, now: int)
    requires limit >= 1 && windowMs >= 1
    requires |InWindow(Recorded(stores, name, key), now - windowMs)| == limit - 1
    ensures var (d, s1) := Check(stores, name, key, limit, windowMs, now);
            !d.limited && d.remaining == 0 && Check(s1, name, key, limit, windowMs, now).0.limited
  {
    var kept := InWindow(Recorded(stores, name, key), now - windowMs);
    var s1 := Check(stores, name, key, limit, windowMs, now).1;
    InWindowAll(kept + [now], now - windowMs);
  }

  lemma {:induction false} InWindowAll(ts: seq<int>, windowStart: int)
    requires forall k :: 0 <= k < |ts| ==> ts[k] > windowStart
    ensures InWindow(ts, windowStart) == ts
    decreases |ts|
  {
    if |ts| > 0 {
      InWindowAll(ts[1..], windowStart);
    }
  }

  /** `getClientIp`: the first comma-separated entry of a non-empty
      x-forwarded-for, trimmed; else a non-empty x-real-ip, trimmed; else none. */
  function ClientIp(forwardedFor: Option<string>, realIp: Option<string>): (r: Option<string>)
    ensures forwardedFor.Some? && forwardedFor.value != "" ==>
              var f := forwardedFor.value;
              r == Some(Trim(f[..if IndexOf(f, ',') < 0 then |f| else IndexOf(f, ',')]))
    ensures !(forwardedFor.Some? && forwardedFor.value != "") && realIp.Some? && realIp.value != "" ==>
              r == Some(Trim(realIp.value))
    ensures r.None? <==> !(forwardedFor.Some? && forwardedFor.value != "") && !(realIp.Some? && realIp.value != "")
  {
    if forwardedFor.Some? && forwardedFor.value != "" then
      SplitFirst(forwardedFor.value, ',');
      Some(Trim(Split(forwardedFor.value, ',')[0]))
    else if realIp.Some? && realIp.value != "" then Some(Trim(realIp.value))
    else None
  }

  const TooManyRequests := "Too many requests. Please try again later."

  /** The 429 answer: status, the Retry-After header in whole seconds, and the
      error text. */
  datatype LimitedResponse = LimitedResponse(status: int, retryAfter: string, error: string)

  function RateLimitResponse(retryAfterMs: int): (r: LimitedResponse)
    ensures r.status == 429 && r.error == TooManyRequests
    ensures var secs := CeilDiv(retryAfterMs, 1000);
            r.retryAfter == IntToString(secs) && (secs - 1) * 1000 < retryAfterMs <= secs * 1000
  {
    LimitedResponse(429, IntToString(CeilDiv(retryAfterMs, 1000)), TooManyRequests)
  }

  /** The header value reads back as the number of seconds. */
  lemma RetryAfterReadsBack(retryAfterMs: int)
    ensures ParseInt(RateLimitResponse(retryAfterMs).retryAfter) == Some(CeilDiv(retryAfterMs, 1000))
  {
    ParseIntIntToString(CeilDiv(retryAfterMs, 1000));
  }
}

=== FILE: rounding.dfy ===
/** `Math.round` and the one-decimal rounding built on it, over exact reals. */
module Rounding {

  /** `Math.round(x)`: the nearest integer, halves rounded up. */
  function Round(x: real): (r: int)
    ensures x - 0.5 < r as real <= x + 0.5
  {
    (x + 0.5).Floor
  }

  /** `Math.round(x * 10) / 10`. */
  function RoundTenth(x: real): (r: real)
    ensures x - 0.05 < r <= x + 0.05
  {
    Round(x * 10.0) as real / 10.0
  }

  /** `Math.ceil(a / b)` for a positive integer divisor. */
  function CeilDiv(a: int, b: int): (r: int)
    requires b > 0
    ensures (r - 1) * b < a <= r * b
  {
    -((-a) / b)
  }

  /** An integer is its own rounding. */
  lemma RoundInt(k: int)
    ensures Round(k as real) == k
  {
  }

  /** Rounding to the nearest integer is monotone. */
  lemma RoundMonotone(x: real, y: real)
    requires x <= y
    ensures Round(x) <= Round(y)
  {
  }

  /** `r` is a whole number of tenths. */
  predicate IsTenths(r: real) {
    (r * 10.0).Floor as real == r * 10.0
  }
}

=== FILE: schemas.dfy ===
/** The request schemas: for each, the record it yields, the bounds a valid
    record keeps (`Valid...`), how a record's fields sit in the JSON object it
    was read from (`Mirrors...`), and the parser. A parse succeeds exactly when
    the input is an object, the record it mirrors is valid, and each field is
    either given or absent with its default; keys the schema does not name are
    dropped. The email, URL and date-time checks stay uninterpreted. */
module Schemas {
  import opened Base
  import opened Text
  import opened Js

  // ---------------------------------------------------------------------------
  // Field rules
  // ---------------------------------------------------------------------------

  /** Inclusive bounds; `hi` is `None` when there is no maximum. */
  datatype Limits = Limits(lo: int, hi: Option<int>)

  predicate InLimits(n: real, l: Limits) {
    l.lo as real <= n && (l.hi.None? || n <= l.hi.value as real)
  }

  /** The string formats checked by the validation library itself. */
  datatype Format = Email | Url | Datetime

  datatype Formats = Formats(email: string -> bool, url: string -> bool, datetime: string -> bool)

  predicate Holds(fs: Formats, format: Format, s: string) {
    match format
    case Email => fs.email(s)
    case Url => fs.url(s)
    case Datetime => fs.datetime(s)
  }

  /** What one property must look like. Lengths count UTF-16 code units. */
  datatype Rule =
    | TextRule(length: Limits)
    | SlugRule(length: Limits)
    | UuidRule
    | FormatRule(format: Format)
    | NumberRule(range: Limits)
    | BoolRule
    | EnumRule(tags: seq<string>)

  predicate IsHex(c: char) {
    ('0' <= c <= '9') || ('a' <= c <= 'f') || ('A' <= c <= 'F')
  }

  predicate IsDashPosition(k: int) {
    k == 8 || k == 13 || k == 18 || k == 23
  }

  /** `uuidLike`: five groups of 8, 4, 4, 4 and 12 hex digits of either case,
      joined by dashes, and nothing else. */
  predicate UuidLike(s: string) {
    |s| == 36 && forall k :: 0 <= k < 36 ==> if IsDashPosition(k) then s[k] == '-' else IsHex(s[k])
  }

  predicate Accepts(fs: Formats, rule: Rule, j: Json) {
    match rule
    case TextRule(l) => j.JStr? && InLimits(JsLength(j.s) as real, l)
    case SlugRule(l) => j.JStr? && InLimits(JsLength(j.s) as real, l) && |j.s| > 0 && SlugChars(j.s)
    case UuidRule => j.JStr? && UuidLike(j.s)
    case FormatRule(format) => j.JStr? && Holds(fs, format, j.s)
    case NumberRule(l) => j.JNum? && InLimits(j.n, l)
    case BoolRule => j.JBool?
    case EnumRule(tags) => j.JStr? && j.s in tags
  }

  /** A required property: present and accepted. */
  predicate Required(fs: Formats, v: Json, key: string, rule: Rule) {
    Get(v, key).Some? && Accepts(fs, rule, Get(v, key).value)
  }

  /** An optional or defaulted property: absent, or present and accepted. */
  predicate Optional(fs: Formats, v: Json, key: string, rule: Rule) {
    Get(v, key).None? || Accepts(fs, rule, Get(v, key).value)
  }

  function StrAt(v: Json, key: string, default: string): string {
    match Get(v, key)
    case Some(JStr(s)) => s
    case _ => default
  }

  function NumAt(v: Json, key: string, default: real): real {
    match Get(v, key)
    case Some(JNum(n)) => n
    case _ => default
  }

  function BoolAt(v: Json, key: string, default: bool): bool {
    match Get(v, key)
    case Some(JBool(b)) => b
    case _ => default
  }

  function OptStrAt(v: Json, key: string): Option<string> {
    match Get(v, key)
    case Some(JStr(s)) => Some(s)
    case _ => None
  }

  function OptNumAt(v: Json, key: string): Option<real> {
    match Get(v, key)
    case Some(JNum(n)) => Some(n)
    case _ => None
  }

  /** The property is the string given, or is absent and the string is the default. */
  predicate StrOrDefault(v: Json, key: string, s: string, default: string) {
    Get(v, key) == Some(JStr(s)) || (Get(v, key).None? && s == default)
  }

  predicate NumOrDefault(v: Json, key: string, n: real, default: real) {
    Get(v, key) == Some(JNum(n)) || (Get(v, key).None? && n == default)
  }

  /** The property is the string given, or is absent when there is none. */
  predicate OptStr(v: Json, key: string, s: Option<string>) {
    match s
    case Some(t) => Get(v, key) == Some(JStr(t))
    case None => Get(v, key).None?
  }

  predicate OptNum(v: Json, key: string, n: Option<real>) {
    match n
    case Some(t) => Get(v, key) == Some(JNum(t))
    case None => Get(v, key).None?
  }

  predicate LengthIn(s: string, lo: int, hi: int) {
    lo <= JsLength(s) <= hi
  }

  predicate OptLengthAtMost(s: Option<string>, hi: int) {
    s.None? || JsLength(s.value) <= hi
  }

  // ---------------------------------------------------------------------------
  // UUIDs
  // ---------------------------------------------------------------------------

  /** Five hex groups of the right lengths, joined by dashes, are accepted. */
  lemma UuidOfGroups(a: string, b: string, c: string, d: string, e: string)
    requires |a| == 8 && |b| == 4 && |c| == 4 && |d| == 4 && |e| == 12
    requires forall k :: 0 <= k < |a| ==> IsHex(a[k])
    requires forall k :: 0 <= k < |b| ==> IsHex(b[k])
    requires forall k :: 0 <= k < |c| ==> IsHex(c[k])
    requires forall k :: 0 <= k < |d| ==> IsHex(d[k])
    requires forall k :: 0 <= k < |e| ==> IsHex(e[k])
    ensures UuidLike(a + "-" + b + "-" + c + "-" + d + "-" + e)
  {
    var s := a + "-" + b + "-" + c + "-" + d + "-" + e;
    forall k | 0 <= k < 36
      ensures if IsDashPosition(k) then s[k] == '-' else IsHex(s[k])
    {
      if k < 8 { assert s[k] == a[k]; }
      else if 9 <= k < 13 { assert s[k] == b[k - 9]; }
      else if 14 <= k < 18 { assert s[k] == c[k - 14]; }
      else if 19 <= k < 23 { assert s[k] == d[k - 19]; }
      else if 24 <= k { assert s[k] == e[k - 24]; }
    }
  }

  /** Every accepted string is such a join of its five groups. */
  lemma UuidGroups(s: string)
    requires UuidLike(s)
    ensures s == s[..8] + "-" + s[9..13] + "-" + s[14..18] + "-" + s[19..23] + "-" + s[24..]
    ensures forall k :: 0 <= k < 36 && !IsDashPosition(k) ==> IsHex(s[k])
  {
    var t := s[..8] + "-" + s[9..13] + "-" + s[14..18] + "-" + s[19..23] + "-" + s[24..];
    assert |t| == 36;
    forall k | 0 <= k < 36
      ensures t[k] == s[k]
    {
      assert IsDashPosition(k) ==> s[k] == '-';
    }
  }

  /** The version digit (index 14) and the variant digit (index 19) are not
      looked at: any hex digit may stand there, of either case. */
  lemma UuidIgnoresVersionAndVariant(s: string, version: char, variant: char)
    requires UuidLike(s) && IsHex(version) && IsHex(variant)
    ensures UuidLike(s[14 := version][19 := variant])
  {
    var t := s[14 := version][19 := variant];
    forall k | 0 <= k < 36
      ensures if IsDashPosition(k) then t[k] == '-' else IsHex(t[k])
    {
      if k != 14 && k != 19 {
        assert t[k] == s[k];
      }
    }
  }

  /** A dash in place of a hex digit, or one character more or less, is refused. */
  lemma UuidLayoutIsExact(s: string, k: nat)
    requires UuidLike(s) && k < 36 && !IsDashPosition(k)
    ensures !UuidLike(s[k := '-'])
    ensures !UuidLike(s + "0") && !UuidLike(s[1..])
  {
    assert !IsHex('-');
  }

  // ---------------------------------------------------------------------------
  // loginSchema
  // ---------------------------------------------------------------------------

  datatype Login = Login(email: string)

  predicate ValidLogin(fs: Formats, x: Login) {
    fs.email(x.email)
  }

  predicate MirrorsLogin(v: Json, x: Login) {
    Get(v, "email") == Some(JStr(x.email))
  }

  function ParseLogin(fs: Formats, v: Json): (r: Option<Login>)
    ensures r.Some? ==> v.JObj? && ValidLogin(fs, r.value) && MirrorsLogin(v, r.value)
  {
    if v.JObj? && Required(fs, v, "email", FormatRule(Email)) then Some(Login(StrAt(v, "email", "")))
    else None
  }

  lemma LoginExact(fs: Formats, v: Json, x: Login)
    ensures ParseLogin(fs, v) == Some(x) <==> v.JObj? && ValidLogin(fs, x) && MirrorsLogin(v, x)
  {
  }

  // ---------------------------------------------------------------------------
  // orgSettingsSchema
  // ---------------------------------------------------------------------------

  datatype OrgSettings = OrgSettings(defaultTimeLimit: real, maxQuestions: real, maxTabSwitches: real,
                                     enforceFullscreen: bool, ttsVoice: string)

  const DefaultVoice := "en-US-GuyNeural"
  const DefaultTimeLimit := 120.0
  const DefaultMaxQuestions := 5.0
  const DefaultMaxTabSwitches := 3.0

  /** The settings of an organisation that sends none. */
  const DefaultSettings := OrgSettings(DefaultTimeLimit, DefaultMaxQuestions, DefaultMaxTabSwitches, false, DefaultVoice)

  predicate ValidOrgSettings(x: OrgSettings) {
    && 30.0 <= x.defaultTimeLimit <= 600.0
    && 1.0 <= x.maxQuestions <= 20.0
    && 1.0 <= x.maxTabSwitches <= 10.0
  }

  predicate MirrorsOrgSettings(v: Json, x: OrgSettings) {
    && NumOrDefault(v, "default_time_limit", x.defaultTimeLimit, DefaultTimeLimit)
    && NumOrDefault(v, "max_questions", x.maxQuestions, DefaultMaxQuestions)
    && NumOrDefault(v, "max_tab_switches", x.maxTabSwitches, DefaultMaxTabSwitches)
    && (Get(v, "enforce_fullscreen") == Some(JBool(x.enforceFullscreen))
        || (Get(v, "enforce_fullscreen").None? && !x.enforceFullscreen))
    && StrOrDefault(v, "tts_voice", x.ttsVoice, DefaultVoice)
  }

  function ParseOrgSettings(fs: Formats, v: Json): (r: Option<OrgSettings>)
    ensures r.Some? ==> v.JObj? && ValidOrgSettings(r.value) && MirrorsOrgSettings(v, r.value)
  {
    if && v.JObj?
       && Optional(fs, v, "default_time_limit", NumberRule(Limits(30, Some(600))))
       && Optional(fs, v, "max_questions", NumberRule(Limits(1, Some(20))))
       && Optional(fs, v, "max_tab_switches", NumberRule(Limits(1, Some(10))))
       && Optional(fs, v, "enforce_fullscreen", BoolRule)
       && Optional(fs, v, "tts_voice", TextRule(Limits(0, None)))
    then
      Some(OrgSettings(NumAt(v, "default_time_limit", DefaultTimeLimit), NumAt(v, "max_questions", DefaultMaxQuestions),
                       NumAt(v, "max_tab_switches", DefaultMaxTabSwitches), BoolAt(v, "enforce_fullscreen", false),
                       StrAt(v, "tts_voice", DefaultVoice)))
    else None
  }

  lemma OrgSettingsExact(fs: Formats, v: Json, x: OrgSettings)
    ensures ParseOrgSettings(fs, v) == Some(x) <==> v.JObj? && ValidOrgSettings(x) && MirrorsOrgSettings(v, x)
  {
  }

  /** An empty object yields the defaults: 120 seconds, 5 questions, 3 tab
      switches, no fullscreen, the default voice. */
  lemma OrgSettingsDefaults(fs: Formats)
    ensures ParseOrgSettings(fs, JObj(map[])) == Some(DefaultSettings)
    ensures ValidOrgSettings(DefaultSettings)
  {
  }

  // ---------------------------------------------------------------------------
  // createOrgSchema
  // ---------------------------------------------------------------------------

  datatype CreateOrg = CreateOrg(name: string, slug: string)

  predicate ValidCreateOrg(x: CreateOrg) {
    LengthIn(x.name, 2, 100) && 2 <= |x.slug| <= 50 && SlugChars(x.slug)
  }

  predicate MirrorsCreateOrg(v: Json, x: CreateOrg) {
    Get(v, "name") == Some(JStr(x.name)) && Get(v, "slug") == Some(JStr(x.slug))
  }

  function ParseCreateOrg(fs: Formats, v: Json): (r: Option<CreateOrg>)
    ensures r.Some? ==> v.JObj? && ValidCreateOrg(r.value) && MirrorsCreateOrg(v, r.value)
  {
    if && v.JObj?
       && Required(fs, v, "name", TextRule(Limits(2, Some(100))))
       && Required(fs, v, "slug", SlugRule(Limits(2, Some(50))))
    then
      SlugLength(StrAt(v, "slug", ""));
      Some(CreateOrg(StrAt(v, "name", ""), StrAt(v, "slug", "")))
    else None
  }

  /** A slug is ASCII, so its UTF-16 length is its length. */
  lemma {:induction false} SlugLength(s: string)
    requires SlugChars(s)
    ensures JsLength(s) == |s|
    decreases |s|
  {
    if |s| > 0 {
      SlugLength(s[1..]);
    }
  }

  lemma CreateOrgExact(fs: Formats, v: Json, x: CreateOrg)
    ensures ParseCreateOrg(fs, v) == Some(x) <==> v.JObj? && ValidCreateOrg(x) && MirrorsCreateOrg(v, x)
  {
    if v.JObj? && ValidCreateOrg(x) && MirrorsCreateOrg(v, x) {
      SlugLength(x.slug);
    }
  }

  // ---------------------------------------------------------------------------
  // createJobRoleSchema
  // ---------------------------------------------------------------------------

  datatype CreateJobRole = CreateJobRole(title: string, department: string, description: string)

  predicate ValidCreateJobRole(x: CreateJobRole) {
    LengthIn(x.title, 2, 100) && LengthIn(x.department, 1, 100) && JsLength(x.description) <= 1000
  }

  predicate MirrorsCreateJobRole(v: Json, x: CreateJobRole) {
    && Get(v, "title") == Some(JStr(x.title))
    && Get(v, "department") == Some(JStr(x.department))
    && StrOrDefault(v, "description", x.description, "")
  }

  function ParseCreateJobRole(fs: Formats, v: Json): (r: Option<CreateJobRole>)
    ensures r.Some? ==> v.JObj? && ValidCreateJobRole(r.value) && MirrorsCreateJobRole(v, r.value)
  {
    if && v.JObj?
       && Required(fs, v, "title", TextRule(Limits(2, Some(100))))
       && Required(fs, v, "department", TextRule(Limits(1, Some(100))))
       && Optional(fs, v, "description", TextRule(Limits(0, Some(1000))))
    then Some(CreateJobRole(StrAt(v, "title", ""), StrAt(v, "department", ""), StrAt(v, "description", "")))
    else None
  }

  lemma CreateJobRoleExact(fs: Formats, v: Json, x: CreateJobRole)
    ensures ParseCreateJobRole(fs, v) == Some(x) <==> v.JObj? && ValidCreateJobRole(x) && MirrorsCreateJobRole(v, x)
  {
  }

  // ---------------------------------------------------------------------------
  // questionRubricSchema and createQuestionSchema
  // ---------------------------------------------------------------------------

  datatype Rubric = Rubric(clarity: string, relevance: string, confidence: string,
                           technicalFit: string, communication: string)

  const DefaultClarity := "How well-structured and articulate is the response?"
  const DefaultRelevance := "Does the answer directly address the question?"
  const DefaultConfidence := "How confident does the candidate sound?"
  const DefaultTechnicalFit := "Does the answer demonstrate relevant skills?"
  const DefaultCommunication := "How effective is the candidate's communication?"

  /** Every rubric field is any string; each has its default. */
  predicate MirrorsRubric(v: Json, x: Rubric) {
    && StrOrDefault(v, "clarity", x.clarity, DefaultClarity)
    && StrOrDefault(v, "relevance", x.relevance, DefaultRelevance)
    && StrOrDefault(v, "confidence", x.confidence, DefaultConfidence)
    && StrOrDefault(v, "technical_fit", x.technicalFit, DefaultTechnicalFit)
    && StrOrDefault(v, "communication", x.communication, DefaultCommunication)
  }

  function ParseRubric(fs: Formats, v: Json): (r: Option<Rubric>)
    ensures r.Some? ==> v.JObj? && MirrorsRubric(v, r.value)
  {
    var any := TextRule(Limits(0, None));
    if && v.JObj?
       && Optional(fs, v, "clarity", any) && Optional(fs, v, "relevance", any)
       && Optional(fs, v, "confidence", any) && Optional(fs, v, "technical_fit", any)
       && Optional(fs, v, "communication", any)
    then
      Some(Rubric(StrAt(v, "clarity", DefaultClarity), StrAt(v, "relevance", DefaultRelevance),
                  StrAt(v, "confidence", DefaultConfidence), StrAt(v, "technical_fit", DefaultTechnicalFit),
                  StrAt(v, "communication", DefaultCommunication)))
    else None
  }

  lemma RubricExact(fs: Formats, v: Json, x: Rubric)
    ensures ParseRubric(fs, v) == Some(x) <==> v.JObj? && MirrorsRubric(v, x)
  {
  }

  datatype Category = Behavioral | Technical | Situational | CaseStudy | Introduction {
    function Tag(): string {
      match this
      case Behavioral => "behavioral"
      case Technical => "technical"
      case Situational => "situational"
      case CaseStudy => "case_study"
      case Introduction => "introduction"
    }
  }

  const CategoryTags := ["behavioral", "technical", "situational", "case_study", "introduction"]

  function CategoryOf(s: string): (r: Option<Category>)
    ensures r.Some? <==> s in CategoryTags
    ensures r.Some? ==> r.value.Tag() == s
  {
    if s == "behavioral" then Some(Behavioral)
    else if s == "technical" then Some(Technical)
    else if s == "situational" then Some(Situational)
    else if s == "case_study" then Some(CaseStudy)
    else if s == "introduction" then Some(Introduction)
    else None
  }

  /** Each category reads back from its tag. */
  lemma CategoryTagRoundTrip(c: Category)
    ensures CategoryOf(c.Tag()) == Some(c)
  {
  }

  datatype Difficulty = Easy | Medium | Hard {
    function Tag(): string {
      match this
      case Easy => "easy"
      case Medium => "medium"
      case Hard => "hard"
    }
  }

  const DifficultyTags := ["easy", "medium", "hard"]

  function DifficultyOf(s: string): (r: Option<Difficulty>)
    ensures r.Some? <==> s in DifficultyTags
    ensures r.Some? ==> r.value.Tag() == s
  {
    if s == "easy" then Some(Easy)
    else if s == "medium" then Some(Medium)
    else if s == "hard" then Some(Hard)
    else None
  }

  lemma DifficultyTagRoundTrip(d: Difficulty)
    ensures DifficultyOf(d.Tag()) == Some(d)
  {
  }

  const KeyRoleId := "role_id"
  const KeyQuestionText := "question_text"
  const KeyCategory := "category"
  const KeyDifficulty := "difficulty"
  const KeyRubric := "rubric"
  const KeyTimeLimit := "time_limit_seconds"
  const KeyOrderIndex := "order_index"

  datatype CreateQuestion = CreateQuestion(roleId: string, questionText: string, category: Category,
                                           difficulty: Difficulty, rubric: Option<Rubric>,
                                           timeLimitSeconds: real, orderIndex: real)

  const DefaultQuestionTimeLimit := 120.0
  const DefaultOrderIndex := 0.0

  predicate ValidCreateQuestion(x: CreateQuestion) {
    && UuidLike(x.roleId)
    && LengthIn(x.questionText, 10, 500)
    && 30.0 <= x.timeLimitSeconds <= 600.0
    && x.orderIndex >= 0.0
  }

  predicate MirrorsCreateQuestion(v: Json, x: CreateQuestion) {
    && Get(v, KeyRoleId) == Some(JStr(x.roleId))
    && Get(v, KeyQuestionText) == Some(JStr(x.questionText))
    && Get(v, KeyCategory) == Some(JStr(x.category.Tag()))
    && Get(v, KeyDifficulty) == Some(JStr(x.difficulty.Tag()))
    && (match x.rubric
        case None => Get(v, KeyRubric).None?
        case Some(rb) => Get(v, KeyRubric).Some? && Get(v, KeyRubric).value.JObj?
                         && MirrorsRubric(Get(v, KeyRubric).value, rb))
    && NumOrDefault(v, KeyTimeLimit, x.timeLimitSeconds, DefaultQuestionTimeLimit)
    && NumOrDefault(v, KeyOrderIndex, x.orderIndex, DefaultOrderIndex)
  }

  /** The optional rubric: absent, or an object that parses. */
  function RubricAt(fs: Formats, v: Json): (r: Option<Option<Rubric>>)
    ensures r == Some(None) <==> Get(v, KeyRubric).None?
    ensures r.Some? && r.value.Some? ==> Get(v, KeyRubric).Some? && ParseRubric(fs, Get(v, KeyRubric).value) == r.value
  {
    match Get(v, KeyRubric)
    case None => Some(None)
    case Some(j) => if ParseRubric(fs, j).Some? then Some(ParseRubric(fs, j)) else None
  }

  function ParseCreateQuestion(fs: Formats, v: Json): (r: Option<CreateQuestion>)
    ensures r.Some? ==> v.JObj? && ValidCreateQuestion(r.value) && MirrorsCreateQuestion(v, r.value)
  {
    var category := CategoryOf(StrAt(v, KeyCategory, ""));
    var difficulty := DifficultyOf(StrAt(v, KeyDifficulty, ""));
    var rubric := RubricAt(fs, v);
    if && v.JObj?
       && Required(fs, v, KeyRoleId, UuidRule)
       && Required(fs, v, KeyQuestionText, TextRule(Limits(10, Some(500))))
       && Required(fs, v, KeyCategory, EnumRule(CategoryTags))
       && Required(fs, v, KeyDifficulty, EnumRule(DifficultyTags))
       && rubric.Some?
       && Optional(fs, v, KeyTimeLimit, NumberRule(Limits(30, Some(600))))
       && Optional(fs, v, KeyOrderIndex, NumberRule(Limits(0, None)))
    then
      Some(CreateQuestion(StrAt(v, KeyRoleId, ""), StrAt(v, KeyQuestionText, ""), category.value,
                          difficulty.value, rubric.value, NumAt(v, KeyTimeLimit, DefaultQuestionTimeLimit),
                          NumAt(v, KeyOrderIndex, DefaultOrderIndex)))
    else None
  }

  lemma CreateQuestionExact(fs: Formats, v: Json, x: CreateQuestion)
    ensures ParseCreateQuestion(fs, v) == Some(x) <==> v.JObj? && ValidCreateQuestion(x) && MirrorsCreateQuestion(v, x)
  {
    if v.JObj? && ValidCreateQuestion(x) && MirrorsCreateQuestion(v, x) {
      CreateQuestionComplete(fs, v, x);
    }
  }

  lemma CreateQuestionComplete(fs: Formats, v: Json, x: CreateQuestion)
    requires v.JObj? && ValidCreateQuestion(x) && MirrorsCreateQuestion(v, x)
    ensures ParseCreateQuestion(fs, v) == Some(x)
  {
    QuestionChoices(fs, v, x);
    assert NumAt(v, KeyTimeLimit, DefaultQuestionTimeLimit) == x.timeLimitSeconds;
    assert NumAt(v, KeyOrderIndex, DefaultOrderIndex) == x.orderIndex;
  }

  /** The enumerations and the rubric of a mirrored question read back. */
  lemma QuestionChoices(fs: Formats, v: Json, x: CreateQuestion)
    requires MirrorsCreateQuestion(v, x)
    ensures Required(fs, v, KeyCategory, EnumRule(CategoryTags)) && CategoryOf(StrAt(v, KeyCategory, "")) == Some(x.category)
    ensures Required(fs, v, KeyDifficulty, EnumRule(DifficultyTags)) && DifficultyOf(StrAt(v, KeyDifficulty, "")) == Some(x.difficulty)
    ensures RubricAt(fs, v) == Some(x.rubric)
  {
    CategoryTagRoundTrip(x.category);
    DifficultyTagRoundTrip(x.difficulty);
    if x.rubric.Some? {
      RubricExact(fs, Get(v, KeyRubric).value, x.rubric.value);
    }
  }

  // ---------------------------------------------------------------------------
  // createCandidateSchema
  // ---------------------------------------------------------------------------

  datatype Metadata = Metadata(source: Option<string>, appliedRole: Option<string>,
                               linkedin: Option<string>, notes: Option<string>)

  predicate ValidMetadata(fs: Formats, x: Metadata) {
    x.linkedin.None? || fs.url(x.linkedin.value)
  }

  predicate MirrorsMetadata(v: Json, x: Metadata) {
    OptStr(v, "source", x.source) && OptStr(v, "applied_role", x.appliedRole)
    && OptStr(v, "linkedin", x.linkedin) && OptStr(v, "notes", x.notes)
  }

  function ParseMetadata(fs: Formats, v: Json): (r: Option<Metadata>)
    ensures r.Some? ==> v.JObj? && ValidMetadata(fs, r.value) && MirrorsMetadata(v, r.value)
  {
    var any := TextRule(Limits(0, None));
    if && v.JObj?
       && Optional(fs, v, "source", any) && Optional(fs, v, "applied_role", any)
       && Optional(fs, v, "linkedin", FormatRule(Url)) && Optional(fs, v, "notes", any)
    then Some(Metadata(OptStrAt(v, "source"), OptStrAt(v, "applied_role"), OptStrAt(v, "linkedin"), OptStrAt(v, "notes")))
    else None
  }

  lemma MetadataExact(fs: Formats, v: Json, x: Metadata)
    ensures ParseMetadata(fs, v) == Some(x) <==> v.JObj? && ValidMetadata(fs, x) && MirrorsMetadata(v, x)
  {
  }

  datatype CreateCandidate = CreateCandidate(email: string, fullName: string, phone: Option<string>,
                                             metadata: Option<Metadata>)

  predicate ValidCreateCandidate(fs: Formats, x: CreateCandidate) {
    && fs.email(x.email)
    && LengthIn(x.fullName, 2, 100)
    && OptLengthAtMost(x.phone, 20)
    && (x.metadata.None? || ValidMetadata(fs, x.metadata.value))
  }

  predicate MirrorsCreateCandidate(v: Json, x: CreateCandidate) {
    && Get(v, "email") == Some(JStr(x.email))
    && Get(v, "full_name") == Some(JStr(x.fullName))
    && OptStr(v, "phone", x.phone)
    && (match x.metadata
        case None => Get(v, "metadata").None?
        case Some(m) => Get(v, "metadata").Some? && Get(v, "metadata").value.JObj?
                        && MirrorsMetadata(Get(v, "metadata").value, m))
  }

  function MetadataAt(fs: Formats, v: Json): (r: Option<Option<Metadata>>)
    ensures r == Some(None) <==> Get(v, "metadata").None?
    ensures r.Some? && r.value.Some? ==> Get(v, "metadata").Some? && ParseMetadata(fs, Get(v, "metadata").value) == r.value
  {
    match Get(v, "metadata")
    case None => Some(None)
    case Some(j) => if ParseMetadata(fs, j).Some? then Some(ParseMetadata(fs, j)) else None
  }

  function ParseCreateCandidate(fs: Formats, v: Json): (r: Option<CreateCandidate>)
    ensures r.Some? ==> v.JObj? && ValidCreateCandidate(fs, r.value) && MirrorsCreateCandidate(v, r.value)
  {
    var metadata := MetadataAt(fs, v);
    if && v.JObj?
       && Required(fs, v, "email", FormatRule(Email))
       && Required(fs, v, "full_name", TextRule(Limits(2, Some(100))))
       && Optional(fs, v, "phone", TextRule(Limits(0, Some(20))))
       && metadata.Some?
    then Some(CreateCandidate(StrAt(v, "email", ""), StrAt(v, "full_name", ""), OptStrAt(v, "phone"), metadata.value))
    else None
  }

  lemma CreateCandidateExact(fs: Formats, v: Json, x: CreateCandidate)
    ensures ParseCreateCandidate(fs, v) == Some(x) <==> v.JObj? && ValidCreateCandidate(fs, x) && MirrorsCreateCandidate(v, x)
  {
    if v.JObj? && ValidCreateCandidate(fs, x) && MirrorsCreateCandidate(v, x) && x.metadata.Some? {
      MetadataExact(fs, Get(v, "metadata").value, x.metadata.value);
    }
  }

  // ---------------------------------------------------------------------------
  // createSessionSchema
  // ---------------------------------------------------------------------------

  /** Each item is a string holding a UUID-like text. */
  function ParseUuids(items: seq<Json>): (r: Option<seq<string>>)
    ensures r.Some? ==> |r.value| == |items|
    decreases |items|
  {
    if |items| == 0 then Some([])
    else if !(items[0].JStr? && UuidLike(items[0].s)) then None
    else
      match ParseUuids(items[1..])
      case None => None
      case Some(rest) => Some([items[0].s] + rest)
  }

  predicate UuidItems(items: seq<Json>, ids: seq<string>) {
    |ids| == |items| && forall i :: 0 <= i < |items| ==> items[i] == JStr(ids[i]) && UuidLike(ids[i])
  }

  /** An array parses to exactly the list of its strings, when each is UUID-like. */
  lemma {:induction false} ParseUuidsExact(items: seq<Json>, ids: seq<string>)
    ensures ParseUuids(items) == Some(ids) <==> UuidItems(items, ids)
    decreases |items|
  {
    if |items| > 0 {
      if |ids| > 0 {
        ParseUuidsExact(items[1..], ids[1..]);
        if UuidItems(items, ids) {
          assert UuidItems(items[1..], ids[1..]) by {
            forall i | 0 <= i < |items| - 1
              ensures items[1..][i] == JStr(ids[1..][i]) && UuidLike(ids[1..][i])
            {
              assert items[1..][i] == items[i + 1];
            }
          }
          assert ids == [ids[0]] + ids[1..];
        }
        if ParseUuids(items) == Some(ids) {
          assert ids[0] == items[0].s && ParseUuids(items[1..]) == Some(ids[1..]);
          forall i | 0 <= i < |items|
            ensures items[i] == JStr(ids[i]) && UuidLike(ids[i])
          {
            if i > 0 {
              assert items[i] == items[1..][i - 1];
            }
          }
        }
      } else {
        var r := ParseUuids(items);
        assert r.Some? ==> |r.value| > 0;
      }
    }
  }

  datatype CreateSession = CreateSession(candidateId: string, roleId: string, inviteExpiresAt: Option<string>,
                                         questionIds: Option<seq<string>>)

  predicate ValidCreateSession(fs: Formats, x: CreateSession) {
    && UuidLike(x.candidateId) && UuidLike(x.roleId)
    && (x.inviteExpiresAt.None? || fs.datetime(x.inviteExpiresAt.value))
    && (x.questionIds.None? || (1 <= |x.questionIds.value| <= 20
                                && forall i :: 0 <= i < |x.questionIds.value| ==> UuidLike(x.questionIds.value[i])))
  }

  predicate MirrorsCreateSession(v: Json, x: CreateSession) {
    && Get(v, "candidate_id") == Some(JStr(x.candidateId))
    && Get(v, "role_id") == Some(JStr(x.roleId))
    && OptStr(v, "invite_expires_at", x.inviteExpiresAt)
    && (match x.questionIds
        case None => Get(v, "question_ids").None?
        case Some(ids) => Get(v, "question_ids").Some? && Get(v, "question_ids").value.JArr?
                          && |Get(v, "question_ids").value.items| == |ids|
                          && forall i :: 0 <= i < |ids| ==> Get(v, "question_ids").value.items[i] == JStr(ids[i]))
  }

  function QuestionIdsAt(v: Json): (r: Option<Option<seq<string>>>)
    ensures r == Some(None) <==> Get(v, "question_ids").None?
  {
    match Get(v, "question_ids")
    case None => Some(None)
    case Some(JArr(items)) =>
      if 1 <= |items| <= 20 && ParseUuids(items).Some? then Some(ParseUuids(items)) else None
    case Some(_) => None
  }

  function ParseCreateSession(fs: Formats, v: Json): (r: Option<CreateSession>)
    ensures r.Some? ==> v.JObj? && ValidCreateSession(fs, r.value) && MirrorsCreateSession(v, r.value)
  {
    var ids := QuestionIdsAt(v);
    if && v.JObj?
       && Required(fs, v, "candidate_id", UuidRule)
       && Required(fs, v, "role_id", UuidRule)
       && Optional(fs, v, "invite_expires_at", FormatRule(Datetime))
       && ids.Some?
    then
      QuestionIdsFacts(v);
      Some(CreateSession(StrAt(v, "candidate_id", ""), StrAt(v, "role_id", ""), OptStrAt(v, "invite_expires_at"), ids.value))
    else None
  }

  /** What a successful read of the question list guarantees. */
  lemma QuestionIdsFacts(v: Json)
    ensures var r := QuestionIdsAt(v);
            r.Some? && r.value.Some? ==>
              && Get(v, "question_ids").Some? && Get(v, "question_ids").value.JArr?
              && 1 <= |r.value.value| <= 20
              && UuidItems(Get(v, "question_ids").value.items, r.value.value)
  {
    var r := QuestionIdsAt(v);
    if r.Some? && r.value.Some? {
      ParseUuidsExact(Get(v, "question_ids").value.items, r.value.value);
    }
  }

  lemma CreateSessionExact(fs: Formats, v: Json, x: CreateSession)
    ensures ParseCreateSession(fs, v) == Some(x) <==> v.JObj? && ValidCreateSession(fs, x) && MirrorsCreateSession(v, x)
  {
    if v.JObj? && ValidCreateSession(fs, x) && MirrorsCreateSession(v, x) && x.questionIds.Some? {
      ParseUuidsExact(Get(v, "question_ids").value.items, x.questionIds.value);
    }
  }

  // ---------------------------------------------------------------------------
  // uploadAnswerSchema
  // ---------------------------------------------------------------------------

  datatype UploadAnswer = UploadAnswer(sessionId: string, questionId: string, questionIndex: real,
                                       audioBase64: string, audioDurationSeconds: Option<real>,
                                       tabSwitchesDuring: real)

  predicate ValidUploadAnswer(x: UploadAnswer) {
    && UuidLike(x.sessionId) && UuidLike(x.questionId)
    && x.questionIndex >= 0.0
    && JsLength(x.audioBase64) >= 100
    && (x.audioDurationSeconds.None? || x.audioDurationSeconds.value >= 0.0)
    && x.tabSwitchesDuring >= 0.0
  }

  predicate MirrorsUploadAnswer(v: Json, x: UploadAnswer) {
    && Get(v, "session_id") == Some(JStr(x.sessionId))
    && Get(v, "question_id") == Some(JStr(x.questionId))
    && Get(v, "question_index") == Some(JNum(x.questionIndex))
    && Get(v, "audio_base64") == Some(JStr(x.audioBase64))
    && OptNum(v, "audio_duration_seconds", x.audioDurationSeconds)
    && NumOrDefault(v, "tab_switches_during", x.tabSwitchesDuring, 0.0)
  }

  function ParseUploadAnswer(fs: Formats, v: Json): (r: Option<UploadAnswer>)
    ensures r.Some? ==> v.JObj? && ValidUploadAnswer(r.value) && MirrorsUploadAnswer(v, r.value)
  {
    if && v.JObj?
       && Required(fs, v, "session_id", UuidRule)
       && Required(fs, v, "question_id", UuidRule)
       && Required(fs, v, "question_index", NumberRule(Limits(0, None)))
       && Required(fs, v, "audio_base64", TextRule(Limits(100, None)))
       && Optional(fs, v, "audio_duration_seconds", NumberRule(Limits(0, None)))
       && Optional(fs, v, "tab_switches_during", NumberRule(Limits(0, None)))
    then
      Some(UploadAnswer(StrAt(v, "session_id", ""), StrAt(v, "question_id", ""), NumAt(v, "question_index", 0.0),
                        StrAt(v, "audio_base64", ""), OptNumAt(v, "audio_duration_seconds"),
                        NumAt(v, "tab_switches_during", 0.0)))
    else None
  }

  lemma UploadAnswerExact(fs: Formats, v: Json, x: UploadAnswer)
    ensures ParseUploadAnswer(fs, v) == Some(x) <==> v.JObj? && ValidUploadAnswer(x) && MirrorsUploadAnswer(v, x)
  {
  }

  // ---------------------------------------------------------------------------
  // reviewSessionSchema
  // ---------------------------------------------------------------------------

  datatype Decision = StrongHire | Hire | Maybe | NoHire | StrongNoHire {
    function Tag(): string {
      match this
      case StrongHire => "strong_hire"
      case Hire => "hire"
      case Maybe => "maybe"
      case NoHire => "no_hire"
      case StrongNoHire => "strong_no_hire"
    }
  }

  const DecisionTags := ["strong_hire", "hire", "maybe", "no_hire", "strong_no_hire"]

  function DecisionOf(s: string): (r: Option<Decision>)
    ensures r.Some? <==> s in DecisionTags
    ensures r.Some? ==> r.value.Tag() == s
  {
    if s == "strong_hire" then Some(StrongHire)
    else if s == "hire" then Some(Hire)
    else if s == "maybe" then Some(Maybe)
    else if s == "no_hire" then Some(NoHire)
    else if s == "strong_no_hire" then Some(StrongNoHire)
    else None
  }

  lemma DecisionTagRoundTrip(d: Decision)
    ensures DecisionOf(d.Tag()) == Some(d)
  {
  }

  datatype ReviewSession = ReviewSession(reviewerNotes: Option<string>, decision: Decision)

  predicate ValidReviewSession(x: ReviewSession) {
    OptLengthAtMost(x.reviewerNotes, 2000)
  }

  predicate MirrorsReviewSession(v: Json, x: ReviewSession) {
    OptStr(v, "reviewer_notes", x.reviewerNotes) && Get(v, "reviewer_decision") == Some(JStr(x.decision.Tag()))
  }

  function ParseReviewSession(fs: Formats, v: Json): (r: Option<ReviewSession>)
    ensures r.Some? ==> v.JObj? && ValidReviewSession(r.value) && MirrorsReviewSession(v, r.value)
  {
    var decision := DecisionOf(StrAt(v, "reviewer_decision", ""));
    if && v.JObj?
       && Optional(fs, v, "reviewer_notes", TextRule(Limits(0, Some(2000))))
       && Required(fs, v, "reviewer_decision", EnumRule(DecisionTags))
    then Some(ReviewSession(OptStrAt(v, "reviewer_notes"), decision.value))
    else None
  }

  lemma ReviewSessionExact(fs: Formats, v: Json, x: ReviewSession)
    ensures ParseReviewSession(fs, v) == Some(x) <==> v.JObj? && ValidReviewSession(x) && MirrorsReviewSession(v, x)
  {
    if v.JObj? && ValidReviewSession(x) && MirrorsReviewSession(v, x) {
      DecisionTagRoundTrip(x.decision);
    }
  }

  // ---------------------------------------------------------------------------
  // ttsRequestSchema
  // ---------------------------------------------------------------------------

  datatype TtsRequest = TtsRequest(text: string, voice: string)

  predicate ValidTtsRequest(x: TtsRequest) {
    LengthIn(x.text, 1, 1000)
  }

  predicate MirrorsTtsRequest(v: Json, x: TtsRequest) {
    Get(v, "text") == Some(JStr(x.text)) && StrOrDefault(v, "voice", x.voice, DefaultVoice)
  }

  function ParseTtsRequest(fs: Formats, v: Json): (r: Option<TtsRequest>)
    ensures r.Some? ==> v.JObj? && ValidTtsRequest(r.value) && MirrorsTtsRequest(v, r.value)
  {
    if && v.JObj?
       && Required(fs, v, "text", TextRule(Limits(1, Some(1000))))
       && Optional(fs, v, "voice", TextRule(Limits(0, None)))
    then Some(TtsRequest(StrAt(v, "text", ""), StrAt(v, "voice", DefaultVoice)))
    else None
  }

  lemma TtsRequestExact(fs: Formats, v: Json, x: TtsRequest)
    ensures ParseTtsRequest(fs, v) == Some(x) <==> v.JObj? && ValidTtsRequest(x) && MirrorsTtsRequest(v, x)
  {
  }

  // ---------------------------------------------------------------------------
  // startInterviewSchema
  // ---------------------------------------------------------------------------

  datatype StartInterview = StartInterview(token: string, candidateName: string, candidateEmail: string,
                                           browserInfo: Option<map<string, string>>)

  predicate ValidStartInterview(fs: Formats, x: StartInterview) {
    LengthIn(x.token, 20, 100) && LengthIn(x.candidateName, 1, 100) && fs.email(x.candidateEmail)
  }

  /** The object's entries, every one a string. */
  predicate StringEntries(fields: map<string, Json>, m: map<string, string>) {
    fields.Keys == m.Keys && forall k :: k in fields ==> fields[k] == JStr(m[k])
  }

  predicate MirrorsStartInterview(v: Json, x: StartInterview) {
    && Get(v, "token") == Some(JStr(x.token))
    && Get(v, "candidate_name") == Some(JStr(x.candidateName))
    && Get(v, "candidate_email") == Some(JStr(x.candidateEmail))
    && (match x.browserInfo
        case None => Get(v, "browser_info").None?
        case Some(m) => Get(v, "browser_info").Some? && Get(v, "browser_info").value.JObj?
                        && StringEntries(Get(v, "browser_info").value.fields, m))
  }

  /** `z.record(z.string(), z.string())`, optional. */
  function BrowserInfoAt(v: Json): (r: Option<Option<map<string, string>>>)
    ensures r == Some(None) <==> Get(v, "browser_info").None?
    ensures r.Some? && r.value.Some? ==>
              Get(v, "browser_info").Some? && Get(v, "browser_info").value.JObj?
              && StringEntries(Get(v, "browser_info").value.fields, r.value.value)
  {
    match Get(v, "browser_info")
    case None => Some(None)
    case Some(JObj(fields)) =>
      if forall k :: k in fields ==> fields[k].JStr? then Some(Some(map k | k in fields :: fields[k].s)) else None
    case Some(_) => None
  }

  function ParseStartInterview(fs: Formats, v: Json): (r: Option<StartInterview>)
    ensures r.Some? ==> v.JObj? && ValidStartInterview(fs, r.value) && MirrorsStartInterview(v, r.value)
  {
    var info := BrowserInfoAt(v);
    if && v.JObj?
       && Required(fs, v, "token", TextRule(Limits(20, Some(100))))
       && Required(fs, v, "candidate_name", TextRule(Limits(1, Some(100))))
       && Required(fs, v, "candidate_email", FormatRule(Email))
       && info.Some?
    then Some(StartInterview(StrAt(v, "token", ""), StrAt(v, "candidate_name", ""), StrAt(v, "candidate_email", ""), info.value))
    else None
  }

  lemma StartInterviewExact(fs: Formats, v: Json, x: StartInterview)
    ensures ParseStartInterview(fs, v) == Some(x) <==> v.JObj? && ValidStartInterview(fs, x) && MirrorsStartInterview(v, x)
  {
    if v.JObj? && ValidStartInterview(fs, x) && MirrorsStartInterview(v, x) && x.browserInfo.Some? {
      var fields := Get(v, "browser_info").value.fields;
      assert forall k :: k in fields ==> fields[k].JStr?;
      assert (map k | k in fields :: fields[k].s) == x.browserInfo.value;
    }
  }
}

=== FILE: setup.dfy ===
/** The first-run setup endpoint: POST creates (or re-keys) the administrator
    and names the organisation after the e-mail domain; PATCH renames the
    organisation's slug. */
module Setup {
  import opened Base
  import opened Text
  import opened Js

  const DefaultEmail := "admin@company.com"
  const DefaultPassword := "admin123456"
  const AdminName := "Admin User"
  const AdminRole := "super_admin"
  const DefaultBrandColor := "#7c3aed"
  const DefaultPlan := "free"

  // ---------------------------------------------------------------------------
  // Slugs
  // ---------------------------------------------------------------------------

  /** `s.toLowerCase().replace(/[^a-z0-9-]/g, '')`. */
  function CleanSlug(s: string): (r: string)
    ensures SlugChars(r)
  {
    KeepSlugChars(ToLower(s))
  }

  /** A clean slug is left as it is. */
  lemma CleanSlugOfSlug(s: string)
    requires SlugChars(s)
    ensures CleanSlug(s) == s
  {
    ToLowerOfSlugChars(s);
    KeepSlugCharsId(s);
  }

  lemma CleanSlugIdempotent(s: string)
    ensures CleanSlug(CleanSlug(s)) == CleanSlug(s)
  {
    CleanSlugOfSlug(CleanSlug(s));
  }

  /** The part after the first '@', or "company" when there is none or it is
      empty. */
  function Domain(email: string): (r: string)
    ensures |r| > 0
  {
    var parts := Split(email, '@');
    if |parts| >= 2 && |parts[1]| > 0 then parts[1] else "company"
  }

  /** `slugFromEmail(email)`: the first label of the domain, cleaned. */
  function SlugFromEmail(email: string): (r: string)
    ensures SlugChars(r)
  {
    CleanSlug(Split(Domain(email), '.')[0])
  }

  /** The domain of `local@domain` when neither part holds an '@'. */
  lemma DomainOf(local: string, domain: string)
    requires '@' !in local && '@' !in domain && |domain| > 0
    ensures Domain(local + "@" + domain) == domain
  {
    SplitCons(local, '@', domain);
    SplitNoSep(domain, '@');
  }

  /** The first '.'-separated label of `host.rest`. */
  lemma FirstLabel(host: string, rest: string)
    requires '.' !in host
    ensures Split(host + "." + rest, '.')[0] == host
  {
    SplitCons(host, '.', rest);
  }

  /** For `local@host.rest` with a clean host the slug is the host. */
  lemma SlugFromEmailOf(local: string, host: string, rest: string)
    requires '@' !in local && '@' !in host && '@' !in rest
    requires '.' !in host && |host| > 0 && SlugChars(host)
    ensures SlugFromEmail(local + "@" + host + "." + rest) == host
  {
    var domain := host + "." + rest;
    NotInConcat('@', host, ".", rest);
    Regroup(local, "@", host, ".", rest);
    DomainOf(local, domain);
    FirstLabel(host, rest);
    CleanSlugOfSlug(host);
  }

  lemma NotInConcat<T>(x: T, a: seq<T>, b: seq<T>, c: seq<T>)
    requires x !in a && x !in b && x !in c
    ensures x !in a + b + c
  {
  }

  lemma Regroup<T>(a: seq<T>, b: seq<T>, c: seq<T>, d: seq<T>, e: seq<T>)
    ensures a + b + c + d + e == a + b + (c + d + e)
  {
  }

  /** An address without '@' falls back to the slug "company". */
  lemma SlugFromEmailNoAt(email: string)
    requires '@' !in email
    ensures SlugFromEmail(email) == "company"
  {
    SplitNoSep(email, '@');
    SplitNoSep("company", '.');
    CleanSlugOfSlug("company");
  }

  /** `slug.charAt(0).toUpperCase() + slug.slice(1)`. */
  function OrgName(slug: string): (r: string)
    ensures |r| == |slug|
    ensures |slug| > 0 ==> r[1..] == slug[1..]
    ensures |slug| > 0 && 'a' <= slug[0] <= 'z' ==>
              'A' <= r[0] <= 'Z' && r[0] == (slug[0] as int - 32) as char
    ensures |slug| > 0 && !('a' <= slug[0] <= 'z') ==> r[0] == slug[0]
  {
    if |slug| == 0 then "" else [UpperChar(slug[0])] + slug[1..]
  }

  /** Lower-casing the organisation name gives the slug back. */
  lemma OrgNameLowers(slug: string)
    requires SlugChars(slug)
    ensures ToLower(OrgName(slug)) == slug
  {
    if |slug| > 0 {
      var tail := slug[1..];
      assert SlugChars(tail) by {
        forall k | 0 <= k < |tail| ensures IsSlugChar(tail[k]) { assert tail[k] == slug[k + 1]; }
      }
      ToLowerOfSlugChars(tail);
      var name := OrgName(slug);
      assert name[0] == UpperChar(slug[0]) && name[1..] == tail;
      assert LowerChar(UpperChar(slug[0])) == [slug[0]];
      assert ToLower(name) == [slug[0]] + tail;
    }
  }

  // ---------------------------------------------------------------------------
  // Store
  // ---------------------------------------------------------------------------

  datatype Org = Org(id: string, name: string, slug: string, brandColor: string, plan: string)

  datatype User = User(id: string, orgId: string, email: string, fullName: string,
                       passwordHash: string, role: string)

  /** The two tables in row order; "LIMIT 1" reads the first row. */
  datatype Db = Db(orgs: seq<Org>, users: seq<User>)

  /** A string-valued JSON field is used only when it is present and truthy
      (non-empty). */
  function OrDefault(field: Option<string>, fallback: string): (r: string)
    ensures field.Some? && field.value != "" ==> r == field.value
    ensures (field.None? || field.value == "") ==> r == fallback
  {
    if field.Some? && field.value != "" then field.value else fallback
  }

  /** The body of a POST, when it parsed as JSON. */
  datatype Credentials = Credentials(email: Option<string>, password: Option<string>)

  datatype Created = Created(email: string, password: string, dashboard: string)

  /** The first user with this e-mail. */
  function FindByEmail(users: seq<User>, email: string): (r: Option<nat>)
    ensures r.Some? ==> r.value < |users| && users[r.value].email == email
                        && forall k :: 0 <= k < r.value ==> users[k].email != email
    ensures r.None? ==> forall k :: 0 <= k < |users| ==> users[k].email != email
    decreases |users|
  {
    if |users| == 0 then None
    else if users[0].email == email then Some(0)
    else
      var rest := FindByEmail(users[1..], email);
      if rest.Some? then Some(rest.value + 1) else None
  }

  /** `UPDATE users SET password_hash = ? WHERE id = ?`. */
  function SetPassword(users: seq<User>, id: string, hash: string): (r: seq<User>)
    ensures |r| == |users|
    ensures forall k :: 0 <= k < |r| ==>
              r[k] == if users[k].id == id then users[k].(passwordHash := hash) else users[k]
  {
    seq(|users|, k requires 0 <= k < |users| =>
      if users[k].id == id then users[k].(passwordHash := hash) else users[k])
  }

  /** `UPDATE organizations SET slug = ?, name = ? WHERE id = ? AND slug = 'demo'`. */
  function RenameDemo(orgs: seq<Org>, id: string, slug: string, name: string): (r: seq<Org>)
    ensures |r| == |orgs|
    ensures forall k :: 0 <= k < |r| ==>
              r[k] == if orgs[k].id == id && orgs[k].slug == "demo"
                      then orgs[k].(slug := slug, name := name) else orgs[k]
  {
    seq(|orgs|, k requires 0 <= k < |orgs| =>
      if orgs[k].id == id && orgs[k].slug == "demo" then orgs[k].(slug := slug, name := name) else orgs[k])
  }

  /** `"/" + (first organisation's slug || "app")`. */
  function Dashboard(orgs: seq<Org>): (r: string)
    ensures |r| >= 2 && r[0] == '/'
    ensures |orgs| > 0 && orgs[0].slug != "" ==> r[1..] == orgs[0].slug
  {
    "/" + if |orgs| > 0 && orgs[0].slug != "" then orgs[0].slug else "app"
  }

  function PostEmail(body: Option<Credentials>): string {
    if body.Some? then OrDefault(body.value.email, DefaultEmail) else DefaultEmail
  }

  function PostPassword(body: Option<Credentials>): string {
    if body.Some? then OrDefault(body.value.password, DefaultPassword) else DefaultPassword
  }

  /** The writes of the POST for an administrator `email` whose password
      hashes to `hash`: re-hash a known user, or enrol a new one. */
  function Enrol(db: Db, email: string, hash: string, orgId: string, userId: string): (r: Db)
    ensures |r.users| >= |db.users| && |r.orgs| >= |db.orgs|
    ensures FindByEmail(r.users, email).Some?
            && r.users[FindByEmail(r.users, email).value].passwordHash == hash
    ensures FindByEmail(db.users, email).Some? ==>
              r.orgs == db.orgs && |r.users| == |db.users|
              && FindByEmail(r.users, email) == FindByEmail(db.users, email)
    ensures FindByEmail(db.users, email).None? ==>
              |r.users| == |db.users| + 1 && r.users[..|db.users|] == db.users
              && FindByEmail(r.users, email) == Some(|db.users|)
  {
    var found := FindByEmail(db.users, email);
    if found.Some? then
      var users := SetPassword(db.users, db.users[found.value].id, hash);
      FindByEmailSameEmails(db.users, users, email);
      db.(users := users)
    else
      var slug := SlugFromEmail(email);
      var name := OrgName(slug);
      var orgs := if |db.orgs| > 0 then RenameDemo(db.orgs, db.orgs[0].id, slug, name)
                  else [Org(orgId, name, slug, DefaultBrandColor, DefaultPlan)];
      var owner := if |db.orgs| > 0 then db.orgs[0].id else orgId;
      var admin := User(userId, owner, email, AdminName, hash, AdminRole);
      FindByEmailAppend(db.users, admin, email);
      assert (db.users + [admin])[..|db.users|] == db.users;
      Db(orgs, db.users + [admin])
  }

  /** `POST /api/setup`. `body` is `None` when the request carries no JSON;
      `hashOf` is the password hash; `orgId` and `userId` are the generated
      identifiers. Database failures are not modelled, so the call succeeds. */
  function Post(body: Option<Credentials>, db: Db, hashOf: string -> string,
                orgId: string, userId: string): (r: (Created, Db))
    ensures r.0.email == PostEmail(body) && r.0.password == PostPassword(body)
    ensures r.0.dashboard == Dashboard(r.1.orgs)
    ensures body.None? ==> r.0.email == DefaultEmail && r.0.password == DefaultPassword
  {
    var email := PostEmail(body);
    var password := PostPassword(body);
    var after := Enrol(db, email, hashOf(password), orgId, userId);
    (Created(email, password, Dashboard(after.orgs)), after)
  }

  /** `GET /api/setup`: the credentials it advertises. */
  function Advertised(): (string, string) {
    (DefaultEmail, DefaultPassword)
  }

  /** A POST without a body, or whose fields are missing or empty, uses
      exactly the credentials the GET advertises. */
  lemma PostUsesAdvertised(body: Option<Credentials>, db: Db, hashOf: string -> string,
                           orgId: string, userId: string)
    requires body.Some? ==> OrDefault(body.value.email, "") == "" && OrDefault(body.value.password, "") == ""
    ensures var c := Post(body, db, hashOf, orgId, userId).0;
            (c.email, c.password) == Advertised()
  {
  }

  /** A known e-mail only has its password re-hashed: no organisation and no
      user row is added, and only rows of that user's id change. */
  lemma PostExistingRehashes(body: Option<Credentials>, db: Db, hashOf: string -> string,
                             orgId: string, userId: string)
    requires FindByEmail(db.users, PostEmail(body)).Some?
    ensures var after := Post(body, db, hashOf, orgId, userId).1;
            var id := db.users[FindByEmail(db.users, PostEmail(body)).value].id;
            && after.orgs == db.orgs
            && |after.users| == |db.users|
            && (forall k :: 0 <= k < |db.users| && db.users[k].id != id ==> after.users[k] == db.users[k])
            && (forall k :: 0 <= k < |db.users| && db.users[k].id == id ==>
                  after.users[k] == db.users[k].(passwordHash := hashOf(PostPassword(body))))
  {
  }

  /** A new e-mail gets exactly one new super administrator, appended, whose
      organisation is the first one (or the one created for it). */
  lemma PostNewCreatesAdmin(body: Option<Credentials>, db: Db, hashOf: string -> string,
                            orgId: string, userId: string)
    requires FindByEmail(db.users, PostEmail(body)).None?
    ensures var after := Post(body, db, hashOf, orgId, userId).1;
            var email := PostEmail(body);
            && after.users == db.users + [User(userId, after.orgs[0].id, email, AdminName,
                                               hashOf(PostPassword(body)), AdminRole)]
            && |after.orgs| == (if |db.orgs| > 0 then |db.orgs| else 1)
            && (|db.orgs| == 0 ==> after.orgs == [Org(orgId, OrgName(SlugFromEmail(email)),
                                                      SlugFromEmail(email), DefaultBrandColor, DefaultPlan)])
  {
  }

  /** The first organisation is renamed after the e-mail domain only while its
      slug is still "demo"; otherwise every organisation is left as it was. */
  lemma PostRenamesOnlyDemo(body: Option<Credentials>, db: Db, hashOf: string -> string,
                            orgId: string, userId: string)
    requires FindByEmail(db.users, PostEmail(body)).None? && |db.orgs| > 0
    ensures var after := Post(body, db, hashOf, orgId, userId).1;
            var slug := SlugFromEmail(PostEmail(body));
            && (db.orgs[0].slug == "demo" ==>
                  after.orgs[0] == db.orgs[0].(slug := slug, name := OrgName(slug)))
            && (db.orgs[0].slug != "demo" ==> after.orgs[0] == db.orgs[0])
            && (forall k :: 0 <= k < |db.orgs| && db.orgs[k].id != db.orgs[0].id ==> after.orgs[k] == db.orgs[k])
  {
  }

  predicate UniqueUserIds(users: seq<User>) {
    forall i, j :: 0 <= i < j < |users| ==> users[i].id != users[j].id
  }

  predicate FreshUserId(users: seq<User>, id: string) {
    forall k :: 0 <= k < |users| ==> users[k].id != id
  }

  /** Running the setup a second time with the same body finds the
      administrator the first run left and only re-hashes its password:
      bcrypt draws a new salt on every call, so the second run's hash
      `hashOf2` may differ from the first's. Organisations, every other user
      row and the reply stay as the first run left them; when both hashes
      agree the second run changes nothing. */
  lemma PostTwice(body: Option<Credentials>, db: Db, hashOf: string -> string, hashOf2: string -> string,
                  orgId: string, userId: string, orgId2: string, userId2: string)
    requires FreshUserId(db.users, userId)
    ensures var first := Post(body, db, hashOf, orgId, userId);
            var second := Post(body, first.1, hashOf2, orgId2, userId2);
            var found := FindByEmail(first.1.users, PostEmail(body));
            && found.Some?
            && second.0 == first.0
            && second.1.orgs == first.1.orgs
            && |second.1.users| == |first.1.users|
            && (forall k :: 0 <= k < |first.1.users| && first.1.users[k].id != first.1.users[found.value].id ==>
                  second.1.users[k] == first.1.users[k])
            && (forall k :: 0 <= k < |first.1.users| && first.1.users[k].id == first.1.users[found.value].id ==>
                  second.1.users[k] == first.1.users[k].(passwordHash := hashOf2(PostPassword(body))))
            && (hashOf2(PostPassword(body)) == hashOf(PostPassword(body)) ==> second == first)
  {
    EnrolTwice(db, PostEmail(body), hashOf(PostPassword(body)), hashOf2(PostPassword(body)),
               orgId, userId, orgId2, userId2);
  }

  /** The second enrolment of the same e-mail finds the row the first one
      wrote or re-hashed, and only rewrites that account's hash. */
  lemma EnrolTwice(db: Db, email: string, hash: string, hash2: string, orgId: string, userId: string,
                   orgId2: string, userId2: string)
    requires FreshUserId(db.users, userId)
    ensures var once := Enrol(db, email, hash, orgId, userId);
            var found := FindByEmail(once.users, email);
            && found.Some?
            && once.users[found.value].passwordHash == hash
            && Enrol(once, email, hash2, orgId2, userId2)
               == once.(users := SetPassword(once.users, once.users[found.value].id, hash2))
            && (hash2 == hash ==> Enrol(once, email, hash2, orgId2, userId2) == once)
  {
    var once := Enrol(db, email, hash, orgId, userId);
    var found := FindByEmail(once.users, email).value;
    var id := once.users[found].id;
    if FindByEmail(db.users, email).Some? {
      assert once.users == SetPassword(db.users, db.users[found].id, hash);
    } else {
      assert id == userId;
    }
    SetPasswordNoChange(once.users, id, hash);
  }

  /** Writing a hash every matching row already has changes nothing. */
  lemma SetPasswordNoChange(users: seq<User>, id: string, hash: string)
    requires forall k :: 0 <= k < |users| && users[k].id == id ==> users[k].passwordHash == hash
    ensures SetPassword(users, id, hash) == users
  {
  }

  /** FindByEmail depends only on the e-mails. */
  lemma {:induction false} FindByEmailSameEmails(a: seq<User>, b: seq<User>, email: string)
    requires |a| == |b| && forall k :: 0 <= k < |a| ==> a[k].email == b[k].email
    ensures FindByEmail(a, email) == FindByEmail(b, email)
    decreases |a|
  {
    if |a| > 0 {
      FindByEmailSameEmails(a[1..], b[1..], email);
    }
  }

  /** A row appended after rows without the e-mail is the first with it. */
  lemma {:induction false} FindByEmailAppend(a: seq<User>, u: User, email: string)
    requires FindByEmail(a, email).None? && u.email == email
    ensures FindByEmail(a + [u], email) == Some(|a|)
    decreases |a|
  {
    if |a| > 0 {
      assert (a + [u])[1..] == a[1..] + [u];
      FindByEmailAppend(a[1..], u, email);
    } else {
      assert a + [u] == [u];
    }
  }

  // ---------------------------------------------------------------------------
  // PATCH
  // ---------------------------------------------------------------------------

  datatype Reply =
    | BadRequest(error: string)
    | ServerError
    | Renamed(slug: string, name: Option<Json>)

  /** `PATCH /api/setup`. `body` is the parsed request body, `None` when it is
      not valid JSON; `h` renders a non-string name as the database stores it. */
  function Patch(h: Host, body: Option<Json>, db: Db): (r: (Reply, Db))
    ensures !r.0.Renamed? ==> r.1 == db
    ensures body.None? || body == Some(JNull) ==> r.0 == ServerError
    ensures body.Some? && body.value != JNull && !TruthyOpt(Get(body.value, "slug")) ==>
              r.0 == BadRequest("slug is required")
    ensures r.0.Renamed? ==> body.Some? && Get(body.value, "slug").Some? && Get(body.value, "slug").value.JStr?
                             && r.0.slug == CleanSlug(Get(body.value, "slug").value.s)
    ensures r.0.Renamed? ==> r.0.slug != "" && SlugChars(r.0.slug)
    ensures r.0.Renamed? ==> |r.1.orgs| == |db.orgs| && r.1.users == db.users
    ensures r.0.Renamed? ==> forall k :: 0 <= k < |r.1.orgs| ==>
              r.1.orgs[k].slug == r.0.slug && r.1.orgs[k].id == db.orgs[k].id
    ensures r.0.Renamed? ==>
              var name := Get(body.value, "name");
              && r.0.name == name
              && forall k :: 0 <= k < |db.orgs| ==>
                   r.1.orgs[k] == db.orgs[k].(slug := r.0.slug,
                                              name := if TruthyOpt(name) then ToStr(h, name.value) else db.orgs[k].name)
  {
    if body.None? || body.value == JNull then (ServerError, db)
    else
      var slug := Get(body.value, "slug");
      var name := Get(body.value, "name");
      if !TruthyOpt(slug) then (BadRequest("slug is required"), db)
      else if !slug.value.JStr? then (ServerError, db)
      else
        var clean := CleanSlug(slug.value.s);
        if clean == "" then (BadRequest("Invalid slug"), db)
        else
          var orgs := seq(|db.orgs|, k requires 0 <= k < |db.orgs| =>
            db.orgs[k].(slug := clean, name := if TruthyOpt(name) then ToStr(h, name.value) else db.orgs[k].name));
          (Renamed(clean, name), db.(orgs := orgs))
  }

  /** Applying the same rename twice changes nothing more. */
  lemma PatchIdempotent(h: Host, body: Option<Json>, db: Db)
    ensures var once := Patch(h, body, db);
            Patch(h, body, once.1) == once
  {
    var once := Patch(h, body, db);
    if once.0.Renamed? {
      var twice := Patch(h, body, once.1);
      assert twice.1.orgs == once.1.orgs;
    }
  }

  /** After a rename the setup POST for a known administrator points the
      dashboard at the new slug. */
  lemma PatchThenPostDashboard(h: Host, rename: Option<Json>, db: Db, body: Option<Credentials>,
                               hashOf: string -> string, orgId: string, userId: string)
    requires Patch(h, rename, db).0.Renamed? && |db.orgs| > 0
    requires FindByEmail(Patch(h, rename, db).1.users, PostEmail(body)).Some?
    ensures var renamed := Patch(h, rename, db);
            Post(body, renamed.1, hashOf, orgId, userId).0.dashboard == "/" + renamed.0.slug
  {
    var renamed := Patch(h, rename, db);
    assert renamed.1.orgs[0].slug == renamed.0.slug;
  }
}

=== FILE: storage_keys.dfy ===
/** The object-storage key under which an answer's audio is uploaded. */
module StorageKeys {
  import opened Text

  /** The file-name segment of an audio key: {questionIndex}_{timestamp}.webm */
  function FileSegment(questionIndex: int, timestamp: int): (r: string)
    ensures '/' !in r
    ensures EndsWith(r, ".webm")
  {
    var a, b := IntToString(questionIndex), IntToString(timestamp);
    var r := a + "_" + b + ".webm";
    assert forall k :: 0 <= k < |r| ==> r[k] != '/' by {
      forall k | 0 <= k < |r| ensures r[k] != '/' {
        if k < |a| { assert r[k] == a[k]; }
        else if k < |a| + 1 { assert r[k] == '_'; }
        else if k < |a| + 1 + |b| { assert r[k] == b[k - |a| - 1]; }
      }
    }
    assert r[|r| - 5..] == ".webm";
    r
  }

  /** `generateAudioKey` with `Date.now()` passed in as `timestamp`:
      audio/{orgId}/{sessionId}/{questionIndex}_{timestamp}.webm */
  function AudioKey(orgId: string, sessionId: string, questionIndex: int, timestamp: int): (r: string)
    ensures StartsWith(r, "audio/") && EndsWith(r, ".webm")
  {
    var head := "audio/";
    var rest := orgId + "/" + sessionId + "/" + FileSegment(questionIndex, timestamp);
    EndsWithAppend(head, rest, ".webm");
    head + rest
  }

  lemma EndsWithAppend(a: string, b: string, suffix: string)
    requires EndsWith(b, suffix)
    ensures StartsWith(a + b, a) && EndsWith(a + b, suffix)
  {
    assert (a + b)[..|a|] == a;
    assert (a + b)[|a + b| - |suffix|..] == b[|b| - |suffix|..];
  }

  lemma SplitTwo(c: string, d: string)
    requires '/' !in c && '/' !in d
    ensures Split(c + ['/'] + d, '/') == [c, d]
  {
    SplitNoSep(d, '/');
    SplitCons(c, '/', d);
  }

  lemma SplitThree(b: string, c: string, d: string)
    requires '/' !in b && '/' !in c && '/' !in d
    ensures Split(b + ['/'] + (c + ['/'] + d), '/') == [b, c, d]
  {
    SplitTwo(c, d);
    SplitCons(b, '/', c + ['/'] + d);
  }

  /** A '/'-joined path of four slash-free segments splits back into them. */
  lemma SplitFour(s: string, a: string, b: string, c: string, d: string)
    requires '/' !in a && '/' !in b && '/' !in c && '/' !in d
    requires s == a + ['/'] + (b + ['/'] + (c + ['/'] + d))
    ensures Split(s, '/') == [a, b, c, d]
  {
    var t := b + ['/'] + (c + ['/'] + d);
    SplitThree(b, c, d);
    assert Split(t, '/') == [b, c, d];
    SplitCons(a, '/', t);
    ConsFour(a, b, c, d);
  }

  lemma ConsFour<T>(a: T, b: T, c: T, d: T)
    ensures [a] + [b, c, d] == [a, b, c, d]
  {
  }

  /** With slash-free org and session ids, the key has four '/'-separated
      segments: "audio", the org id, the session id, and the file name. */
  lemma AudioKeySegments(orgId: string, sessionId: string, questionIndex: int, timestamp: int)
    requires '/' !in orgId && '/' !in sessionId
    ensures Split(AudioKey(orgId, sessionId, questionIndex, timestamp), '/')
            == ["audio", orgId, sessionId, FileSegment(questionIndex, timestamp)]
  {
    var f := FileSegment(questionIndex, timestamp);
    var key := AudioKey(orgId, sessionId, questionIndex, timestamp);
    KeyShape(orgId, sessionId, f);
    SplitFour(key, "audio", orgId, sessionId, f);
  }

  lemma KeyShape(orgId: string, sessionId: string, f: string)
    ensures "audio/" + (orgId + "/" + sessionId + "/" + f) == "audio" + ['/'] + (orgId + ['/'] + (sessionId + ['/'] + f))
  {
    assert "audio/" == "audio" + ['/'];
    assert "/" == ['/'];
  }

  /** Two keys for the same org, session and question index are equal exactly
      when their timestamps are. */
  lemma AudioKeyInjective(orgId: string, sessionId: string, questionIndex: int, t1: int, t2: int)
    ensures AudioKey(orgId, sessionId, questionIndex, t1) == AudioKey(orgId, sessionId, questionIndex, t2) <==> t1 == t2
  {
    var q := orgId + "/" + sessionId + "/";
    var p := "audio/" + q;
    var x := IntToString(questionIndex);
    var s1, s2 := IntToString(t1), IntToString(t2);
    Assoc("audio/", q, FileSegment(questionIndex, t1));
    Assoc("audio/", q, FileSegment(questionIndex, t2));
    Regroup(p, x, "_", s1, ".webm");
    Regroup(p, x, "_", s2, ".webm");
    if AudioKey(orgId, sessionId, questionIndex, t1) == AudioKey(orgId, sessionId, questionIndex, t2) {
      CancelAround(p + (x + "_"), s1, s2, ".webm");
      IntToStringInjective(t1, t2);
    }
  }

  lemma Assoc<T>(a: seq<T>, b: seq<T>, c: seq<T>)
    ensures a + (b + c) == a + b + c
  {
  }

  lemma Regroup<T>(p: seq<T>, x: seq<T>, m: seq<T>, y: seq<T>, e: seq<T>)
    ensures p + (x + m + y + e) == p + (x + m) + y + e
  {
  }

  lemma CancelAround<T>(head: seq<T>, x: seq<T>, y: seq<T>, tail: seq<T>)
    requires head + x + tail == head + y + tail
    ensures x == y
  {
    var k := head + x + tail;
    assert |x| == |y|;
    assert x == k[|head|..|head| + |x|];
    assert y == (head + y + tail)[|head|..|head| + |y|];
  }
}

=== FILE: text.dfy ===
/** The JavaScript string operations the modelled code relies on: trimming,
    searching, splitting, case mapping and integer formatting/parsing.
    Strings are sequences of Unicode scalar values. */
module Text {
  import opened Base

  // ---------------------------------------------------------------------------
  // Whitespace and trimming
  // ---------------------------------------------------------------------------

  /** The code points ECMAScript counts as WhiteSpace or LineTerminator: what
      `String.prototype.trim` strips and what the regex class `\s` matches. */
  predicate IsWs(c: char) {
    || c == ' ' || c == '\t' || c == '\n' || c == '\r' || c == '\U{000B}' || c == '\U{000C}'
    || c == '\U{00A0}' || c == '\U{1680}' || ('\U{2000}' <= c <= '\U{200A}')
    || c == '\U{2028}' || c == '\U{2029}' || c == '\U{202F}' || c == '\U{205F}'
    || c == '\U{3000}' || c == '\U{FEFF}'
  }

  predicate AllWs(s: string) {
    forall k :: 0 <= k < |s| ==> IsWs(s[k])
  }

  /** `s.trimStart()`: the suffix of `s` that starts at its first non-whitespace character. */
  function TrimStart(s: string): (r: string)
    ensures |r| <= |s| && r == s[|s| - |r|..]
    ensures AllWs(s[..|s| - |r|])
    ensures r == [] || !IsWs(r[0])
    decreases |s|
  {
    if |s| > 0 && IsWs(s[0]) then
      var t := s[1..];
      var r := TrimStart(t);
      assert s[..|s| - |r|] == [s[0]] + t[..|t| - |r|];
      r
    else s
  }

  /** `s.trimEnd()`: the prefix of `s` that ends at its last non-whitespace character. */
  function TrimEnd(s: string): (r: string)
    ensures |r| <= |s| && r == s[..|r|]
    ensures AllWs(s[|r|..])
    ensures r == [] || !IsWs(r[|r| - 1])
    decreases |s|
  {
    if |s| > 0 && IsWs(s[|s| - 1]) then
      var t := s[..|s| - 1];
      var r := TrimEnd(t);
      assert s[|r|..] == t[|r|..] + [s[|s| - 1]];
      r
    else s
  }

  /** The number of leading whitespace characters of `s`. */
  function LeadingWs(s: string): (i: nat)
    ensures i <= |s|
  {
    |s| - |TrimStart(s)|
  }

  /** `s.trim()`: the slice of `s` between its leading and trailing whitespace. */
  function Trim(s: string): (r: string)
    ensures |r| <= |s| - LeadingWs(s)
    ensures r == s[LeadingWs(s)..LeadingWs(s) + |r|]
    ensures AllWs(s[..LeadingWs(s)]) && AllWs(s[LeadingWs(s) + |r|..])
    ensures r == [] || (!IsWs(r[0]) && !IsWs(r[|r| - 1]))
  {
    var a := TrimStart(s);
    var r := TrimEnd(a);
    SliceOfSuffix(s, LeadingWs(s), a, |r|);
    r
  }

  /** Slices of a suffix are slices of the whole. */
  lemma SliceOfSuffix<T>(s: seq<T>, i: nat, a: seq<T>, n: nat)
    requires i <= |s| && a == s[i..] && n <= |a|
    ensures a[..n] == s[i..i + n] && a[n..] == s[i + n..]
  {
  }

  /** A trimmed string is its own trim. */
  lemma TrimIdempotent(s: string)
    requires s == [] || (!IsWs(s[0]) && !IsWs(s[|s| - 1]))
    ensures Trim(s) == s
  {
  }

  /** The non-whitespace characters of a string, in order. */
  function NonWs(s: string): (r: string)
    ensures |r| <= |s|
    ensures forall k :: 0 <= k < |r| ==> !IsWs(r[k])
    decreases |s|
  {
    if |s| == 0 then [] else (if IsWs(s[0]) then [] else [s[0]]) + NonWs(s[1..])
  }

  lemma {:induction false} NonWsAppend(a: string, b: string)
    ensures NonWs(a + b) == NonWs(a) + NonWs(b)
    decreases |a|
  {
    if |a| == 0 {
      assert a + b == b;
    } else {
      assert (a + b)[1..] == a[1..] + b;
      NonWsAppend(a[1..], b);
    }
  }

  lemma {:induction false} NonWsTrimStart(s: string)
    ensures NonWs(TrimStart(s)) == NonWs(s)
    decreases |s|
  {
    if |s| > 0 && IsWs(s[0]) {
      NonWsTrimStart(s[1..]);
    }
  }

  lemma {:induction false} NonWsTrimEnd(s: string)
    ensures NonWs(TrimEnd(s)) == NonWs(s)
    decreases |s|
  {
    if |s| > 0 && IsWs(s[|s| - 1]) {
      var init := s[..|s| - 1];
      NonWsTrimEnd(init);
      assert s == init + [s[|s| - 1]];
      NonWsAppend(init, [s[|s| - 1]]);
      assert NonWs([s[|s| - 1]]) == [];
    }
  }

  /** Trimming removes whitespace only. */
  lemma NonWsTrim(s: string)
    ensures NonWs(Trim(s)) == NonWs(s)
  {
    NonWsTrimStart(s);
    NonWsTrimEnd(TrimStart(s));
  }

  // ---------------------------------------------------------------------------
  // Prefixes, suffixes, searching
  // ---------------------------------------------------------------------------

  predicate StartsWith(s: string, p: string) {
    |p| <= |s| && s[..|p|] == p
  }

  predicate EndsWith(s: string, p: string) {
    |p| <= |s| && s[|s| - |p|..] == p
  }

  /** `t` occurs in `s` at index `i`. */
  predicate OccursAt(s: string, t: string, i: int) {
    0 <= i <= |s| - |t| && s[i..i + |t|] == t
  }

  /** `s.includes(t)`. */
  predicate Contains(s: string, t: string) {
    exists i | 0 <= i <= |s| - |t| :: OccursAt(s, t, i)
  }

  /** A string contains every piece it is concatenated from. */
  lemma ContainsMiddle(a: string, t: string, b: string)
    ensures Contains(a + t + b, t)
  {
    assert OccursAt(a + t + b, t, |a|);
  }

  /** The pieces written one after another. */
  function Concat(parts: seq<string>): (r: string)
    ensures |parts| == 1 ==> r == parts[0]
  {
    if |parts| == 0 then "" else parts[0] + Concat(parts[1..])
  }

  /** Concatenation splits at any piece boundary. */
  lemma {:induction false} ConcatSplit(parts: seq<string>, n: nat)
    requires n <= |parts|
    ensures Concat(parts) == Concat(parts[..n]) + Concat(parts[n..])
    decreases n
  {
    if n > 0 {
      ConcatSplit(parts[1..], n - 1);
      assert parts[1..][..n - 1] == parts[1..n];
      assert parts[1..][n - 1..] == parts[n..];
      assert parts[..n][1..] == parts[1..n];
    }
  }

  /** Every piece occurs in the concatenation. */
  lemma ConcatContains(parts: seq<string>, k: nat)
    requires k < |parts|
    ensures Contains(Concat(parts), parts[k])
  {
    ConcatSplit(parts, k);
    var rest := parts[k..];
    assert rest[0] == parts[k] && rest[1..] == parts[k + 1..];
    var a, b := Concat(parts[..k]), Concat(parts[k + 1..]);
    assert Concat(rest) == parts[k] + b;
    assert Concat(parts) == a + parts[k] + b;
    ContainsMiddle(a, parts[k], b);
  }

  /** `s.indexOf(c)`: the first index of `c`, or -1. */
  function IndexOf(s: string, c: char): (r: int)
    ensures -1 <= r < |s|
    ensures r == -1 <==> c !in s
    ensures r >= 0 ==> s[r] == c && c !in s[..r]
    decreases |s|
  {
    if |s| == 0 then -1
    else if s[0] == c then 0
    else
      var k := IndexOf(s[1..], c);
      assert s[1..][..if k < 0 then 0 else k] == s[1..if k < 0 then 1 else k + 1];
      if k < 0 then -1 else k + 1
  }

  /** No occurrence of `c` comes before the one `IndexOf` finds. */
  lemma {:induction false} IndexOfFirst(s: string, c: char, k: nat)
    requires k < |s| && s[k] == c
    ensures 0 <= IndexOf(s, c) <= k
    decreases k
  {
    if s[0] != c {
      IndexOfFirst(s[1..], c, k - 1);
    }
  }

  /** A character that does not occur is at no index. */
  lemma NotAtAnyIndex(s: string, c: char)
    requires c !in s
    ensures forall k :: 0 <= k < |s| ==> s[k] != c
  {
  }

  /** `s.lastIndexOf(c, from)`: the last index `<= from` holding `c`, or -1. */
  function LastIndexOf(s: string, c: char, from: int): (r: int)
    ensures -1 <= r < |s| && (r == -1 || r <= from)
    ensures r >= 0 ==> s[r] == c
    ensures forall k :: r < k < |s| && k <= from ==> s[k] != c
    decreases if from < |s| then from + 1 else |s| + 1
  {
    if from < 0 || |s| == 0 then -1
    else if from >= |s| then LastIndexOf(s, c, |s| - 1)
    else if s[from] == c then from
    else LastIndexOf(s, c, from - 1)
  }

  // ---------------------------------------------------------------------------
  // Splitting
  // ---------------------------------------------------------------------------

  /** `s.split(sep)` for a one-character separator. */
  function Split(s: string, sep: char): (r: seq<string>)
    ensures |r| >= 1
    decreases |s|
  {
    var i := IndexOf(s, sep);
    if i < 0 then [s] else [s[..i]] + Split(s[i + 1..], sep)
  }

  /** No piece of a split holds the separator. */
  lemma {:induction false} SplitPiecesNoSep(s: string, sep: char)
    ensures forall k :: 0 <= k < |Split(s, sep)| ==> sep !in Split(s, sep)[k]
    decreases |s|
  {
    var i := IndexOf(s, sep);
    if i >= 0 {
      var tail := s[i + 1..];
      SplitPiecesNoSep(tail, sep);
      var r := Split(s, sep);
      assert r == [s[..i]] + Split(tail, sep);
      forall k | 0 <= k < |r|
        ensures sep !in r[k]
      {
        if k > 0 {
          assert r[k] == Split(tail, sep)[k - 1];
        }
      }
    }
  }

  /** The first piece is the text before the first separator. */
  lemma SplitFirst(s: string, sep: char)
    ensures Split(s, sep)[0] == s[..if IndexOf(s, sep) < 0 then |s| else IndexOf(s, sep)]
  {
  }

  /** `parts.join(sep)`. */
  function Join(parts: seq<string>, sep: char): string
    decreases |parts|
  {
    if |parts| == 0 then []
    else if |parts| == 1 then parts[0]
    else parts[0] + [sep] + Join(parts[1..], sep)
  }

  lemma JoinCons(head: string, rest: seq<string>, sep: char)
    requires |rest| >= 1
    ensures Join([head] + rest, sep) == head + [sep] + Join(rest, sep)
  {
    assert ([head] + rest)[1..] == rest;
  }

  /** Splitting and joining on the same separator give back the string. */
  lemma {:induction false} JoinSplit(s: string, sep: char)
    ensures Join(Split(s, sep), sep) == s
    decreases |s|
  {
    var i := IndexOf(s, sep);
    if i >= 0 {
      var head, tail := s[..i], s[i + 1..];
      var rest := Split(tail, sep);
      JoinCons(head, rest, sep);
      JoinSplit(tail, sep);
      assert s == head + [sep] + tail;
    }
  }

  /** A separator-free head is split off as the first piece. */
  /** The first `c` of `a + [c] + b` ends `a` when `a` holds none. */
  lemma IndexOfCons(a: string, c: char, b: string)
    requires c !in a
    ensures IndexOf(a + [c] + b, c) == |a|
  {
    var s := a + [c] + b;
    assert s[|a|] == c;
    assert s[..|a|] == a;
    IndexOfFirst(s, c, |a|);
  }

  lemma SplitCons(a: string, sep: char, b: string)
    requires sep !in a
    ensures Split(a + [sep] + b, sep) == [a] + Split(b, sep)
  {
    var s := a + [sep] + b;
    IndexOfCons(a, sep, b);
    assert s[..|a|] == a;
    assert s[|a| + 1..] == b;
  }

  /** A separator-free string is a single piece. */
  lemma SplitNoSep(a: string, sep: char)
    requires sep !in a
    ensures Split(a, sep) == [a]
  {
  }

  // ---------------------------------------------------------------------------
  // Case mapping and character classes
  // ---------------------------------------------------------------------------

  predicate IsLowerAlnum(c: char) {
    ('a' <= c <= 'z') || ('0' <= c <= '9')
  }

  predicate IsSlugChar(c: char) {
    IsLowerAlnum(c) || c == '-'
  }

  /** Only characters of [a-z0-9-]. */
  predicate SlugChars(s: string) {
    forall k :: 0 <= k < |s| ==> IsSlugChar(s[k])
  }

  /** The lower-case form of one character as `toLowerCase` produces it, exact on
      every character whose lower-case form contains an ASCII character: A-Z,
      U+0130 (which becomes "i" followed by U+0307) and U+212A (KELVIN SIGN, which
      becomes "k"). Every other character is kept; its true lower-case form
      contains no ASCII character, so no caller that keeps only ASCII letters,
      digits and '-' can tell the difference. */
  function LowerChar(c: char): (r: string)
    ensures |r| >= 1
    ensures 'A' <= c <= 'Z' ==> r == [(c as int + 32) as char]
    ensures IsSlugChar(c) ==> r == [c]
  {
    if 'A' <= c <= 'Z' then [(c as int + 32) as char]
    else if c == '\U{0130}' then ['i', '\U{0307}']
    else if c == '\U{212A}' then ['k']
    else [c]
  }

  /** `s.toLowerCase()`, in the sense of LowerChar. */
  function ToLower(s: string): (r: string)
    ensures |r| >= |s|
    decreases |s|
  {
    if |s| == 0 then [] else LowerChar(s[0]) + ToLower(s[1..])
  }

  lemma {:induction false} ToLowerOfSlugChars(s: string)
    requires forall k :: 0 <= k < |s| ==> IsSlugChar(s[k])
    ensures ToLower(s) == s
    decreases |s|
  {
    if |s| > 0 {
      ToLowerOfSlugChars(s[1..]);
    }
  }

  /** `c.toUpperCase()` for the characters of a slug. */
  function UpperChar(c: char): (r: char)
    ensures 'a' <= c <= 'z' ==> 'A' <= r <= 'Z' && LowerChar(r) == [c]
    ensures !('a' <= c <= 'z') ==> r == c
  {
    if 'a' <= c <= 'z' then (c as int - 32) as char else c
  }

  /** `s.replace(/[^a-z0-9-]/g, '')`: keeps only ASCII lower-case letters, digits and '-'. */
  function KeepSlugChars(s: string): (r: string)
    ensures |r| <= |s|
    ensures forall k :: 0 <= k < |r| ==> IsSlugChar(r[k])
    decreases |s|
  {
    if |s| == 0 then [] else (if IsSlugChar(s[0]) then [s[0]] else []) + KeepSlugChars(s[1..])
  }

  /** A string made only of slug characters is unchanged by KeepSlugChars. */
  lemma {:induction false} KeepSlugCharsId(s: string)
    requires forall k :: 0 <= k < |s| ==> IsSlugChar(s[k])
    ensures KeepSlugChars(s) == s
    decreases |s|
  {
    if |s| > 0 {
      KeepSlugCharsId(s[1..]);
    }
  }

  /** JavaScript's `.length` of a string: UTF-16 code units, two for a character
      outside the Basic Multilingual Plane. */
  function JsLength(s: string): (r: nat)
    ensures |s| <= r <= 2 * |s|
    decreases |s|
  {
    if |s| == 0 then 0 else (if s[0] as int >= 0x1_0000 then 2 else 1) + JsLength(s[1..])
  }

  /** A string of the Basic Multilingual Plane has one unit per character. */
  lemma {:induction false} JsLengthBmp(s: string)
    requires forall k :: 0 <= k < |s| ==> s[k] as int < 0x1_0000
    ensures JsLength(s) == |s|
    decreases |s|
  {
    if |s| > 0 {
      JsLengthBmp(s[1..]);
    }
  }

  /** The longest prefix of `s` whose JavaScript length is at most `n`: what
      `s.slice(0, n)` keeps, when the cut does not fall inside a surrogate
      pair. */
  function UnitPrefix(s: string, n: nat): (r: string)
    ensures StartsWith(s, r) && JsLength(r) <= n
    decreases |s|
  {
    if |s| == 0 then []
    else
      var w := Width(s[0]);
      if w > n then [] else [s[0]] + UnitPrefix(s[1..], n - w)
  }

  /** The units of the first character. */
  function Width(c: char): (w: nat)
    ensures w == JsLength([c])
  {
    assert [c][1..] == [];
    if c as int >= 0x1_0000 then 2 else 1
  }

  lemma JsLengthCons(c: char, t: string)
    ensures JsLength([c] + t) == Width(c) + JsLength(t)
  {
    assert ([c] + t)[1..] == t;
  }

  /** A string that fits is kept whole. */
  lemma {:induction false} UnitPrefixWhole(s: string, n: nat)
    requires JsLength(s) <= n
    ensures UnitPrefix(s, n) == s
    decreases |s|
  {
    if |s| > 0 {
      var t := s[1..];
      assert s == [s[0]] + t;
      JsLengthCons(s[0], t);
      UnitPrefixWhole(t, n - Width(s[0]));
    }
  }

  /** The prefix stops only where the next character would not fit. */
  lemma {:induction false} UnitPrefixMaximal(s: string, n: nat)
    ensures var r := UnitPrefix(s, n);
            |r| < |s| ==> JsLength(s[..|r| + 1]) > n
    decreases |s|
  {
    if |s| > 0 {
      var t := s[1..];
      if Width(s[0]) <= n {
        UnitPrefixMaximal(t, n - Width(s[0]));
        var r' := UnitPrefix(t, n - Width(s[0]));
        if |r'| < |t| {
          assert s[..|r'| + 2] == [s[0]] + t[..|r'| + 1];
          JsLengthCons(s[0], t[..|r'| + 1]);
        }
      } else {
        assert s[..1] == [s[0]];
      }
    }
  }

  /** A string too long to keep whole leaves at most one unit of the budget
      unused. */
  lemma {:induction false} UnitPrefixFull(s: string, n: nat)
    requires JsLength(s) > n
    ensures JsLength(UnitPrefix(s, n)) + 1 >= n
    decreases |s|
  {
    var t := s[1..];
    assert s == [s[0]] + t;
    JsLengthCons(s[0], t);
    if Width(s[0]) <= n {
      UnitPrefixFull(t, n - Width(s[0]));
      JsLengthCons(s[0], UnitPrefix(t, n - Width(s[0])));
    }
  }

  // ---------------------------------------------------------------------------
  // UTF-16 code units
  // ---------------------------------------------------------------------------

  /** The UTF-16 code units of one character (section 2.1 of RFC 2781): a
      character of the Basic Multilingual Plane is its own unit; one beyond it
      becomes a high and a low surrogate. A surrogate is not a `char` of its
      own, so the high surrogate D800+k is held as U+10000+k and the low one
      DC00+k as U+10400+k; neither is whitespace or punctuation, which is how
      JavaScript treats surrogates when it trims, searches or cuts. */
  function CodeUnits(c: char): (r: string)
    ensures |r| == if c as int >= 0x1_0000 then 2 else 1
    ensures c as int < 0x1_0000 ==> r == [c]
    ensures c as int >= 0x1_0000 ==>
              && 0x1_0000 <= r[0] as int < 0x1_0400 <= r[1] as int < 0x1_0800
              && (r[0] as int - 0x1_0000) * 0x400 + (r[1] as int - 0x1_0400) + 0x1_0000 == c as int
  {
    if c as int < 0x1_0000 then [c]
    else
      var v := c as int - 0x1_0000;
      [(0x1_0000 + v / 0x400) as char, (0x1_0400 + v % 0x400) as char]
  }

  /** A JavaScript string as its sequence of code units, one element per unit:
      indexing it is indexing the JavaScript string. */
  function Units(s: string): (r: string)
    ensures |r| == JsLength(s)
    decreases |s|
  {
    if |s| == 0 then [] else CodeUnits(s[0]) + Units(s[1..])
  }

  lemma {:induction false} UnitsAppend(a: string, b: string)
    ensures Units(a + b) == Units(a) + Units(b)
    decreases |a|
  {
    if |a| > 0 {
      assert (a + b)[1..] == a[1..] + b;
      UnitsAppend(a[1..], b);
    } else {
      assert a + b == b;
    }
  }

  /** In the Basic Multilingual Plane the units are the characters. */
  lemma {:induction false} UnitsBmp(s: string)
    requires forall k :: 0 <= k < |s| ==> s[k] as int < 0x1_0000
    ensures Units(s) == s
    decreases |s|
  {
    if |s| > 0 {
      UnitsBmp(s[1..]);
    }
  }

  /** A unit of a surrogate pair is never whitespace. */
  lemma NonWsCodeUnits(c: char)
    ensures NonWs(CodeUnits(c)) == if IsWs(c) then [] else CodeUnits(c)
  {
    var u := CodeUnits(c);
    if c as int >= 0x1_0000 {
      assert !IsWs(u[0]) && !IsWs(u[1]);
      assert u[1..][1..] == [];
    }
  }

  /** Whitespace is never part of a surrogate pair, so dropping whitespace
      before or after taking the units gives the same units. */
  lemma {:induction false} UnitsNonWs(s: string)
    ensures NonWs(Units(s)) == Units(NonWs(s))
    decreases |s|
  {
    if |s| > 0 {
      var c, t := s[0], s[1..];
      UnitsNonWs(t);
      NonWsAppend(CodeUnits(c), Units(t));
      NonWsCodeUnits(c);
      var h: string := if IsWs(c) then [] else [c];
      assert NonWs(s) == h + NonWs(t);
      UnitsAppend(h, NonWs(t));
      assert [c][1..] == [];
      assert Units(h) == if IsWs(c) then [] else CodeUnits(c);
    }
  }

  // ---------------------------------------------------------------------------
  // Integers as text
  // ---------------------------------------------------------------------------

  predicate IsDigit(c: char) {
    '0' <= c <= '9'
  }

  function DigitChar(d: int): (c: char)
    requires 0 <= d <= 9
    ensures IsDigit(c) && c as int - '0' as int == d
  {
    ('0' as int + d) as char
  }

  /** `String(n)` for a non-negative integer: its decimal digits, no leading zero. */
  function NatToString(n: nat): (r: string)
    ensures |r| >= 1
    ensures forall k :: 0 <= k < |r| ==> IsDigit(r[k])
    ensures |r| > 1 ==> r[0] != '0'
    ensures n < 10 <==> |r| == 1
    decreases n
  {
    if n < 10 then [DigitChar(n)] else NatToString(n / 10) + [DigitChar(n % 10)]
  }

  /** `String(i)` for an integer. */
  function IntToString(i: int): (r: string)
    ensures |r| >= 1
    ensures '/' !in r && '_' !in r && '.' !in r
  {
    if i < 0 then "-" + NatToString(-i) else NatToString(i)
  }

  /** The value of a string of decimal digits. */
  function DigitsValue(s: string): (n: nat)
    requires forall k :: 0 <= k < |s| ==> IsDigit(s[k])
    decreases |s|
  {
    if |s| == 0 then 0
    else
      assert IsDigit(s[|s| - 1]);
      10 * DigitsValue(s[..|s| - 1]) + (s[|s| - 1] as int - '0' as int)
  }

  /** Reading back the digits of a number gives the number. */
  lemma {:induction false} DigitsValueNatToString(n: nat)
    ensures DigitsValue(NatToString(n)) == n
    decreases n
  {
    if n >= 10 {
      var s := NatToString(n);
      assert s[..|s| - 1] == NatToString(n / 10);
      DigitsValueNatToString(n / 10);
    }
  }

  /** The longest prefix of `s` made of decimal digits. */
  function DigitPrefix(s: string): (r: string)
    ensures StartsWith(s, r)
    ensures forall k :: 0 <= k < |r| ==> IsDigit(r[k])
    ensures |r| < |s| ==> !IsDigit(s[|r|])
    decreases |s|
  {
    if |s| > 0 && IsDigit(s[0]) then [s[0]] + DigitPrefix(s[1..]) else []
  }

  lemma {:induction false} DigitPrefixAll(s: string)
    requires forall k :: 0 <= k < |s| ==> IsDigit(s[k])
    ensures DigitPrefix(s) == s
    decreases |s|
  {
    if |s| > 0 {
      DigitPrefixAll(s[1..]);
    }
  }

  /** The part of `s` after its leading whitespace and an optional sign, and
      whether that sign was '-'. */
  function SignAndRest(s: string): (bool, string)
  {
    var t := TrimStart(s);
    if |t| > 0 && t[0] == '-' then (true, t[1..])
    else if |t| > 0 && t[0] == '+' then (false, t[1..])
    else (false, t)
  }

  /** `parseInt(s, 10)`: optional leading whitespace, an optional sign, then the
      longest run of digits; `None` stands for NaN (no digit at all). */
  function ParseInt(s: string): (r: Option<int>)
  {
    var sr := SignAndRest(s);
    var d := DigitPrefix(sr.1);
    if |d| == 0 then None
    else
      var v: int := DigitsValue(d);
      if sr.0 then Some(-v) else Some(v)
  }

  /** Whether `parseInt` finds a number: after leading whitespace comes a
      digit, or a sign followed by a digit. */
  predicate HasNumber(s: string)
    decreases |s|
  {
    if |s| == 0 then false
    else if IsWs(s[0]) then HasNumber(s[1..])
    else if s[0] == '-' || s[0] == '+' then |s| > 1 && IsDigit(s[1])
    else IsDigit(s[0])
  }

  /** `parseInt` gives a number exactly when the text has one to read. */
  lemma ParseIntNaN(s: string)
    ensures ParseInt(s).Some? <==> HasNumber(s)
  {
    HasNumberSignAndRest(s);
    var t := SignAndRest(s).1;
    var d := DigitPrefix(t);
    if |d| > 0 {
      assert t[0] == d[0];
    }
  }

  lemma {:induction false} HasNumberSignAndRest(s: string)
    ensures HasNumber(s) <==> |SignAndRest(s).1| > 0 && IsDigit(SignAndRest(s).1[0])
    decreases |s|
  {
    if |s| > 0 && IsWs(s[0]) {
      HasNumberSignAndRest(s[1..]);
      assert TrimStart(s) == TrimStart(s[1..]);
      assert SignAndRest(s) == SignAndRest(s[1..]);
    } else {
      assert TrimStart(s) == s;
    }
  }

  /** A parsed number is negative only after a '-', and never negative
      without one. */
  lemma ParseIntSign(s: string)
    requires ParseInt(s).Some?
    ensures ParseInt(s).value < 0 ==> SignAndRest(s).0
    ensures !SignAndRest(s).0 ==> ParseInt(s).value >= 0
  {
  }

  /** Text that starts with neither whitespace, a sign nor a digit is NaN. */
  lemma ParseIntNoDigit(s: string)
    requires |s| > 0 && !IsWs(s[0]) && s[0] != '-' && s[0] != '+' && !IsDigit(s[0])
    ensures ParseInt(s).None?
  {
    assert TrimStart(s) == s;
    assert SignAndRest(s) == (false, s);
    assert DigitPrefix(s) == [];
  }

  lemma ParseIntOfSignAndDigits(s: string, negative: bool, d: string)
    requires |d| >= 1 && forall k :: 0 <= k < |d| ==> IsDigit(d[k])
    requires SignAndRest(s) == (negative, d)
    ensures ParseInt(s) == Some(if negative then -(DigitsValue(d) as int) else DigitsValue(d))
  {
    DigitPrefixAll(d);
    var v: int := DigitsValue(d);
    assert ParseInt(s) == if negative then Some(-v) else Some(v);
  }

  lemma ParseIntDigits(d: string)
    requires |d| >= 1 && forall k :: 0 <= k < |d| ==> IsDigit(d[k])
    ensures ParseInt(d) == Some(DigitsValue(d))
  {
    assert !IsWs(d[0]) && d[0] != '-' && d[0] != '+';
    assert TrimStart(d) == d;
    ParseIntOfSignAndDigits(d, false, d);
  }

  lemma ParseIntNegDigits(d: string)
    requires |d| >= 1 && forall k :: 0 <= k < |d| ==> IsDigit(d[k])
    ensures ParseInt("-" + d) == Some(-(DigitsValue(d) as int))
  {
    var s := "-" + d;
    assert !IsWs(s[0]);
    assert TrimStart(s) == s;
    assert s[1..] == d;
    ParseIntOfSignAndDigits(s, true, d);
  }

  /** `parseInt` reads back what `String` wrote. */
  lemma ParseIntIntToString(i: int)
    ensures ParseInt(IntToString(i)) == Some(i)
  {
    var n: nat := if i < 0 then -i else i;
    DigitsValueNatToString(n);
    if i < 0 {
      ParseIntNegDigits(NatToString(n));
    } else {
      ParseIntDigits(NatToString(n));
    }
  }

  /** Distinct integers print differently. */
  lemma IntToStringInjective(a: int, b: int)
    requires IntToString(a) == IntToString(b)
    ensures a == b
  {
    ParseIntIntToString(a);
    ParseIntIntToString(b);
  }

  /** `s.padStart(n, c)`. */
  function PadStart(s: string, n: nat, c: char): (r: string)
    ensures |r| == if |s| >= n then |s| else n
    ensures EndsWith(r, s)
    ensures forall k :: 0 <= k < |r| - |s| ==> r[k] == c
  {
    if |s| >= n then s
    else
      var pad := seq(n - |s|, _ => c);
      assert (pad + s)[|pad|..] == s;
      pad + s
  }
}

=== FILE: utils.dfy ===
/** The pure helpers of the shared utility module: duration text, the mean of
    the present scores, slugs, and the colour class of a recommendation. */
module Utils {
  import opened Base
  import opened Text

  // ---------------------------------------------------------------------------
  // Durations
  // ---------------------------------------------------------------------------

  /** JavaScript's `a % b`: the remainder takes the sign of the dividend. */
  function JsRem(a: int, b: int): (r: int)
    requires b > 0
    ensures a >= 0 ==> r == a % b
    ensures -b < r < b
    ensures a < 0 ==> r <= 0
  {
    if a >= 0 then a % b else -((-a) % b)
  }

  /** `formatDuration(seconds)` for a whole number of seconds: the minutes
      (`Math.floor`, so rounded down also for negative input), ':' and the
      remainder padded to two characters with '0'. */
  function FormatDuration(seconds: int): (r: string)
    ensures seconds >= 0 ==> ':' in r
  {
    var text := IntToString(seconds / 60) + ":" + PadStart(IntToString(JsRem(seconds, 60)), 2, '0');
    assert text[|IntToString(seconds / 60)|] == ':';
    text
  }

  /** The two-character field of a duration, for a remainder in [0, 60). */
  lemma PaddedRemainder(s: nat)
    requires s < 60
    ensures var p := PadStart(IntToString(s), 2, '0');
            && |p| == 2 && (forall k :: 0 <= k < 2 ==> IsDigit(p[k]))
            && DigitsValue(p) == s
  {
    var d := NatToString(s);
    DigitsValueNatToString(s);
    var p := PadStart(d, 2, '0');
    if s < 10 {
      assert p == ['0'] + d;
      assert p[..1] == ['0'];
      assert DigitsValue(p[..1]) == 0;
    } else {
      assert s / 10 < 10;
      assert |d| == 2 by {
        assert d == NatToString(s / 10) + [DigitChar(s % 10)];
      }
    }
  }

  /** Two digit strings joined by ':' split back into the two. */
  lemma SplitDigitPair(m: string, p: string)
    requires forall k :: 0 <= k < |m| ==> IsDigit(m[k])
    requires forall k :: 0 <= k < |p| ==> IsDigit(p[k])
    ensures Split(m + [':'] + p, ':') == [m, p]
  {
    assert ':' !in m by {
      forall k | 0 <= k < |m| ensures m[k] != ':' { assert IsDigit(m[k]); }
    }
    assert ':' !in p by {
      forall k | 0 <= k < |p| ensures p[k] != ':' { assert IsDigit(p[k]); }
    }
    SplitCons(m, ':', p);
    SplitNoSep(p, ':');
  }

  /** A non-negative duration reads back: the text splits at ':' into the
      minutes and a two-digit remainder, which recombine to the seconds. */
  lemma FormatDurationReadsBack(seconds: nat)
    ensures var parts := Split(FormatDuration(seconds), ':');
            && |parts| == 2
            && ParseInt(parts[0]) == Some(seconds / 60)
            && ParseInt(parts[1]) == Some(seconds % 60)
            && |parts[1]| == 2
            && 60 * (seconds / 60) + seconds % 60 == seconds
  {
    var q: nat := seconds / 60;
    var m := NatToString(q);
    assert IntToString(q) == m;
    assert JsRem(seconds, 60) == seconds % 60;
    var p := PadStart(IntToString(seconds % 60), 2, '0');
    PaddedRemainder(seconds % 60);
    assert FormatDuration(seconds) == m + [':'] + p;
    SplitDigitPair(m, p);
    ParseIntIntToString(q);
    ParseIntDigits(p);
  }

  lemma FormatDurationExamples()
    ensures FormatDuration(0) == "0:00"
    ensures FormatDuration(65) == "1:05"
  {
    assert NatToString(0) == "0";
    assert NatToString(1) == "1";
    assert NatToString(5) == "5";
    assert PadStart("0", 2, '0') == "00";
    assert PadStart("5", 2, '0') == "05";
  }

  /** Minutes are not padded and not capped at an hour. */
  lemma FormatDurationTenMinutes()
    ensures FormatDuration(600) == "10:00"
  {
    assert NatToString(0) == "0";
    assert NatToString(10) == "10" by {
      assert NatToString(10) == NatToString(1) + [DigitChar(0)];
    }
    assert PadStart("0", 2, '0') == "00";
  }

  // ---------------------------------------------------------------------------
  // Average of the present scores
  // ---------------------------------------------------------------------------

  /** The entries that are not null, in order. */
  function Present(scores: seq<Option<real>>): (r: seq<real>)
    ensures |r| <= |scores|
    decreases |scores|
  {
    if |scores| == 0 then []
    else (if scores[0].Some? then [scores[0].value] else []) + Present(scores[1..])
  }

  /** Exactly the values of the non-null entries are kept. */
  lemma {:induction false} PresentMembers(scores: seq<Option<real>>)
    ensures forall x :: x in Present(scores) <==> Some(x) in scores
    decreases |scores|
  {
    if |scores| > 0 {
      PresentMembers(scores[1..]);
      assert scores == [scores[0]] + scores[1..];
    }
  }

  function Sum(xs: seq<real>): real
    decreases |xs|
  {
    if |xs| == 0 then 0.0 else xs[0] + Sum(xs[1..])
  }

  /** `calculateAverageScore`: 0 without a present score, otherwise their mean. */
  function AverageScore(scores: seq<Option<real>>): (r: real)
    ensures |Present(scores)| == 0 ==> r == 0.0
    ensures |Present(scores)| > 0 ==> r * |Present(scores)| as real == Sum(Present(scores))
  {
    var valid := Present(scores);
    if |valid| == 0 then 0.0 else Sum(valid) / |valid| as real
  }

  lemma {:induction false} SumBounds(xs: seq<real>, lo: real, hi: real)
    requires forall k :: 0 <= k < |xs| ==> lo <= xs[k] <= hi
    ensures |xs| as real * lo <= Sum(xs) <= |xs| as real * hi
    decreases |xs|
  {
    if |xs| > 0 {
      SumBounds(xs[1..], lo, hi);
    }
  }

  /** A mean of values in [lo, hi] is in [lo, hi]. */
  lemma MeanBetween(total: real, n: real, lo: real, hi: real)
    requires n > 0.0 && n * lo <= total <= n * hi
    ensures lo <= total / n <= hi
  {
    var q := total / n;
    assert q * n == total;
    Scale(q, lo, n);
    Scale(hi, q, n);
  }

  /** The mean of a non-empty list of values in [lo, hi] is in [lo, hi]. */
  lemma MeanOfBounded(xs: seq<real>, lo: real, hi: real)
    requires |xs| > 0
    requires forall k :: 0 <= k < |xs| ==> lo <= xs[k] <= hi
    ensures lo <= Sum(xs) / |xs| as real <= hi
  {
    SumBounds(xs, lo, hi);
    MeanBetween(Sum(xs), |xs| as real, lo, hi);
  }

  /** With some score present, the average lies between the smallest and the
      largest bound of the present scores; nulls play no part. */
  lemma AverageScoreBounds(scores: seq<Option<real>>, lo: real, hi: real)
    requires forall k :: 0 <= k < |scores| && scores[k].Some? ==> lo <= scores[k].value <= hi
    requires exists k :: 0 <= k < |scores| && scores[k].Some?
    ensures lo <= AverageScore(scores) <= hi
  {
    var valid := Present(scores);
    PresentMembers(scores);
    var k :| 0 <= k < |scores| && scores[k].Some?;
    assert scores[k].value in valid;
    forall j | 0 <= j < |valid| ensures lo <= valid[j] <= hi {
      assert valid[j] in valid;
    }
    MeanOfBounded(valid, lo, hi);
  }

  lemma Scale(x: real, y: real, n: real)
    requires n > 0.0 && x * n >= y * n
    ensures x >= y
  {
  }

  /** Without any present score the average is 0. */
  lemma {:induction false} AverageScoreOfNulls(scores: seq<Option<real>>)
    requires forall k :: 0 <= k < |scores| ==> scores[k].None?
    ensures Present(scores) == []
    ensures AverageScore(scores) == 0.0
    decreases |scores|
  {
    if |scores| > 0 {
      AverageScoreOfNulls(scores[1..]);
    }
  }

  /** Nulls are ignored wherever they stand. */
  lemma {:induction false} PresentSkipsNull(a: seq<Option<real>>, b: seq<Option<real>>)
    ensures Present(a + [None] + b) == Present(a + b)
    decreases |a|
  {
    if |a| == 0 {
      assert [None] + b == a + [None] + b;
      assert ([None] + b)[1..] == b;
      assert a + b == b;
    } else {
      assert (a + [None] + b)[1..] == a[1..] + [None] + b;
      assert (a + b)[1..] == a[1..] + b;
      PresentSkipsNull(a[1..], b);
    }
  }

  // ---------------------------------------------------------------------------
  // Slugs
  // ---------------------------------------------------------------------------

  /** The leading characters of `s` outside [a-z0-9] dropped. */
  function SkipSeparators(s: string): (r: string)
    ensures |r| <= |s| && r == s[|s| - |r|..]
    ensures |r| > 0 ==> IsLowerAlnum(r[0])
    decreases |s|
  {
    if |s| > 0 && !IsLowerAlnum(s[0]) then SkipSeparators(s[1..]) else s
  }

  /** Never two '-' side by side. */
  predicate NoDoubleDash(s: string) {
    forall k :: 0 <= k < |s| - 1 ==> !(s[k] == '-' && s[k + 1] == '-')
  }

  /** `.replace(/[^a-z0-9]+/g, '-')`: every maximal run of characters outside
      [a-z0-9] becomes one '-'. */
  function Dashify(s: string): (r: string)
    ensures SlugChars(r) && NoDoubleDash(r)
    ensures |r| > 0 <==> |s| > 0
    ensures |r| > 0 ==> (r[0] == '-' <==> !IsLowerAlnum(s[0]))
    decreases |s|
  {
    if |s| == 0 then []
    else if IsLowerAlnum(s[0]) then
      var rest := Dashify(s[1..]);
      [s[0]] + rest
    else
      var rest := Dashify(SkipSeparators(s[1..]));
      assert |rest| > 0 ==> rest[0] != '-';
      "-" + rest
  }

  /** `.replace(/(^-|-$)/g, '')`: one '-' removed at each end. */
  function StripDashes(s: string): (r: string)
    ensures |r| <= |s|
  {
    var t := if |s| > 0 && s[0] == '-' then s[1..] else s;
    if |t| > 0 && t[|t| - 1] == '-' then t[..|t| - 1] else t
  }

  /** `slugify(text)`. */
  function Slugify(text: string): (r: string)
    ensures SlugChars(r)
    ensures NoDoubleDash(r)
    ensures |r| > 0 ==> r[0] != '-' && r[|r| - 1] != '-'
  {
    var d := Dashify(ToLower(text));
    StripDashesClean(d);
    StripDashes(d)
  }

  /** A slice of a clean string is clean. */
  lemma CleanSlice(s: string, i: nat, j: nat)
    requires SlugChars(s) && NoDoubleDash(s) && i <= j <= |s|
    ensures SlugChars(s[i..j]) && NoDoubleDash(s[i..j])
  {
    assert forall k :: 0 <= k < j - i ==> s[i..j][k] == s[i + k];
  }

  /** Stripping the end dashes of a clean string leaves a clean string that
      neither starts nor ends with '-'. */
  lemma StripDashesClean(d: string)
    requires SlugChars(d) && NoDoubleDash(d)
    ensures var r := StripDashes(d);
            SlugChars(r) && NoDoubleDash(r) && (|r| > 0 ==> r[0] != '-' && r[|r| - 1] != '-')
  {
    var i := if |d| > 0 && d[0] == '-' then 1 else 0;
    var t := d[i..];
    var j := if |t| > 0 && t[|t| - 1] == '-' then |d| - 1 else |d|;
    assert StripDashes(d) == d[i..j];
    CleanSlice(d, i, j);
    if i < j {
      if i == 1 { assert d[0] == '-' && d[1] != '-'; }
      if j == |d| - 1 { assert d[|d| - 1] == '-' && d[|d| - 2] != '-'; }
    }
  }

  /** The rest of a clean string is clean, and after a leading '-' comes a
      letter or digit. */
  lemma CleanTail(s: string)
    requires SlugChars(s) && NoDoubleDash(s) && |s| > 0
    ensures SlugChars(s[1..]) && NoDoubleDash(s[1..])
    ensures !IsLowerAlnum(s[0]) && |s| > 1 ==> IsLowerAlnum(s[1])
  {
    CleanSlice(s, 1, |s|);
  }

  /** A slug that is already clean is its own `Dashify`. */
  lemma {:induction false} DashifyClean(s: string)
    requires SlugChars(s) && NoDoubleDash(s)
    ensures Dashify(s) == s
    decreases |s|
  {
    if |s| > 0 {
      var tail := s[1..];
      CleanTail(s);
      if !IsLowerAlnum(s[0]) {
        assert SkipSeparators(tail) == tail;
      }
      DashifyClean(tail);
    }
  }

  /** Slugifying a slug changes nothing. */
  lemma SlugifyIdempotent(text: string)
    ensures Slugify(Slugify(text)) == Slugify(text)
  {
    var r := Slugify(text);
    ToLowerOfSlugChars(r);
    DashifyClean(r);
  }

  /** A slug of lower-case letters and digits joined by single dashes is
      returned unchanged. */
  lemma SlugifyOfSlug(s: string)
    requires SlugChars(s) && NoDoubleDash(s)
    requires |s| > 0 ==> s[0] != '-' && s[|s| - 1] != '-'
    ensures Slugify(s) == s
  {
    ToLowerOfSlugChars(s);
    DashifyClean(s);
  }

  // ---------------------------------------------------------------------------
  // Recommendation colours
  // ---------------------------------------------------------------------------

  const DefaultColor := "text-white/40"

  /** `getRecommendationColor(rec)`; `None` is `null`. */
  function RecommendationColor(rec: Option<string>): (r: string)
    ensures rec == Some("strong_hire") ==> r == "text-emerald-400"
    ensures rec == Some("hire") ==> r == "text-blue-400"
    ensures rec == Some("maybe") ==> r == "text-amber-400"
    ensures rec == Some("no_hire") ==> r == "text-red-400"
  {
    match rec
    case Some("strong_hire") => "text-emerald-400"
    case Some("hire") => "text-blue-400"
    case Some("maybe") => "text-amber-400"
    case Some("no_hire") => "text-red-400"
    case _ => DefaultColor
  }

  /** Only the four named tiers get a colour of their own, each a different
      one; `strong_no_hire`, null and anything else share the default. */
  lemma RecommendationColorDefault(rec: Option<string>)
    ensures RecommendationColor(rec) != DefaultColor <==>
            rec in {Some("strong_hire"), Some("hire"), Some("maybe"), Some("no_hire")}
    ensures RecommendationColor(Some("strong_no_hire")) == DefaultColor
    ensures RecommendationColor(None) == DefaultColor
  {
  }
}
